=== FILE: README.md ===
# teachers-hub backend core in Dafny

This project models the core of the teachers-hub backend. It covers:

- the Elysia route handlers for tests, classrooms, onboarding, invites and the Microsoft Teams import;
- the workspace database schema those handlers read and write;
- the CSRF and security-header middleware;
- the versioned-API redirect and CORS origin check of the server;
- three small pure helpers: the frontend's API base URL, its session user id, and the environment list parser.

**Database.** The database is a class, `WorkspaceSchema.Database`, with one `seq` field per table. Its value is `Tables`. `TablesValid` is the invariant the handlers keep:

- every unique index and primary key of the schema;
- every learner id is non-empty;
- every teacher profile points at the workspace its own user owns;
- the assignment/attempt state machine `assigned -> started -> submitted`.

**Handlers.** Every route handler that writes is a method that `modifies db`. Its postcondition ties its reply and the new table state to a pure specification function of the old state. For example, `TestsPublish.Publish` is tied to `PublishSpec`. The read-only routes are pure functions of the tables: `TestsAuthoring.ListBank`, `TestsAuthoring.ListQuestions`, `TestsAuthoring.ValidateRoute`, `TestsReports.TeacherTests`, `TestsReports.TestAttemptsReport`, `TestsReports.PublicTest`, `TestsAttempts.ListForLearner`, `Classrooms.ListClassrooms`, `Classrooms.WorkspaceStudents`, `Classrooms.ClassroomStudents`, `Invites.LookupSpec`, `Onboarding.GetTeacher` and `Onboarding.ListSchools`. The lemmas then prove properties of those functions: status codes, the rows written, idempotence, and the preservation of `TablesValid`.

**Replies.** A reply is `Ok(value)`, `Fail(status, error)` or `Invalid(errors)`. `Invalid` stands for a 400 response that carries a list of errors.

**Parameters.** The signed-in user is an `Option<Id>`. Generated UUIDs and the clock (`now`, in milliseconds) are parameters.

## Model

| member | source | states |
|---|---|---|
| ApiBase.TrimTrailingSlash | apps/frontend/src/lib/api-base.ts:1-3 | exactly one trailing `/` is removed when present; other values are unchanged |
| ApiBase.TrimTrailingSlashInverse | apps/frontend/src/lib/api-base.ts:1-3 | trimming undoes appending one slash |
| ApiBase.ResolveApiBase | apps/frontend/src/lib/api-base.ts:5-15 | a non-blank VITE_API_URL wins, trimmed, and with its one trailing slash removed exactly when it ends in `/`; otherwise the window's protocol and hostname on port 8000; otherwise the localhost default |
| Env.ParseList | apps/backend/src/lib/env.ts:1-7 | a missing or empty value gives no items; every item is non-empty and trimmed; there are at most as many items as comma-separated pieces |
| Env.ParseListOrder | apps/backend/src/lib/env.ts:1-7 | the items are exactly the comma-separated pieces, trimmed, with the empty ones dropped (`DropEmpty(TrimAll(pieces))`): in order, with their multiplicity, and every non-blank piece appears |
| Session.BuildUserIdFromEmail | apps/frontend/src/features/auth/session.ts:5-8 | the id is `teacher_` followed by the words of the normalised e-mail (its maximal `[a-z0-9]` runs) joined by `_`, with one `_` in front or behind exactly where the address starts or ends with other characters; so it holds only lower-case letters, digits and single underscores, and is exactly `teacher_` iff the e-mail is blank |
| Session.BuildUserIdNormalizes | apps/frontend/src/features/auth/session.ts:5-8 | trimming and lower-casing the e-mail first does not change the id |
| Session.BuildUserIdKeepsSlug | apps/frontend/src/features/auth/session.ts:5-8 | an e-mail made only of `[a-z0-9]` is kept as is after the prefix |
| SecurityHeaders.Secured | apps/backend/src/middleware/security-headers.ts:6-19 | every fixed security header is set; outside `/docs` the CSP is set, under `/docs` the CSP is left as it was; every other header is untouched |
| SecurityHeaders.SecuredIdempotent | apps/backend/src/middleware/security-headers.ts:6-19 | running the hook twice equals running it once |
| SecurityHeaders.OnAfterHandle | apps/backend/src/middleware/security-headers.ts:3-19 | the response headers become `Secured` of the old headers; the status is unchanged |
| Server.RedirectVersionedApi | apps/backend/src/index.ts:19-24 | status 308; the location is the request's origin, then `/api` plus the rest of the path after `/api/v1`, plus the query string |
| Server.RedirectInverse | apps/backend/src/index.ts:19-24 | the redirect stays on the request's origin; the original path and query can be recovered from the location, which is three characters shorter |
| Server.AllowOrigin | apps/backend/src/index.ts:46-50 | a missing or empty Origin is allowed; any other Origin is allowed iff it is a trusted origin |
| Server.ListedOriginAllowed | apps/backend/src/lib/env.ts:9 | every non-blank entry of FRONTEND_URL is an allowed origin |
| Csrf.CookiePartShape | apps/backend/src/middleware/csrf.ts:8-16 | a cookie piece is its name, then `=` and its value; the name holds no `=` |
| Csrf.JarLookup | apps/backend/src/middleware/csrf.ts:8-16 | a name is in the parsed jar iff some non-empty pair carries it; its value is that of the last such pair |
| Csrf.ParseCookies | apps/backend/src/middleware/csrf.ts:8-16 | the loop builds exactly `CookiesOf(header)`, and a missing header gives the empty jar |
| Csrf.TokensMatch | apps/backend/src/middleware/csrf.ts:18-21 | `Some(true)` iff the two tokens are equal; `None` (the `RangeError` of `timingSafeEqual`) iff their JavaScript lengths agree but their UTF-8 byte counts differ |
| Csrf.AsciiLengths | apps/backend/src/middleware/csrf.ts:18-21 | for ASCII text the JavaScript length and the UTF-8 byte count are both the number of characters |
| Csrf.AsciiTokensCompare | apps/backend/src/middleware/csrf.ts:18-21 | two ASCII tokens are compared without an error, and match iff equal |
| Csrf.IssuedCookieAttributes | apps/backend/src/middleware/csrf.ts:31-48 | the cookie is `csrf_token=<token>` with `Path=/`, `SameSite=Lax` and `HttpOnly`; it is `Secure` exactly when secure cookies are on |
| Csrf.IssueCsrfToken | apps/backend/src/middleware/csrf.ts:31-48 | returns the token; sets `Set-Cookie` to the joined parts and `Cache-Control: no-store`; the status is unchanged |
| Csrf.IssuedCookieReadsBack | apps/backend/src/middleware/csrf.ts:31-48 | the issued cookie parsed back gives the same token |
| Csrf.PairReadsBack | apps/backend/src/middleware/csrf.ts:8-16 | the pair `csrf_token=<token>`, with or without a leading space, parses to that name and token |
| Csrf.OnBeforeHandle | apps/backend/src/middleware/csrf.ts:49-78 | the request passes iff the method is safe, or the path is exempt, or a Bearer header is present, or a non-empty cookie token equals the non-empty header token; it throws (status 500) iff it is checked and comparing the tokens throws; any other rejection is 403 with the CSRF error; headers are unchanged |
| Csrf.CheckEcho | apps/backend/src/middleware/csrf.ts:68-74 | `Some(true)` iff both tokens are present, non-empty and equal; `None` iff comparing them throws |
| Csrf.JarLastWins | apps/backend/src/middleware/csrf.ts:8-16 | the last pair of a name decides its value |
| Csrf.AppendedCookieWins | apps/backend/src/middleware/csrf.ts:8-16 | a CSRF cookie appended after any earlier cookies is the one read |
| Csrf.DoubleSubmitDecides | apps/backend/src/middleware/csrf.ts:49-78 | with that cookie, echoing the token lets an unsafe request pass; any other header token leaves only the safe/exempt/Bearer paths; an ASCII header token never makes the comparison throw |
| Csrf.MismatchedEncodingThrows | apps/backend/src/middleware/csrf.ts:18-21 | a header token of 64 UTF-16 units whose UTF-8 encoding is not 64 bytes makes the comparison throw, so the request is not let through and gets no 403 either |
| Csrf.NoCookieRejected | apps/backend/src/middleware/csrf.ts:49-78 | an unsafe, non-exempt request without a Bearer header and without the CSRF cookie is rejected, and the comparison does not throw |
| Strings.Trim | apps/backend/src/routes/onboarding.ts:54 | the result is trimmed and no longer than the input; it is empty iff the input is all whitespace; trimmed input is unchanged |
| Strings.TrimSlice | apps/backend/src/routes/onboarding.ts:54 | the result is the slice `s[i..j]` of the input whose prefix `s[..i]` and suffix `s[j..]` are all whitespace |
| Strings.ToLower | apps/backend/src/routes/integrations-teams.ts:40-42 | same length; each character is its ASCII lower-case form (`A`-`Z` moved 32 code points, all else kept); no upper-case letter remains |
| Strings.SquashRuns | apps/backend/src/routes/onboarding.ts:8 | no two marks are adjacent and every class character left is the mark; empty iff the input is empty; other characters come from the input |
| Strings.SquashRunsHeads | apps/backend/src/routes/onboarding.ts:8 | squashing runs equals the character-by-character scan that keeps only the first character of each run, as the mark |
| Strings.RunHeadsWords | apps/backend/src/routes/onboarding.ts:8 | that scan spells out `WordsJoined`: the words (maximal runs outside the class) joined by the mark, with one mark in front or behind where the input starts or ends with a run |
| Strings.SquashRunsWords | apps/backend/src/routes/onboarding.ts:8 | `s.replace(/[class]+/g, mark)` is `WordsJoined(s)`: every word kept in order and each run of the class replaced by exactly one mark |
| Strings.CanonicalName | apps/backend/src/routes/onboarding.ts:7-9 | the result is trimmed, lower-case, with single spaces |
| Strings.WordsTrimLower | apps/backend/src/routes/onboarding.ts:7-9 | trimming before lower-casing changes none of the whitespace-separated words |
| Strings.CanonicalNameWords | apps/backend/src/routes/onboarding.ts:7-9 | the canonical name is the whitespace-separated words of the lower-cased input joined by single spaces |
| Strings.CanonicalFixpoint | apps/backend/src/routes/onboarding.ts:7-9 | a canonical name is left unchanged |
| Strings.Split | apps/backend/src/middleware/csrf.ts:10-13 | one piece more than separators; no piece holds the separator |
| Strings.SplitJoin | apps/backend/src/middleware/csrf.ts:10-13 | joining the pieces with the separator gives the input back |
| Strings.TrimNonBlank | apps/backend/src/routes/tests.ts:197-201 | every item is non-empty and trimmed; the result is empty iff every input item is blank |
| Strings.TrimNonBlankOrder | apps/backend/src/routes/tests.ts:197-201 | the kept items are exactly `DropEmpty(TrimAll(items))`, the `map(trim)` then `filter(Boolean)` of the input: the trimmed items in order and with their multiplicity, every non-blank item kept |
| Strings.TrimNonBlankFilter | apps/backend/src/routes/tests.ts:197-201 | the fused loop equals the `map` step followed by the `filter` step |
| Strings.TrimNonBlankSource | apps/backend/src/routes/tests.ts:197-201 | every kept item is the trim of some input item |
| Strings.TrimNonBlankIdempotent | apps/backend/src/routes/tests.ts:197-201 | normalising twice equals normalising once |
| Strings.TrimOrNull | apps/backend/src/routes/onboarding.ts:113-114 | `value?.trim() \|\| null`: null iff missing or blank, else the non-empty trimmed value |
| Strings.NormalizeEmail | apps/backend/src/routes/invites.ts:37-39 | the result is trimmed, lower-case and no longer than the input |
| Strings.NormalizeEmailSlice | apps/backend/src/routes/invites.ts:37-39 | the result is the lower-cased slice `value[i..j]` whose prefix and suffix in the input are all whitespace |
| Strings.NormalizeEmailIdempotent | apps/backend/src/routes/invites.ts:37-39 | normalising twice equals normalising once |
| Strings.IntToString | apps/backend/src/routes/tests.ts:334 | non-empty; for `n >= 0` the numeral of `n`; for `n < 0` a `-` followed by the numeral of `-n` |
| Strings.NatToStringDecimal | apps/backend/src/routes/tests.ts:334 | `String(n)` denotes `n` in decimal and has no leading zero |
| Strings.IntToStringDecimal | apps/backend/src/routes/tests.ts:334 | the digits after the optional `-` denote the absolute value, and the `-` is there iff `n < 0` |
| Guards.OwnsWorkspace | apps/backend/src/routes/tests.ts:161-177 | true iff a workspace row has this id and this owner |
| Guards.ClassroomInWorkspace | apps/backend/src/routes/tests.ts:179-195 | true iff a classroom row has this id in this workspace |
| Guards.LearnerAccessIff | apps/backend/src/routes/tests.ts:137-159 | with one link per (workspace, learner), access holds iff the learner's link to the workspace carries the claimed actor type |
| WorkspaceSchema.FirstWhere | apps/backend/src/routes/tests.ts:154 | `select … limit(1)`: the first matching row, or none iff no row matches |
| WorkspaceSchema.OwnerOf | apps/backend/src/db/workspace-schema.ts:30-45 | the owner exists iff the workspace exists, and it is that workspace's owner |
| WorkspaceSchema.EmptyTablesValid | apps/backend/src/db/workspace-schema.ts:11-299 | the empty database satisfies every unique index and the lifecycle invariant |
| TestsContent.NormalizeOptions | apps/backend/src/routes/tests.ts:197-201 | null iff missing or all blank; otherwise the trimmed non-blank options, non-empty |
| TestsContent.NormalizeOptionsOrder | apps/backend/src/routes/tests.ts:197-201 | when options remain, they are exactly `DropEmpty(TrimAll(options))`: the trimmed options in order and with their multiplicity, every non-blank option kept, each one trimmed and non-empty |
| TestsContent.NormalizeOptionsIdempotent | apps/backend/src/routes/tests.ts:197-201 | normalising twice equals normalising once |
| TestsContent.ReportMissingAnswers | apps/backend/src/routes/tests.ts:230-235 | the loop yields exactly the answers missing from the options, in order |
| TestsContent.CollectErrors | apps/backend/src/routes/tests.ts:213-242 | the method builds exactly the specified error list |
| TestsContent.ValidateQuestionContent | apps/backend/src/routes/tests.ts:207-243 | returns exactly `ContentErrors` of the question |
| TestsContent.MissingAnswersMeaning | apps/backend/src/routes/tests.ts:230-235 | no error iff every answer is an option; an answer is reported iff it is not an option |
| TestsContent.AnswersCoveredIff | apps/backend/src/routes/tests.ts:218-235 | the trimmed non-blank answers are all options iff each non-blank answer, trimmed, is an option |
| TestsContent.ErrorsForEmptyIff | apps/backend/src/routes/tests.ts:213-242 | no error iff the prompt is non-blank, some answer exists, and for option types at least 2 options cover every answer (exactly one answer for MCQ) |
| TestsContent.ContentValidIff | apps/backend/src/routes/tests.ts:207-243 | the same condition, stated over the raw prompt, options and answers |
| TestsContent.OptionErrorsOrdered | apps/backend/src/routes/tests.ts:222-240 | option errors come in check order, after the prompt and answer errors |
| TestsContent.ContentErrorsOrdered | apps/backend/src/routes/tests.ts:213-242 | all errors come in the order the checks run |
| TestsContent.AnswerReportedIff | apps/backend/src/routes/tests.ts:230-235 | an answer is reported iff the type has options and the answer is not among them |
| TestsContent.ShortTextIgnoresOptions | apps/backend/src/routes/tests.ts:221-240 | options never affect a short-text question, and it can only be missing a prompt or an answer |
| TestsValidation.QuestionsOf | apps/backend/src/routes/tests.ts:290-301 | exactly the test's questions in the workspace |
| TestsValidation.SortByPosition | apps/backend/src/routes/tests.ts:301 | a permutation of its input |
| TestsValidation.SortByPositionSorted | apps/backend/src/routes/tests.ts:301 | the result is ordered by position |
| TestsValidation.TotalPointsSorted | apps/backend/src/routes/tests.ts:301-320 | sorting does not change the total points |
| TestsValidation.SortedMembers | apps/backend/src/routes/tests.ts:301 | sorting keeps the length and the members |
| TestsValidation.CheckQuestions | apps/backend/src/routes/tests.ts:319-331 | the loop yields the per-question errors in order and the total points |
| TestsValidation.CheckFields | apps/backend/src/routes/tests.ts:307-317 | the field errors in check order |
| TestsValidation.ValidateTestForPublish | apps/backend/src/routes/tests.ts:256-348 | the report is exactly `ReadinessOf` over the current tables |
| TestsValidation.QuestionErrorsMeaning | apps/backend/src/routes/tests.ts:319-331 | no question errors iff every question is clean; each reported error names a question of the test with that error |
| TestsValidation.QuestionErrorsInPositionOrder | apps/backend/src/routes/tests.ts:319-331 | questions sorted by position give their errors in position order |
| TestsValidation.HeadErrorsMeaning | apps/backend/src/routes/tests.ts:307-317 | no field error iff grade, classroom, subject, topic and objective are set, there are questions, and the window is not inverted |
| TestsValidation.ReadyIff | apps/backend/src/routes/tests.ts:256-348 | valid iff the test exists, its fields are filled, it has questions, its window is in order and every question is clean; valid iff there are no errors |
| TestsValidation.MissingTestReport | apps/backend/src/routes/tests.ts:282-288 | a missing test gives only `Test not found` and a zero summary |
| TestsValidation.SummaryMeaning | apps/backend/src/routes/tests.ts:333-347 | the summary counts questions, target and points; the single warning appears iff there are fewer questions than the target |
| TestsValidation.QuestionErrorsReported | apps/backend/src/routes/tests.ts:319-331 | the report names a question error iff the test exists and that question has that content error |
| TestsValidation.QuestionErrorsOrdered | apps/backend/src/routes/tests.ts:301-331 | the question errors in the report appear in position order |
| TestsAuthoring.CreateTest | apps/backend/src/routes/tests.ts:351-437 | the reply and new tables are those of `CreateTestSpec` |
| TestsAuthoring.CreateTestOutcome | apps/backend/src/routes/tests.ts:351-437 | a refusal writes nothing; success iff signed in, owner, classroom in workspace and window not inverted; 401 when signed out, then 403 `NOT_OWNER`, then 400 `CLASSROOM_NOT_FOUND`, then 400 `ENDS_BEFORE_STARTS`, each under its condition |
| TestsAuthoring.CreateTestStoresDraft | apps/backend/src/routes/tests.ts:388-413 | the one new row is a draft, unpublished, with the trimmed title and the defaults (10 questions, 1 attempt, after-submission feedback, shuffling on unless `false`) |
| TestsAuthoring.CreateTestKeepsValid | apps/backend/src/routes/tests.ts:351-437 | creating a test keeps `TablesValid` |
| TestsAuthoring.CreateBankItem | apps/backend/src/routes/tests.ts:439-508 | the reply and new tables are those of `CreateBankItemSpec` |
| TestsAuthoring.CreateCheckedBankItem | apps/backend/src/routes/tests.ts:459-490 | once the caller owns the workspace, the reply and new tables are those of `CheckedBankItemSpec`: the content errors, else the stored row with trimmed fields and the schema defaults |
| TestsAuthoring.CreateBankItemOutcome | apps/backend/src/routes/tests.ts:439-508 | for an owner: success iff the content is valid; otherwise 400 with one message per content error; a success appends exactly the new item |
| TestsAuthoring.CreateBankItemKeepsValid | apps/backend/src/routes/tests.ts:439-508 | adding a bank item keeps `TablesValid` |
| TestsAuthoring.FilterBank | apps/backend/src/routes/tests.ts:551-560 | exactly the rows matching every given filter |
| TestsAuthoring.ListBankMeaning | apps/backend/src/routes/tests.ts:510-562 | at most 200 items, all of the workspace and all matching; when the workspace has at most 200, every matching item is listed |
| TestsAuthoring.MaxPosition | apps/backend/src/routes/tests.ts:245-254 | none iff the test has no question; otherwise the largest position among the test's questions |
| TestsAuthoring.NextQuestionPositionFree | apps/backend/src/routes/tests.ts:245-254 | the next position is above every position of the test (1 for an empty test), one past the largest, and free in the position index |
| TestsAuthoring.PrepareQuestion | apps/backend/src/routes/tests.ts:606-706 | a rejection is never `Ok`; a prepared row has the new id, the test, the workspace, the position and the points (default 1); the per-source replies are stated by `AddQuestionFromBank` and `AddQuestionByHand` |
| TestsAuthoring.CheckQuestionSource | apps/backend/src/routes/tests.ts:606-706 | the method computes `PrepareQuestion` over the current tables |
| TestsAuthoring.AddQuestion | apps/backend/src/routes/tests.ts:564-726 | the reply and new tables are those of `AddQuestionSpec` |
| TestsAuthoring.AddQuestionOutcome | apps/backend/src/routes/tests.ts:564-726 | 404 for a missing test and 409 for a published one; a success appends exactly the new question at the given or next position; an omitted position never yields a 500 |
| TestsAuthoring.AddQuestionKeepsValid | apps/backend/src/routes/tests.ts:564-726 | adding a question keeps `TablesValid` |
| TestsAuthoring.StoredContentErrors | apps/backend/src/routes/tests.ts:700-705 | trimming the prompt and answers before storing does not change the content errors |
| TestsAuthoring.AddQuestionFromBank | apps/backend/src/routes/tests.ts:607-673 | for the owner and a draft test: 400 without an item id; 404 iff no bank item of the workspace has the id; never `Invalid`; a stored question is a verbatim copy of such an item's type, prompt, options, answers, explanation, difficulty and skill; stored whenever the item exists and the position is free |
| TestsAuthoring.AddQuestionByHand | apps/backend/src/routes/tests.ts:675-726 | for the owner and a draft test: 400 when type, prompt or answers are missing; `Invalid` iff the content has errors, carrying their messages; a stored question holds the trimmed prompt, answers, explanation and skill, the normalised options and the default difficulty; stored whenever the body is complete and valid and the position is free |
| TestsAuthoring.ManualQuestionRevalidates | apps/backend/src/routes/tests.ts:672-706 | a stored manual question passes content validation again |
| TestsAuthoring.ListQuestionsMeaning | apps/backend/src/routes/tests.ts:728-776 | the listing holds exactly the test's questions in the workspace, ordered by position |
| TestsAuthoring.ValidateRouteMeaning | apps/backend/src/routes/tests.ts:778-808 | the report goes only to the signed-in owner; 401 when signed out; valid iff no errors |
| TestsPublish.StudentLinks | apps/backend/src/routes/tests.ts:872-878 | the inner join yields the learner once per student link in the workspace, and none without one |
| TestsPublish.Roster | apps/backend/src/routes/tests.ts:867-886 | a learner is on the roster iff they have an active membership of the classroom and a student link to the workspace |
| TestsPublish.StudentLinksAtMostOne | apps/backend/src/db/workspace-schema.ts:94-98 | with the link unique index, a learner has at most one student link |
| TestsPublish.RosterDistinct | apps/backend/src/routes/tests.ts:867-886 | with the membership and link unique indexes, the roster has no duplicates |
| TestsPublish.AssignOne | apps/backend/src/routes/tests.ts:914-934 | skip a learner who already has an assignment to the test; otherwise append one new `assigned` row |
| TestsPublish.FanOutExtends | apps/backend/src/routes/tests.ts:913-935 | the loop only appends rows, each `assigned` for this test, workspace, classroom and a roster learner |
| TestsPublish.FanOutCovers | apps/backend/src/routes/tests.ts:913-935 | afterwards every roster learner has an assignment, and earlier assignments remain |
| TestsPublish.FanOutKeepsKeys | apps/backend/src/db/workspace-schema.ts:210-213 | the (test, learner) unique index still holds |
| TestsPublish.FanOutKeepsIds | apps/backend/src/routes/tests.ts:927-934 | fresh ids keep the assignment ids unique |
| TestsPublish.FanOutKeepsLifecycle | apps/backend/src/routes/tests.ts:913-935 | the loop keeps the assignment/attempt state machine |
| TestsPublish.FanOutCoveredNoop | apps/backend/src/routes/tests.ts:913-935 | when everyone is already assigned, the loop writes nothing |
| TestsPublish.AssignRoster | apps/backend/src/routes/tests.ts:913-935 | the loop's table is `FanOut` of the old one; nothing else changes |
| TestsPublish.PublishedRow | apps/backend/src/routes/tests.ts:894-899 | the row becomes `published` with the flag set |
| TestsPublish.MarkPublished | apps/backend/src/routes/tests.ts:893-905 | only the row with this id in this workspace changes, to its published form |
| TestsPublish.Publish | apps/backend/src/routes/tests.ts:810-943 | the reply and new tables are those of `PublishSpec` |
| TestsPublish.PublishChecked | apps/backend/src/routes/tests.ts:843-943 | the reply and new tables are those of `PublishValidated` |
| TestsPublish.PublishValidatedRefusals | apps/backend/src/routes/tests.ts:843-943 | a refusal writes nothing; a test with a classroom is published or refused for having no active students; the reply carries the validation |
| TestsPublish.PublishRejections | apps/backend/src/routes/tests.ts:810-943 | a refusal writes nothing; 401 when signed out, 403 for non-owners, 400 when not ready; otherwise published or refused for having no active students |
| TestsPublish.ValidatedFindsClassroom | apps/backend/src/routes/tests.ts:856-865 | after a valid validation the test exists and has a classroom, so the 404 and missing-classroom branches cannot be reached |
| TestsPublish.PublishEffect | apps/backend/src/routes/tests.ts:843-943 | the test becomes published and nothing else in `tests` changes; assignments only grow, with `assigned` rows for roster learners, so every roster learner is assigned; the count is the roster size |
| TestsPublish.PublishKeepsValid | apps/backend/src/routes/tests.ts:810-943 | publishing with fresh ids keeps `TablesValid` |
| TestsPublish.RepublishAddsNothing | apps/backend/src/routes/tests.ts:913-935 | publishing again changes no table |
| TestsReports.ClassroomName | apps/backend/src/routes/tests.ts:964-979 | the left join gives a name iff the test's classroom exists |
| TestsReports.NewestTests | apps/backend/src/routes/tests.ts:964-979 | exactly the workspace's tests |
| TestsReports.TeacherTestsMeaning | apps/backend/src/routes/tests.ts:945-981 | only the owner gets the list; it holds exactly the workspace's tests, each with its classroom name |
| TestsReports.AttemptJoin | apps/backend/src/routes/tests.ts:1031-1060 | each row carries the assignment and learner; an attempt shown is the learner's attempt on the test; an attempt-less row appears iff there is no attempt |
| TestsReports.AssignmentRows | apps/backend/src/routes/tests.ts:1031-1060 | the rows of one assignment match it, and a learner with an account yields a row |
| TestsReports.ReportRows | apps/backend/src/routes/tests.ts:1031-1060 | every row is an assignment of the test in the workspace, with that learner's attempt, if any |
| TestsReports.TestAttemptsReportMeaning | apps/backend/src/routes/tests.ts:983-1066 | 401, 403, and 404 when the test is not in the workspace; otherwise rows as above |
| TestsReports.ReportCoversAssignments | apps/backend/src/routes/tests.ts:1031-1060 | every assignment of the test whose learner has an account appears in the report |
| TestsReports.PublicTestMeaning | apps/backend/src/routes/tests.ts:1067-1095 | shown iff a published test has this id; drafts and missing tests both give 404; the view holds that test's id, title, description, status, window and classroom name, and nothing else |
| TestsAttempts.WithinWindowIff | apps/backend/src/routes/tests.ts:130-135 | inside iff not before the start and not after the end, both bounds included; no bounds means always open |
| TestsAttempts.NormalizePersonName | apps/backend/src/routes/tests.ts:203-205 | the result is the whitespace-separated words of the lower-cased name joined by single spaces, hence trimmed, lower-case and single-spaced |
| TestsAttempts.NormalizePersonNameIdempotent | apps/backend/src/routes/tests.ts:203-205 | normalising twice equals normalising once |
| TestsAttempts.SetAssignmentStatus | apps/backend/src/routes/tests.ts:1199-1205 | only the matching assignments change, and only their status |
| TestsAttempts.SubmitAttemptRows | apps/backend/src/routes/tests.ts:1533-1547 | only the attempt with this id becomes submitted, with the time and score |
| TestsAttempts.FinishKeepsLifecycle | apps/backend/src/routes/tests.ts:1533-1555 | submitting the attempt and its assignment together keeps the state machine |
| TestsAttempts.BeginKeepsLifecycle | apps/backend/src/routes/tests.ts:1447-1469 | creating the first attempt and marking its assignment started keeps the state machine |
| TestsAttempts.BeginAttemptRows | apps/backend/src/routes/tests.ts:1423-1469 | the returned attempt and new tables are those of `BeginAttempt` |
| TestsAttempts.BeginAttemptEffect | apps/backend/src/routes/tests.ts:1423-1469 | an existing attempt is returned unchanged; otherwise a new `started` attempt is appended and only the assignment is marked started |
| TestsAttempts.BeginAttemptKeepsValid | apps/backend/src/routes/tests.ts:1423-1469 | beginning an attempt keeps `TablesValid` |
| TestsAttempts.Start | apps/backend/src/routes/tests.ts:1348-1471 | the reply and new tables are those of `StartSpec` |
| TestsAttempts.StartOutcome | apps/backend/src/routes/tests.ts:1348-1471 | a refusal writes nothing; 403 for parents and for no access; success iff student, access, assigned, published and within the window |
| TestsAttempts.StartTwiceWritesNothing | apps/backend/src/routes/tests.ts:1423-1445 | a second start returns the same attempt and leaves the tables as they were |
| TestsAttempts.StartKeepsValid | apps/backend/src/routes/tests.ts:1348-1471 | starting keeps `TablesValid` |
| TestsAttempts.Submit | apps/backend/src/routes/tests.ts:1473-1557 | the reply and new tables are those of `SubmitSpec` |
| TestsAttempts.SubmitOutcome | apps/backend/src/routes/tests.ts:1473-1557 | a refusal writes nothing; 403 `ONLY_STUDENTS_SUBMIT` for a non-student, 403 `NO_ACCESS` without a link to the workspace, 403 when not assigned and 404 without an attempt; on success the attempt is submitted with the score and time, and the assignment is marked submitted |
| TestsAttempts.SubmitKeepsValid | apps/backend/src/routes/tests.ts:1473-1557 | submitting keeps `TablesValid` |
| TestsAttempts.Candidates | apps/backend/src/routes/tests.ts:1130-1145 | every candidate is an assignment of the test in its workspace |
| TestsAttempts.MatchingName | apps/backend/src/routes/tests.ts:1146-1148 | exactly the candidates whose normalised child name equals the target |
| TestsAttempts.PublicStart | apps/backend/src/routes/tests.ts:1096-1213 | the reply and new tables are those of `PublicStartSpec` |
| TestsAttempts.StartMatchedOutcome | apps/backend/src/routes/tests.ts:1146-1213 | no match gives 404 and several give 409, both writing nothing; one match begins that learner's attempt |
| TestsAttempts.PublicStartOutcome | apps/backend/src/routes/tests.ts:1096-1213 | a missing or draft test gives 404 and a closed window gives 409, both writing nothing; otherwise the child is matched by normalised name |
| TestsAttempts.PublicStartKeepsValid | apps/backend/src/routes/tests.ts:1096-1213 | the public start keeps `TablesValid` |
| TestsAttempts.PublicSubmit | apps/backend/src/routes/tests.ts:1215-1278 | the reply and new tables are those of `PublicSubmitSpec` |
| TestsAttempts.PublicSubmitOutcome | apps/backend/src/routes/tests.ts:1215-1278 | success iff the attempt belongs to the test, otherwise 404 with no write; the attempt is submitted with the score and time, and its assignments are marked submitted |
| TestsAttempts.PublicSubmitKeepsValid | apps/backend/src/routes/tests.ts:1215-1278 | the public submit keeps `TablesValid` |
| TestsAttempts.LearnerTests | apps/backend/src/routes/tests.ts:1294-1320 | exactly the published tests of the workspace assigned to the learner, in the order of the tests table |
| TestsAttempts.AttemptsByTest | apps/backend/src/routes/tests.ts:1322-1338 | each entry is the learner's attempt on that test in the workspace, and every such test has an entry |
| TestsAttempts.ListForLearnerMeaning | apps/backend/src/routes/tests.ts:1280-1346 | each item is an assigned published test of the workspace; it can be started iff the caller is a student and the window is open; it carries an attempt iff one exists |
| Classrooms.Gate | apps/backend/src/routes/classrooms.ts:33-49 | passes iff signed in as the owner; otherwise 401 or 403 |
| Classrooms.ActiveCount | apps/backend/src/routes/classrooms.ts:82-101 | zero iff there is no active membership of the classroom |
| Classrooms.ActiveCountIsSize | apps/backend/src/routes/classrooms.ts:82-101 | the count is the number of active membership rows |
| Classrooms.OfWorkspace | apps/backend/src/routes/classrooms.ts:52-103 | exactly the workspace's classrooms |
| Classrooms.ListClassroomsMeaning | apps/backend/src/routes/classrooms.ts:52-103 | only the owner gets the list; it holds exactly the workspace's classrooms, each with its active-student count |
| Classrooms.CreateClassroom | apps/backend/src/routes/classrooms.ts:104-161 | the reply and new tables are those of `CreateClassroomSpec` |
| Classrooms.CreateTrimmedOutcome | apps/backend/src/routes/classrooms.ts:104-161 | a refusal writes nothing; a taken (name, grade) gives 409; success iff owner and free, appending the new classroom with count 0 |
| Classrooms.CreateClassroomTrims | apps/backend/src/routes/classrooms.ts:104-161 | the stored name and grade are trimmed |
| Classrooms.CreateTrimmedKeepsValid | apps/backend/src/routes/classrooms.ts:104-161 | creating a classroom keeps `TablesValid` |
| Classrooms.StudentsOf | apps/backend/src/routes/classrooms.ts:163-198 | every row is a learner with a student link to the workspace |
| Classrooms.WorkspaceStudentsMeaning | apps/backend/src/routes/classrooms.ts:163-198 | only the owner gets the list; only student links show, and every student link whose learner has an account shows |
| Classrooms.StudentsCover | apps/backend/src/routes/classrooms.ts:163-198 | every such link yields a row |
| Classrooms.MembersOf | apps/backend/src/routes/classrooms.ts:200-242 | every row is a membership of the classroom in the workspace, with its status |
| Classrooms.ClassroomStudents | apps/backend/src/routes/classrooms.ts:200-242 | only the owner gets the list; every row is a membership of the classroom |
| Classrooms.MembersCover | apps/backend/src/routes/classrooms.ts:225-239 | every membership of the classroom in the workspace whose learner has an account yields a row with its status |
| Classrooms.ClassroomStudentsMeaning | apps/backend/src/routes/classrooms.ts:200-242 | the owner's list shows every membership of the classroom whose learner has an account, with its status |
| Classrooms.AddStudent | apps/backend/src/routes/classrooms.ts:244-331 | the reply and new tables are those of `AddStudentSpec` |
| Classrooms.AddStudentOutcome | apps/backend/src/routes/classrooms.ts:244-331 | a refusal writes nothing; 401/403, then 404 for a foreign classroom, then 400 for a non-student; success enrols the learner |
| Classrooms.EnrolLeavesOneActiveRow | apps/backend/src/routes/classrooms.ts:302-329 | afterwards there is exactly one membership row, and it is active; a reactivation adds no row; other rows are kept |
| Classrooms.AddStudentKeepsValid | apps/backend/src/routes/classrooms.ts:244-331 | enrolling keeps `TablesValid` |
| Classrooms.AddStudentTwice | apps/backend/src/routes/classrooms.ts:302-329 | enrolling twice equals enrolling once |
| Invites.RemoveDashes | apps/backend/src/routes/invites.ts:70 | the token holds exactly the UUID's characters other than `-` |
| Invites.ClaimPath | apps/backend/src/routes/invites.ts:94 | the path is `/invite/` followed by the token |
| Invites.CreateInvite | apps/backend/src/routes/invites.ts:42-96 | the reply and new tables are those of `CreateInviteSpec` |
| Invites.CreateInviteOutcome | apps/backend/src/routes/invites.ts:42-96 | 401, 403, no write on refusal; success appends one unclaimed invite that expires after the given days (7 by default), with the trimmed or null student name and a dashless token |
| Invites.CreatedInviteIsValid | apps/backend/src/routes/invites.ts:98-130 | a new invite looks valid until it expires |
| Invites.CreateInviteKeepsValid | apps/backend/src/routes/invites.ts:42-96 | creating keeps `TablesValid` given a fresh id and token |
| Invites.LookupMeaning | apps/backend/src/routes/invites.ts:98-130 | 404 iff not found; expiry is reported before the claim; valid iff found, not expired (the expiry instant still counts) and unclaimed; a claimed unexpired invite gives `ALREADY_CLAIMED`; a found invite is shown by its workspace, student name, expiry and claim time only, never by its token, creator or claimant |
| Invites.LookupAgreesWithClaim | apps/backend/src/routes/invites.ts:98-193 | the lookup says valid iff a claim would succeed |
| Invites.MarkClaimed | apps/backend/src/routes/invites.ts:215-223 | only the invite with this id changes, to claimed by this learner and actor type |
| Invites.Claim | apps/backend/src/routes/invites.ts:132-233 | the reply and new tables are those of `ClaimSpec` |
| Invites.ClaimRows | apps/backend/src/routes/invites.ts:146-233 | the reply and new tables are those of `ClaimWith` |
| Invites.ClaimantNormalised | apps/backend/src/routes/invites.ts:172-193 | the claimant's e-mail is trimmed and its normalised form is lower-case and idempotent |
| Invites.ClaimRejections | apps/backend/src/routes/invites.ts:146-170 | a refusal writes nothing; 404, then 409 for claimed, then 410 for expired; success iff found, unclaimed and unexpired |
| Invites.ClaimOpenEffect | apps/backend/src/routes/invites.ts:172-223 | reuses the learner with that e-mail or creates one; links the learner unless already linked; the learner ends linked; the invite is marked claimed |
| Invites.ClaimIsOneShot | apps/backend/src/routes/invites.ts:163-166 | after a successful claim, the same token answers 409 |
| Invites.ClaimKeepsValid | apps/backend/src/routes/invites.ts:132-233 | claiming keeps `TablesValid` given fresh ids |
| TeamsImport.MemberEmail | apps/backend/src/routes/integrations-teams.ts:44-49 | `email` when present, else `userId`: the candidate normalised, kept only when it holds an `@`; a missing or empty candidate gives none |
| TeamsImport.PlanForMeaning | apps/backend/src/routes/integrations-teams.ts:181-206 | skip iff owner or no e-mail; otherwise import with that e-mail and the trimmed display name, or the e-mail when the name is blank |
| TeamsImport.PlansFor | apps/backend/src/routes/integrations-teams.ts:180-234 | one plan per member |
| TeamsImport.ImportMemberRows | apps/backend/src/routes/integrations-teams.ts:181-233 | the tables and counters are those of `ImportOne` |
| TeamsImport.ImportAll | apps/backend/src/routes/integrations-teams.ts:180-234 | the loop's tables and counters are those of `ImportPrefix` over all members |
| TeamsImport.ImportMembers | apps/backend/src/routes/integrations-teams.ts:149-252 | the reply and new tables are those of `ImportSpec` |
| TeamsImport.CountsAddUp | apps/backend/src/routes/integrations-teams.ts:180-234 | skipped + created + linked-existing = members processed; already-linked ≤ created + linked-existing; skipped = number of skip plans |
| TeamsImport.ImportOneEffect | apps/backend/src/routes/integrations-teams.ts:181-233 | a skip writes nothing; otherwise the learner is reused or created, the member ends enrolled, and a link is added iff there was none |
| TeamsImport.ImportPrefixGrows | apps/backend/src/routes/integrations-teams.ts:180-234 | the import only appends learners and links |
| TeamsImport.EveryImportedMemberEnrolled | apps/backend/src/routes/integrations-teams.ts:180-234 | every imported member's e-mail is linked to the workspace at the end |
| TeamsImport.ImportPrefixKeepsValid | apps/backend/src/routes/integrations-teams.ts:180-234 | the loop keeps `TablesValid` given fresh ids |
| TeamsImport.ImportOneKeepsValid | apps/backend/src/routes/integrations-teams.ts:181-233 | one member keeps `TablesValid` |
| TeamsImport.ImportOutcome | apps/backend/src/routes/integrations-teams.ts:149-252 | 401, 403, no write on refusal; success reports every member, the counts add up, and skipped = owners and members without an e-mail |
| TeamsImport.ImportKeepsValid | apps/backend/src/routes/integrations-teams.ts:149-252 | keeps `TablesValid`; every non-owner member with an e-mail ends linked to the workspace |
| Onboarding.NormalizeSchoolName | apps/backend/src/routes/onboarding.ts:7-9 | the result is the whitespace-separated words of the lower-cased name joined by single spaces, hence trimmed, lower-case and single-spaced |
| Onboarding.NormalizeSchoolNameIdempotent | apps/backend/src/routes/onboarding.ts:7-9 | normalising twice equals normalising once |
| Onboarding.BuildWorkspaceName | apps/backend/src/routes/onboarding.ts:11-14 | `<name>'s Workspace`, where the name is the trimmed display name, or `Teacher` when it is blank |
| Onboarding.Matching | apps/backend/src/routes/onboarding.ts:54-70 | exactly the views of the schools that pass the search |
| Onboarding.FirstMatches | apps/backend/src/routes/onboarding.ts:54-70 | at most 20, all passing, and all of them when there are at most 20 |
| Onboarding.ListSchools | apps/backend/src/routes/onboarding.ts:44-80 | at most 20 schools |
| Onboarding.ListSchoolsSound | apps/backend/src/routes/onboarding.ts:44-80 | every listed school contains the trimmed query, ignoring case |
| Onboarding.ListSchoolsComplete | apps/backend/src/routes/onboarding.ts:44-80 | with at most 20 matches, every matching school is listed |
| Onboarding.CreateSchool | apps/backend/src/routes/onboarding.ts:81-126 | the reply and new tables are those of `CreateSchoolSpec` |
| Onboarding.FindOrCreateSchoolOutcome | apps/backend/src/routes/onboarding.ts:90-124 | created iff no school has the normalised name; otherwise that school is returned with no write |
| Onboarding.FindOrCreateSchoolTwice | apps/backend/src/routes/onboarding.ts:90-124 | a second call with the same name creates nothing and returns the same school |
| Onboarding.FindOrCreateSchoolKeepsValid | apps/backend/src/routes/onboarding.ts:90-124 | keeps `TablesValid` given a fresh id |
| Onboarding.ChoiceOf | apps/backend/src/routes/onboarding.ts:137-173 | a non-empty school id wins; otherwise a non-empty school name; otherwise no school |
| Onboarding.ResolveSchoolRows | apps/backend/src/routes/onboarding.ts:137-173 | the school stage of `ResolveSchool`; only `schools` changes |
| Onboarding.EnsureWorkspaceRows | apps/backend/src/routes/onboarding.ts:175-195 | the workspace stage of `EnsureWorkspace`; only `workspaces` changes |
| Onboarding.UpsertProfileRows | apps/backend/src/routes/onboarding.ts:197-217 | only `profiles` changes, to `UpsertProfile` |
| Onboarding.SaveRequestRows | apps/backend/src/routes/onboarding.ts:137-232 | the reply and new tables are those of `SaveRequest` |
| Onboarding.SaveTeacher | apps/backend/src/routes/onboarding.ts:127-234 | the reply and new tables are those of `SaveTeacherSpec` |
| Onboarding.ResolvedSchoolExists | apps/backend/src/routes/onboarding.ts:137-173 | the school is missing iff a non-empty id names no school; a named school is found or created |
| Onboarding.SaveRequestOutcome | apps/backend/src/routes/onboarding.ts:127-234 | 400 with no write iff the given school id does not exist; otherwise the profile carries the user, the trimmed name, the grades, the school and `now`, and the user's workspace, created only when they own none |
| Onboarding.EnsureWorkspaceOutcome | apps/backend/src/routes/onboarding.ts:175-195 | the user's existing workspace is reused, or one is appended, and the user owns the returned workspace |
| Onboarding.SaveTeacherTrims | apps/backend/src/routes/onboarding.ts:175-211 | the stored display name is trimmed, and a new workspace is named by `BuildWorkspaceName` |
| Onboarding.SaveRequestKeepsValid | apps/backend/src/routes/onboarding.ts:127-234 | saving keeps `TablesValid` given fresh ids |
| Onboarding.GetTeacher | apps/backend/src/routes/onboarding.ts:235-273 | null iff the user has no profile (in that workspace when one is given); otherwise the user's profile, with a school name iff its school exists |
| Onboarding.SaveThenGet | apps/backend/src/routes/onboarding.ts:127-273 | after a save, reading the teacher returns the saved profile |

## Left out

- Request parsing is not modelled. The zod schemas' shape checks and their 400 replies are not part of this model. Handlers receive already-typed inputs.
- `createdAt`/`updatedAt` timestamps and ordering by them are not modelled. Table order stands in for `createdAt` order, so "newest first" and "oldest first" are table order or its reverse.
- Ordering of listings by display name, grade or school name is not modelled; those listings are in table order. Listing contents are proved.
- Case mapping is ASCII only: `toLowerCase` lower-cases `A`-`Z` and leaves other characters alone. `\s` and `trim()` use the JavaScript whitespace set.
- Onboarding.ListSchools: `%`, `_` and `\` in the search text are compared literally. `ilike` would treat `%` and `_` as wildcards and `\` as its escape character.
- `decodeURIComponent` in the cookie parser is the identity in this model. `encodeURIComponent` of the hexadecimal token is the identity in the source too.
- Calendar days are not modelled: an invite expires `days * 86400000` ms after `now`, with no time zone or DST.
- Concurrency, transactions and partial writes after a database error are not modelled. Each handler runs atomically on the tables. Database errors are not modelled, with one exception: adding a question at a position the test already uses breaks the (test, position) unique constraint, and the model answers `Fail(500, POSITION_TAKEN)`, with a fixed message standing in for the driver's. The Teams import's `catch`, which answers 400 with the error's message, is reached only through Graph or database errors and is left out with them.
- The Microsoft Graph call is not modelled. The `POST /api/integrations/teams/list` route, the Graph fetch and Graph error replies are left out. The import receives the member list as a parameter.
- Scores are kept as `Option<real>`, where the source stores `String(score)` in a text column. `maxScore` is kept as an integer.
- Strings.Trim: its own ensures give the shape of the result only; that the result is the input's middle slice between all-whitespace margins is stated by Strings.TrimSlice, kept out of the function so that the many proofs that meet `Trim` stay small.
- Strings.SquashRuns: its own ensures give the shape of the result only; that it is the input's words joined by the mark, with a mark for a leading or trailing run, is stated by Strings.SquashRunsWords.
- Strings.CanonicalName: its own ensures give the shape of the result only; that it is the lower-cased input's words joined by single spaces is stated by Strings.CanonicalNameWords.
- Strings.NormalizeEmail: its own ensures give the shape of the result only; that it is the lower-cased input between whitespace margins is stated by Strings.NormalizeEmailSlice.
- Classrooms.MembersOf: its ensures state that every row is a membership; that every membership with an account yields a row is stated by Classrooms.MembersCover.
- Classrooms.ClassroomStudents: its ensures state that every row is a membership; that the owner's list shows every membership with an account is stated by Classrooms.ClassroomStudentsMeaning.
- Csrf.TokensMatch compares the strings where the source compares their UTF-8 bytes; the two agree because UTF-8 encodes different strings to different bytes, but the encoding itself is not modelled, only its length. `timingSafeEqual`'s constant timing is not modelled.
- Csrf.OnBeforeHandle: a thrown comparison ends in Elysia's default error answer; the model records status 500 and leaves its body out.
- TestsAttempts.LearnerTests lists each matching test once, where the SQL join gives one row per matching assignment. The two agree because (test, learner) is unique in `test_assignments`.
- TestsPublish.PublishRejections: the 400 for a test that is not ready is `Fail(400, NOT_READY)` without the validation report that the source attaches to the body.
- TestsAuthoring.ListBank, TestsAuthoring.ListQuestions, TestsReports.TeacherTests, TestsReports.TestAttemptsReport, TestsAttempts.ListForLearner, Onboarding.GetTeacher: the replies carry whole table rows where the source selects some of their columns, and the teacher list does not carry the classroom's grade. The rows that the write routes return are likewise whole rows where the source's `returning` names a subset. The two routes open without a session, Invites.LookupSpec and TestsReports.PublicTest, carry exactly the columns the source selects.
- TestsAuthoring.PrepareQuestion: its own ensures state only the row's id, test, workspace, position and points; the source-specific refusals (400 without a bank item id, 404 for an item outside the workspace, 400 for missing manual fields, `Invalid` iff the manual content has errors) and the stored content (the verbatim bank copy, or the trimmed manual fields) are stated by TestsAuthoring.AddQuestionFromBank and TestsAuthoring.AddQuestionByHand.
- Classroom roster listings are in table order; the source's join order is not modelled.
- Invite tokens are the UUID string without dashes; the UUID's format and randomness are not modelled.
- The onboarding routes take no session, as in the source. The auth-guard expectations in `auth-guards.test.ts` for those routes are not implemented by the source and are not modelled.
- Logging (`logger.ts`) is not part of this model.
- Better Auth's own routes, session lookup and the Drizzle/PostgreSQL driver are not part of this model.

=== FILE: api_base.dfy ===
/** apps/frontend/src/lib/api-base.ts: where the browser client sends its API calls. The build-time
    `VITE_API_URL` and the page's `window.location` are parameters. */
module ApiBase {
  import opened Common
  import opened Strings

  /** The two parts of `window.location` the resolver reads; `protocol` includes its colon. */
  datatype Location = Location(protocol: string, hostname: string)

  const DEFAULT_API_BASE := "http://localhost:8000"

  predicate EndsWithSlash(s: string) {
    s != [] && s[|s| - 1] == '/'
  }

  /** `trimTrailingSlash(value)`: removes one trailing slash when there is one. */
  function TrimTrailingSlash(value: string): (r: string)
    ensures EndsWithSlash(value) ==> r + "/" == value
    ensures !EndsWithSlash(value) ==> r == value
  {
    if EndsWithSlash(value) then value[..|value| - 1] else value
  }

  /** Exactly one slash goes: appending a slash and trimming it gives the string back. */
  lemma TrimTrailingSlashInverse(value: string)
    ensures TrimTrailingSlash(value + "/") == value
  {
    assert (value + "/")[..|value|] == value;
  }

  /** `resolveApiBase()` with `import.meta.env.VITE_API_URL` as `env` and the page location (or
      `None` outside a browser) as `window`. */
  function ResolveApiBase(env: Option<string>, window: Option<Location>): (r: string)
    ensures env.Some? && EndsWithSlash(Trim(env.value)) ==> r + "/" == Trim(env.value)
    ensures env.Some? && Trim(env.value) != [] && !EndsWithSlash(Trim(env.value)) ==>
      r == Trim(env.value)
    ensures (env.None? || Trim(env.value) == []) && window.Some? ==>
      r == window.value.protocol + "//" + window.value.hostname + ":8000"
    ensures (env.None? || Trim(env.value) == []) && window.None? ==> r == DEFAULT_API_BASE
  {
    var fromEnv := if env.Some? then Trim(env.value) else [];
    if fromEnv != [] then TrimTrailingSlash(fromEnv)
    else if window.Some? then window.value.protocol + "//" + window.value.hostname + ":8000"
    else DEFAULT_API_BASE
  }
}

=== FILE: classrooms.dfy ===
/** The classroom routes of apps/backend/src/routes/classrooms.ts: the workspace's classrooms
    with their active-student counts, classroom creation with its duplicate check, the
    workspace's students, a classroom's students, and adding a student to a classroom (an
    upsert of the membership row). Every route answers 401 without a session and 403 unless
    the caller owns the workspace. */
module Classrooms {
  import opened Common
  import opened Strings
  import opened WorkspaceSchema
  import opened Guards

  const DUPLICATE_CLASSROOM := "Classroom with same name and grade already exists"
  const CLASSROOM_NOT_FOUND := "Classroom not found"
  const NOT_A_STUDENT := "Learner is not an active student in this workspace"
  const ACTIVE := "active"

  /** The guard every route shares: a session, then ownership of the workspace. */
  function Gate(t: Tables, actor: Option<Id>, workspaceId: Id): (r: Option<Reply<()>>)
    ensures r.None? <==> actor.Some? && OwnsWorkspace(t.workspaces, workspaceId, actor.value)
    ensures r.Some? ==> r.value == Fail(401, UNAUTHORIZED) || r.value == Fail(403, NOT_OWNER)
    ensures actor.None? ==> r == Some(Fail(401, UNAUTHORIZED))
  {
    if actor.None? then Some(Fail(401, UNAUTHORIZED))
    else if !OwnsWorkspace(t.workspaces, workspaceId, actor.value) then Some(Fail(403, NOT_OWNER))
    else None
  }

  /** A refusal carried over to a reply of another type. */
  function Refuse<T>(r: Reply<()>): Reply<T> {
    match r
    case Ok(_) => Fail(500, "")
    case Fail(status, error) => Fail(status, error)
    case Invalid(errors) => Invalid(errors)
  }

  // ---------------------------------------------------------------- GET /

  /** A classroom of the listing with its number of active students. */
  datatype ClassroomSummary = ClassroomSummary(classroom: Classroom, activeStudentCount: nat)

  predicate ActiveIn(classroomId: Id, workspaceId: Id, m: ClassroomStudent) {
    m.classroomId == classroomId && m.workspaceId == workspaceId && m.status == ACTIVE
  }

  /** The number of the classroom's active memberships in the workspace. */
  function ActiveCount(memberships: seq<ClassroomStudent>, classroomId: Id, workspaceId: Id): (n: nat)
    ensures n <= |memberships|
    ensures n == 0 <==> forall i :: 0 <= i < |memberships| ==> !ActiveIn(classroomId, workspaceId, memberships[i])
  {
    if memberships == [] then 0
    else
      var front := memberships[..|memberships| - 1];
      var rest := ActiveCount(front, classroomId, workspaceId);
      assert forall i :: 0 <= i < |front| ==> memberships[i] == front[i];
      rest + (if ActiveIn(classroomId, workspaceId, memberships[|memberships| - 1]) then 1 else 0)
  }

  /** The active memberships of a classroom in the workspace, as a set of row positions. */
  function ActivePositions(memberships: seq<ClassroomStudent>, classroomId: Id, workspaceId: Id): set<nat> {
    set i: nat | i < |memberships| && ActiveIn(classroomId, workspaceId, memberships[i])
  }

  /** The count is the number of active rows: each row is counted once. */
  lemma {:induction false} ActiveCountIsSize(memberships: seq<ClassroomStudent>, classroomId: Id, workspaceId: Id)
    ensures ActiveCount(memberships, classroomId, workspaceId) == |ActivePositions(memberships, classroomId, workspaceId)|
    decreases |memberships|
  {
    if memberships != [] {
      var n := |memberships| - 1;
      var front := memberships[..n];
      ActiveCountIsSize(front, classroomId, workspaceId);
      ActivePositionsSnoc(memberships, classroomId, workspaceId);
    }
  }

  /** The active positions of a list are those of all but its last row, plus the last one when
      it is active. */
  lemma ActivePositionsSnoc(memberships: seq<ClassroomStudent>, classroomId: Id, workspaceId: Id)
    requires memberships != []
    ensures var n := |memberships| - 1;
      var before := ActivePositions(memberships[..n], classroomId, workspaceId);
      n !in before
      && ActivePositions(memberships, classroomId, workspaceId)
         == before + (if ActiveIn(classroomId, workspaceId, memberships[n]) then {n} else {})
  {
    var n := |memberships| - 1;
    var front := memberships[..n];
    forall i: nat | i < n ensures memberships[i] == front[i] {
    }
  }

  /** `GET /api/classrooms` over the tables; table order stands for the grade-then-name order. */
  function ListClassrooms(t: Tables, actor: Option<Id>, workspaceId: Id): Reply<seq<ClassroomSummary>> {
    match Gate(t, actor, workspaceId)
    case Some(refusal) => Refuse(refusal)
    case None =>
      var rows := OfWorkspace(t.classrooms, workspaceId);
      Ok(seq(|rows|, i requires 0 <= i < |rows| =>
        ClassroomSummary(rows[i], ActiveCount(t.memberships, rows[i].id, workspaceId))))
  }

  /** The workspace's classrooms, in table order. */
  function OfWorkspace(classrooms: seq<Classroom>, workspaceId: Id): (r: seq<Classroom>)
    ensures forall c :: c in r <==> c in classrooms && c.workspaceId == workspaceId
  {
    if classrooms == [] then []
    else
      var rest := OfWorkspace(classrooms[1..], workspaceId);
      assert forall c :: c in classrooms <==> c == classrooms[0] || c in classrooms[1..];
      if classrooms[0].workspaceId == workspaceId then [classrooms[0]] + rest else rest
  }

  /** The owner sees exactly the workspace's classrooms, each with the number of its active
      memberships in the workspace. */
  lemma ListClassroomsMeaning(t: Tables, actor: Option<Id>, workspaceId: Id)
    ensures ListClassrooms(t, actor, workspaceId).Ok? <==>
      actor.Some? && OwnsWorkspace(t.workspaces, workspaceId, actor.value)
    ensures !ListClassrooms(t, actor, workspaceId).Ok? ==>
      ListClassrooms(t, actor, workspaceId) == Fail(401, UNAUTHORIZED) || ListClassrooms(t, actor, workspaceId) == Fail(403, NOT_OWNER)
    ensures ListClassrooms(t, actor, workspaceId).Ok? ==>
      var rows := ListClassrooms(t, actor, workspaceId).value;
      (forall c :: c in t.classrooms && c.workspaceId == workspaceId ==> exists i :: 0 <= i < |rows| && rows[i].classroom == c)
      && forall i :: 0 <= i < |rows| ==>
           rows[i].classroom in t.classrooms && rows[i].classroom.workspaceId == workspaceId
           && rows[i].activeStudentCount == |ActivePositions(t.memberships, rows[i].classroom.id, workspaceId)|
  {
    if ListClassrooms(t, actor, workspaceId).Ok? {
      var cs := OfWorkspace(t.classrooms, workspaceId);
      var rows := ListClassrooms(t, actor, workspaceId).value;
      forall c | c in t.classrooms && c.workspaceId == workspaceId ensures exists i :: 0 <= i < |rows| && rows[i].classroom == c {
        var i :| 0 <= i < |cs| && cs[i] == c;
        assert rows[i].classroom == c;
      }
      forall i | 0 <= i < |rows|
        ensures rows[i].classroom in t.classrooms && rows[i].classroom.workspaceId == workspaceId
        ensures rows[i].activeStudentCount == |ActivePositions(t.memberships, rows[i].classroom.id, workspaceId)|
      {
        assert rows[i].classroom == cs[i] && cs[i] in cs;
        ActiveCountIsSize(t.memberships, cs[i].id, workspaceId);
      }
    }
  }

  // ---------------------------------------------------------------- POST /create

  /** The new classroom and its (zero) active count. */
  function NewClassroom(id: Id, workspaceId: Id, name: string, grade: string, userId: Id): Classroom {
    Classroom(id, workspaceId, name, grade, userId)
  }

  /** The classroom of this workspace with this name and grade. */
  function NamedClassroom(workspaceId: Id, name: string, grade: string): Classroom -> bool {
    (c: Classroom) => c.workspaceId == workspaceId && c.name == name && c.grade == grade
  }

  /** The create route once the name and grade are trimmed. */
  function CreateTrimmed(t: Tables, actor: Option<Id>, workspaceId: Id, name: string, grade: string, newId: Id)
    : (Reply<ClassroomSummary>, Tables)
  {
    match Gate(t, actor, workspaceId)
    case Some(refusal) => (Refuse(refusal), t)
    case None =>
      if FirstWhere(t.classrooms, NamedClassroom(workspaceId, name, grade)).Some? then (Fail(409, DUPLICATE_CLASSROOM), t)
      else
        var row := NewClassroom(newId, workspaceId, name, grade, actor.value);
        (Ok(ClassroomSummary(row, 0)), t.(classrooms := t.classrooms + [row]))
  }

  /** `POST /api/classrooms/create` over the tables. */
  function CreateClassroomSpec(t: Tables, actor: Option<Id>, workspaceId: Id, name: string, grade: string, newId: Id)
    : (Reply<ClassroomSummary>, Tables)
  {
    CreateTrimmed(t, actor, workspaceId, Trim(name), Trim(grade), newId)
  }

  method CreateClassroom(db: Database, actor: Option<Id>, workspaceId: Id, name: string, grade: string, newId: Id)
    returns (r: Reply<ClassroomSummary>)
    modifies db
    ensures (r, db.Snapshot()) == CreateClassroomSpec(old(db.Snapshot()), actor, workspaceId, name, grade, newId)
  {
    var refusal := Gate(db.Snapshot(), actor, workspaceId);
    if refusal.Some? {
      return Refuse(refusal.value);
    }
    var trimmedName, trimmedGrade := Trim(name), Trim(grade);
    var existing := FirstWhere(db.classrooms, NamedClassroom(workspaceId, trimmedName, trimmedGrade));
    if existing.Some? {
      return Fail(409, DUPLICATE_CLASSROOM);
    }
    var row := NewClassroom(newId, workspaceId, trimmedName, trimmedGrade, actor.value);
    db.classrooms := db.classrooms + [row];
    r := Ok(ClassroomSummary(row, 0));
  }

  /** A classroom is created exactly when the owner asks for a (name, grade) not yet in the
      workspace; the duplicate answers 409 and nothing is written. The new classroom is
      appended with the given name and grade and an active count of 0. */
  lemma CreateTrimmedOutcome(t: Tables, actor: Option<Id>, workspaceId: Id, name: string, grade: string, newId: Id)
    ensures var (r, t') := CreateTrimmed(t, actor, workspaceId, name, grade, newId);
      var taken := exists i :: 0 <= i < |t.classrooms| && t.classrooms[i].workspaceId == workspaceId
                               && t.classrooms[i].name == name && t.classrooms[i].grade == grade;
      (!r.Ok? ==> t' == t)
      && (actor.Some? && OwnsWorkspace(t.workspaces, workspaceId, actor.value) && taken ==> r == Fail(409, DUPLICATE_CLASSROOM))
      && (r.Ok? <==> actor.Some? && OwnsWorkspace(t.workspaces, workspaceId, actor.value) && !taken)
      && (r.Ok? ==>
            r.value.activeStudentCount == 0
            && r.value.classroom == Classroom(newId, workspaceId, name, grade, actor.value)
            && t' == t.(classrooms := t.classrooms + [r.value.classroom]))
  {
    var p := NamedClassroom(workspaceId, name, grade);
    if FirstWhere(t.classrooms, p).None? {
      forall i | 0 <= i < |t.classrooms| ensures !(t.classrooms[i].workspaceId == workspaceId
                               && t.classrooms[i].name == name && t.classrooms[i].grade == grade) {
        assert !p(t.classrooms[i]);
      }
    }
  }

  /** The route stores the trimmed name and grade, and the duplicate check compares trimmed
      values. */
  lemma CreateClassroomTrims(t: Tables, actor: Option<Id>, workspaceId: Id, name: string, grade: string, newId: Id)
    ensures var (r, t') := CreateClassroomSpec(t, actor, workspaceId, name, grade, newId);
      r.Ok? ==> r.value.classroom.name == Trim(name) && r.value.classroom.grade == Trim(grade)
                && Trimmed(r.value.classroom.name) && Trimmed(r.value.classroom.grade)
  {
    CreateTrimmedOutcome(t, actor, workspaceId, Trim(name), Trim(grade), newId);
  }

  /** Creating a classroom with a fresh id keeps every table invariant: the duplicate check is
      what keeps (workspace, name, grade) unique. */
  lemma CreateTrimmedKeepsValid(t: Tables, actor: Option<Id>, workspaceId: Id, name: string, grade: string, newId: Id)
    requires TablesValid(t) && KeyFree(t.classrooms, ClassroomIdOf, newId)
    ensures TablesValid(CreateTrimmed(t, actor, workspaceId, name, grade, newId).1)
  {
    var (r, t') := CreateTrimmed(t, actor, workspaceId, name, grade, newId);
    if r.Ok? {
      var row := r.value.classroom;
      var p := NamedClassroom(workspaceId, name, grade);
      forall i | 0 <= i < |t.classrooms| ensures ClassroomKey(t.classrooms[i]) != ClassroomKey(row) {
        assert !p(t.classrooms[i]);
      }
      AppendKeepsUnique(t.classrooms, ClassroomIdOf, row);
      AppendKeepsUnique(t.classrooms, ClassroomKey, row);
    }
  }

  // ---------------------------------------------------------------- GET /workspace-students

  /** A row of a student listing. */
  datatype StudentRow = StudentRow(learnerId: Id, displayName: string, email: string)

  /** The learner accounts a link joins with. */
  function LearnerRows(learners: seq<LearnerAccount>, learnerId: Id): (r: seq<StudentRow>)
    ensures forall s :: s in r ==>
      s.learnerId == learnerId
      && exists i :: (0 <= i < |learners| && learners[i].id == learnerId
                      && learners[i].displayName == s.displayName && learners[i].email == s.email)
    ensures (exists i :: 0 <= i < |learners| && learners[i].id == learnerId) ==> r != []
  {
    if learners == [] then []
    else
      var rest := LearnerRows(learners[1..], learnerId);
      assert forall i :: 1 <= i < |learners| ==> learners[i] == learners[1..][i - 1];
      if learners[0].id == learnerId then [StudentRow(learners[0].id, learners[0].displayName, learners[0].email)] + rest
      else rest
  }

  /** The workspace's `student` links joined with their learner accounts, in link order. */
  function StudentsOf(links: seq<WorkspaceLearner>, learners: seq<LearnerAccount>, workspaceId: Id): (r: seq<StudentRow>)
    ensures forall s :: s in r ==>
      exists j :: (0 <= j < |links| && links[j].workspaceId == workspaceId
                   && links[j].learnerId == s.learnerId && links[j].actorType == Student)
  {
    if links == [] then []
    else
      var l := links[0];
      var rest := StudentsOf(links[1..], learners, workspaceId);
      assert forall j :: 1 <= j < |links| ==> links[j] == links[1..][j - 1];
      (if l.workspaceId == workspaceId && l.actorType == Student then LearnerRows(learners, l.learnerId) else []) + rest
  }

  /** `GET /api/classrooms/workspace-students` over the tables; table order stands for the
      display-name order. */
  function WorkspaceStudents(t: Tables, actor: Option<Id>, workspaceId: Id): Reply<seq<StudentRow>> {
    match Gate(t, actor, workspaceId)
    case Some(refusal) => Refuse(refusal)
    case None => Ok(StudentsOf(t.links, t.learners, workspaceId))
  }

  /** The listing shows the owner only learners linked to the workspace as students (a
      parent's link never shows), and every student link whose learner has an account shows. */
  lemma WorkspaceStudentsMeaning(t: Tables, actor: Option<Id>, workspaceId: Id, j: nat)
    ensures WorkspaceStudents(t, actor, workspaceId).Ok? <==>
      actor.Some? && OwnsWorkspace(t.workspaces, workspaceId, actor.value)
    ensures WorkspaceStudents(t, actor, workspaceId).Ok? ==>
      (forall s :: s in WorkspaceStudents(t, actor, workspaceId).value ==>
         exists k :: 0 <= k < |t.links| && t.links[k].workspaceId == workspaceId
           && t.links[k].learnerId == s.learnerId && t.links[k].actorType == Student)
      && (j < |t.links| && t.links[j].workspaceId == workspaceId && t.links[j].actorType == Student
          && (exists i :: 0 <= i < |t.learners| && t.learners[i].id == t.links[j].learnerId) ==>
            exists s :: s in WorkspaceStudents(t, actor, workspaceId).value && s.learnerId == t.links[j].learnerId)
  {
    if WorkspaceStudents(t, actor, workspaceId).Ok? && j < |t.links| && t.links[j].workspaceId == workspaceId
       && t.links[j].actorType == Student && (exists i :: 0 <= i < |t.learners| && t.learners[i].id == t.links[j].learnerId) {
      StudentsCover(t.links, t.learners, workspaceId, j);
    }
  }

  lemma {:induction false} StudentsCover(links: seq<WorkspaceLearner>, learners: seq<LearnerAccount>, workspaceId: Id, j: nat)
    requires j < |links| && links[j].workspaceId == workspaceId && links[j].actorType == Student
    requires exists i :: 0 <= i < |learners| && learners[i].id == links[j].learnerId
    ensures exists s :: s in StudentsOf(links, learners, workspaceId) && s.learnerId == links[j].learnerId
    decreases j
  {
    var r := StudentsOf(links, learners, workspaceId);
    if j == 0 {
      var own := LearnerRows(learners, links[0].learnerId);
      assert own[0] in r;
    } else {
      StudentsCover(links[1..], learners, workspaceId, j - 1);
      var s :| s in StudentsOf(links[1..], learners, workspaceId) && s.learnerId == links[1..][j - 1].learnerId;
      assert s in r;
    }
  }

  // ---------------------------------------------------------------- GET /:classroomId/students

  /** A row of a classroom's student listing, with the membership status. */
  datatype MemberRow = MemberRow(learnerId: Id, displayName: string, email: string, status: string)

  /** The classroom's membership rows in the workspace, any status, joined with their learners. */
  function MembersOf(memberships: seq<ClassroomStudent>, learners: seq<LearnerAccount>, classroomId: Id, workspaceId: Id)
    : (r: seq<MemberRow>)
    ensures forall s :: s in r ==>
      exists j :: (0 <= j < |memberships| && memberships[j].classroomId == classroomId
                   && memberships[j].workspaceId == workspaceId && memberships[j].learnerId == s.learnerId
                   && memberships[j].status == s.status)
  {
    if memberships == [] then []
    else
      var m := memberships[0];
      var rest := MembersOf(memberships[1..], learners, classroomId, workspaceId);
      assert forall j :: 1 <= j < |memberships| ==> memberships[j] == memberships[1..][j - 1];
      var own := LearnerRows(learners, m.learnerId);
      (if m.classroomId == classroomId && m.workspaceId == workspaceId
       then seq(|own|, i requires 0 <= i < |own| => MemberRow(own[i].learnerId, own[i].displayName, own[i].email, m.status))
       else [])
      + rest
  }

  /** `GET /api/classrooms/:classroomId/students` over the tables. */
  function ClassroomStudents(t: Tables, actor: Option<Id>, classroomId: Id, workspaceId: Id): (r: Reply<seq<MemberRow>>)
    ensures r.Ok? <==> actor.Some? && OwnsWorkspace(t.workspaces, workspaceId, actor.value)
    ensures r.Ok? ==> forall s :: s in r.value ==>
      exists j :: (0 <= j < |t.memberships|
                   && MembershipKey(t.memberships[j]) == (classroomId, s.learnerId) && t.memberships[j].status == s.status)
  {
    match Gate(t, actor, workspaceId)
    case Some(refusal) => Refuse(refusal)
    case None => Ok(MembersOf(t.memberships, t.learners, classroomId, workspaceId))
  }

  /** Every membership row of the classroom in the workspace whose learner has an account shows,
      with its status. */
  lemma {:induction false} MembersCover(memberships: seq<ClassroomStudent>, learners: seq<LearnerAccount>,
                                        classroomId: Id, workspaceId: Id, j: nat)
    requires j < |memberships| && memberships[j].classroomId == classroomId
    requires memberships[j].workspaceId == workspaceId
    requires exists i :: 0 <= i < |learners| && learners[i].id == memberships[j].learnerId
    ensures exists s :: (s in MembersOf(memberships, learners, classroomId, workspaceId)
                         && s.learnerId == memberships[j].learnerId && s.status == memberships[j].status)
    decreases j
  {
    var r := MembersOf(memberships, learners, classroomId, workspaceId);
    if j == 0 {
      var m := memberships[0];
      var own := LearnerRows(learners, m.learnerId);
      var row := MemberRow(own[0].learnerId, own[0].displayName, own[0].email, m.status);
      assert row in r;
    } else {
      MembersCover(memberships[1..], learners, classroomId, workspaceId, j - 1);
      var s :| s in MembersOf(memberships[1..], learners, classroomId, workspaceId)
        && s.learnerId == memberships[1..][j - 1].learnerId && s.status == memberships[1..][j - 1].status;
      assert s in r;
    }
  }

  /** The owner sees exactly the classroom's members: each row comes from a membership of the
      classroom, and each membership whose learner has an account shows with its status. */
  lemma ClassroomStudentsMeaning(t: Tables, actor: Option<Id>, classroomId: Id, workspaceId: Id, j: nat)
    requires ClassroomStudents(t, actor, classroomId, workspaceId).Ok?
    requires j < |t.memberships| && t.memberships[j].classroomId == classroomId
    requires t.memberships[j].workspaceId == workspaceId
    requires exists i :: 0 <= i < |t.learners| && t.learners[i].id == t.memberships[j].learnerId
    ensures exists s :: (s in ClassroomStudents(t, actor, classroomId, workspaceId).value
                         && s.learnerId == t.memberships[j].learnerId && s.status == t.memberships[j].status)
  {
    MembersCover(t.memberships, t.learners, classroomId, workspaceId, j);
  }

  // ---------------------------------------------------------------- POST /:classroomId/students

  /** The membership row of a learner in a classroom. */
  function MembershipOf(classroomId: Id, learnerId: Id): ClassroomStudent -> bool {
    (m: ClassroomStudent) => m.classroomId == classroomId && m.learnerId == learnerId
  }

  /** The learner's `student` link to the workspace. */
  function StudentLink(workspaceId: Id, learnerId: Id): WorkspaceLearner -> bool {
    (l: WorkspaceLearner) => l.workspaceId == workspaceId && l.learnerId == learnerId && l.actorType == Student
  }

  /** The upsert: re-activate the existing row, or insert an active one. */
  function Enrol(memberships: seq<ClassroomStudent>, classroomId: Id, workspaceId: Id, learnerId: Id, newId: Id)
    : (r: seq<ClassroomStudent>)
  {
    match FirstWhere(memberships, MembershipOf(classroomId, learnerId))
    case Some(k) => memberships[k := memberships[k].(status := ACTIVE)]
    case None => memberships + [ClassroomStudent(newId, classroomId, workspaceId, learnerId, ACTIVE)]
  }

  /** `POST /api/classrooms/:classroomId/students` over the tables. */
  function AddStudentSpec(t: Tables, actor: Option<Id>, classroomId: Id, workspaceId: Id, learnerId: Id, newId: Id)
    : (Reply<()>, Tables)
  {
    match Gate(t, actor, workspaceId)
    case Some(refusal) => (refusal, t)
    case None =>
      if !ClassroomInWorkspace(t.classrooms, classroomId, workspaceId) then (Fail(404, CLASSROOM_NOT_FOUND), t)
      else if FirstWhere(t.links, StudentLink(workspaceId, learnerId)).None? then (Fail(400, NOT_A_STUDENT), t)
      else (Ok(()), t.(memberships := Enrol(t.memberships, classroomId, workspaceId, learnerId, newId)))
  }

  method AddStudent(db: Database, actor: Option<Id>, classroomId: Id, workspaceId: Id, learnerId: Id, newId: Id)
    returns (r: Reply<()>)
    modifies db
    ensures (r, db.Snapshot()) == AddStudentSpec(old(db.Snapshot()), actor, classroomId, workspaceId, learnerId, newId)
  {
    var refusal := Gate(db.Snapshot(), actor, workspaceId);
    if refusal.Some? {
      return refusal.value;
    }
    if !ClassroomInWorkspace(db.classrooms, classroomId, workspaceId) {
      return Fail(404, CLASSROOM_NOT_FOUND);
    }
    var link := FirstWhere(db.links, StudentLink(workspaceId, learnerId));
    if link.None? {
      return Fail(400, NOT_A_STUDENT);
    }
    var existing := FirstWhere(db.memberships, MembershipOf(classroomId, learnerId));
    if existing.Some? {
      var k := existing.value;
      db.memberships := db.memberships[k := db.memberships[k].(status := ACTIVE)];
    } else {
      db.memberships := db.memberships + [ClassroomStudent(newId, classroomId, workspaceId, learnerId, ACTIVE)];
    }
    r := Ok(());
  }

  /** Adding refuses a classroom outside the workspace (404) and a learner without a `student`
      link to it (400), writing nothing; otherwise only the memberships change. */
  lemma AddStudentOutcome(t: Tables, actor: Option<Id>, classroomId: Id, workspaceId: Id, learnerId: Id, newId: Id)
    ensures var (r, t') := AddStudentSpec(t, actor, classroomId, workspaceId, learnerId, newId);
      var owner := actor.Some? && OwnsWorkspace(t.workspaces, workspaceId, actor.value);
      var isStudent := exists j :: 0 <= j < |t.links| && t.links[j].workspaceId == workspaceId
                                   && t.links[j].learnerId == learnerId && t.links[j].actorType == Student;
      (!r.Ok? ==> t' == t)
      && (!owner ==> r == Fail(401, UNAUTHORIZED) || r == Fail(403, NOT_OWNER))
      && (owner && !ClassroomInWorkspace(t.classrooms, classroomId, workspaceId) ==> r == Fail(404, CLASSROOM_NOT_FOUND))
      && (owner && ClassroomInWorkspace(t.classrooms, classroomId, workspaceId) && !isStudent ==> r == Fail(400, NOT_A_STUDENT))
      && (r.Ok? <==> owner && ClassroomInWorkspace(t.classrooms, classroomId, workspaceId) && isStudent)
      && (r.Ok? ==> t' == t.(memberships := Enrol(t.memberships, classroomId, workspaceId, learnerId, newId)))
  {
    var p := StudentLink(workspaceId, learnerId);
    if FirstWhere(t.links, p).None? {
      forall j | 0 <= j < |t.links| ensures !(t.links[j].workspaceId == workspaceId
                                   && t.links[j].learnerId == learnerId && t.links[j].actorType == Student) {
        assert !p(t.links[j]);
      }
    }
  }

  /** After the upsert the learner has exactly one membership row in the classroom, and it is
      active: an existing row is re-activated in place, and a new row is added only when none
      existed. */
  lemma EnrolLeavesOneActiveRow(memberships: seq<ClassroomStudent>, classroomId: Id, workspaceId: Id, learnerId: Id,
                                newId: Id)
    requires KeysUnique(memberships, MembershipKey)
    ensures var m' := Enrol(memberships, classroomId, workspaceId, learnerId, newId);
      var existed := exists i :: 0 <= i < |memberships| && MembershipKey(memberships[i]) == (classroomId, learnerId);
      KeysUnique(m', MembershipKey)
      && (existed ==> |m'| == |memberships|)
      && (!existed ==> |m'| == |memberships| + 1)
      && (exists k :: 0 <= k < |m'| && MembershipKey(m'[k]) == (classroomId, learnerId) && m'[k].status == ACTIVE
           && forall i :: 0 <= i < |m'| && MembershipKey(m'[i]) == (classroomId, learnerId) ==> i == k)
      && forall i :: 0 <= i < |m'| && MembershipKey(m'[i]) != (classroomId, learnerId) ==>
           i < |memberships| && m'[i] == memberships[i]
  {
    var p := MembershipOf(classroomId, learnerId);
    var m' := Enrol(memberships, classroomId, workspaceId, learnerId, newId);
    match FirstWhere(memberships, p)
    case Some(k) =>
      UpdateKeepsUnique(memberships, MembershipKey, k, memberships[k].(status := ACTIVE));
      assert MembershipKey(m'[k]) == (classroomId, learnerId);
    case None =>
      var row := ClassroomStudent(newId, classroomId, workspaceId, learnerId, ACTIVE);
      forall i | 0 <= i < |memberships| ensures MembershipKey(memberships[i]) != (classroomId, learnerId) {
        assert !p(memberships[i]);
      }
      AppendKeepsUnique(memberships, MembershipKey, row);
      assert m'[|memberships|] == row;
  }

  /** Adding a student with a fresh membership id keeps every table invariant. */
  lemma AddStudentKeepsValid(t: Tables, actor: Option<Id>, classroomId: Id, workspaceId: Id, learnerId: Id, newId: Id)
    requires TablesValid(t) && KeyFree(t.memberships, MembershipIdOf, newId)
    ensures TablesValid(AddStudentSpec(t, actor, classroomId, workspaceId, learnerId, newId).1)
  {
    var (r, t') := AddStudentSpec(t, actor, classroomId, workspaceId, learnerId, newId);
    if r.Ok? {
      EnrolLeavesOneActiveRow(t.memberships, classroomId, workspaceId, learnerId, newId);
      match FirstWhere(t.memberships, MembershipOf(classroomId, learnerId))
      case Some(k) =>
        UpdateKeepsUnique(t.memberships, MembershipIdOf, k, t.memberships[k].(status := ACTIVE));
      case None =>
        AppendKeepsUnique(t.memberships, MembershipIdOf, ClassroomStudent(newId, classroomId, workspaceId, learnerId, ACTIVE));
    }
  }

  /** Adding the same student twice leaves the same single active row as adding once. */
  lemma AddStudentTwice(t: Tables, actor: Option<Id>, classroomId: Id, workspaceId: Id, learnerId: Id, id1: Id, id2: Id)
    requires AddStudentSpec(t, actor, classroomId, workspaceId, learnerId, id1).0.Ok?
    ensures var t1 := AddStudentSpec(t, actor, classroomId, workspaceId, learnerId, id1).1;
      AddStudentSpec(t1, actor, classroomId, workspaceId, learnerId, id2) == (Ok(()), t1)
  {
    var t1 := AddStudentSpec(t, actor, classroomId, workspaceId, learnerId, id1).1;
    var p := MembershipOf(classroomId, learnerId);
    match FirstWhere(t.memberships, p)
    case Some(k) =>
      var m := t1.memberships;
      assert p(m[k]);
      var f := FirstWhere(m, p).value;
      assert m[f := m[f].(status := ACTIVE)] == m;
    case None =>
      var row := ClassroomStudent(id1, classroomId, workspaceId, learnerId, ACTIVE);
      FirstWhereAppendHit(t.memberships, p, row);
      assert t1.memberships[|t.memberships| := row] == t1.memberships;
  }
}

=== FILE: common.dfy ===
/** Shapes shared by every handler of the backend: optional values, the outcome of a route
    handler, and the mutable response context (`set`) that the web framework hands to hooks. */
module Common {

  datatype Option<T> = None | Some(value: T)

  /** A handler either succeeds with a payload, or sets an HTTP status and returns `{ error }`
      with one message, or sets 400 and returns `{ error }` with a list of messages. */
  datatype Reply<T> = Ok(value: T) | Fail(status: int, error: string) | Invalid(errors: seq<string>)

  /** Row identifiers, user ids, tokens: opaque text. */
  type Id = string

  const UNAUTHORIZED := "Unauthorized"
  const NOT_OWNER := "Workspace not found or not owned by teacher"

  /** The framework's per-request `set` object: the status code and the response headers. */
  class ResponseContext {
    var status: int
    var headers: map<string, string>

    constructor (headers: map<string, string>)
      ensures this.status == 200 && this.headers == headers
    {
      this.status := 200;
      this.headers := headers;
    }
  }
}

=== FILE: csrf.dfy ===
/** The double-submit CSRF protection of apps/backend/src/middleware/csrf.ts: `GET /api/csrf`
    issues a random token as an HttpOnly cookie and in the body, and every state-changing request
    must echo the cookie's token in the `x-csrf-token` header unless it is exempt. */
module Csrf {
  import opened Common
  import opened Strings

  const SAFE_METHODS: set<string> := {"GET", "HEAD", "OPTIONS"}
  const CSRF_COOKIE := "csrf_token"
  const CSRF_HEADER := "x-csrf-token"
  const CSRF_ERROR := "Forbidden: CSRF token missing or invalid"

  // ---------------------------------------------------------------- cookie parsing

  /** The name in one `;`-separated piece of a Cookie header: the trimmed piece up to its first `=`. */
  function CookieName(part: string): string {
    Split(Trim(part), '=')[0]
  }

  /** The value in such a piece: everything after the first `=`, further `=` kept. URI decoding
      is the identity on the values this model carries. */
  function CookieValue(part: string): string {
    Join(Split(Trim(part), '=')[1..], "=")
  }

  /** A piece is its name, then (when it has an `=`) the separator and its value. */
  lemma CookiePartShape(part: string)
    ensures '=' !in CookieName(part)
    ensures CookieName(part) + (if '=' in Trim(part) then "=" + CookieValue(part) else "") == Trim(part)
  {
    SplitFirst(Trim(part), '=');
  }

  /** The (name, value) pairs of the pieces of a Cookie header, in order. */
  function Pairs(parts: seq<string>): (pairs: seq<(string, string)>)
    ensures |pairs| == |parts|
    ensures forall i :: 0 <= i < |parts| ==> pairs[i] == (CookieName(parts[i]), CookieValue(parts[i]))
  {
    seq(|parts|, i requires 0 <= i < |parts| => (CookieName(parts[i]), CookieValue(parts[i])))
  }

  /** The object `parseCookies` has built after reading `pairs` left to right: a later pair with
      the same name overwrites an earlier one, and a pair with an empty name is skipped. */
  function Jar(pairs: seq<(string, string)>): map<string, string>
    decreases |pairs|
  {
    if pairs == [] then map[]
    else
      var jar := Jar(pairs[..|pairs| - 1]);
      var last := pairs[|pairs| - 1];
      if last.0 == [] then jar else jar[last.0 := last.1]
  }

  /** The cookies of an optional Cookie header; a missing or empty header has none. */
  function CookiesOf(header: Option<string>): map<string, string> {
    if header.None? || header.value == [] then map[] else Jar(Pairs(Split(header.value, ';')))
  }

  /** A name is in the jar exactly when some pair carries it, and its value is the value of the
      last such pair. */
  lemma {:induction false} JarLookup(pairs: seq<(string, string)>, name: string)
    ensures name in Jar(pairs) <==>
      name != [] && exists i :: 0 <= i < |pairs| && pairs[i].0 == name
    ensures name in Jar(pairs) ==>
      exists i :: 0 <= i < |pairs| && pairs[i] == (name, Jar(pairs)[name])
        && forall j :: i < j < |pairs| ==> pairs[j].0 != name
    decreases |pairs|
  {
    if pairs != [] {
      var front := pairs[..|pairs| - 1];
      var last := |pairs| - 1;
      var jar := Jar(pairs);
      JarLookup(front, name);
      if pairs[last].0 == name && name != [] {
        assert pairs[last] == (name, jar[name]);
      } else {
        assert name in jar <==> name in Jar(front);
        if name in jar {
          var i :| 0 <= i < |front| && front[i] == (name, Jar(front)[name])
            && forall j :: i < j < |front| ==> front[j].0 != name;
          assert pairs[i] == front[i];
          forall j | i < j < |pairs| ensures pairs[j].0 != name {
            if j < last {
              assert pairs[j] == front[j];
            }
          }
        } else if name != [] {
          forall i | 0 <= i < |pairs| ensures pairs[i].0 != name {
            if i < last {
              assert pairs[i] == front[i];
            }
          }
        }
      }
    }
  }

  /** Reading one more pair updates the jar by that pair alone. */
  lemma JarStep(pairs: seq<(string, string)>, i: nat)
    requires i < |pairs|
    ensures Jar(pairs[..i + 1]) ==
      if pairs[i].0 == [] then Jar(pairs[..i]) else Jar(pairs[..i])[pairs[i].0 := pairs[i].1]
  {
    assert pairs[..i + 1][..i] == pairs[..i];
  }

  /** `parseCookies(header)`: the reduce over the `;`-separated pieces. */
  method ParseCookies(header: Option<string>) returns (cookies: map<string, string>)
    ensures cookies == CookiesOf(header)
  {
    if header.None? || header.value == [] {
      return map[];
    }
    var parts := Split(header.value, ';');
    ghost var pairs := Pairs(parts);
    cookies := map[];
    var i := 0;
    while i < |parts|
      invariant 0 <= i <= |parts|
      invariant cookies == Jar(pairs[..i])
    {
      JarStep(pairs, i);
      var name := CookieName(parts[i]);
      if name != [] {
        cookies := cookies[name := CookieValue(parts[i])];
      }
      i := i + 1;
    }
    assert pairs[..|parts|] == pairs;
  }

  /** JavaScript's `s.length`: UTF-16 code units, two for a character beyond U+FFFF. */
  function Utf16Length(s: string): nat
    decreases |s|
  {
    if s == [] then 0 else (if s[0] as int < 0x1_0000 then 1 else 2) + Utf16Length(s[1..])
  }

  /** `Buffer.from(s).length`: the number of bytes of the UTF-8 encoding of `s`. */
  function Utf8Length(s: string): nat
    decreases |s|
  {
    if s == [] then 0
    else
      var c := s[0] as int;
      (if c < 0x80 then 1 else if c < 0x800 then 2 else if c < 0x1_0000 then 3 else 4)
      + Utf8Length(s[1..])
  }

  predicate IsAscii(s: string) {
    forall i :: 0 <= i < |s| ==> s[i] as int < 0x80
  }

  /** For ASCII text both lengths count the characters. */
  lemma {:induction false} AsciiLengths(s: string)
    requires IsAscii(s)
    ensures Utf16Length(s) == |s| && Utf8Length(s) == |s|
    decreases |s|
  {
    if s != [] {
      assert IsAscii(s[1..]) by {
        forall i | 0 <= i < |s| - 1 ensures s[1..][i] as int < 0x80 {
          assert s[1..][i] == s[i + 1];
        }
      }
      AsciiLengths(s[1..]);
    }
  }

  /** `tokensMatch(a, b)`: `Some(same)` is its answer; `None` is the `RangeError` that
      `timingSafeEqual` throws when two strings of the same JavaScript length encode to
      different numbers of UTF-8 bytes. Equal byte counts are compared byte for byte, and
      UTF-8 encodes different strings to different bytes, so that comparison is `a == b`. */
  function TokensMatch(a: string, b: string): (r: Option<bool>)
    ensures r.None? <==> Utf16Length(a) == Utf16Length(b) && Utf8Length(a) != Utf8Length(b)
    ensures r == Some(true) <==> a == b
  {
    if Utf16Length(a) != Utf16Length(b) then Some(false)
    else if Utf8Length(a) != Utf8Length(b) then None
    else Some(a == b)
  }

  /** Two ASCII tokens are compared without an error. */
  lemma AsciiTokensCompare(a: string, b: string)
    requires IsAscii(a) && IsAscii(b)
    ensures TokensMatch(a, b) == Some(a == b)
  {
    AsciiLengths(a);
    AsciiLengths(b);
  }

  // ---------------------------------------------------------------- issuing a token

  predicate IsHexDigit(c: char) {
    '0' <= c <= '9' || 'a' <= c <= 'f'
  }

  /** `randomBytes(32).toString("hex")`: 64 lower-case hexadecimal digits. */
  predicate IsHexToken(token: string) {
    |token| == 64 && forall i :: 0 <= i < |token| ==> IsHexDigit(token[i])
  }

  /** `shouldUseSecureCookies()` over BETTER_AUTH_URL and NODE_ENV. */
  predicate ShouldUseSecureCookies(betterAuthUrl: Option<string>, nodeEnv: Option<string>) {
    betterAuthUrl.Some? && "https://" <= betterAuthUrl.value && nodeEnv == Some("production")
  }

  /** The `cookieParts` list of the token endpoint; `encodeURIComponent` leaves a hexadecimal
      token as is. */
  function CookieParts(token: string, secure: bool): seq<string> {
    [CSRF_COOKIE + "=" + token, "Path=/", "SameSite=Lax", "HttpOnly"] + (if secure then ["Secure"] else [])
  }

  /** The Set-Cookie value: the parts joined with `; `. */
  function SetCookieValue(token: string, secure: bool): string {
    Join(CookieParts(token, secure), "; ")
  }

  /** The cookie always carries `Path=/`, `SameSite=Lax` and `HttpOnly` after the name-value pair,
      and `Secure` exactly when secure cookies are on. */
  lemma IssuedCookieAttributes(token: string, secure: bool)
    requires IsHexToken(token)
    ensures var parts := CookieParts(token, secure);
      parts[0] == CSRF_COOKIE + "=" + token
      && "Path=/" in parts[1..] && "SameSite=Lax" in parts[1..] && "HttpOnly" in parts[1..]
      && ("Secure" in parts <==> secure)
  {
    var parts := CookieParts(token, secure);
    assert parts[1..][0] == "Path=/" && parts[1..][1] == "SameSite=Lax" && parts[1..][2] == "HttpOnly";
    if !secure {
      forall i | 0 <= i < |parts| ensures parts[i] != "Secure" {
        if i == 0 {
          assert |parts[0]| > |"Secure"|;
        } else {
          assert parts[i][0] != "Secure"[0] || |parts[i]| != |"Secure"|;
        }
      }
    } else {
      assert parts[4] == "Secure";
    }
  }

  /** The handler of `GET /api/csrf`, with the random token as a parameter. */
  method IssueCsrfToken(response: ResponseContext, token: string, betterAuthUrl: Option<string>,
                        nodeEnv: Option<string>) returns (csrfToken: string)
    requires IsHexToken(token)
    modifies response
    ensures csrfToken == token
    ensures response.headers == old(response.headers)
      ["Set-Cookie" := Join(CookieParts(token, ShouldUseSecureCookies(betterAuthUrl, nodeEnv)), "; ")]
      ["Cache-Control" := "no-store"]
    ensures response.status == old(response.status)
  {
    var cookieParts := [CSRF_COOKIE + "=" + token, "Path=/", "SameSite=Lax", "HttpOnly"];
    if ShouldUseSecureCookies(betterAuthUrl, nodeEnv) {
      cookieParts := cookieParts + ["Secure"];
    } else {
      assert cookieParts + [] == cookieParts;
    }
    response.headers := response.headers["Set-Cookie" := Join(cookieParts, "; ")];
    response.headers := response.headers["Cache-Control" := "no-store"];
    csrfToken := token;
  }

  /** The issued cookie's first `;` piece is exactly `csrf_token=<token>`, which reads back as
      the token. */
  lemma IssuedCookieReadsBack(token: string, secure: bool)
    requires IsHexToken(token)
    ensures var pieces := Split(SetCookieValue(token, secure), ';');
      pieces[0] == CSRF_COOKIE + "=" + token
      && Jar(Pairs([pieces[0]])) == map[CSRF_COOKIE := token]
  {
    var pair := CSRF_COOKIE + "=" + token;
    var attrs := ["Path=/", "SameSite=Lax", "HttpOnly"] + (if secure then ["Secure"] else []);
    var tail := Join(attrs, "; ");
    var value := SetCookieValue(token, secure);
    assert CookieParts(token, secure) == [pair] + attrs;
    assert ([pair] + attrs)[1..] == attrs;
    assert value == pair + "; " + tail;
    assert value == pair + [';'] + (" " + tail);
    PairHasNoSemicolon(token);
    SplitAppend(pair, " " + tail, ';');
    SplitNoSep(pair, ';');
    PairReadsBack(token);
  }

  /** Neither the piece `csrf_token=<token>` nor the same piece after a space holds a `;`. */
  lemma PairHasNoSemicolon(token: string)
    requires IsHexToken(token)
    ensures ';' !in CSRF_COOKIE + "=" + token && ';' !in " " + CSRF_COOKIE + "=" + token
  {
    var pair := CSRF_COOKIE + "=" + token;
    forall i | 0 <= i < |pair| ensures pair[i] != ';' {
      if i >= |CSRF_COOKIE| + 1 {
        assert pair[i] == token[i - |CSRF_COOKIE| - 1];
      }
    }
    assert " " + pair == " " + CSRF_COOKIE + "=" + token;
    forall i | 0 <= i < |" " + pair| ensures (" " + pair)[i] != ';' {
      if i > 0 {
        assert (" " + pair)[i] == pair[i - 1];
      }
    }
  }

  /** The piece `csrf_token=<token>` has no white space at either end. */
  lemma PairTrimmed(token: string)
    requires IsHexToken(token)
    ensures var pair := CSRF_COOKIE + "=" + token;
      Trim(pair) == pair && Trim(" " + pair) == pair
  {
    var pair := CSRF_COOKIE + "=" + token;
    assert !IsSpace(pair[0]);
    assert !IsSpace(pair[|pair| - 1]) by {
      assert pair[|pair| - 1] == token[63];
    }
    TrimLeadingSpace(pair);
  }

  /** The piece `csrf_token=<token>` splits at its one `=`. */
  lemma PairSplits(token: string)
    requires IsHexToken(token)
    ensures Split(CSRF_COOKIE + "=" + token, '=') == [CSRF_COOKIE, token]
  {
    HexTokenNoEquals(token);
    CookieNameNoEquals();
    assert CSRF_COOKIE + "=" + token == CSRF_COOKIE + ['='] + token;
    SplitAppend(CSRF_COOKIE, token, '=');
    SplitNoSep(CSRF_COOKIE, '=');
    SplitNoSep(token, '=');
  }

  lemma HexTokenNoEquals(token: string)
    requires IsHexToken(token)
    ensures '=' !in token
  {
    forall i | 0 <= i < |token| ensures token[i] != '=' {
      assert IsHexDigit(token[i]);
    }
  }

  lemma CookieNameNoEquals()
    ensures '=' !in CSRF_COOKIE
  {
    forall i | 0 <= i < |CSRF_COOKIE| ensures CSRF_COOKIE[i] != '=' {
    }
  }

  /** The piece `csrf_token=<token>` names the CSRF cookie and carries the token. */
  lemma PairReadsBack(token: string)
    requires IsHexToken(token)
    ensures var pair := CSRF_COOKIE + "=" + token;
      CookieName(pair) == CSRF_COOKIE && CookieValue(pair) == token
      && CookieName(" " + pair) == CSRF_COOKIE && CookieValue(" " + pair) == token
      && Jar(Pairs([pair])) == map[CSRF_COOKIE := token]
  {
    var pair := CSRF_COOKIE + "=" + token;
    PairParts(token);
    var pairs := Pairs([pair]);
    assert pairs[0] == (CSRF_COOKIE, token);
    assert pairs == [(CSRF_COOKIE, token)];
    JarOfOne(CSRF_COOKIE, token);
  }

  lemma PairParts(token: string)
    requires IsHexToken(token)
    ensures var pair := CSRF_COOKIE + "=" + token;
      CookieName(pair) == CSRF_COOKIE && CookieValue(pair) == token
      && CookieName(" " + pair) == CSRF_COOKIE && CookieValue(" " + pair) == token
  {
    PairTrimmed(token);
    PairSplits(token);
    assert [CSRF_COOKIE, token][1..] == [token];
  }

  /** A single pair with a non-empty name makes a jar of one cookie. */
  lemma JarOfOne(name: string, value: string)
    requires name != []
    ensures Jar([(name, value)]) == map[name := value]
  {
    assert [(name, value)][..0] == [];
  }

  // ---------------------------------------------------------------- checking a request

  /** What `onBeforeHandle` reads from a request. `authorization`, `cookie` and `csrfHeader` are
      the header values (`None` when absent). */
  datatype CsrfRequest = CsrfRequest(
    httpMethod: string,
    path: string,
    authorization: Option<string>,
    cookie: Option<string>,
    csrfHeader: Option<string>)

  /** The better-auth endpoints and the token endpoint itself, under both API prefixes. */
  predicate IsExemptPath(path: string) {
    "/api/auth" <= path || "/api/v1/auth" <= path || path == "/api/csrf" || path == "/api/v1/csrf"
  }

  predicate HasBearer(authorization: Option<string>) {
    authorization.Some? && "Bearer " <= authorization.value
  }

  /** The non-empty CSRF cookie and the non-empty header token, when the request has both. */
  function Tokens(req: CsrfRequest): Option<(string, string)> {
    var cookies := CookiesOf(req.cookie);
    if CSRF_COOKIE in cookies && cookies[CSRF_COOKIE] != []
       && req.csrfHeader.Some? && req.csrfHeader.value != []
    then Some((cookies[CSRF_COOKIE], req.csrfHeader.value))
    else None
  }

  /** The request carries a non-empty CSRF cookie and the same non-empty token in the header. */
  predicate EchoesCookieToken(req: CsrfRequest) {
    var tokens := Tokens(req);
    tokens.Some? && TokensMatch(tokens.value.0, tokens.value.1) == Some(true)
  }

  /** Comparing the two tokens throws. */
  predicate ComparisonThrows(req: CsrfRequest) {
    var tokens := Tokens(req);
    tokens.Some? && TokensMatch(tokens.value.0, tokens.value.1).None?
  }

  /** The request is one the hook checks: not safe, not exempt, no bearer token. */
  predicate Guarded(req: CsrfRequest) {
    req.httpMethod !in SAFE_METHODS && !IsExemptPath(req.path) && !HasBearer(req.authorization)
  }

  /** The hook lets the request through. */
  predicate CsrfAllows(req: CsrfRequest) {
    !Guarded(req) || EchoesCookieToken(req)
  }

  /** What the hook does with a request: let it on, answer 403 with a body, or throw, which
      Elysia answers with status 500. */
  datatype HookOutcome = Continue | Forbidden(error: string) | Thrown

  /** `onBeforeHandle` */
  method OnBeforeHandle(response: ResponseContext, req: CsrfRequest) returns (outcome: HookOutcome)
    modifies response
    ensures outcome.Continue? <==> CsrfAllows(req)
    ensures outcome.Thrown? <==> Guarded(req) && ComparisonThrows(req)
    ensures outcome.Forbidden? ==> outcome.error == CSRF_ERROR && response.status == 403
    ensures outcome.Thrown? ==> response.status == 500
    ensures outcome.Continue? ==> response.status == old(response.status)
    ensures response.headers == old(response.headers)
  {
    if req.httpMethod in SAFE_METHODS {
      return Continue;
    }
    if IsExemptPath(req.path) {
      return Continue;
    }
    if HasBearer(req.authorization) {
      return Continue;
    }
    var echoed := CheckEcho(req);
    assert response.headers == old(response.headers) && response.status == old(response.status);
    if echoed.None? {
      response.status := 500;
      return Thrown;
    }
    if !echoed.value {
      response.status := 403;
      return Forbidden(CSRF_ERROR);
    }
    return Continue;
  }

  /** The double-submit comparison: `Some(true)` when the cookie token and the header token are
      both non-empty and equal, `None` when comparing them throws. */
  method CheckEcho(req: CsrfRequest) returns (echoed: Option<bool>)
    ensures echoed == Some(true) <==> EchoesCookieToken(req)
    ensures echoed.None? <==> ComparisonThrows(req)
  {
    var cookies := ParseCookies(req.cookie);
    var csrfCookie := if CSRF_COOKIE in cookies then cookies[CSRF_COOKIE] else "";
    var csrfHeader := if req.csrfHeader.Some? then req.csrfHeader.value else "";
    if csrfCookie == [] || csrfHeader == [] {
      return Some(false);
    }
    echoed := TokensMatch(csrfCookie, csrfHeader);
  }

  /** The last `;` piece of a header that ends in `; csrf_token=<token>`. */
  lemma AppendedPieceIsLast(earlier: string, token: string)
    requires IsHexToken(token)
    ensures var parts := Split(earlier + "; " + CSRF_COOKIE + "=" + token, ';');
      parts[|parts| - 1] == " " + (CSRF_COOKIE + "=" + token)
  {
    var piece := " " + (CSRF_COOKIE + "=" + token);
    assert earlier + "; " + CSRF_COOKIE + "=" + token == earlier + [';'] + piece;
    PairHasNoSemicolon(token);
    assert " " + CSRF_COOKIE + "=" + token == piece;
    SplitAppend(earlier, piece, ';');
    SplitNoSep(piece, ';');
  }

  /** The last pair with a non-empty name always shows in the jar. */
  lemma JarLastWins(pairs: seq<(string, string)>)
    requires pairs != [] && pairs[|pairs| - 1].0 != []
    ensures var last := pairs[|pairs| - 1]; last.0 in Jar(pairs) && Jar(pairs)[last.0] == last.1
  {
  }

  /** After the browser appended the issued cookie to whatever cookies it already sends, the
      CSRF cookie reads as the issued token, whatever stale value came before. */
  lemma AppendedCookieWins(earlier: string, token: string)
    requires IsHexToken(token)
    ensures var cookies := CookiesOf(Some(earlier + "; " + CSRF_COOKIE + "=" + token));
      CSRF_COOKIE in cookies && cookies[CSRF_COOKIE] == token
  {
    var header := earlier + "; " + CSRF_COOKIE + "=" + token;
    var parts := Split(header, ';');
    var pairs := Pairs(parts);
    assert |header| > 0;
    assert CookiesOf(Some(header)) == Jar(pairs);
    AppendedPieceIsLast(earlier, token);
    var piece := parts[|parts| - 1];
    assert pairs[|pairs| - 1] == (CookieName(piece), CookieValue(piece));
    PairReadsBack(token);
    assert CookieName(piece) == CSRF_COOKIE && CookieValue(piece) == token;
    JarLastWins(pairs);
  }

  /** Double submit: a state-changing request that echoes the token of its appended CSRF cookie
      in `x-csrf-token` is let through, and one that sends any other token is rejected unless
      it is exempt or carries a bearer token. */
  lemma DoubleSubmitDecides(req: CsrfRequest, earlier: string, token: string)
    requires IsHexToken(token)
    requires req.cookie == Some(earlier + "; " + CSRF_COOKIE + "=" + token)
    ensures req.csrfHeader == Some(token) ==> CsrfAllows(req)
    ensures req.csrfHeader != Some(token) ==> (CsrfAllows(req) <==> !Guarded(req))
    ensures req.csrfHeader.Some? && IsAscii(req.csrfHeader.value) ==> !ComparisonThrows(req)
  {
    AppendedCookieWins(earlier, token);
    if req.csrfHeader.Some? && IsAscii(req.csrfHeader.value) && req.csrfHeader.value != [] {
      assert IsAscii(token) by {
        forall i | 0 <= i < |token| ensures token[i] as int < 0x80 {
          assert IsHexDigit(token[i]);
        }
      }
      AsciiTokensCompare(token, req.csrfHeader.value);
    }
  }

  /** A header token with as many UTF-16 units as the cookie token but a different UTF-8 byte
      count makes the comparison throw, so such a request is answered 500 rather than 403. */
  lemma MismatchedEncodingThrows(req: CsrfRequest, earlier: string, token: string)
    requires IsHexToken(token)
    requires req.cookie == Some(earlier + "; " + CSRF_COOKIE + "=" + token)
    requires req.csrfHeader.Some? && req.csrfHeader.value != []
    requires Utf16Length(req.csrfHeader.value) == 64 && Utf8Length(req.csrfHeader.value) != 64
    ensures ComparisonThrows(req) && !EchoesCookieToken(req)
  {
    AppendedCookieWins(earlier, token);
    assert IsAscii(token) by {
      forall i | 0 <= i < |token| ensures token[i] as int < 0x80 {
        assert IsHexDigit(token[i]);
      }
    }
    AsciiLengths(token);
  }

  /** A state-changing, non-exempt request without a bearer token and without any Cookie header
      is rejected, whatever header it sends. */
  lemma NoCookieRejected(req: CsrfRequest)
    requires Guarded(req)
    requires req.cookie.None? || CSRF_COOKIE !in CookiesOf(req.cookie)
    ensures !CsrfAllows(req) && !ComparisonThrows(req)
  {
  }
}

=== FILE: env.dfy ===
/** `parseList` of apps/backend/src/lib/env.ts: a comma-separated environment variable read as a
    list of non-blank trimmed items (it feeds `trustedOrigins`). */
module Env {
  import opened Common
  import opened Strings

  /** `parseList(value)` */
  function ParseList(value: Option<string>): (items: seq<string>)
    ensures value.None? || value.value == [] ==> items == []
    ensures forall i :: 0 <= i < |items| ==> items[i] != [] && Trimmed(items[i])
    ensures value.Some? ==> |items| <= Count(value.value, ',') + 1
  {
    if value.None? || value.value == [] then [] else TrimNonBlank(Split(value.value, ','))
  }

  /** The items are the comma-separated pieces, trimmed, with the blank ones dropped: they keep
      their order, and every non-blank piece is among them. */
  lemma ParseListOrder(value: string)
    ensures ParseList(Some(value)) == DropEmpty(TrimAll(Split(value, ',')))
    ensures IsSubseq(ParseList(Some(value)), TrimAll(Split(value, ',')))
    ensures var pieces := Split(value, ',');
      forall i :: 0 <= i < |pieces| && Trim(pieces[i]) != [] ==> Trim(pieces[i]) in ParseList(Some(value))
  {
    var pieces := Split(value, ',');
    ParseListPieces(value);
    TrimNonBlankOrder(pieces);
  }

  /** An empty value is the one empty piece, which is blank: either way the list is the
      normalised pieces. */
  lemma ParseListPieces(value: string)
    ensures ParseList(Some(value)) == TrimNonBlank(Split(value, ','))
  {
    if value == [] {
      assert Split(value, ',') == [[]];
      assert AllSpace(Split(value, ',')[0]);
    }
  }
}

=== FILE: guards.dfy ===
/** The access checks the route handlers share: `ensureTeacherOwnsWorkspace` (defined alike in
    tests.ts, classrooms.ts and integrations-teams.ts), `ensureClassroomInWorkspace` and
    `ensureLearnerWorkspaceAccess`. The signed-in user is a parameter: `None` when
    `requireAuthSession` finds no session, which answers 401. */
module Guards {
  import opened Common
  import opened WorkspaceSchema

  const UNAUTHORIZED_STATUS := 401
  const FORBIDDEN_STATUS := 403

  /** The workspace row with this id owned by this user. */
  function OwnedBy(workspaceId: Id, userId: Id): Workspace -> bool {
    (w: Workspace) => w.id == workspaceId && w.ownerUserId == userId
  }

  /** `ensureTeacherOwnsWorkspace({ workspaceId, teacherUserId })` */
  function OwnsWorkspace(workspaces: seq<Workspace>, workspaceId: Id, userId: Id): (owns: bool)
    ensures owns <==> exists i :: 0 <= i < |workspaces| && workspaces[i].id == workspaceId && workspaces[i].ownerUserId == userId
  {
    var found := FirstWhere(workspaces, OwnedBy(workspaceId, userId));
    assert found.Some? ==> OwnedBy(workspaceId, userId)(workspaces[found.value]);
    found.Some?
  }

  /** The classroom row with this id in this workspace. */
  function ClassroomAt(classroomId: Id, workspaceId: Id): Classroom -> bool {
    (c: Classroom) => c.id == classroomId && c.workspaceId == workspaceId
  }

  /** `ensureClassroomInWorkspace({ classroomId, workspaceId })` */
  function ClassroomInWorkspace(classrooms: seq<Classroom>, classroomId: Id, workspaceId: Id): (found: bool)
    ensures found <==> exists i :: 0 <= i < |classrooms| && classrooms[i].id == classroomId && classrooms[i].workspaceId == workspaceId
  {
    var k := FirstWhere(classrooms, ClassroomAt(classroomId, workspaceId));
    assert k.Some? ==> ClassroomAt(classroomId, workspaceId)(classrooms[k.value]);
    k.Some?
  }

  /** The link row of a learner in a workspace. */
  function LinkOf(workspaceId: Id, learnerId: Id): WorkspaceLearner -> bool {
    (l: WorkspaceLearner) => l.workspaceId == workspaceId && l.learnerId == learnerId
  }

  /** `ensureLearnerWorkspaceAccess({ workspaceId, learnerId, actorType })`: the first link of
      the learner to the workspace exists and has the claimed role. */
  function LearnerAccess(links: seq<WorkspaceLearner>, workspaceId: Id, learnerId: Id, actorType: ActorType): bool {
    match FirstWhere(links, LinkOf(workspaceId, learnerId))
    case None => false
    case Some(k) => links[k].actorType == actorType
  }

  /** With one link per (workspace, learner), access means exactly that the learner's link to
      the workspace carries the claimed role. */
  lemma LearnerAccessIff(links: seq<WorkspaceLearner>, workspaceId: Id, learnerId: Id, actorType: ActorType)
    requires KeysUnique(links, LinkKey)
    ensures LearnerAccess(links, workspaceId, learnerId, actorType) <==>
      exists i :: 0 <= i < |links| && links[i].workspaceId == workspaceId && links[i].learnerId == learnerId
        && links[i].actorType == actorType
  {
    var found := FirstWhere(links, LinkOf(workspaceId, learnerId));
    if found.Some? {
      var k := found.value;
      assert LinkOf(workspaceId, learnerId)(links[k]);
      forall i | 0 <= i < |links| && links[i].workspaceId == workspaceId && links[i].learnerId == learnerId
        ensures i == k
      {
        UniqueKeyRow(links, LinkKey, i, k);
      }
    } else {
      forall i | 0 <= i < |links| ensures !(links[i].workspaceId == workspaceId && links[i].learnerId == learnerId) {
        assert !LinkOf(workspaceId, learnerId)(links[i]);
      }
    }
  }
}

=== FILE: invites.dfy ===
/** The invite routes of apps/backend/src/routes/invites.ts: a teacher creates an invite link for
    a workspace; anyone holding the token can look it up; and a learner (or parent) claims it
    once, which finds or creates the learner account by e-mail and links it to the workspace.
    Clock readings, random ids and the random token are parameters. */
module Invites {
  import opened Common
  import opened Strings
  import opened WorkspaceSchema
  import opened Guards

  const INVITE_NOT_FOUND := "Invite not found"
  const INVITE_EXPIRED := "Invite expired"
  const ALREADY_CLAIMED := "Invite already claimed"
  const CLAIM_PATH_PREFIX := "/invite/"
  const DEFAULT_EXPIRES_IN_DAYS := 7
  /** One day in milliseconds, the unit of every timestamp here. */
  const DAY := 86_400_000

  // ---------------------------------------------------------------- POST /

  /** `nowPlusDays(days)` */
  function NowPlusDays(now: int, days: int): int {
    now + days * DAY
  }

  /** `crypto.randomUUID().replaceAll("-", "")`: the token is the UUID without its dashes. */
  function RemoveDashes(uuid: string): (token: string)
    ensures forall c :: c in token <==> c in uuid && c != '-'
    ensures |token| <= |uuid|
  {
    if uuid == [] then []
    else
      var rest := RemoveDashes(uuid[1..]);
      assert forall c :: c in uuid <==> c == uuid[0] || c in uuid[1..];
      if uuid[0] == '-' then rest else [uuid[0]] + rest
  }

  /** The link the teacher shares; the token is what follows the fixed prefix. */
  function ClaimPath(token: string): (path: string)
    ensures |path| == |CLAIM_PATH_PREFIX| + |token|
    ensures path[..|CLAIM_PATH_PREFIX|] == CLAIM_PATH_PREFIX && path[|CLAIM_PATH_PREFIX|..] == token
  {
    CLAIM_PATH_PREFIX + token
  }

  /** The reply of `POST /api/invites`. */
  datatype InviteView = InviteView(token: string, expiresAt: int, studentName: Option<string>, claimPath: string)

  /** `POST /api/invites` over the tables. */
  function CreateInviteSpec(t: Tables, actor: Option<Id>, workspaceId: Id, studentName: Option<string>,
                            expiresInDays: Option<int>, inviteId: Id, uuid: string, now: int)
    : (Reply<InviteView>, Tables)
  {
    if actor.None? then (Fail(401, UNAUTHORIZED), t)
    else if !OwnsWorkspace(t.workspaces, workspaceId, actor.value) then (Fail(403, NOT_OWNER), t)
    else
      var token := RemoveDashes(uuid);
      var days := if expiresInDays.Some? then expiresInDays.value else DEFAULT_EXPIRES_IN_DAYS;
      var row := Invite(inviteId, token, workspaceId, actor.value, TrimOrNull(studentName),
                        NowPlusDays(now, days), None, None, None);
      (Ok(InviteView(token, row.expiresAt, row.studentName, ClaimPath(token))), t.(invites := t.invites + [row]))
  }

  method CreateInvite(db: Database, actor: Option<Id>, workspaceId: Id, studentName: Option<string>,
                      expiresInDays: Option<int>, inviteId: Id, uuid: string, now: int)
    returns (r: Reply<InviteView>)
    modifies db
    ensures (r, db.Snapshot()) == CreateInviteSpec(old(db.Snapshot()), actor, workspaceId, studentName, expiresInDays, inviteId, uuid, now)
  {
    if actor.None? {
      return Fail(401, UNAUTHORIZED);
    }
    if !OwnsWorkspace(db.workspaces, workspaceId, actor.value) {
      return Fail(403, NOT_OWNER);
    }
    var token := RemoveDashes(uuid);
    var days := if expiresInDays.Some? then expiresInDays.value else DEFAULT_EXPIRES_IN_DAYS;
    var row := Invite(inviteId, token, workspaceId, actor.value, TrimOrNull(studentName),
                      NowPlusDays(now, days), None, None, None);
    db.invites := db.invites + [row];
    r := Ok(InviteView(token, row.expiresAt, row.studentName, ClaimPath(token)));
  }

  /** Creating an invite needs a session (401) and ownership of the workspace (403); the new
      invite is unclaimed, expires the given number of days from now (seven by default),
      carries the trimmed student name or none, and its claim path ends in its token. */
  lemma CreateInviteOutcome(t: Tables, actor: Option<Id>, workspaceId: Id, studentName: Option<string>,
                            expiresInDays: Option<int>, inviteId: Id, uuid: string, now: int)
    ensures var (r, t') := CreateInviteSpec(t, actor, workspaceId, studentName, expiresInDays, inviteId, uuid, now);
      (actor.None? ==> r == Fail(401, UNAUTHORIZED) && t' == t)
      && (actor.Some? && !OwnsWorkspace(t.workspaces, workspaceId, actor.value) ==> r == Fail(403, NOT_OWNER) && t' == t)
      && (r.Ok? <==> actor.Some? && OwnsWorkspace(t.workspaces, workspaceId, actor.value))
      && (r.Ok? ==>
            var row := t'.invites[|t.invites|];
            t' == t.(invites := t.invites + [row])
            && row.id == inviteId && row.token == r.value.token && row.workspaceId == workspaceId
            && row.createdByUserId == actor.value && row.claimedAt.None? && row.claimedByLearnerId.None?
            && r.value.expiresAt == row.expiresAt
            && (expiresInDays.None? ==> row.expiresAt == now + 7 * DAY)
            && (expiresInDays.Some? ==> row.expiresAt == now + expiresInDays.value * DAY)
            && (row.studentName.None? <==> studentName.None? || AllSpace(studentName.value))
            && (studentName.Some? && row.studentName.Some? ==> row.studentName.value == Trim(studentName.value))
            && '-' !in r.value.token
            && r.value.claimPath == CLAIM_PATH_PREFIX + r.value.token)
  {
  }

  /** A freshly created invite with a positive lifetime looks up as valid until it expires. */
  lemma CreatedInviteIsValid(t: Tables, actor: Option<Id>, workspaceId: Id, studentName: Option<string>,
                             days: int, inviteId: Id, uuid: string, now: int, later: int)
    requires KeyFree(t.invites, InviteTokenKey, RemoveDashes(uuid))
    requires CreateInviteSpec(t, actor, workspaceId, studentName, Some(days), inviteId, uuid, now).0.Ok?
    requires later <= now + days * DAY
    ensures LookupSpec(CreateInviteSpec(t, actor, workspaceId, studentName, Some(days), inviteId, uuid, now).1,
                       RemoveDashes(uuid), later).valid
  {
    var t' := CreateInviteSpec(t, actor, workspaceId, studentName, Some(days), inviteId, uuid, now).1;
    var token := RemoveDashes(uuid);
    var row := t'.invites[|t.invites|];
    assert t'.invites == t.invites + [row];
    forall i | 0 <= i < |t.invites| ensures !TokenIs(token)(t.invites[i]) {
      assert InviteTokenKey(t.invites[i]) != token;
    }
    FirstWhereAppendHit(t.invites, TokenIs(token), row);
  }

  /** Creating an invite with a fresh id and a fresh token keeps every table invariant. */
  lemma CreateInviteKeepsValid(t: Tables, actor: Option<Id>, workspaceId: Id, studentName: Option<string>,
                               expiresInDays: Option<int>, inviteId: Id, uuid: string, now: int)
    requires TablesValid(t)
    requires KeyFree(t.invites, InviteIdOf, inviteId) && KeyFree(t.invites, InviteTokenKey, RemoveDashes(uuid))
    ensures TablesValid(CreateInviteSpec(t, actor, workspaceId, studentName, expiresInDays, inviteId, uuid, now).1)
  {
    var (r, t') := CreateInviteSpec(t, actor, workspaceId, studentName, expiresInDays, inviteId, uuid, now);
    if r.Ok? {
      var row := t'.invites[|t.invites|];
      assert t'.invites == t.invites + [row];
      AppendKeepsUnique(t.invites, InviteIdOf, row);
      AppendKeepsUnique(t.invites, InviteTokenKey, row);
    }
  }

  // ---------------------------------------------------------------- GET /:token

  /** The invite with this token. */
  function TokenIs(token: string): Invite -> bool {
    (i: Invite) => i.token == token
  }

  /** The columns of the invite that `GET /api/invites/:token` selects: it shows neither the
      token, nor who created the invite, nor who claimed it. */
  datatype InviteStatusView = InviteStatusView(workspaceId: Id, studentName: Option<string>, expiresAt: int,
                                               claimedAt: Option<int>)

  function ViewOf(invite: Invite): InviteStatusView {
    InviteStatusView(invite.workspaceId, invite.studentName, invite.expiresAt, invite.claimedAt)
  }

  /** The reply of `GET /api/invites/:token`: the status, `valid`, the reason when not valid,
      and the selected columns of the invite when one was found. */
  datatype LookupReply = LookupReply(status: int, valid: bool, reason: Option<string>, invite: Option<InviteStatusView>)

  predicate Expired(invite: Invite, now: int) {
    invite.expiresAt < now
  }

  /** `GET /api/invites/:token` over the tables. */
  function LookupSpec(t: Tables, token: string, now: int): LookupReply {
    match FirstWhere(t.invites, TokenIs(token))
    case None => LookupReply(404, false, Some(INVITE_NOT_FOUND), None)
    case Some(k) =>
      var invite := t.invites[k];
      if Expired(invite, now) then LookupReply(200, false, Some(INVITE_EXPIRED), Some(ViewOf(invite)))
      else if invite.claimedAt.Some? then LookupReply(200, false, Some(ALREADY_CLAIMED), Some(ViewOf(invite)))
      else LookupReply(200, true, None, Some(ViewOf(invite)))
  }

  /** An unknown token answers 404 and shows no invite; an expired invite is reported as expired
      even when it was also claimed; the invite is valid exactly when it exists, has not expired
      (its expiry instant itself still counts) and is unclaimed; a found invite is shown by its
      workspace, student name, expiry and claim time only. */
  lemma LookupMeaning(t: Tables, token: string, now: int)
    ensures var r := LookupSpec(t, token, now);
      var found := FirstWhere(t.invites, TokenIs(token));
      (found.None? <==> r.status == 404)
      && (found.None? ==> !r.valid && r.reason == Some(INVITE_NOT_FOUND) && r.invite.None?)
      && (found.Some? && t.invites[found.value].expiresAt < now ==> !r.valid && r.reason == Some(INVITE_EXPIRED))
      && (found.Some? && now <= t.invites[found.value].expiresAt && t.invites[found.value].claimedAt.Some? ==>
            !r.valid && r.reason == Some(ALREADY_CLAIMED))
      && (r.valid <==> found.Some? && now <= t.invites[found.value].expiresAt && t.invites[found.value].claimedAt.None?)
      && (r.valid ==> r.reason.None?)
      && (found.Some? ==>
            var invite := t.invites[found.value];
            r.invite.Some? && r.invite.value.workspaceId == invite.workspaceId
            && r.invite.value.studentName == invite.studentName && r.invite.value.expiresAt == invite.expiresAt
            && r.invite.value.claimedAt == invite.claimedAt)
  {
  }

  /** The lookup and the claim agree: the lookup says valid exactly when a claim made at the
      same instant succeeds. */
  lemma LookupAgreesWithClaim(t: Tables, token: string, c: Claimant, ids: ClaimIds, now: int)
    ensures LookupSpec(t, token, now).valid <==> ClaimWith(t, token, c, ids, now).0.Ok?
  {
  }

  // ---------------------------------------------------------------- POST /:token/claim

  /** The parsed claim body. */
  datatype ClaimBody = ClaimBody(email: string, displayName: string, actorType: ActorType)
  /** The random ids a claim may need: one for a new learner, one for a new workspace link. */
  datatype ClaimIds = ClaimIds(learnerId: Id, linkId: Id)

  datatype ClaimStatus = LinkedExisting | CreatedNew
  datatype ClaimResult = ClaimResult(status: ClaimStatus, learnerId: Id, workspaceId: Id, nextStepPath: string)

  function ActorTypeText(a: ActorType): string {
    match a
    case Student => "student"
    case Parent => "parent"
  }

  /** Where the claimant goes next: the learner's tests in the workspace. */
  function NextStepPath(workspaceId: Id, learnerId: Id, actorType: ActorType): string {
    "/tests?workspaceId=" + workspaceId + "&learnerId=" + learnerId + "&actorType=" + ActorTypeText(actorType)
  }

  /** `update(invites).set({ claimedAt, claimedByLearnerId, claimedByActorType }).where(id)` */
  function MarkClaimed(invites: seq<Invite>, inviteId: Id, learnerId: Id, actorType: ActorType, now: int)
    : (r: seq<Invite>)
    ensures |r| == |invites|
    ensures forall i :: 0 <= i < |invites| ==>
      r[i] == if invites[i].id == inviteId
              then invites[i].(claimedAt := Some(now), claimedByLearnerId := Some(learnerId),
                               claimedByActorType := Some(actorType))
              else invites[i]
  {
    seq(|invites|, i requires 0 <= i < |invites| =>
      if invites[i].id == inviteId
      then invites[i].(claimedAt := Some(now), claimedByLearnerId := Some(learnerId), claimedByActorType := Some(actorType))
      else invites[i])
  }

  /** The claimant as the handler stores it: normalised and trimmed e-mail, trimmed name, role. */
  datatype Claimant = Claimant(normalizedEmail: string, email: string, displayName: string, actorType: ActorType)

  function ClaimantOf(body: ClaimBody): Claimant {
    Claimant(NormalizeEmail(body.email), Trim(body.email), Trim(body.displayName), body.actorType)
  }

  /** The claim of an open invite: find or create the learner, link it unless already linked,
      and mark the invite claimed. */
  function ClaimOpen(t: Tables, invite: Invite, c: Claimant, ids: ClaimIds, now: int): (Reply<ClaimResult>, Tables) {
    var existing := FirstWhere(t.learners, EmailIs(c.normalizedEmail));
    var learnerId := if existing.Some? then t.learners[existing.value].id else ids.learnerId;
    var learners := if existing.Some? then t.learners
                    else t.learners + [LearnerAccount(ids.learnerId, c.email, c.normalizedEmail, c.displayName)];
    var links := if FirstWhere(t.links, LinkOf(invite.workspaceId, learnerId)).Some? then t.links
                 else t.links + [WorkspaceLearner(ids.linkId, invite.workspaceId, learnerId, c.actorType)];
    var status := if existing.Some? then LinkedExisting else CreatedNew;
    (Ok(ClaimResult(status, learnerId, invite.workspaceId, NextStepPath(invite.workspaceId, learnerId, c.actorType))),
     t.(learners := learners, links := links, invites := MarkClaimed(t.invites, invite.id, learnerId, c.actorType, now)))
  }

  /** The claim route for an already normalised claimant. */
  function ClaimWith(t: Tables, token: string, c: Claimant, ids: ClaimIds, now: int): (Reply<ClaimResult>, Tables) {
    match FirstWhere(t.invites, TokenIs(token))
    case None => (Fail(404, INVITE_NOT_FOUND), t)
    case Some(k) =>
      var invite := t.invites[k];
      if invite.claimedAt.Some? then (Fail(409, ALREADY_CLAIMED), t)
      else if Expired(invite, now) then (Fail(410, INVITE_EXPIRED), t)
      else ClaimOpen(t, invite, c, ids, now)
  }

  /** `POST /api/invites/:token/claim` over the tables. */
  function ClaimSpec(t: Tables, token: string, body: ClaimBody, ids: ClaimIds, now: int): (Reply<ClaimResult>, Tables) {
    ClaimWith(t, token, ClaimantOf(body), ids, now)
  }

  method Claim(db: Database, token: string, body: ClaimBody, ids: ClaimIds, now: int) returns (r: Reply<ClaimResult>)
    modifies db
    ensures (r, db.Snapshot()) == ClaimSpec(old(db.Snapshot()), token, body, ids, now)
  {
    r := ClaimRows(db, token, ClaimantOf(body), ids, now);
  }

  method ClaimRows(db: Database, token: string, c: Claimant, ids: ClaimIds, now: int) returns (r: Reply<ClaimResult>)
    modifies db
    ensures (r, db.Snapshot()) == ClaimWith(old(db.Snapshot()), token, c, ids, now)
  {
    var found := FirstWhere(db.invites, TokenIs(token));
    if found.None? {
      return Fail(404, INVITE_NOT_FOUND);
    }
    var invite := db.invites[found.value];
    if invite.claimedAt.Some? {
      return Fail(409, ALREADY_CLAIMED);
    }
    if invite.expiresAt < now {
      return Fail(410, INVITE_EXPIRED);
    }
    var existing := FirstWhere(db.learners, EmailIs(c.normalizedEmail));
    var learnerId := if existing.Some? then db.learners[existing.value].id else ids.learnerId;
    var status := if existing.Some? then LinkedExisting else CreatedNew;
    if existing.None? {
      db.learners := db.learners + [LearnerAccount(learnerId, c.email, c.normalizedEmail, c.displayName)];
    }
    var link := FirstWhere(db.links, LinkOf(invite.workspaceId, learnerId));
    if link.None? {
      db.links := db.links + [WorkspaceLearner(ids.linkId, invite.workspaceId, learnerId, c.actorType)];
    }
    db.invites := MarkClaimed(db.invites, invite.id, learnerId, c.actorType, now);
    r := Ok(ClaimResult(status, learnerId, invite.workspaceId, NextStepPath(invite.workspaceId, learnerId, c.actorType)));
  }

  /** The stored claimant: the e-mail trimmed and lower-cased for matching, the e-mail and the
      name trimmed for display. */
  lemma ClaimantNormalised(body: ClaimBody)
    ensures var c := ClaimantOf(body);
      c.normalizedEmail == ToLower(c.email) && Trimmed(c.email) && Trimmed(c.displayName)
      && NoUpper(c.normalizedEmail) && NormalizeEmail(c.normalizedEmail) == c.normalizedEmail
  {
    NormalizeEmailIdempotent(body.email);
  }

  /** An unknown token answers 404, a claimed invite 409 (whether or not it has also expired),
      and an expired one 410, each writing nothing; every other claim succeeds. */
  lemma ClaimRejections(t: Tables, token: string, c: Claimant, ids: ClaimIds, now: int)
    ensures var (r, t') := ClaimWith(t, token, c, ids, now);
      var found := FirstWhere(t.invites, TokenIs(token));
      (!r.Ok? ==> t' == t)
      && (found.None? ==> r == Fail(404, INVITE_NOT_FOUND))
      && (found.Some? && t.invites[found.value].claimedAt.Some? ==> r == Fail(409, ALREADY_CLAIMED))
      && (found.Some? && t.invites[found.value].claimedAt.None? && t.invites[found.value].expiresAt < now ==>
            r == Fail(410, INVITE_EXPIRED))
      && (r.Ok? <==> found.Some? && t.invites[found.value].claimedAt.None? && now <= t.invites[found.value].expiresAt)
  {
  }

  /** An open claim reuses the learner whose normalised e-mail matches (`linked_existing`) and
      otherwise adds exactly one learner with the trimmed e-mail and name (`created_new`); it
      adds a workspace link with the claimed role only when the learner had none, so an
      existing link keeps its role; the learner is linked afterwards; and every invite row with
      the invite's id records the claim. */
  lemma ClaimOpenEffect(t: Tables, invite: Invite, c: Claimant, ids: ClaimIds, now: int)
    ensures var (r, t') := ClaimOpen(t, invite, c, ids, now);
      var normalizedEmail := c.normalizedEmail;
      var actorType := c.actorType;
      var known := exists i :: 0 <= i < |t.learners| && t.learners[i].normalizedEmail == normalizedEmail;
      var learnerId := r.value.learnerId;
      r.Ok? && r.value.workspaceId == invite.workspaceId
      && (known <==> r.value.status == LinkedExisting)
      && (known ==> t'.learners == t.learners
                    && exists i :: 0 <= i < |t.learners| && t.learners[i].id == learnerId
                                   && t.learners[i].normalizedEmail == normalizedEmail)
      && (!known ==> learnerId == ids.learnerId
                     && t'.learners == t.learners + [LearnerAccount(ids.learnerId, c.email, normalizedEmail, c.displayName)])
      && ((exists j :: 0 <= j < |t.links| && LinkKey(t.links[j]) == (invite.workspaceId, learnerId)) ==> t'.links == t.links)
      && (!(exists j :: 0 <= j < |t.links| && LinkKey(t.links[j]) == (invite.workspaceId, learnerId)) ==>
            t'.links == t.links + [WorkspaceLearner(ids.linkId, invite.workspaceId, learnerId, actorType)])
      && (exists j :: 0 <= j < |t'.links| && LinkKey(t'.links[j]) == (invite.workspaceId, learnerId))
      && t'.invites == MarkClaimed(t.invites, invite.id, learnerId, actorType, now)
      && t' == t.(learners := t'.learners, links := t'.links, invites := t'.invites)
  {
    var (r, t') := ClaimOpen(t, invite, c, ids, now);
    var learnerId := r.value.learnerId;
    var p := LinkOf(invite.workspaceId, learnerId);
    var q := EmailIs(c.normalizedEmail);
    if FirstWhere(t.learners, q).None? {
      forall i | 0 <= i < |t.learners| ensures t.learners[i].normalizedEmail != c.normalizedEmail {
        assert !q(t.learners[i]);
      }
    }
    match FirstWhere(t.links, p)
    case Some(j) =>
      assert LinkKey(t'.links[j]) == (invite.workspaceId, learnerId);
    case None =>
      forall j | 0 <= j < |t.links| ensures LinkKey(t.links[j]) != (invite.workspaceId, learnerId) {
        assert !p(t.links[j]);
      }
      assert LinkKey(t'.links[|t.links|]) == (invite.workspaceId, learnerId);
  }

  /** A claim is one-shot: once a claim of a token has succeeded, every later claim of the same
      token answers 409, whatever its body and time. */
  lemma ClaimIsOneShot(t: Tables, token: string, c: Claimant, ids: ClaimIds, now: int,
                       c2: Claimant, ids2: ClaimIds, now2: int)
    requires ClaimWith(t, token, c, ids, now).0.Ok?
    ensures ClaimWith(ClaimWith(t, token, c, ids, now).1, token, c2, ids2, now2).0 == Fail(409, ALREADY_CLAIMED)
  {
    var t' := ClaimWith(t, token, c, ids, now).1;
    var k := FirstWhere(t.invites, TokenIs(token)).value;
    FirstWhereSameMatches(t.invites, t'.invites, TokenIs(token));
    assert t'.invites[k].claimedAt == Some(now);
  }

  /** Claiming with a fresh, non-empty learner id and a fresh link id keeps every table
      invariant: the new learner's e-mail is free because the lookup by it failed, and the new
      link's (workspace, learner) is free because the lookup by it failed. */
  lemma ClaimOpenKeepsValid(t: Tables, invite: Invite, c: Claimant, ids: ClaimIds, now: int)
    requires TablesValid(t)
    requires ids.learnerId != [] && KeyFree(t.learners, LearnerIdOf, ids.learnerId) && KeyFree(t.links, LinkIdOf, ids.linkId)
    ensures TablesValid(ClaimOpen(t, invite, c, ids, now).1)
  {
    var (r, t') := ClaimOpen(t, invite, c, ids, now);
    ClaimOpenEffect(t, invite, c, ids, now);
    var learnerId := r.value.learnerId;
    if t'.learners != t.learners {
      var row := LearnerAccount(ids.learnerId, c.email, c.normalizedEmail, c.displayName);
      AppendKeepsUnique(t.learners, LearnerIdOf, row);
      AppendKeepsUnique(t.learners, LearnerEmailKey, row);
    }
    if t'.links != t.links {
      var row := WorkspaceLearner(ids.linkId, invite.workspaceId, learnerId, c.actorType);
      AppendKeepsUnique(t.links, LinkIdOf, row);
      AppendKeepsUnique(t.links, LinkKey, row);
    }
    SameKeysKeepUnique(t.invites, t'.invites, InviteIdOf);
    SameKeysKeepUnique(t.invites, t'.invites, InviteTokenKey);
  }

  /** A rewrite that changes no row's key keeps the keys unique. */
  lemma SameKeysKeepUnique<T, K>(rows: seq<T>, rows': seq<T>, key: T -> K)
    requires KeysUnique(rows, key) && |rows'| == |rows|
    requires forall i :: 0 <= i < |rows| ==> key(rows'[i]) == key(rows[i])
    ensures KeysUnique(rows', key)
  {
  }

  /** A claim keeps every table invariant. */
  lemma ClaimKeepsValid(t: Tables, token: string, c: Claimant, ids: ClaimIds, now: int)
    requires TablesValid(t)
    requires ids.learnerId != [] && KeyFree(t.learners, LearnerIdOf, ids.learnerId) && KeyFree(t.links, LinkIdOf, ids.linkId)
    ensures TablesValid(ClaimWith(t, token, c, ids, now).1)
  {
    match FirstWhere(t.invites, TokenIs(token))
    case None =>
    case Some(k) =>
      var invite := t.invites[k];
      if invite.claimedAt.None? && !Expired(invite, now) {
        assert ClaimWith(t, token, c, ids, now) == ClaimOpen(t, invite, c, ids, now);
        ClaimOpenKeepsValid(t, invite, c, ids, now);
      } else {
        assert ClaimWith(t, token, c, ids, now).1 == t;
      }
  }
}

=== FILE: onboarding.dfy ===
/** The teacher onboarding of apps/backend/src/routes/onboarding.ts: looking schools up by name,
    finding or creating a school by its normalised name, saving a teacher (school resolution,
    a workspace created only when the teacher owns none, the profile upserted by user id) and
    reading the profile back. The routes take no session; fresh ids and the clock are
    parameters. */
module Onboarding {
  import opened Common
  import opened Strings
  import opened WorkspaceSchema

  const SCHOOL_NOT_FOUND := "Selected school does not exist"
  const SCHOOL_LIST_LIMIT := 20
  const FALLBACK_TEACHER_NAME := "Teacher"
  const WORKSPACE_SUFFIX := "'s Workspace"

  // ---------------------------------------------------------------- names

  /** `normalizeSchoolName`: trimmed, lower case, every white-space run one space. */
  function NormalizeSchoolName(name: string): (r: string)
    ensures Canonical(r)
    ensures r == Join(Words(ToLower(name), IsSpace), " ")
  {
    CanonicalNameWords(name);
    CanonicalName(name)
  }

  /** Normalising a normalised school name changes nothing, so the stored key finds itself. */
  lemma NormalizeSchoolNameIdempotent(name: string)
    ensures NormalizeSchoolName(NormalizeSchoolName(name)) == NormalizeSchoolName(name)
  {
    CanonicalFixpoint(NormalizeSchoolName(name));
  }

  /** `buildWorkspaceName`: the trimmed display name, or `Teacher` when it is blank, followed by
      `'s Workspace`. */
  function BuildWorkspaceName(displayName: string): (r: string)
    ensures |r| > |WORKSPACE_SUFFIX| && r[|r| - |WORKSPACE_SUFFIX|..] == WORKSPACE_SUFFIX
    ensures var base := r[..|r| - |WORKSPACE_SUFFIX|];
      base != [] && Trimmed(base)
      && (AllSpace(displayName) ==> base == FALLBACK_TEACHER_NAME)
      && (!AllSpace(displayName) ==> base == Trim(displayName))
  {
    var trimmed := Trim(displayName);
    var base := if trimmed == [] then FALLBACK_TEACHER_NAME else trimmed;
    assert (base + WORKSPACE_SUFFIX)[..|base|] == base;
    base + WORKSPACE_SUFFIX
  }

  // ---------------------------------------------------------------- GET /schools

  /** The columns the school routes return. */
  datatype SchoolView = SchoolView(id: Id, name: string, city: Option<string>, country: Option<string>)

  function ViewOf(s: School): SchoolView {
    SchoolView(s.id, s.name, s.city, s.country)
  }

  /** `needle` occurs in `hay` as a contiguous piece. */
  predicate ContainsText(hay: string, needle: string) {
    exists i | 0 <= i <= |hay| - |needle| :: OccursAt(hay, needle, i)
  }

  predicate OccursAt(hay: string, needle: string, i: nat)
    requires i + |needle| <= |hay|
  {
    hay[i..i + |needle|] == needle
  }

  /** A school passes the search when the search is empty or its name is like it. */
  predicate Passes(s: School, q: string) {
    q == [] || NameLike(s, q)
  }

  /** `ilike(schools.name, %q%)`: the name contains `q`, ignoring ASCII case. */
  predicate NameLike(s: School, q: string) {
    ContainsText(ToLower(s.name), ToLower(q))
  }

  /** The schools that pass the search. */
  function SearchFor(q: string): School -> bool {
    (s: School) => Passes(s, q)
  }

  /** The views of the schools that pass `keep`, in table order. */
  function Matching(schools: seq<School>, keep: School -> bool): (r: seq<SchoolView>)
    ensures |r| <= |schools|
    ensures forall v :: v in r ==> exists i :: 0 <= i < |schools| && ViewOf(schools[i]) == v && keep(schools[i])
    ensures forall i :: 0 <= i < |schools| && keep(schools[i]) ==> ViewOf(schools[i]) in r
    decreases |schools|
  {
    if schools == [] then []
    else
      var n := |schools| - 1;
      var before := Matching(schools[..n], keep);
      assert forall i :: 0 <= i < n ==> schools[..n][i] == schools[i];
      if keep(schools[n]) then before + [ViewOf(schools[n])] else before
  }

  /** The trimmed search text; missing counts as empty. */
  function SearchText(q: Option<string>): string {
    if q.Some? then Trim(q.value) else []
  }

  /** At most the first 20 of the schools that pass `keep`. */
  function FirstMatches(schools: seq<School>, keep: School -> bool): (r: seq<SchoolView>)
    ensures |r| <= SCHOOL_LIST_LIMIT
    ensures forall v :: v in r ==> exists i :: 0 <= i < |schools| && ViewOf(schools[i]) == v && keep(schools[i])
    ensures |Matching(schools, keep)| <= SCHOOL_LIST_LIMIT ==> r == Matching(schools, keep)
  {
    var all := Matching(schools, keep);
    var r := if |all| <= SCHOOL_LIST_LIMIT then all else all[..SCHOOL_LIST_LIMIT];
    assert forall v :: v in r ==> exists i :: 0 <= i < |schools| && ViewOf(schools[i]) == v && keep(schools[i]) by {
      forall v | v in r ensures exists i :: 0 <= i < |schools| && ViewOf(schools[i]) == v && keep(schools[i]) {
        assert v in all;
      }
    }
    r
  }

  /** `GET /api/onboarding/schools?q=`: at most 20 schools whose name contains the trimmed
      search text (all schools when it is missing or blank). */
  function ListSchools(schools: seq<School>, q: Option<string>): (r: seq<SchoolView>)
    ensures |r| <= SCHOOL_LIST_LIMIT
  {
    FirstMatches(schools, SearchFor(SearchText(q)))
  }

  /** Every listed school passes the search. */
  lemma ListSchoolsSound(schools: seq<School>, q: Option<string>, v: SchoolView)
    requires v in ListSchools(schools, q)
    ensures exists i :: 0 <= i < |schools| && ViewOf(schools[i]) == v && Passes(schools[i], SearchText(q))
  {
    var i :| 0 <= i < |schools| && ViewOf(schools[i]) == v && SearchFor(SearchText(q))(schools[i]);
  }

  /** The limit only cuts: when no more than 20 schools match, each of them is listed. */
  lemma ListSchoolsComplete(schools: seq<School>, q: Option<string>, i: nat)
    requires |Matching(schools, SearchFor(SearchText(q)))| <= SCHOOL_LIST_LIMIT
    requires i < |schools| && Passes(schools[i], SearchText(q))
    ensures ViewOf(schools[i]) in ListSchools(schools, q)
  {
    assert SearchFor(SearchText(q))(schools[i]);
  }

  // ---------------------------------------------------------------- POST /schools

  /** The school with this normalised name. */
  function SchoolNamed(normalizedName: string): School -> bool {
    (s: School) => s.normalizedName == normalizedName
  }

  /** What `POST /schools` answers: whether it inserted, and the school. */
  datatype SchoolResult = SchoolResult(created: bool, school: SchoolView)

  /** The create route once the name is trimmed and normalised and the optional fields are
      trimmed to text or null. */
  function FindOrCreateSchool(t: Tables, userId: Id, name: string, normalizedName: string, city: Option<string>,
                              country: Option<string>, newId: Id): (SchoolResult, Tables)
  {
    match FirstWhere(t.schools, SchoolNamed(normalizedName))
    case Some(k) => (SchoolResult(false, ViewOf(t.schools[k])), t)
    case None =>
      var row := School(newId, name, normalizedName, city, country, Some(userId));
      (SchoolResult(true, ViewOf(row)), t.(schools := t.schools + [row]))
  }

  /** `POST /api/onboarding/schools` over the tables. */
  function CreateSchoolSpec(t: Tables, userId: Id, name: string, city: Option<string>, country: Option<string>,
                            newId: Id): (SchoolResult, Tables)
  {
    FindOrCreateSchool(t, userId, Trim(name), NormalizeSchoolName(name), TrimOrNull(city), TrimOrNull(country), newId)
  }

  method CreateSchool(db: Database, userId: Id, name: string, city: Option<string>, country: Option<string>, newId: Id)
    returns (r: SchoolResult)
    modifies db
    ensures (r, db.Snapshot()) == CreateSchoolSpec(old(db.Snapshot()), userId, name, city, country, newId)
  {
    var normalizedName := NormalizeSchoolName(name);
    var existing := FirstWhere(db.schools, SchoolNamed(normalizedName));
    if existing.Some? {
      return SchoolResult(false, ViewOf(db.schools[existing.value]));
    }
    var row := School(newId, Trim(name), normalizedName, TrimOrNull(city), TrimOrNull(country), Some(userId));
    db.schools := db.schools + [row];
    r := SchoolResult(true, ViewOf(row));
  }

  /** A school is inserted exactly when no school has the normalised name; otherwise the first
      school with it is returned and nothing is written. */
  lemma FindOrCreateSchoolOutcome(t: Tables, userId: Id, name: string, normalizedName: string, city: Option<string>,
                                  country: Option<string>, newId: Id)
    ensures var (r, t') := FindOrCreateSchool(t, userId, name, normalizedName, city, country, newId);
      var known := exists i :: 0 <= i < |t.schools| && t.schools[i].normalizedName == normalizedName;
      (r.created <==> !known)
      && (known ==> t' == t && exists i :: 0 <= i < |t.schools| && t.schools[i].normalizedName == normalizedName
                                          && r.school == ViewOf(t.schools[i]))
      && (!known ==> r.school == SchoolView(newId, name, city, country)
                     && t' == t.(schools := t.schools + [School(newId, name, normalizedName, city, country, Some(userId))]))
  {
    var p := SchoolNamed(normalizedName);
    if FirstWhere(t.schools, p).None? {
      forall i | 0 <= i < |t.schools| ensures t.schools[i].normalizedName != normalizedName {
        assert !p(t.schools[i]);
      }
    }
  }

  /** Asking for the same school twice inserts it at most once: the second call answers
      `created: false` with the school the first call answered and writes nothing. */
  lemma FindOrCreateSchoolTwice(t: Tables, userId: Id, name: string, normalizedName: string, city: Option<string>,
                                country: Option<string>, newId: Id, userId2: Id, name2: string, city2: Option<string>,
                                country2: Option<string>, newId2: Id)
    ensures var (r1, t1) := FindOrCreateSchool(t, userId, name, normalizedName, city, country, newId);
      var (r2, t2) := FindOrCreateSchool(t1, userId2, name2, normalizedName, city2, country2, newId2);
      !r2.created && r2.school == r1.school && t2 == t1
  {
    var p := SchoolNamed(normalizedName);
    if FirstWhere(t.schools, p).None? {
      var row := School(newId, name, normalizedName, city, country, Some(userId));
      FirstWhereAppendHit(t.schools, p, row);
    }
  }

  /** Creating a school with a fresh id keeps every table invariant. */
  lemma FindOrCreateSchoolKeepsValid(t: Tables, userId: Id, name: string, normalizedName: string, city: Option<string>,
                                     country: Option<string>, newId: Id)
    requires TablesValid(t) && KeyFree(t.schools, SchoolIdOf, newId)
    ensures TablesValid(FindOrCreateSchool(t, userId, name, normalizedName, city, country, newId).1)
  {
    var p := SchoolNamed(normalizedName);
    if FirstWhere(t.schools, p).None? {
      var row := School(newId, name, normalizedName, city, country, Some(userId));
      forall i | 0 <= i < |t.schools| ensures SchoolNameKey(t.schools[i]) != normalizedName {
        assert !p(t.schools[i]);
      }
      AppendKeepsUnique(t.schools, SchoolIdOf, row);
      AppendKeepsUnique(t.schools, SchoolNameKey, row);
    }
  }

  // ---------------------------------------------------------------- POST /teacher

  /** The body of `POST /teacher`. */
  datatype TeacherBody = TeacherBody(userId: Id, displayName: string, gradeLevels: seq<string>,
                                     schoolId: Option<Id>, schoolName: Option<string>)

  /** How the school is chosen: a given id wins; else a given name is found or created; else
      the missing or empty id is stored as it came. */
  datatype SchoolChoice = GivenId(id: Id) | GivenName(name: string, normalizedName: string) | NoSchool(emptyId: bool)

  /** The school id stored when neither a school id nor a school name is given. */
  function StoredId(emptyId: bool): (r: Option<Id>)
    ensures r.None? || r.value == []
  {
    if emptyId then Some([]) else None
  }

  /** The body once the strings the route trims and normalises are computed. */
  datatype TeacherRequest = TeacherRequest(userId: Id, displayName: string, workspaceName: string,
                                           gradeLevels: seq<string>, choice: SchoolChoice)

  function ChoiceOf(body: TeacherBody): (c: SchoolChoice)
    ensures c.GivenId? <==> body.schoolId.Some? && body.schoolId.value != []
    ensures c.GivenName? <==> (body.schoolId.None? || body.schoolId.value == []) && body.schoolName.Some? && body.schoolName.value != []
  {
    if body.schoolId.Some? && body.schoolId.value != [] then GivenId(body.schoolId.value)
    else if body.schoolName.Some? && body.schoolName.value != [] then
      GivenName(Trim(body.schoolName.value), NormalizeSchoolName(body.schoolName.value))
    else NoSchool(body.schoolId.Some?)
  }

  function RequestOf(body: TeacherBody): TeacherRequest {
    TeacherRequest(body.userId, Trim(body.displayName), BuildWorkspaceName(body.displayName), body.gradeLevels,
                   ChoiceOf(body))
  }

  function SchoolIdIs(id: Id): School -> bool {
    (s: School) => s.id == id
  }

  function OwnerIs(userId: Id): Workspace -> bool {
    (w: Workspace) => w.ownerUserId == userId
  }

  function ProfileOf(userId: Id): TeacherProfile -> bool {
    (p: TeacherProfile) => p.userId == userId
  }

  /** The school step: the id the profile will carry, and the schools table after a possible
      insert. */
  function ResolveSchool(schools: seq<School>, userId: Id, choice: SchoolChoice, newSchoolId: Id)
    : (Option<Id>, seq<School>)
  {
    match choice
    case GivenId(id) => (Some(id), schools)
    case NoSchool(emptyId) => (StoredId(emptyId), schools)
    case GivenName(name, normalizedName) =>
      match FirstWhere(schools, SchoolNamed(normalizedName))
      case Some(k) => (Some(schools[k].id), schools)
      case None => (Some(newSchoolId), schools + [School(newSchoolId, name, normalizedName, None, None, Some(userId))])
  }

  /** The selected id, when non-empty, must name a school. */
  predicate SchoolMissing(schools: seq<School>, selected: Option<Id>) {
    selected.Some? && selected.value != [] && FirstWhere(schools, SchoolIdIs(selected.value)).None?
  }

  /** The workspace step: the id of the user's workspace, and the workspaces table after it is
      created when the user owns none. */
  function EnsureWorkspace(workspaces: seq<Workspace>, userId: Id, name: string, newWorkspaceId: Id): (Id, seq<Workspace>) {
    match FirstWhere(workspaces, OwnerIs(userId))
    case Some(k) => (workspaces[k].id, workspaces)
    case None => (newWorkspaceId, workspaces + [Workspace(newWorkspaceId, userId, DEFAULT_WORKSPACE_TYPE, name)])
  }

  /** The profile step: insert, or on a conflicting user id overwrite every column but the id. */
  function UpsertProfile(profiles: seq<TeacherProfile>, row: TeacherProfile): seq<TeacherProfile> {
    match FirstWhere(profiles, ProfileOf(row.userId))
    case Some(k) => profiles[k := row]
    case None => profiles + [row]
  }

  /** The teacher route once the request strings are prepared. */
  function SaveRequest(t: Tables, req: TeacherRequest, newSchoolId: Id, newWorkspaceId: Id, now: int)
    : (Reply<TeacherProfile>, Tables)
  {
    var (selected, schools) := ResolveSchool(t.schools, req.userId, req.choice, newSchoolId);
    if SchoolMissing(schools, selected) then (Fail(400, SCHOOL_NOT_FOUND), t)
    else
      var (workspaceId, workspaces) := EnsureWorkspace(t.workspaces, req.userId, req.workspaceName, newWorkspaceId);
      var row := TeacherProfile(req.userId, workspaceId, req.displayName, selected, req.gradeLevels, Some(now));
      (Ok(row), t.(schools := schools, workspaces := workspaces, profiles := UpsertProfile(t.profiles, row)))
  }

  /** `POST /api/onboarding/teacher` over the tables. */
  function SaveTeacherSpec(t: Tables, body: TeacherBody, newSchoolId: Id, newWorkspaceId: Id, now: int)
    : (Reply<TeacherProfile>, Tables)
  {
    SaveRequest(t, RequestOf(body), newSchoolId, newWorkspaceId, now)
  }

  /** The school step on the database. */
  method ResolveSchoolRows(db: Database, userId: Id, choice: SchoolChoice, newSchoolId: Id) returns (selected: Option<Id>)
    modifies db
    ensures (selected, db.schools) == ResolveSchool(old(db.schools), userId, choice, newSchoolId)
    ensures db.Snapshot() == old(db.Snapshot()).(schools := db.schools)
  {
    match choice {
      case GivenId(id) =>
        selected := Some(id);
      case NoSchool(emptyId) =>
        selected := StoredId(emptyId);
      case GivenName(name, normalizedName) =>
        var existing := FirstWhere(db.schools, SchoolNamed(normalizedName));
        if existing.Some? {
          selected := Some(db.schools[existing.value].id);
        } else {
          db.schools := db.schools + [School(newSchoolId, name, normalizedName, None, None, Some(userId))];
          selected := Some(newSchoolId);
        }
    }
  }

  /** The workspace step on the database. */
  method EnsureWorkspaceRows(db: Database, userId: Id, name: string, newWorkspaceId: Id) returns (workspaceId: Id)
    modifies db
    ensures (workspaceId, db.workspaces) == EnsureWorkspace(old(db.workspaces), userId, name, newWorkspaceId)
    ensures db.Snapshot() == old(db.Snapshot()).(workspaces := db.workspaces)
  {
    var owned := FirstWhere(db.workspaces, OwnerIs(userId));
    if owned.Some? {
      workspaceId := db.workspaces[owned.value].id;
    } else {
      workspaceId := newWorkspaceId;
      db.workspaces := db.workspaces + [Workspace(newWorkspaceId, userId, DEFAULT_WORKSPACE_TYPE, name)];
    }
  }

  /** The profile step on the database. */
  method UpsertProfileRows(db: Database, row: TeacherProfile)
    modifies db
    ensures db.Snapshot() == old(db.Snapshot()).(profiles := UpsertProfile(old(db.profiles), row))
  {
    var current := FirstWhere(db.profiles, ProfileOf(row.userId));
    if current.Some? {
      db.profiles := db.profiles[current.value := row];
    } else {
      db.profiles := db.profiles + [row];
    }
  }

  method SaveRequestRows(db: Database, req: TeacherRequest, newSchoolId: Id, newWorkspaceId: Id, now: int)
    returns (r: Reply<TeacherProfile>)
    modifies db
    ensures (r, db.Snapshot()) == SaveRequest(old(db.Snapshot()), req, newSchoolId, newWorkspaceId, now)
  {
    var selected := ResolveSchoolRows(db, req.userId, req.choice, newSchoolId);
    if selected.Some? && selected.value != [] && FirstWhere(db.schools, SchoolIdIs(selected.value)).None? {
      ResolvedSchoolExists(old(db.schools), req.userId, req.choice, newSchoolId);
      return Fail(400, SCHOOL_NOT_FOUND);
    }
    var workspaceId := EnsureWorkspaceRows(db, req.userId, req.workspaceName, newWorkspaceId);
    var row := TeacherProfile(req.userId, workspaceId, req.displayName, selected, req.gradeLevels, Some(now));
    UpsertProfileRows(db, row);
    r := Ok(row);
  }

  method SaveTeacher(db: Database, body: TeacherBody, newSchoolId: Id, newWorkspaceId: Id, now: int)
    returns (r: Reply<TeacherProfile>)
    modifies db
    ensures (r, db.Snapshot()) == SaveTeacherSpec(old(db.Snapshot()), body, newSchoolId, newWorkspaceId, now)
  {
    r := SaveRequestRows(db, RequestOf(body), newSchoolId, newWorkspaceId, now);
  }

  /** A school found or created by name always exists, so only an explicit id can be refused. */
  lemma ResolvedSchoolExists(schools: seq<School>, userId: Id, choice: SchoolChoice, newSchoolId: Id)
    ensures var (selected, schools') := ResolveSchool(schools, userId, choice, newSchoolId);
      (SchoolMissing(schools', selected) <==> choice.GivenId? && choice.id != [] && forall i :: 0 <= i < |schools| ==> schools[i].id != choice.id)
      && (choice.GivenName? ==> exists i :: 0 <= i < |schools'| && schools'[i].id == selected.value
                                           && schools'[i].normalizedName == choice.normalizedName)
      && (!choice.GivenName? ==> schools' == schools && selected == (if choice.GivenId? then Some(choice.id) else StoredId(choice.emptyId)))
  {
    var (selected, schools') := ResolveSchool(schools, userId, choice, newSchoolId);
    if choice.GivenName? {
      match FirstWhere(schools, SchoolNamed(choice.normalizedName))
      case Some(k) =>
        assert SchoolIdIs(selected.value)(schools'[k]);
      case None =>
        assert SchoolIdIs(selected.value)(schools'[|schools|]);
    } else if choice.GivenId? && choice.id != [] {
      var p := SchoolIdIs(choice.id);
      if FirstWhere(schools, p).None? {
        forall i | 0 <= i < |schools| ensures schools[i].id != choice.id {
          assert !p(schools[i]);
        }
      }
    }
  }

  /** The teacher route's outcome: 400 (writing nothing) exactly when an explicit school id
      names no school; otherwise the returned profile carries the user, the trimmed display
      name, the grade levels and the resolved school, and its workspace is one the user owns:
      the existing one, reused, or a new one named after the teacher. */
  lemma SaveRequestOutcome(t: Tables, req: TeacherRequest, newSchoolId: Id, newWorkspaceId: Id, now: int)
    ensures var (r, t') := SaveRequest(t, req, newSchoolId, newWorkspaceId, now);
      var ownsOne := exists i :: 0 <= i < |t.workspaces| && t.workspaces[i].ownerUserId == req.userId;
      (r.Fail? <==> req.choice.GivenId? && req.choice.id != [] && forall i :: 0 <= i < |t.schools| ==> t.schools[i].id != req.choice.id)
      && (r.Fail? ==> r == Fail(400, SCHOOL_NOT_FOUND) && t' == t)
      && (r.Ok? ==>
            r.value.userId == req.userId && r.value.displayName == req.displayName
            && r.value.gradeLevels == req.gradeLevels && r.value.onboardedAt == Some(now)
            && (req.choice.GivenId? ==> r.value.schoolId == Some(req.choice.id))
            && (req.choice.NoSchool? ==> r.value.schoolId == StoredId(req.choice.emptyId))
            && (req.choice.GivenName? ==> exists i :: 0 <= i < |t'.schools| && Some(t'.schools[i].id) == r.value.schoolId
                                                     && t'.schools[i].normalizedName == req.choice.normalizedName)
            && (exists i :: 0 <= i < |t'.workspaces| && t'.workspaces[i].id == r.value.workspaceId
                            && t'.workspaces[i].ownerUserId == req.userId)
            && (ownsOne ==> t'.workspaces == t.workspaces)
            && (!ownsOne ==> t'.workspaces == t.workspaces + [Workspace(newWorkspaceId, req.userId, DEFAULT_WORKSPACE_TYPE, req.workspaceName)]))
  {
    ResolvedSchoolExists(t.schools, req.userId, req.choice, newSchoolId);
    EnsureWorkspaceOutcome(t.workspaces, req.userId, req.workspaceName, newWorkspaceId);
  }

  /** The user ends up owning the workspace the step answers: the one already owned, or a new
      one appended when the user owned none. */
  lemma EnsureWorkspaceOutcome(workspaces: seq<Workspace>, userId: Id, name: string, newWorkspaceId: Id)
    ensures var (workspaceId, workspaces') := EnsureWorkspace(workspaces, userId, name, newWorkspaceId);
      var ownsOne := exists i :: 0 <= i < |workspaces| && workspaces[i].ownerUserId == userId;
      (exists i :: 0 <= i < |workspaces'| && workspaces'[i].id == workspaceId && workspaces'[i].ownerUserId == userId)
      && (ownsOne ==> workspaces' == workspaces)
      && (!ownsOne ==> workspaces' == workspaces + [Workspace(newWorkspaceId, userId, DEFAULT_WORKSPACE_TYPE, name)])
  {
    var q := OwnerIs(userId);
    var (workspaceId, workspaces') := EnsureWorkspace(workspaces, userId, name, newWorkspaceId);
    match FirstWhere(workspaces, q)
    case Some(k) =>
      assert workspaces'[k].id == workspaceId && workspaces'[k].ownerUserId == userId;
    case None =>
      forall i | 0 <= i < |workspaces| ensures workspaces[i].ownerUserId != userId {
        assert !q(workspaces[i]);
      }
      assert workspaces'[|workspaces|].id == workspaceId;
  }

  /** The route stores the trimmed display name and names a new workspace after it. */
  lemma SaveTeacherTrims(t: Tables, body: TeacherBody, newSchoolId: Id, newWorkspaceId: Id, now: int)
    ensures var (r, t') := SaveTeacherSpec(t, body, newSchoolId, newWorkspaceId, now);
      r.Ok? ==> r.value.displayName == Trim(body.displayName)
                && (|t'.workspaces| > |t.workspaces| ==> t'.workspaces[|t.workspaces|].name == BuildWorkspaceName(body.displayName))
  {
  }

  // ---------------------------------------------------------------- the teacher save keeps the tables valid

  /** With unique workspace ids, the owner `OwnerOf` reports is the owner of the row. */
  lemma OwnerOfRow(workspaces: seq<Workspace>, i: nat)
    requires KeysUnique(workspaces, WorkspaceIdOf) && i < |workspaces|
    ensures OwnerOf(workspaces, workspaces[i].id) == Some(workspaces[i].ownerUserId)
  {
    var o := OwnerOf(workspaces, workspaces[i].id);
    var j :| 0 <= j < |workspaces| && workspaces[j].id == workspaces[i].id && workspaces[j].ownerUserId == o.value;
    UniqueKeyRow(workspaces, WorkspaceIdOf, i, j);
  }

  /** Creating the workspace only when the user owns none keeps both workspace keys unique and
      every profile's owner as it was, and leaves the user owning the workspace named. */
  lemma EnsureWorkspaceKeepsOwners(t: Tables, userId: Id, name: string, newWorkspaceId: Id)
    requires TablesValid(t) && KeyFree(t.workspaces, WorkspaceIdOf, newWorkspaceId)
    ensures var (workspaceId, workspaces) := EnsureWorkspace(t.workspaces, userId, name, newWorkspaceId);
      KeysUnique(workspaces, WorkspaceIdOf) && KeysUnique(workspaces, WorkspaceOwnerKey)
      && ProfilesOwnWorkspaces(t.profiles, workspaces)
      && OwnerOf(workspaces, workspaceId) == Some(userId)
  {
    var (workspaceId, workspaces) := EnsureWorkspace(t.workspaces, userId, name, newWorkspaceId);
    var q := OwnerIs(userId);
    match FirstWhere(t.workspaces, q)
    case Some(k) =>
      OwnerOfRow(workspaces, k);
    case None =>
      var row := Workspace(newWorkspaceId, userId, DEFAULT_WORKSPACE_TYPE, name);
      forall i | 0 <= i < |t.workspaces| ensures WorkspaceOwnerKey(t.workspaces[i]) != userId {
        assert !q(t.workspaces[i]);
      }
      AppendKeepsUnique(t.workspaces, WorkspaceIdOf, row);
      AppendKeepsUnique(t.workspaces, WorkspaceOwnerKey, row);
      OwnerOfRow(workspaces, |t.workspaces|);
      forall i | 0 <= i < |t.profiles| ensures OwnerOf(workspaces, t.profiles[i].workspaceId) == Some(t.profiles[i].userId) {
        var w := t.profiles[i].workspaceId;
        var j :| 0 <= j < |t.workspaces| && t.workspaces[j].id == w && t.workspaces[j].ownerUserId == t.profiles[i].userId;
        assert workspaces[j] == t.workspaces[j];
        OwnerOfRow(workspaces, j);
      }
  }

  /** Upserting the profile of a user into a workspace the user owns keeps one profile per user,
      one per workspace, and every profile in its owner's workspace. */
  lemma UpsertProfileKeepsOwners(profiles: seq<TeacherProfile>, workspaces: seq<Workspace>, row: TeacherProfile)
    requires KeysUnique(profiles, ProfileUserKey) && KeysUnique(profiles, ProfileWorkspaceKey)
    requires ProfilesOwnWorkspaces(profiles, workspaces) && OwnerOf(workspaces, row.workspaceId) == Some(row.userId)
    ensures var profiles' := UpsertProfile(profiles, row);
      KeysUnique(profiles', ProfileUserKey) && KeysUnique(profiles', ProfileWorkspaceKey)
      && ProfilesOwnWorkspaces(profiles', workspaces)
  {
    var p := ProfileOf(row.userId);
    match FirstWhere(profiles, p)
    case Some(k) =>
      UpdateKeepsUnique(profiles, ProfileUserKey, k, row);
      var profiles' := profiles[k := row];
      forall i, j | 0 <= i < |profiles'| && 0 <= j < |profiles'| && profiles'[i].workspaceId == profiles'[j].workspaceId
        ensures i == j
      {
        if i != k && j != k {
          assert ProfileWorkspaceKey(profiles[i]) == ProfileWorkspaceKey(profiles[j]);
        }
      }
    case None =>
      forall i | 0 <= i < |profiles| ensures ProfileUserKey(profiles[i]) != row.userId {
        assert !p(profiles[i]);
      }
      forall i | 0 <= i < |profiles| ensures ProfileWorkspaceKey(profiles[i]) != row.workspaceId {
        assert OwnerOf(workspaces, profiles[i].workspaceId) == Some(profiles[i].userId);
      }
      AppendKeepsUnique(profiles, ProfileUserKey, row);
      AppendKeepsUnique(profiles, ProfileWorkspaceKey, row);
  }

  /** Saving a teacher with fresh school and workspace ids keeps every table invariant. */
  lemma SaveRequestKeepsValid(t: Tables, req: TeacherRequest, newSchoolId: Id, newWorkspaceId: Id, now: int)
    requires TablesValid(t) && KeyFree(t.schools, SchoolIdOf, newSchoolId) && KeyFree(t.workspaces, WorkspaceIdOf, newWorkspaceId)
    ensures TablesValid(SaveRequest(t, req, newSchoolId, newWorkspaceId, now).1)
  {
    var (selected, schools) := ResolveSchool(t.schools, req.userId, req.choice, newSchoolId);
    if !SchoolMissing(schools, selected) {
      if req.choice.GivenName? {
        var p := SchoolNamed(req.choice.normalizedName);
        if FirstWhere(t.schools, p).None? {
          var row := School(newSchoolId, req.choice.name, req.choice.normalizedName, None, None, Some(req.userId));
          forall i | 0 <= i < |t.schools| ensures SchoolNameKey(t.schools[i]) != req.choice.normalizedName {
            assert !p(t.schools[i]);
          }
          AppendKeepsUnique(t.schools, SchoolIdOf, row);
          AppendKeepsUnique(t.schools, SchoolNameKey, row);
        }
      }
      EnsureWorkspaceKeepsOwners(t, req.userId, req.workspaceName, newWorkspaceId);
      var (workspaceId, workspaces) := EnsureWorkspace(t.workspaces, req.userId, req.workspaceName, newWorkspaceId);
      var row := TeacherProfile(req.userId, workspaceId, req.displayName, selected, req.gradeLevels, Some(now));
      UpsertProfileKeepsOwners(t.profiles, workspaces, row);
    }
  }

  // ---------------------------------------------------------------- GET /teacher/:userId

  /** The profile columns with the left-joined school name. */
  datatype ProfileWithSchool = ProfileWithSchool(profile: TeacherProfile, schoolName: Option<string>)

  /** The user's profile, restricted to the workspace when one is given. */
  function ProfileIn(userId: Id, workspaceId: Option<Id>): TeacherProfile -> bool {
    (p: TeacherProfile) => p.userId == userId && (workspaceId.None? || workspaceId.value == [] || p.workspaceId == workspaceId.value)
  }

  /** `GET /api/onboarding/teacher/:userId?workspaceId=`: the user's profile (in that workspace,
      when a non-empty one is given) with the name of its school, or null. */
  function GetTeacher(t: Tables, userId: Id, workspaceId: Option<Id>): (r: Option<ProfileWithSchool>)
    ensures r.None? <==> forall i :: 0 <= i < |t.profiles| ==> !ProfileIn(userId, workspaceId)(t.profiles[i])
    ensures r.Some? ==> r.value.profile in t.profiles && r.value.profile.userId == userId
    ensures r.Some? && workspaceId.Some? && workspaceId.value != [] ==> r.value.profile.workspaceId == workspaceId.value
    ensures r.Some? ==> (r.value.schoolName.Some? <==>
                           (r.value.profile.schoolId.Some?
                            && exists i :: 0 <= i < |t.schools| && t.schools[i].id == r.value.profile.schoolId.value))
  {
    match FirstWhere(t.profiles, ProfileIn(userId, workspaceId))
    case None => None
    case Some(k) =>
      var profile := t.profiles[k];
      var school := if profile.schoolId.Some? then FirstWhere(t.schools, SchoolIdIs(profile.schoolId.value)) else None;
      if school.Some? then
        Some(ProfileWithSchool(profile, Some(t.schools[school.value].name)))
      else
        assert profile.schoolId.Some? ==> forall i :: 0 <= i < |t.schools| ==> !SchoolIdIs(profile.schoolId.value)(t.schools[i]);
        Some(ProfileWithSchool(profile, None))
  }

  /** After an upsert under unique user ids, the user's profile read back (without a workspace,
      or with the row's own) is the upserted row. */
  lemma UpsertThenFind(profiles: seq<TeacherProfile>, row: TeacherProfile, workspaceId: Option<Id>)
    requires KeysUnique(profiles, ProfileUserKey)
    requires workspaceId.None? || workspaceId.value == [] || workspaceId.value == row.workspaceId
    ensures var profiles' := UpsertProfile(profiles, row);
      KeysUnique(profiles', ProfileUserKey)
      && exists k :: FirstWhere(profiles', ProfileIn(row.userId, workspaceId)) == Some(k) && profiles'[k] == row
  {
    var q := ProfileOf(row.userId);
    var profiles' := UpsertProfile(profiles, row);
    var found := FirstWhere(profiles, q);
    var k: nat;
    if found.Some? {
      k := found.value;
      assert profiles' == profiles[k := row];
      UpdateKeepsUnique(profiles, ProfileUserKey, k, row);
    } else {
      k := |profiles|;
      assert profiles' == profiles + [row];
      forall i | 0 <= i < |profiles| ensures ProfileUserKey(profiles[i]) != row.userId {
        assert !q(profiles[i]);
      }
      AppendKeepsUnique(profiles, ProfileUserKey, row);
    }
    assert KeysUnique(profiles', ProfileUserKey);
    var p := ProfileIn(row.userId, workspaceId);
    assert profiles'[k] == row;
    forall i | 0 <= i < |profiles'| && p(profiles'[i]) ensures i == k {
      UniqueKeyRow(profiles', ProfileUserKey, i, k);
    }
    FirstWhereUnique(profiles', p, k);
    assert FirstWhere(profiles', ProfileIn(row.userId, workspaceId)) == Some(k) && profiles'[k] == row;
  }

  /** What a save stores is what a read returns: after a successful save the user's profile,
      read without a workspace or with the saved workspace, is the saved row. */
  lemma SaveThenGet(t: Tables, req: TeacherRequest, newSchoolId: Id, newWorkspaceId: Id, now: int, workspaceId: Option<Id>)
    requires KeysUnique(t.profiles, ProfileUserKey)
    ensures var (r, t') := SaveRequest(t, req, newSchoolId, newWorkspaceId, now);
      r.Ok? && (workspaceId.None? || workspaceId.value == [] || workspaceId.value == r.value.workspaceId) ==>
        GetTeacher(t', req.userId, workspaceId).Some? && GetTeacher(t', req.userId, workspaceId).value.profile == r.value
  {
    var (r, t') := SaveRequest(t, req, newSchoolId, newWorkspaceId, now);
    if r.Ok? && (workspaceId.None? || workspaceId.value == [] || workspaceId.value == r.value.workspaceId) {
      UpsertThenFind(t.profiles, r.value, workspaceId);
    }
  }
}

=== FILE: schema.dfy ===
/** The workspace tables of apps/backend/src/db/workspace-schema.ts as row datatypes, the column
    defaults the handlers rely on, and the unique constraints as invariants over the rows.
    Creation and update timestamps are not modelled; a table's row order stands for insertion
    order. */
module WorkspaceSchema {
  import opened Common

  // ---------------------------------------------------------------- enumerated columns

  datatype ActorType = Student | Parent
  datatype QuestionType = Mcq | MultiSelect | ShortText | TrueFalse
  datatype Difficulty = Easy | Medium | Hard
  datatype FeedbackMode = Immediate | AfterSubmission | AfterDueDate
  datatype SourceType = Manual | Bank
  datatype TestStatus = Draft | Published
  datatype AssignmentStatus = Assigned | Started | Submitted
  datatype AttemptStatus = AttemptStarted | AttemptSubmitted

  // ---------------------------------------------------------------- column defaults

  const DEFAULT_TEST_STATUS: TestStatus := Draft
  const DEFAULT_QUESTION_COUNT_TARGET := 10
  const DEFAULT_ATTEMPT_LIMIT := 1
  const DEFAULT_FEEDBACK_MODE: FeedbackMode := AfterSubmission
  const DEFAULT_MAX_SCORE := 100
  const DEFAULT_MEMBERSHIP_STATUS := "active"
  const DEFAULT_ASSIGNMENT_STATUS: AssignmentStatus := Assigned
  const DEFAULT_ATTEMPT_STATUS: AttemptStatus := AttemptStarted
  const DEFAULT_POINTS := 1
  const DEFAULT_QUESTION_DIFFICULTY: Difficulty := Medium
  const DEFAULT_ESTIMATED_TIME_SECONDS := 60
  const DEFAULT_BANK_STATUS := "draft"
  const DEFAULT_WORKSPACE_TYPE := "teacher"

  // ---------------------------------------------------------------- rows

  datatype School = School(id: Id, name: string, normalizedName: string, city: Option<string>,
                           country: Option<string>, createdByUserId: Option<Id>)

  datatype Workspace = Workspace(id: Id, ownerUserId: Id, kind: string, name: string)

  datatype TeacherProfile = TeacherProfile(userId: Id, workspaceId: Id, displayName: string,
                                           schoolId: Option<Id>, gradeLevels: seq<string>,
                                           onboardedAt: Option<int>)

  datatype LearnerAccount = LearnerAccount(id: Id, email: string, normalizedEmail: string,
                                           displayName: string)

  /** A row of `workspace_learners`: a learner's link to a workspace, in one role. */
  datatype WorkspaceLearner = WorkspaceLearner(id: Id, workspaceId: Id, learnerId: Id,
                                               actorType: ActorType)

  datatype Invite = Invite(id: Id, token: string, workspaceId: Id, createdByUserId: Id,
                           studentName: Option<string>, expiresAt: int, claimedAt: Option<int>,
                           claimedByLearnerId: Option<Id>, claimedByActorType: Option<ActorType>)

  /** A row of `tests`; `published` is the text column `"true"`/`"false"`. */
  datatype Test = Test(id: Id, workspaceId: Id, classroomId: Option<Id>,
                       targetLearnerId: Option<Id>, title: string, description: Option<string>,
                       grade: Option<string>, subject: Option<string>, topic: Option<string>,
                       objective: Option<string>, status: TestStatus, questionCountTarget: int,
                       timeLimitMins: Option<int>, attemptLimit: int, feedbackMode: FeedbackMode,
                       shuffleQuestions: bool, shuffleOptions: bool, maxScore: int,
                       startsAt: Option<int>, endsAt: Option<int>, published: bool,
                       createdByUserId: Id)

  datatype Classroom = Classroom(id: Id, workspaceId: Id, name: string, grade: string,
                                 createdByUserId: Id)

  /** A row of `classroom_students`: a learner's membership of a classroom. */
  datatype ClassroomStudent = ClassroomStudent(id: Id, classroomId: Id, workspaceId: Id,
                                               learnerId: Id, status: string)

  datatype TestAssignment = TestAssignment(id: Id, testId: Id, workspaceId: Id, classroomId: Id,
                                           learnerId: Id, status: AssignmentStatus,
                                           assignedAt: int)

  datatype QuestionBankItem = QuestionBankItem(id: Id, workspaceId: Id, createdByUserId: Id,
                                               grade: string, subject: string, topic: string,
                                               skill: string, difficulty: Difficulty,
                                               questionType: QuestionType, prompt: string,
                                               options: Option<seq<string>>,
                                               correctAnswers: seq<string>,
                                               explanation: Option<string>, tags: seq<string>,
                                               estimatedTimeSeconds: int, status: string)

  datatype TestQuestion = TestQuestion(id: Id, testId: Id, workspaceId: Id,
                                       questionBankItemId: Option<Id>, sourceType: SourceType,
                                       questionType: QuestionType, prompt: string,
                                       options: Option<seq<string>>, correctAnswers: seq<string>,
                                       explanation: Option<string>, difficulty: Difficulty,
                                       skill: Option<string>, points: int, position: int,
                                       createdByUserId: Id)

  /** A row of `test_attempts`; the text `score` column holds the submitted number. */
  datatype TestAttempt = TestAttempt(id: Id, testId: Id, workspaceId: Id, learnerId: Id,
                                     actorType: ActorType, status: AttemptStatus, startedAt: int,
                                     submittedAt: Option<int>, score: Option<real>)

  // ---------------------------------------------------------------- keys

  function SchoolIdOf(r: School): Id { r.id }
  function SchoolNameKey(r: School): string { r.normalizedName }
  function WorkspaceIdOf(r: Workspace): Id { r.id }
  function WorkspaceOwnerKey(r: Workspace): Id { r.ownerUserId }
  function ProfileUserKey(r: TeacherProfile): Id { r.userId }
  function ProfileWorkspaceKey(r: TeacherProfile): Id { r.workspaceId }
  function LearnerIdOf(r: LearnerAccount): Id { r.id }
  function LearnerEmailKey(r: LearnerAccount): string { r.normalizedEmail }
  function LinkIdOf(r: WorkspaceLearner): Id { r.id }
  function LinkKey(r: WorkspaceLearner): (Id, Id) { (r.workspaceId, r.learnerId) }
  function InviteIdOf(r: Invite): Id { r.id }
  function InviteTokenKey(r: Invite): string { r.token }
  function TestIdOf(r: Test): Id { r.id }
  function ClassroomIdOf(r: Classroom): Id { r.id }
  function ClassroomKey(r: Classroom): (Id, string, string) { (r.workspaceId, r.name, r.grade) }
  function MembershipIdOf(r: ClassroomStudent): Id { r.id }
  function MembershipKey(r: ClassroomStudent): (Id, Id) { (r.classroomId, r.learnerId) }
  function AssignmentIdOf(r: TestAssignment): Id { r.id }
  function AssignmentKey(r: TestAssignment): (Id, Id) { (r.testId, r.learnerId) }
  function BankItemIdOf(r: QuestionBankItem): Id { r.id }
  function QuestionIdOf(r: TestQuestion): Id { r.id }
  function QuestionPositionKey(r: TestQuestion): (Id, int) { (r.testId, r.position) }
  function AttemptIdOf(r: TestAttempt): Id { r.id }
  function AttemptKey(r: TestAttempt): (Id, Id, Id) { (r.testId, r.learnerId, r.workspaceId) }

  /** No two rows share a key: a unique index or primary key over `rows`. */
  predicate KeysUnique<T, K(==)>(rows: seq<T>, key: T -> K) {
    forall i, j :: 0 <= i < |rows| && 0 <= j < |rows| && key(rows[i]) == key(rows[j]) ==> i == j
  }

  /** The key is not yet taken in `rows`. */
  predicate KeyFree<T, K(==)>(rows: seq<T>, key: T -> K, k: K) {
    forall i :: 0 <= i < |rows| ==> key(rows[i]) != k
  }

  /** Appending a row whose key is free keeps the keys unique. */
  lemma AppendKeepsUnique<T, K>(rows: seq<T>, key: T -> K, row: T)
    requires KeysUnique(rows, key) && KeyFree(rows, key, key(row))
    ensures KeysUnique(rows + [row], key)
  {
    var rows' := rows + [row];
    forall i, j | 0 <= i < |rows'| && 0 <= j < |rows'| && key(rows'[i]) == key(rows'[j])
      ensures i == j
    {
      if i < |rows| && j < |rows| {
        assert rows'[i] == rows[i] && rows'[j] == rows[j];
      }
    }
  }

  /** Replacing a row by one with the same key keeps the keys unique. */
  lemma UpdateKeepsUnique<T, K>(rows: seq<T>, key: T -> K, k: nat, row: T)
    requires KeysUnique(rows, key) && k < |rows| && key(row) == key(rows[k])
    ensures KeysUnique(rows[k := row], key)
  {
    var rows' := rows[k := row];
    forall i, j | 0 <= i < |rows'| && 0 <= j < |rows'| && key(rows'[i]) == key(rows'[j])
      ensures i == j
    {
      assert key(rows'[i]) == key(rows[i]) && key(rows'[j]) == key(rows[j]);
    }
  }

  /** When keys are unique, a row carrying a key is the only one that does. */
  lemma UniqueKeyRow<T, K>(rows: seq<T>, key: T -> K, i: nat, j: nat)
    requires KeysUnique(rows, key) && i < |rows| && j < |rows| && key(rows[i]) == key(rows[j])
    ensures i == j
  {
  }

  // ---------------------------------------------------------------- lookups

  /** The learner account with this normalised e-mail. */
  function EmailIs(normalizedEmail: string): LearnerAccount -> bool {
    (l: LearnerAccount) => l.normalizedEmail == normalizedEmail
  }

  /** The test with this id, in any workspace. */
  function TestIdIs(testId: Id): Test -> bool {
    (x: Test) => x.id == testId
  }

  /** The index of the first row satisfying `p`: a `select ... where p limit 1`. */
  function FirstWhere<T>(rows: seq<T>, p: T -> bool): (r: Option<nat>)
    ensures r.Some? ==> r.value < |rows| && p(rows[r.value])
    ensures r.Some? ==> forall i :: 0 <= i < r.value ==> !p(rows[i])
    ensures r.None? <==> forall i :: 0 <= i < |rows| ==> !p(rows[i])
    decreases |rows|
  {
    if rows == [] then None
    else if p(rows[0]) then Some(0)
    else
      var rest := FirstWhere(rows[1..], p);
      if rest.None? then None else Some(rest.value + 1)
  }

  /** `FirstWhere` of a filter that can match only one row finds that row. */
  lemma FirstWhereUnique<T>(rows: seq<T>, p: T -> bool, k: nat)
    requires k < |rows| && p(rows[k])
    requires forall i :: 0 <= i < |rows| && p(rows[i]) ==> i == k
    ensures FirstWhere(rows, p) == Some(k)
  {
  }

  /** Two tables whose rows match a filter at the same places have the same first match. */
  lemma FirstWhereSameMatches<T>(rows: seq<T>, rows': seq<T>, p: T -> bool)
    requires |rows| == |rows'| && forall i :: 0 <= i < |rows| ==> p(rows[i]) == p(rows'[i])
    ensures FirstWhere(rows, p) == FirstWhere(rows', p)
  {
  }

  /** Appending a row that does not match leaves the first match where it was. */
  lemma FirstWhereAppendMiss<T>(rows: seq<T>, p: T -> bool, x: T)
    requires !p(x)
    ensures FirstWhere(rows + [x], p) == FirstWhere(rows, p)
  {
    FirstWhereSameMatchesPrefix(rows, rows + [x], p);
  }

  /** A first match found in a prefix is the first match of the whole. */
  lemma FirstWhereSameMatchesPrefix<T>(rows: seq<T>, rows': seq<T>, p: T -> bool)
    requires |rows| <= |rows'| && rows'[..|rows|] == rows
    requires forall i :: |rows| <= i < |rows'| ==> !p(rows'[i])
    ensures FirstWhere(rows, p) == FirstWhere(rows', p)
  {
    var f, f' := FirstWhere(rows, p), FirstWhere(rows', p);
    if f.Some? {
      assert rows'[f.value] == rows[f.value];
    }
    if f'.Some? {
      assert rows[f'.value] == rows'[f'.value];
    }
  }

  /** Appending the first matching row makes it the first match. */
  lemma FirstWhereAppendHit<T>(rows: seq<T>, p: T -> bool, x: T)
    requires FirstWhere(rows, p).None? && p(x)
    ensures FirstWhere(rows + [x], p) == Some(|rows|)
  {
    var r := rows + [x];
    assert r[|rows|] == x;
    forall i | 0 <= i < |rows| ensures !p(r[i]) {
      assert r[i] == rows[i];
    }
  }

  /** The owner of the workspace with the given id, if there is one. */
  function OwnerOf(workspaces: seq<Workspace>, workspaceId: Id): (owner: Option<Id>)
    ensures owner.Some? <==> exists i :: 0 <= i < |workspaces| && workspaces[i].id == workspaceId
    ensures owner.Some? ==>
      exists i :: 0 <= i < |workspaces| && workspaces[i].id == workspaceId && workspaces[i].ownerUserId == owner.value
    decreases |workspaces|
  {
    if workspaces == [] then None
    else if workspaces[0].id == workspaceId then Some(workspaces[0].ownerUserId)
    else
      var rest := OwnerOf(workspaces[1..], workspaceId);
      assert forall i :: 0 <= i < |workspaces| - 1 ==> workspaces[1..][i] == workspaces[i + 1];
      rest
  }

  // ---------------------------------------------------------------- the database

  /** All tables, as values. */
  datatype Tables = Tables(
    schools: seq<School>,
    workspaces: seq<Workspace>,
    profiles: seq<TeacherProfile>,
    learners: seq<LearnerAccount>,
    links: seq<WorkspaceLearner>,
    invites: seq<Invite>,
    tests: seq<Test>,
    classrooms: seq<Classroom>,
    memberships: seq<ClassroomStudent>,
    assignments: seq<TestAssignment>,
    bank: seq<QuestionBankItem>,
    questions: seq<TestQuestion>,
    attempts: seq<TestAttempt>)

  const EmptyTables := Tables([], [], [], [], [], [], [], [], [], [], [], [], [])

  /** The attempt row, if any, of a learner on a test in a workspace. */
  function AttemptFor(testId: Id, workspaceId: Id, learnerId: Id): TestAttempt -> bool {
    (a: TestAttempt) => a.testId == testId && a.workspaceId == workspaceId && a.learnerId == learnerId
  }

  /** The assignment row, if any, of a learner on a test in a workspace. */
  function AssignmentFor(testId: Id, workspaceId: Id, learnerId: Id): TestAssignment -> bool {
    (a: TestAssignment) => a.testId == testId && a.workspaceId == workspaceId && a.learnerId == learnerId
  }

  /** The attempt status an assignment shows once an attempt exists. */
  function Mirror(s: AttemptStatus): AssignmentStatus {
    match s
    case AttemptStarted => Started
    case AttemptSubmitted => Submitted
  }

  /** An assignment shows `assigned` while no attempt exists for its (test, workspace, learner),
      and otherwise the status of the first such attempt. */
  predicate ShowsAttempt(a: TestAssignment, attempts: seq<TestAttempt>) {
    match FirstWhere(attempts, AttemptFor(a.testId, a.workspaceId, a.learnerId))
    case None => a.status == Assigned
    case Some(k) => a.status == Mirror(attempts[k].status)
  }

  /** An attempt belongs to an assignment of the same (test, workspace, learner). */
  predicate HasItsAssignment(t: TestAttempt, assignments: seq<TestAssignment>) {
    FirstWhere(assignments, AssignmentFor(t.testId, t.workspaceId, t.learnerId)).Some?
  }

  /** The per-(test, learner) state machine `assigned -> started -> submitted`: every assignment
      shows its attempt's status, and every attempt belongs to an assignment. */
  predicate Lifecycle(assignments: seq<TestAssignment>, attempts: seq<TestAttempt>) {
    (forall i :: 0 <= i < |assignments| ==> ShowsAttempt(assignments[i], attempts))
    && (forall k :: 0 <= k < |attempts| ==> HasItsAssignment(attempts[k], assignments))
  }

  /** Every teacher profile points at the workspace its own user owns. */
  predicate ProfilesOwnWorkspaces(profiles: seq<TeacherProfile>, workspaces: seq<Workspace>) {
    forall i :: 0 <= i < |profiles| ==> OwnerOf(workspaces, profiles[i].workspaceId) == Some(profiles[i].userId)
  }

  /** The unique indexes and primary keys of workspace-schema.ts. */
  predicate SchemaValid(t: Tables) {
    KeysUnique(t.schools, SchoolIdOf) && KeysUnique(t.schools, SchoolNameKey)
    && KeysUnique(t.workspaces, WorkspaceIdOf) && KeysUnique(t.workspaces, WorkspaceOwnerKey)
    && KeysUnique(t.profiles, ProfileUserKey) && KeysUnique(t.profiles, ProfileWorkspaceKey)
    && KeysUnique(t.learners, LearnerIdOf) && KeysUnique(t.learners, LearnerEmailKey)
    && KeysUnique(t.links, LinkIdOf) && KeysUnique(t.links, LinkKey)
    && KeysUnique(t.invites, InviteIdOf) && KeysUnique(t.invites, InviteTokenKey)
    && KeysUnique(t.tests, TestIdOf)
    && KeysUnique(t.classrooms, ClassroomIdOf) && KeysUnique(t.classrooms, ClassroomKey)
    && KeysUnique(t.memberships, MembershipIdOf) && KeysUnique(t.memberships, MembershipKey)
    && KeysUnique(t.assignments, AssignmentIdOf) && KeysUnique(t.assignments, AssignmentKey)
    && KeysUnique(t.bank, BankItemIdOf)
    && KeysUnique(t.questions, QuestionIdOf) && KeysUnique(t.questions, QuestionPositionKey)
    && KeysUnique(t.attempts, AttemptIdOf) && KeysUnique(t.attempts, AttemptKey)
  }

  /** The invariant every handler keeps: the schema's constraints, every learner id non-empty,
      profiles tied to their owners' workspaces, and the assignment/attempt state machine. */
  predicate TablesValid(t: Tables) {
    SchemaValid(t)
    && (forall i :: 0 <= i < |t.learners| ==> t.learners[i].id != [])
    && ProfilesOwnWorkspaces(t.profiles, t.workspaces)
    && Lifecycle(t.assignments, t.attempts)
  }

  /** The bank table takes part in no invariant but its own primary key. */
  lemma BankChangeKeepsValid(t: Tables, bank: seq<QuestionBankItem>)
    requires TablesValid(t) && KeysUnique(bank, BankItemIdOf)
    ensures TablesValid(t.(bank := bank))
  {
    var t' := t.(bank := bank);
    assert t'.assignments == t.assignments && t'.attempts == t.attempts;
    assert t'.profiles == t.profiles && t'.workspaces == t.workspaces && t'.learners == t.learners;
  }

  /** The empty database satisfies the invariant. */
  lemma EmptyTablesValid()
    ensures TablesValid(EmptyTables)
  {
  }

  /** The database: one sequence field per table, updated in place by the handlers. */
  class Database {
    var schools: seq<School>
    var workspaces: seq<Workspace>
    var profiles: seq<TeacherProfile>
    var learners: seq<LearnerAccount>
    var links: seq<WorkspaceLearner>
    var invites: seq<Invite>
    var tests: seq<Test>
    var classrooms: seq<Classroom>
    var memberships: seq<ClassroomStudent>
    var assignments: seq<TestAssignment>
    var bank: seq<QuestionBankItem>
    var questions: seq<TestQuestion>
    var attempts: seq<TestAttempt>

    /** The current contents of every table. */
    function Snapshot(): Tables
      reads this
    {
      Tables(schools, workspaces, profiles, learners, links, invites, tests, classrooms,
             memberships, assignments, bank, questions, attempts)
    }

    predicate Valid()
      reads this
    {
      TablesValid(Snapshot())
    }

    /** An empty database. */
    constructor ()
      ensures Snapshot() == EmptyTables && Valid()
    {
      schools, workspaces, profiles, learners, links, invites := [], [], [], [], [], [];
      tests, classrooms, memberships, assignments, bank, questions, attempts := [], [], [], [], [], [], [];
      EmptyTablesValid();
    }
  }
}

=== FILE: security_headers.dfy ===
/** The `onAfterHandle` hook of apps/backend/src/middleware/security-headers.ts: four fixed
    hardening headers on every response, plus a locked-down Content-Security-Policy everywhere
    except under `/docs`. */
module SecurityHeaders {
  import opened Common

  const CSP_NON_DOCS := "default-src 'none'; frame-ancestors 'none'; base-uri 'none'; form-action 'none'"
  const CSP_HEADER := "Content-Security-Policy"

  /** The headers the hook always writes, with their values. */
  const FixedHeaders: map<string, string> := map[
    "X-Content-Type-Options" := "nosniff",
    "Referrer-Policy" := "no-referrer",
    "X-Frame-Options" := "DENY",
    "Permissions-Policy" := "camera=(), microphone=(), geolocation=(), payment=(), usb=()"
  ]

  predicate IsDocsPath(path: string) {
    "/docs" <= path
  }

  /** The response headers after the hook has run on a response to `path`. */
  function Secured(headers: map<string, string>, path: string): (r: map<string, string>)
    ensures forall k :: k in FixedHeaders ==> k in r && r[k] == FixedHeaders[k]
    ensures !IsDocsPath(path) ==> CSP_HEADER in r && r[CSP_HEADER] == CSP_NON_DOCS
    ensures IsDocsPath(path) ==>
      (CSP_HEADER in r <==> CSP_HEADER in headers) && (CSP_HEADER in headers ==> r[CSP_HEADER] == headers[CSP_HEADER])
    ensures forall k :: k !in FixedHeaders && k != CSP_HEADER ==>
      (k in r <==> k in headers) && (k in headers ==> r[k] == headers[k])
  {
    var fixed := headers["X-Content-Type-Options" := "nosniff"]["Referrer-Policy" := "no-referrer"]
      ["X-Frame-Options" := "DENY"]
      ["Permissions-Policy" := "camera=(), microphone=(), geolocation=(), payment=(), usb=()"];
    if IsDocsPath(path) then fixed else fixed[CSP_HEADER := CSP_NON_DOCS]
  }

  /** Running the hook twice leaves the same headers as running it once. */
  lemma SecuredIdempotent(headers: map<string, string>, path: string)
    ensures Secured(Secured(headers, path), path) == Secured(headers, path)
  {
    var once := Secured(headers, path);
    var twice := Secured(once, path);
    assert twice.Keys == once.Keys;
    forall k | k in once ensures twice[k] == once[k] {
      if k == CSP_HEADER && !IsDocsPath(path) {
        assert twice[k] == CSP_NON_DOCS;
      }
    }
  }

  /** `onAfterHandle(({ request, set }) => ...)`, with the request path passed in. */
  method OnAfterHandle(response: ResponseContext, path: string)
    modifies response
    ensures response.headers == Secured(old(response.headers), path)
    ensures response.status == old(response.status)
  {
    response.headers := response.headers["X-Content-Type-Options" := "nosniff"];
    response.headers := response.headers["Referrer-Policy" := "no-referrer"];
    response.headers := response.headers["X-Frame-Options" := "DENY"];
    response.headers := response.headers["Permissions-Policy" :=
      "camera=(), microphone=(), geolocation=(), payment=(), usb=()"];
    if !IsDocsPath(path) {
      response.headers := response.headers[CSP_HEADER := CSP_NON_DOCS];
    }
  }
}

=== FILE: server.dfy ===
/** The two pure pieces of the server bootstrap in apps/backend/src/index.ts: the permanent
    redirect from the versioned alias `/api/v1/...` to `/api/...`, and the CORS origin check. */
module Server {
  import opened Common
  import opened Strings
  import Env

  const API_BASE := "/api"
  const API_VERSION := "v1"
  const VERSIONED_API_BASE := API_BASE + "/" + API_VERSION

  datatype Redirect = Redirect(location: string, status: int)

  /** The paths the routes for `/api/v1` and everything below it hand to the redirect. */
  predicate RoutedToRedirect(path: string) {
    path == VERSIONED_API_BASE || VERSIONED_API_BASE + "/" <= path
  }

  /** `redirectVersionedApi(request)` for a request whose URL has the given origin (scheme, host
      and port, as `url.origin` gives it), path and query string (`search` is `""` or starts
      with `?`). The target path starts with `/`, so resolving it against the request URL keeps
      the request's origin and replaces its path and query. */
  function RedirectVersionedApi(origin: string, path: string, search: string): (r: Redirect)
    ensures r.status == 308
    ensures VERSIONED_API_BASE <= path ==>
      r.location == origin + API_BASE + path[|VERSIONED_API_BASE|..] + search
    ensures path == VERSIONED_API_BASE ==> r.location == origin + API_BASE + search
  {
    var suffix := if |path| > |VERSIONED_API_BASE| then path[|VERSIONED_API_BASE|..] else "";
    Redirect(origin + (API_BASE + suffix + search), 308)
  }

  /** The redirect stays on the request's origin, and putting the version segment back into the
      target path gives the requested path; the target path is three characters shorter, so a
      chain of redirects always ends. */
  lemma RedirectInverse(origin: string, path: string, search: string)
    requires RoutedToRedirect(path)
    ensures var loc := RedirectVersionedApi(origin, path, search).location;
      |loc| == |origin| + |path| - 3 + |search| && origin + API_BASE <= loc
      && VERSIONED_API_BASE + loc[|origin| + |API_BASE|..|loc| - |search|] == path
      && loc[|loc| - |search|..] == search
  {
    var loc := RedirectVersionedApi(origin, path, search).location;
    var suffix := path[|VERSIONED_API_BASE|..];
    assert VERSIONED_API_BASE <= path;
    assert loc == origin + API_BASE + suffix + search;
    assert loc[|origin| + |API_BASE|..|loc| - |search|] == suffix;
    assert VERSIONED_API_BASE + suffix == path;
  }

  /** The CORS `origin` callback: a request without an Origin header is allowed, any other only
      when its origin is one of `trustedOrigins`. */
  function AllowOrigin(origin: Option<string>, trustedOrigins: seq<string>): (allowed: bool)
    ensures origin.None? || origin.value == [] ==> allowed
    ensures origin.Some? && origin.value != [] ==> (allowed <==> origin.value in trustedOrigins)
  {
    if origin.None? || origin.value == [] then true else origin.value in trustedOrigins
  }

  /** Every origin listed in FRONTEND_URL, once trimmed, is allowed. */
  lemma ListedOriginAllowed(frontendUrl: string, i: nat)
    requires i < |Split(frontendUrl, ',')| && Trim(Split(frontendUrl, ',')[i]) != []
    ensures AllowOrigin(Some(Trim(Split(frontendUrl, ',')[i])), Env.ParseList(Some(frontendUrl)))
  {
    Env.ParseListOrder(frontendUrl);
  }
}

=== FILE: session.dfy ===
/** `buildUserIdFromEmail` of apps/frontend/src/features/auth/session.ts: a stable teacher id
    derived from an e-mail address. */
module Session {
  import opened Strings

  const USER_ID_PREFIX := "teacher_"

  predicate IsSlugChar(c: char) {
    'a' <= c <= 'z' || '0' <= c <= '9'
  }

  /** The regex class `[^a-z0-9]`. */
  predicate NotSlugChar(c: char) {
    !IsSlugChar(c)
  }

  /** Lower-case letters, digits and single underscores only. */
  predicate SlugText(s: string) {
    (forall i :: 0 <= i < |s| ==> IsSlugChar(s[i]) || s[i] == '_')
    && (forall i :: 0 <= i < |s| - 1 ==> !(s[i] == '_' && s[i + 1] == '_'))
  }

  lemma SquashedIsSlug(s: string)
    requires Squashed(s, NotSlugChar, '_')
    ensures SlugText(s)
  {
    forall i | 0 <= i < |s| - 1 && s[i] == '_' ensures s[i + 1] != '_' {
      assert NotSlugChar(s[i]);
    }
  }

  /** `teacher_${email.trim().toLowerCase().replace(/[^a-z0-9]+/g, '_')}` */
  function BuildUserIdFromEmail(email: string): (id: string)
    ensures |id| >= |USER_ID_PREFIX| && id[..|USER_ID_PREFIX|] == USER_ID_PREFIX
    ensures SlugText(id[|USER_ID_PREFIX|..])
    ensures |id| == |USER_ID_PREFIX| <==> AllSpace(email)
    ensures id == USER_ID_PREFIX + WordsJoined(NormalizeEmail(email), NotSlugChar, '_')
  {
    var suffix := SquashRuns(ToLower(Trim(email)), NotSlugChar, '_');
    SquashRunsWords(ToLower(Trim(email)), NotSlugChar, '_');
    SquashedIsSlug(suffix);
    assert (USER_ID_PREFIX + suffix)[|USER_ID_PREFIX|..] == suffix;
    USER_ID_PREFIX + suffix
  }

  /** The id ignores case and surrounding white space: it depends only on the trimmed,
      lower-cased address. */
  lemma BuildUserIdNormalizes(email: string)
    ensures BuildUserIdFromEmail(ToLower(Trim(email))) == BuildUserIdFromEmail(email)
  {
    var t := ToLower(Trim(email));
    assert Trimmed(t);
    assert Trim(t) == t;
    assert ToLower(t) == t;
  }

  /** An address made only of lower-case letters and digits is kept verbatim after the prefix. */
  lemma BuildUserIdKeepsSlug(email: string)
    requires forall i :: 0 <= i < |email| ==> IsSlugChar(email[i])
    ensures BuildUserIdFromEmail(email) == USER_ID_PREFIX + email
  {
    assert Trimmed(email);
    assert Trim(email) == email;
    assert NoUpper(email) by {
      forall c | c in email ensures !IsUpper(c) {
        var i :| 0 <= i < |email| && email[i] == c;
      }
    }
    assert ToLower(email) == email;
    assert Squashed(email, NotSlugChar, '_');
    SquashRunsFixpoint(email, NotSlugChar, '_');
  }
}

=== FILE: strings.dfy ===
/** The string primitives the backend leans on, with JavaScript's meaning: `trim`, ASCII
    `toLowerCase`, `replace(/class+/g, c)`, `split` and `join`, and the
    `map(trim).filter(Boolean)` idiom. */
module Strings {
  import opened Common

  /** The characters JavaScript's `String.prototype.trim` and the regex class `\s` treat as
      white space (ECMAScript WhiteSpace and LineTerminator): tab, line feed, vertical tab,
      form feed, carriage return, space, no-break space, the Ogham space mark, the spaces
      U+2000 to U+200A, the line and paragraph separators, the narrow no-break space, the
      medium mathematical space, the ideographic space and the byte order mark. */
  predicate IsSpace(c: char) {
    ('\t' <= c <= '\r') || c == ' ' || c == '\U{00A0}' || c == '\U{1680}'
    || ('\U{2000}' <= c <= '\U{200A}') || c == '\U{2028}' || c == '\U{2029}' || c == '\U{202F}'
    || c == '\U{205F}' || c == '\U{3000}' || c == '\U{FEFF}'
  }

  predicate IsUpper(c: char) {
    'A' <= c <= 'Z'
  }

  // ---------------------------------------------------------------- trimming

  /** Drops the longest prefix of `s` whose characters all satisfy `p`. */
  function DropWhile(s: string, p: char -> bool): (r: string)
    ensures |r| <= |s| && r == s[|s| - |r|..]
    ensures forall k :: 0 <= k < |s| - |r| ==> p(s[k])
    ensures r != [] ==> !p(r[0])
    decreases |s|
  {
    if s != [] && p(s[0]) then DropWhile(s[1..], p) else s
  }

  /** Drops the longest suffix of `s` whose characters all satisfy `p`. */
  function DropWhileEnd(s: string, p: char -> bool): (r: string)
    ensures |r| <= |s| && r == s[..|r|]
    ensures forall k :: |r| <= k < |s| ==> p(s[k])
    ensures r != [] ==> !p(r[|r| - 1])
    decreases |s|
  {
    if s != [] && p(s[|s| - 1]) then DropWhileEnd(s[..|s| - 1], p) else s
  }

  /** No white space at either end. */
  predicate Trimmed(s: string) {
    s == [] || (!IsSpace(s[0]) && !IsSpace(s[|s| - 1]))
  }

  predicate AllSpace(s: string) {
    forall k :: 0 <= k < |s| ==> IsSpace(s[k])
  }

  /** `s.trim()` */
  function Trim(s: string): (r: string)
    ensures Trimmed(r) && |r| <= |s|
    ensures r == [] <==> AllSpace(s)
    ensures Trimmed(s) ==> r == s
  {
    var front := DropWhile(s, IsSpace);
    var t := DropWhileEnd(front, IsSpace);
    t
  }

  /** Dropping from both ends keeps a middle slice; what went at either end satisfies `p`. */
  lemma DropBothSlice(s: string, p: char -> bool) returns (i: nat, j: nat)
    ensures i <= j <= |s| && DropWhileEnd(DropWhile(s, p), p) == s[i..j]
    ensures forall k :: 0 <= k < i ==> p(s[k])
    ensures forall k :: j <= k < |s| ==> p(s[k])
  {
    var front := DropWhile(s, p);
    i := |s| - |front|;
    j := DropEndSlice(s, i, p);
  }

  /** The suffix-dropping half of `DropBothSlice`, with the front already cut at `i`. */
  lemma DropEndSlice(s: string, i: nat, p: char -> bool) returns (j: nat)
    requires i <= |s|
    ensures i <= j <= |s| && DropWhileEnd(s[i..], p) == s[i..j]
    ensures forall k :: j <= k < |s| ==> p(s[k])
  {
    var front := s[i..];
    var t := DropWhileEnd(front, p);
    j := i + |t|;
    forall k | j <= k < |s| ensures p(s[k]) {
      assert s[k] == front[k - i];
    }
  }

  /** Trimming removes a blank prefix and a blank suffix and keeps the middle unchanged. */
  lemma TrimSlice(s: string) returns (i: nat, j: nat)
    ensures i <= j <= |s| && Trim(s) == s[i..j]
    ensures AllSpace(s[..i]) && AllSpace(s[j..])
  {
    i, j := DropBothSlice(s, IsSpace);
    assert AllSpace(s[..i]) by {
      forall k | 0 <= k < i ensures IsSpace(s[..i][k]) {
        assert s[..i][k] == s[k];
      }
    }
    assert AllSpace(s[j..]) by {
      forall k | 0 <= k < |s| - j ensures IsSpace(s[j..][k]) {
        assert s[j..][k] == s[j + k];
      }
    }
  }

  /** A leading space before an already trimmed string is all that `trim` removes. */
  lemma TrimLeadingSpace(s: string)
    requires Trimmed(s)
    ensures Trim(" " + s) == s
  {
    var t := " " + s;
    assert t[1..] == s;
    assert DropWhile(t, IsSpace) == DropWhile(s, IsSpace);
    if s != [] {
      assert DropWhile(s, IsSpace) == s;
      assert DropWhileEnd(s, IsSpace) == s;
    }
  }

  // ---------------------------------------------------------------- lower case

  /** An ASCII upper-case letter becomes the letter 32 code points on, its lower-case form;
      every other character is kept. */
  function LowerChar(c: char): (d: char)
    ensures !IsUpper(d)
    ensures IsSpace(d) <==> IsSpace(c)
    ensures IsUpper(c) ==> d as int == c as int + 32
    ensures !IsUpper(c) ==> d == c
  {
    if IsUpper(c) then (c as int + 32) as char else c
  }

  predicate NoUpper(s: string) {
    forall c :: c in s ==> !IsUpper(c)
  }

  /** `s.toLowerCase()` restricted to the ASCII letters. */
  function ToLower(s: string): (r: string)
    ensures |r| == |s| && NoUpper(r)
    ensures forall i :: 0 <= i < |s| ==> r[i] == LowerChar(s[i])
    ensures forall i :: 0 <= i < |s| ==> (IsSpace(r[i]) <==> IsSpace(s[i]))
    ensures NoUpper(s) ==> r == s
  {
    seq(|s|, i requires 0 <= i < |s| => LowerChar(s[i]))
  }

  // ---------------------------------------------------------------- squashing runs

  /** Every character satisfying `p` is `mark`, and no two of them are adjacent. */
  predicate Squashed(s: string, p: char -> bool, mark: char) {
    forall i :: 0 <= i < |s| && p(s[i]) ==> s[i] == mark && (i + 1 < |s| ==> !p(s[i + 1]))
  }

  /** `s.replace(/[p]+/g, mark)`: every maximal run of characters satisfying `p` becomes one `mark`. */
  function SquashRuns(s: string, p: char -> bool, mark: char): (r: string)
    requires p(mark)
    ensures Squashed(r, p, mark)
    ensures |r| <= |s|
    ensures r == [] <==> s == []
    ensures s != [] ==> (p(r[0]) <==> p(s[0]))
    ensures forall c :: c in r ==> c == mark || (c in s && !p(c))
    decreases |s|
  {
    if s == [] then []
    else if p(s[0]) then [mark] + SquashRuns(DropWhile(s[1..], p), p, mark)
    else [s[0]] + SquashRuns(s[1..], p, mark)
  }

  /** The last character of the squashed string satisfies `p` exactly when that of the input does. */
  lemma {:induction false} SquashRunsLast(s: string, p: char -> bool, mark: char)
    requires p(mark) && s != []
    ensures var r := SquashRuns(s, p, mark); p(r[|r| - 1]) <==> p(s[|s| - 1])
    decreases |s|
  {
    var r := SquashRuns(s, p, mark);
    if p(s[0]) {
      var rest := DropWhile(s[1..], p);
      assert r == [mark] + SquashRuns(rest, p, mark);
      if rest != [] {
        SquashRunsLast(rest, p, mark);
        var r' := SquashRuns(rest, p, mark);
        assert r[|r| - 1] == r'[|r'| - 1];
        assert s[|s| - 1] == s[1..][|s| - 2] == rest[|rest| - 1];
      } else if |s| > 1 {
        assert p(s[1..][|s| - 2]);
      }
    } else {
      assert r == [s[0]] + SquashRuns(s[1..], p, mark);
      if |s| > 1 {
        SquashRunsLast(s[1..], p, mark);
        var r' := SquashRuns(s[1..], p, mark);
        assert r[|r| - 1] == r'[|r'| - 1];
      }
    }
  }

  /** The tail of a squashed string is squashed. */
  lemma SquashedTail(s: string, p: char -> bool, mark: char)
    requires s != [] && Squashed(s, p, mark)
    ensures Squashed(s[1..], p, mark)
  {
    var t := s[1..];
    forall i | 0 <= i < |t| && p(t[i])
      ensures t[i] == mark && (i + 1 < |t| ==> !p(t[i + 1]))
    {
      assert t[i] == s[i + 1];
      assert i + 1 < |t| ==> t[i + 1] == s[i + 2];
    }
  }

  /** A string that is already squashed is left unchanged. */
  lemma {:induction false} SquashRunsFixpoint(s: string, p: char -> bool, mark: char)
    requires p(mark) && Squashed(s, p, mark)
    ensures SquashRuns(s, p, mark) == s
    decreases |s|
  {
    if s != [] {
      SquashedTail(s, p, mark);
      SquashRunsFixpoint(s[1..], p, mark);
      if p(s[0]) {
        SquashedMarkHead(s, p, mark);
      } else {
        SquashedKeptHead(s, p, mark);
      }
    }
  }

  /** A squashed string starting with its one `mark` squashes to itself when its tail does. */
  lemma SquashedMarkHead(s: string, p: char -> bool, mark: char)
    requires p(mark) && s != [] && Squashed(s, p, mark) && p(s[0])
    requires SquashRuns(s[1..], p, mark) == s[1..]
    ensures SquashRuns(s, p, mark) == s
  {
    SquashedHead(s, p, mark);
    assert s == [s[0]] + s[1..];
  }

  /** A string starting outside `p` squashes to itself when its tail does. */
  lemma SquashedKeptHead(s: string, p: char -> bool, mark: char)
    requires p(mark) && s != [] && !p(s[0])
    requires SquashRuns(s[1..], p, mark) == s[1..]
    ensures SquashRuns(s, p, mark) == s
  {
    assert s == [s[0]] + s[1..];
  }

  /** In a squashed string a leading `mark` is followed by a character outside `p`. */
  lemma SquashedHead(s: string, p: char -> bool, mark: char)
    requires s != [] && Squashed(s, p, mark) && p(s[0])
    ensures s[0] == mark && DropWhile(s[1..], p) == s[1..]
  {
    if |s| > 1 {
      assert !p(s[1..][0]);
    }
  }

  /** The words of `s` when the characters satisfying `p` separate them: the maximal non-empty
      runs of the other characters, in order (`s.split(/[p]+/).filter(Boolean)`). */
  function Words(s: string, p: char -> bool): seq<string> {
    WordsFrom(s, p, [])
  }

  /** The words of `word + s`, where `word` is a word already begun. */
  function WordsFrom(s: string, p: char -> bool, word: string): seq<string>
    decreases |s|
  {
    if s == [] then (if word == [] then [] else [word])
    else if p(s[0]) then (if word == [] then [] else [word]) + WordsFrom(s[1..], p, [])
    else WordsFrom(s[1..], p, word + [s[0]])
  }

  /** `mark` when `b` holds, nothing otherwise. */
  function MarkIf(b: bool, mark: char): (r: string)
    ensures |r| <= 1
  {
    if b then [mark] else []
  }

  /** A word already begun is never lost. */
  lemma {:induction false} WordsFromNonEmpty(s: string, p: char -> bool, word: string)
    requires word != []
    ensures WordsFrom(s, p, word) != []
    decreases |s|
  {
    if s != [] && !p(s[0]) {
      WordsFromNonEmpty(s[1..], p, word + [s[0]]);
    }
  }

  lemma ConcatAssoc(a: string, b: string, c: string)
    ensures a + (b + c) == a + b + c
  {
  }

  lemma JoinCons(w: string, ws: seq<string>, sep: string)
    requires ws != []
    ensures Join([w] + ws, sep) == w + sep + Join(ws, sep)
  {
    assert ([w] + ws)[1..] == ws;
  }

  /** Squashing one character at a time: the first character of each run becomes `mark`, the
      rest of the run is dropped (`inRun` says a run is already open). */
  function RunHeads(s: string, p: char -> bool, mark: char, inRun: bool): string
    decreases |s|
  {
    if s == [] then []
    else if p(s[0]) then (if inRun then [] else [mark]) + RunHeads(s[1..], p, mark, true)
    else [s[0]] + RunHeads(s[1..], p, mark, false)
  }

  /** Inside an open run the separators still to come are dropped. */
  lemma {:induction false} RunHeadsSkip(s: string, p: char -> bool, mark: char)
    ensures RunHeads(s, p, mark, true) == RunHeads(DropWhile(s, p), p, mark, false)
    decreases |s|
  {
    if s != [] && p(s[0]) {
      RunHeadsSkip(s[1..], p, mark);
      assert RunHeads(s, p, mark, true) == [] + RunHeads(s[1..], p, mark, true);
    }
  }

  /** Squashing the runs of a string is squashing them one character at a time. */
  lemma {:induction false} SquashRunsHeads(s: string, p: char -> bool, mark: char)
    requires p(mark)
    ensures SquashRuns(s, p, mark) == RunHeads(s, p, mark, false)
    decreases |s|
  {
    if s != [] {
      if p(s[0]) {
        var d := DropWhile(s[1..], p);
        SquashRunsHeads(d, p, mark);
        RunHeadsSkip(s[1..], p, mark);
      } else {
        SquashRunsHeads(s[1..], p, mark);
      }
    }
  }

  /** After a begun word: the word and the rest spell out the words joined by `mark`, with one
      more `mark` when the input ends in a run. */
  lemma {:induction false} RunHeadsAfterWord(s: string, p: char -> bool, mark: char, word: string)
    requires word != []
    ensures word + RunHeads(s, p, mark, false)
      == Join(WordsFrom(s, p, word), [mark]) + MarkIf(s != [] && p(s[|s| - 1]), mark)
    decreases |s|, 2
  {
    if s == [] {
    } else if p(s[0]) {
      RunHeadsAfterWordSep(s, p, mark, word);
    } else {
      var t := s[1..];
      var w := word + [s[0]];
      RunHeadsAfterWord(t, p, mark, w);
      assert RunHeads(s, p, mark, false) == [s[0]] + RunHeads(t, p, mark, false);
      ConcatAssoc(word, [s[0]], RunHeads(t, p, mark, false));
      assert MarkIf(t != [] && p(t[|t| - 1]), mark) == MarkIf(s != [] && p(s[|s| - 1]), mark);
    }
  }

  /** A separator right after a begun word closes it. */
  lemma {:induction false} RunHeadsAfterWordSep(s: string, p: char -> bool, mark: char, word: string)
    requires word != [] && s != [] && p(s[0])
    ensures word + RunHeads(s, p, mark, false)
      == Join(WordsFrom(s, p, word), [mark]) + MarkIf(p(s[|s| - 1]), mark)
    decreases |s|, 1
  {
    var t := s[1..];
    RunHeadsInRun(t, p, mark);
    if Words(t, p) == [] {
      RunHeadsCloseLast(s, t, p, mark, word);
    } else {
      RunHeadsCloseMore(s, t, p, mark, word);
    }
  }

  /** The closed word is the last one. */
  lemma RunHeadsCloseLast(s: string, t: string, p: char -> bool, mark: char, word: string)
    requires word != [] && s != [] && p(s[0]) && t == s[1..] && Words(t, p) == []
    requires RunHeads(t, p, mark, true)
      == Join(Words(t, p), [mark]) + MarkIf(t != [] && p(t[|t| - 1]) && Words(t, p) != [], mark)
    ensures word + RunHeads(s, p, mark, false)
      == Join(WordsFrom(s, p, word), [mark]) + MarkIf(p(s[|s| - 1]), mark)
  {
    assert RunHeads(t, p, mark, true) == [];
    assert RunHeads(s, p, mark, false) == [mark];
    assert WordsFrom(s, p, word) == [word] + Words(t, p);
    assert t != [] ==> p(t[|t| - 1]) by {
      if t != [] && !p(t[|t| - 1]) {
        WordsLastWord(t, p);
      }
    }
    assert t != [] ==> t[|t| - 1] == s[|s| - 1];
  }

  /** More words follow the closed one. */
  lemma RunHeadsCloseMore(s: string, t: string, p: char -> bool, mark: char, word: string)
    requires word != [] && s != [] && p(s[0]) && t == s[1..] && Words(t, p) != []
    requires RunHeads(t, p, mark, true)
      == Join(Words(t, p), [mark]) + MarkIf(t != [] && p(t[|t| - 1]) && Words(t, p) != [], mark)
    ensures word + RunHeads(s, p, mark, false)
      == Join(WordsFrom(s, p, word), [mark]) + MarkIf(p(s[|s| - 1]), mark)
  {
    var j := Join(Words(t, p), [mark]);
    var e := MarkIf(t != [] && p(t[|t| - 1]), mark);
    assert RunHeads(s, p, mark, false) == [mark] + (j + e);
    assert WordsFrom(s, p, word) == [word] + Words(t, p);
    JoinCons(word, Words(t, p), [mark]);
    assert t != [] && t[|t| - 1] == s[|s| - 1];
    ConcatAssoc([mark], j, e);
    ConcatAssoc(word, [mark] + j, e);
    ConcatAssoc(word, [mark], j);
  }

  /** A string whose last character is not a separator has a word. */
  lemma {:induction false} WordsLastWord(s: string, p: char -> bool)
    requires s != [] && !p(s[|s| - 1])
    ensures Words(s, p) != []
    decreases |s|
  {
    if p(s[0]) {
      WordsLastWord(s[1..], p);
      assert Words(s, p) == [] + Words(s[1..], p);
    } else {
      assert [] + [s[0]] == [s[0]];
      WordsFromNonEmpty(s[1..], p, [s[0]]);
    }
  }

  /** With a run open, the leading separators vanish and the words follow, joined by `mark`. */
  lemma {:induction false} RunHeadsInRun(s: string, p: char -> bool, mark: char)
    ensures RunHeads(s, p, mark, true)
      == Join(Words(s, p), [mark]) + MarkIf(s != [] && p(s[|s| - 1]) && Words(s, p) != [], mark)
    decreases |s|, 1
  {
    if s == [] {
    } else if p(s[0]) {
      var t := s[1..];
      RunHeadsInRun(t, p, mark);
      assert RunHeads(s, p, mark, true) == [] + RunHeads(t, p, mark, true);
      assert RunHeads(s, p, mark, true) == RunHeads(t, p, mark, true);
      assert Words(s, p) == [] + Words(t, p);
      assert Words(s, p) == Words(t, p);
      assert t != [] ==> t[|t| - 1] == s[|s| - 1];
      assert MarkIf(t != [] && p(t[|t| - 1]) && Words(t, p) != [], mark)
        == MarkIf(s != [] && p(s[|s| - 1]) && Words(s, p) != [], mark);
    } else {
      RunHeadsWord(s, p, mark, true);
    }
  }

  /** A string that starts with a word squashes to its words joined by `mark`, whether or not a
      run was open before it. */
  lemma {:induction false} RunHeadsWord(s: string, p: char -> bool, mark: char, inRun: bool)
    requires s != [] && !p(s[0])
    ensures Words(s, p) != []
    ensures RunHeads(s, p, mark, inRun)
      == Join(Words(s, p), [mark]) + MarkIf(p(s[|s| - 1]), mark)
    decreases |s|, 0
  {
    var t := s[1..];
    RunHeadsAfterWord(t, p, mark, [s[0]]);
    WordsFromNonEmpty(t, p, [s[0]]);
    assert [] + [s[0]] == [s[0]];
    assert Words(s, p) == WordsFrom(t, p, [s[0]]);
    assert RunHeads(s, p, mark, inRun) == [s[0]] + RunHeads(t, p, mark, false);
    assert t != [] ==> t[|t| - 1] == s[|s| - 1];
  }

  /** The words of `s` joined by `mark`, with a `mark` in front when `s` starts with a run and
      one behind when it ends with a run after some word. */
  function WordsJoined(s: string, p: char -> bool, mark: char): string {
    MarkIf(s != [] && p(s[0]), mark) + Join(Words(s, p), [mark])
    + MarkIf(s != [] && p(s[|s| - 1]) && Words(s, p) != [], mark)
  }

  /** Squashing one character at a time spells out the words joined by `mark`. */
  lemma RunHeadsWords(s: string, p: char -> bool, mark: char)
    ensures RunHeads(s, p, mark, false) == WordsJoined(s, p, mark)
  {
    if s != [] && p(s[0]) {
      var t := s[1..];
      RunHeadsInRun(t, p, mark);
      assert Words(s, p) == [] + Words(t, p);
      assert Words(s, p) == Words(t, p);
      assert t != [] ==> t[|t| - 1] == s[|s| - 1];
      var j := Join(Words(t, p), [mark]);
      var e := MarkIf(t != [] && p(t[|t| - 1]) && Words(t, p) != [], mark);
      assert RunHeads(s, p, mark, false) == [mark] + (j + e);
      assert e == MarkIf(s != [] && p(s[|s| - 1]) && Words(s, p) != [], mark);
      ConcatAssoc([mark], j, e);
    } else if s != [] {
      RunHeadsWord(s, p, mark, false);
      assert [] + Join(Words(s, p), [mark]) == Join(Words(s, p), [mark]);
    }
  }

  /** What squashing means: `s.replace(/[p]+/g, mark)` keeps every word of `s` in order and puts
      exactly one `mark` wherever a run of separators stood. */
  lemma SquashRunsWords(s: string, p: char -> bool, mark: char)
    requires p(mark)
    ensures SquashRuns(s, p, mark) == WordsJoined(s, p, mark)
  {
    SquashRunsHeads(s, p, mark);
    RunHeadsWords(s, p, mark);
  }

  // ---------------------------------------------------------------- canonical names

  /** What `value.trim().toLowerCase().replace(/\s+/g, " ")` produces: trimmed, no upper case,
      every white-space run a single plain space. */
  predicate Canonical(s: string) {
    Trimmed(s) && NoUpper(s) && Squashed(s, IsSpace, ' ')
  }

  /** `value.trim().toLowerCase().replace(/\s+/g, " ")` */
  function CanonicalName(s: string): (r: string)
    ensures Canonical(r)
  {
    var t := ToLower(Trim(s));
    LowerTrimmed(Trim(s));
    SquashSpacesCanonical(t);
    SquashRuns(t, IsSpace, ' ')
  }

  lemma SquashSpacesCanonical(t: string)
    requires Trimmed(t) && NoUpper(t)
    ensures Canonical(SquashRuns(t, IsSpace, ' '))
  {
    var r := SquashRuns(t, IsSpace, ' ');
    if t != [] {
      SquashRunsLast(t, IsSpace, ' ');
      assert !IsSpace(r[0]) && !IsSpace(r[|r| - 1]);
    }
    forall c | c in r ensures !IsUpper(c) {
      assert c == ' ' || c in t;
    }
  }

  /** Separators in front of a string start no word. */
  lemma {:induction false} WordsSepPrefix(a: string, b: string, p: char -> bool)
    requires forall k :: 0 <= k < |a| ==> p(a[k])
    ensures Words(a + b, p) == Words(b, p)
    decreases |a|
  {
    if a != [] {
      WordsSepPrefix(a[1..], b, p);
      assert (a + b)[1..] == a[1..] + b;
      assert (a + b)[0] == a[0];
      assert Words(a + b, p) == [] + Words(a[1..] + b, p);
      assert Words(a + b, p) == Words(a[1..] + b, p);
    } else {
      assert a + b == b;
    }
  }

  /** A string made of separators only closes the begun word and adds no other. */
  lemma {:induction false} WordsFromAllSep(b: string, p: char -> bool, word: string)
    requires forall k :: 0 <= k < |b| ==> p(b[k])
    ensures WordsFrom(b, p, word) == (if word == [] then [] else [word])
    decreases |b|
  {
    if b != [] {
      WordsFromAllSep(b[1..], p, []);
    }
  }

  /** Separators behind a string end no word of their own. */
  lemma {:induction false} WordsSepSuffix(a: string, b: string, p: char -> bool, word: string)
    requires forall k :: 0 <= k < |b| ==> p(b[k])
    ensures WordsFrom(a + b, p, word) == WordsFrom(a, p, word)
    decreases |a|
  {
    if a == [] {
      assert a + b == b;
      WordsFromAllSep(b, p, word);
    } else {
      assert (a + b)[1..] == a[1..] + b;
      if p(a[0]) {
        WordsSepSuffix(a[1..], b, p, []);
      } else {
        WordsSepSuffix(a[1..], b, p, word + [a[0]]);
      }
    }
  }

  /** Lower-casing commutes with taking a slice. */
  lemma ToLowerSlice(s: string, i: nat, j: nat)
    requires i <= j <= |s|
    ensures ToLower(s[i..j]) == ToLower(s)[i..j]
  {
  }

  lemma SliceThree(x: string, i: nat, j: nat)
    requires i <= j <= |x|
    ensures x == x[0..i] + (x[i..j] + x[j..|x|])
  {
  }

  /** Squashing the white space of a trimmed string joins its words with single spaces. */
  lemma SquashTrimmedWords(t: string)
    requires Trimmed(t)
    ensures SquashRuns(t, IsSpace, ' ') == Join(Words(t, IsSpace), " ")
  {
    SquashRunsWords(t, IsSpace, ' ');
    var j := Join(Words(t, IsSpace), [' ']);
    assert MarkIf(t != [] && IsSpace(t[0]), ' ') == [];
    assert MarkIf(t != [] && IsSpace(t[|t| - 1]) && Words(t, IsSpace) != [], ' ') == [];
    assert [] + j + [] == j;
    assert [' '] == " ";
  }

  /** Separators at either end of a string change none of its words. */
  lemma WordsMargins(x: string, i: nat, j: nat, p: char -> bool)
    requires i <= j <= |x|
    requires forall k :: 0 <= k < i ==> p(x[k])
    requires forall k :: j <= k < |x| ==> p(x[k])
    ensures Words(x, p) == Words(x[i..j], p)
  {
    SliceThree(x, i, j);
    WordsSepPrefix(x[0..i], x[i..j] + x[j..|x|], p);
    WordsSepSuffix(x[i..j], x[j..|x|], p, []);
  }

  /** Trimming before lower-casing changes no word. */
  lemma WordsTrimLower(s: string)
    ensures Words(ToLower(Trim(s)), IsSpace) == Words(ToLower(s), IsSpace)
  {
    var i, j := TrimSlice(s);
    var low := ToLower(s);
    ToLowerSlice(s, i, j);
    forall k | 0 <= k < i ensures IsSpace(low[k]) {
      assert s[..i][k] == s[k];
    }
    forall k | j <= k < |s| ensures IsSpace(low[k]) {
      assert s[j..][k - j] == s[k];
    }
    WordsMargins(low, i, j, IsSpace);
  }

  /** What the canonical form is: the words of the lower-cased input, separated by white space,
      joined by single plain spaces. */
  lemma CanonicalNameWords(s: string)
    ensures CanonicalName(s) == Join(Words(ToLower(s), IsSpace), " ")
  {
    var t := ToLower(Trim(s));
    CanonicalNameSquash(s);
    LowerTrimmed(Trim(s));
    SquashTrimmedWords(t);
    WordsTrimLower(s);
  }

  lemma CanonicalNameSquash(s: string)
    ensures CanonicalName(s) == SquashRuns(ToLower(Trim(s)), IsSpace, ' ')
  {
  }

  /** Lower-casing keeps a trimmed string trimmed. */
  lemma LowerTrimmed(x: string)
    requires Trimmed(x)
    ensures Trimmed(ToLower(x))
  {
    if x != [] {
      assert IsSpace(ToLower(x)[0]) <==> IsSpace(x[0]);
      assert IsSpace(ToLower(x)[|x| - 1]) <==> IsSpace(x[|x| - 1]);
    }
  }

  /** Canonical strings are the fixed points of the normalisation. */
  lemma CanonicalFixpoint(s: string)
    requires Canonical(s)
    ensures CanonicalName(s) == s
  {
    SquashRunsFixpoint(s, IsSpace, ' ');
  }

  // ---------------------------------------------------------------- split and join

  function Count(s: string, c: char): nat
    decreases |s|
  {
    if s == [] then 0 else (if s[0] == c then 1 else 0) + Count(s[1..], c)
  }

  /** `s.split(sep)` for a one-character separator: the pieces between separators, always at
      least one. */
  function Split(s: string, sep: char): (parts: seq<string>)
    ensures |parts| == Count(s, sep) + 1
    ensures forall i :: 0 <= i < |parts| ==> sep !in parts[i]
    decreases |s|
  {
    if s == [] then [[]]
    else
      var rest := Split(s[1..], sep);
      if s[0] == sep then [[]] + rest
      else
        assert sep !in rest[0];
        [[s[0]] + rest[0]] + rest[1..]
  }

  /** `parts.join(sep)` */
  function Join(parts: seq<string>, sep: string): string
    decreases |parts|
  {
    if parts == [] then []
    else if |parts| == 1 then parts[0]
    else parts[0] + sep + Join(parts[1..], sep)
  }

  /** Joining the pieces of a split with the separator gives back the original string. */
  lemma {:induction false} SplitJoin(s: string, sep: char)
    ensures Join(Split(s, sep), [sep]) == s
    decreases |s|
  {
    if s != [] {
      var rest := Split(s[1..], sep);
      SplitJoin(s[1..], sep);
      if s[0] == sep {
        assert Split(s, sep) == [[]] + rest;
        assert ([[]] + rest)[1..] == rest;
      } else {
        var parts := Split(s, sep);
        assert parts == [[s[0]] + rest[0]] + rest[1..];
        if |rest| == 1 {
          assert Join(parts, [sep]) == [s[0]] + rest[0];
        } else {
          assert parts[1..] == rest[1..];
          assert Join(parts, [sep]) == ([s[0]] + rest[0]) + [sep] + Join(rest[1..], [sep]);
          assert Join(rest, [sep]) == rest[0] + [sep] + Join(rest[1..], [sep]);
        }
      }
    }
  }

  /** The first piece of a split is everything before the first separator. */
  lemma {:induction false} SplitHead(s: string, sep: char)
    ensures var parts := Split(s, sep);
      parts[0] <= s && (|parts[0]| < |s| ==> s[|parts[0]|] == sep)
    decreases |s|
  {
    if s != [] && s[0] != sep {
      SplitHead(s[1..], sep);
    }
  }

  /** A string is its first piece, then, when it holds the separator at all, the separator and
      the remaining pieces joined back. */
  lemma SplitFirst(s: string, sep: char)
    ensures var parts := Split(s, sep);
      parts[0] + (if sep in s then [sep] + Join(parts[1..], [sep]) else []) == s
  {
    var parts := Split(s, sep);
    SplitJoin(s, sep);
    if |parts| == 1 {
      assert s == Join(parts, [sep]) == parts[0];
      assert sep !in parts[0];
    } else {
      var rest := Join(parts[1..], [sep]);
      assert s == Join(parts, [sep]) == parts[0] + [sep] + rest;
      ConcatAssoc(parts[0], [sep], rest);
      assert s[|parts[0]|] == sep;
      assert sep in s;
    }
  }

  /** A string without the separator splits into itself alone. */
  lemma {:induction false} SplitNoSep(s: string, sep: char)
    requires sep !in s
    ensures Split(s, sep) == [s]
    decreases |s|
  {
    if s != [] {
      SplitNoSep(s[1..], sep);
      assert [s[0]] + s[1..] == s;
    }
  }

  /** Splitting two strings joined by the separator splits each of them. */
  lemma {:induction false} SplitAppend(a: string, b: string, sep: char)
    ensures Split(a + [sep] + b, sep) == Split(a, sep) + Split(b, sep)
    decreases |a|
  {
    var s := a + [sep] + b;
    if a == [] {
      assert s[1..] == b;
    } else {
      assert s[1..] == a[1..] + [sep] + b;
      SplitAppend(a[1..], b, sep);
      if a[0] != sep {
        SplitConsOther(a, b, sep);
      }
    }
  }

  /** The step of `SplitAppend` where the first character is not the separator. */
  lemma SplitConsOther(a: string, b: string, sep: char)
    requires a != [] && a[0] != sep
    requires Split(a[1..] + [sep] + b, sep) == Split(a[1..], sep) + Split(b, sep)
    ensures Split(a + [sep] + b, sep) == Split(a, sep) + Split(b, sep)
  {
    var s := a + [sep] + b;
    assert s[0] == a[0] && s[1..] == a[1..] + [sep] + b;
    var front := Split(a[1..], sep);
    var back := Split(b, sep);
    SplitCons(s, sep);
    SplitCons(a, sep);
    PrependToHead([a[0]], front, back);
  }

  /** `Split` on a string that does not start with the separator. */
  lemma SplitCons(s: string, sep: char)
    requires s != [] && s[0] != sep
    ensures var rest := Split(s[1..], sep); Split(s, sep) == [[s[0]] + rest[0]] + rest[1..]
  {
  }

  /** Prefixing the first piece of `front + back` prefixes the first piece of `front`. */
  lemma PrependToHead(x: string, front: seq<string>, back: seq<string>)
    requires front != []
    ensures var rest := front + back;
      [x + rest[0]] + rest[1..] == ([x + front[0]] + front[1..]) + back
  {
    var rest := front + back;
    assert rest[0] == front[0];
    assert rest[1..] == front[1..] + back;
  }

  // ---------------------------------------------------------------- map(trim).filter(Boolean)

  /** `items.map((x) => x.trim()).filter(Boolean)`: the trimmed non-blank items, in order. */
  function TrimNonBlank(items: seq<string>): (r: seq<string>)
    ensures |r| <= |items|
    ensures forall i :: 0 <= i < |r| ==> r[i] != [] && Trimmed(r[i])
    ensures r == [] <==> forall i :: 0 <= i < |items| ==> AllSpace(items[i])
    decreases |items|
  {
    if items == [] then []
    else
      var t := Trim(items[0]);
      var rest := TrimNonBlank(items[1..]);
      AllBlankCons(items);
      if t == [] then rest else [t] + rest
  }

  /** A list is all blank when its head is and its tail is. */
  lemma AllBlankCons(items: seq<string>)
    requires items != []
    ensures (forall i :: 0 <= i < |items| ==> AllSpace(items[i]))
      <==> AllSpace(items[0]) && forall i :: 0 <= i < |items[1..]| ==> AllSpace(items[1..][i])
  {
    assert forall i :: 0 < i < |items| ==> items[i] == items[1..][i - 1];
  }

  /** The items, trimmed, in their original order (the `map` step alone). */
  function TrimAll(items: seq<string>): (r: seq<string>)
    ensures |r| == |items| && forall i :: 0 <= i < |items| ==> r[i] == Trim(items[i])
  {
    seq(|items|, i requires 0 <= i < |items| => Trim(items[i]))
  }

  /** `items.filter(Boolean)` on strings: the non-empty items, in order (the `filter` step alone). */
  function DropEmpty(items: seq<string>): (r: seq<string>)
    ensures |r| <= |items|
    decreases |items|
  {
    if items == [] then []
    else (if items[0] == [] then [] else [items[0]]) + DropEmpty(items[1..])
  }

  /** The fused loop is the `map` step followed by the `filter` step: every non-blank item
      survives once, trimmed, in its place. */
  lemma {:induction false} TrimNonBlankFilter(items: seq<string>)
    ensures TrimNonBlank(items) == DropEmpty(TrimAll(items))
    decreases |items|
  {
    if items != [] {
      TrimNonBlankFilter(items[1..]);
      var all := TrimAll(items);
      assert all[1..] == TrimAll(items[1..]);
      assert all[0] == Trim(items[0]);
      if Trim(items[0]) == [] {
        assert DropEmpty(all) == [] + DropEmpty(all[1..]);
        assert DropEmpty(all) == DropEmpty(all[1..]);
      }
    }
  }

  /** `a` is `b` with some elements left out (order kept). */
  predicate IsSubseq<T(==)>(a: seq<T>, b: seq<T>)
    decreases |b|
  {
    a == [] || (b != [] && if a[0] == b[0] then IsSubseq(a[1..], b[1..]) else IsSubseq(a, b[1..]))
  }

  /** Filtering keeps the surviving items in their original order and drops no non-blank one. */
  lemma TrimNonBlankOrder(items: seq<string>)
    ensures TrimNonBlank(items) == DropEmpty(TrimAll(items))
    ensures IsSubseq(TrimNonBlank(items), TrimAll(items))
    ensures forall i :: 0 <= i < |items| && Trim(items[i]) != [] ==> Trim(items[i]) in TrimNonBlank(items)
  {
    TrimNonBlankFilter(items);
    TrimNonBlankSubseq(items);
    forall i | 0 <= i < |items| && Trim(items[i]) != []
      ensures Trim(items[i]) in TrimNonBlank(items)
    {
      TrimNonBlankKeeps(items, i);
    }
  }

  lemma {:induction false} TrimNonBlankSubseq(items: seq<string>)
    ensures IsSubseq(TrimNonBlank(items), TrimAll(items))
    decreases |items|
  {
    if items != [] {
      var rest := TrimNonBlank(items[1..]);
      TrimNonBlankSubseq(items[1..]);
      var r := TrimNonBlank(items);
      var all := TrimAll(items);
      var t := Trim(items[0]);
      assert all[1..] == TrimAll(items[1..]);
      if t != [] {
        assert r == [t] + rest;
        assert r[0] == all[0] && r[1..] == rest;
      } else {
        assert r == rest;
        if rest != [] {
          assert rest[0] != all[0];
        }
      }
    }
  }

  lemma {:induction false} TrimNonBlankKeeps(items: seq<string>, i: int)
    requires 0 <= i < |items| && Trim(items[i]) != []
    ensures Trim(items[i]) in TrimNonBlank(items)
    decreases |items|
  {
    var rest := TrimNonBlank(items[1..]);
    if i > 0 {
      assert items[i] == items[1..][i - 1];
      TrimNonBlankKeeps(items[1..], i - 1);
    }
    if Trim(items[0]) != [] {
      assert TrimNonBlank(items) == [Trim(items[0])] + rest;
    } else {
      assert TrimNonBlank(items) == rest;
    }
  }

  /** Every surviving item is the trimmed form of some input item. */
  lemma {:induction false} TrimNonBlankSource(items: seq<string>, x: string)
    requires x in TrimNonBlank(items)
    ensures exists i :: 0 <= i < |items| && Trim(items[i]) == x
    decreases |items|
  {
    if Trim(items[0]) != x {
      TrimNonBlankSource(items[1..], x);
      var i :| 0 <= i < |items[1..]| && Trim(items[1..][i]) == x;
      assert Trim(items[i + 1]) == x;
    }
  }

  /** Trimming and dropping blanks a second time changes nothing. */
  lemma {:induction false} TrimNonBlankIdempotent(items: seq<string>)
    ensures TrimNonBlank(TrimNonBlank(items)) == TrimNonBlank(items)
    decreases |items|
  {
    if items != [] {
      var rest := TrimNonBlank(items[1..]);
      TrimNonBlankIdempotent(items[1..]);
      var t := Trim(items[0]);
      if t != [] {
        var r := [t] + rest;
        assert r[1..] == rest;
        assert TrimNonBlank(r) == [t] + TrimNonBlank(rest);
      }
    }
  }

  /** `value?.trim() || null`: the trimmed text, or null when it is missing or blank. */
  function TrimOrNull(value: Option<string>): (r: Option<string>)
    ensures r.None? <==> value.None? || AllSpace(value.value)
    ensures r.Some? ==> r.value == Trim(value.value) && r.value != []
  {
    if value.None? then None
    else
      var trimmed := Trim(value.value);
      if trimmed == [] then None else Some(trimmed)
  }

  /** `normalizeEmail(value)` of invites.ts and integrations-teams.ts: `value.trim().toLowerCase()`. */
  function NormalizeEmail(value: string): (r: string)
    ensures Trimmed(r) && NoUpper(r) && |r| <= |value|
  {
    ToLower(Trim(value))
  }

  /** Normalising an address lower-cases what is left once the blank prefix and suffix are cut. */
  lemma NormalizeEmailSlice(value: string) returns (i: nat, j: nat)
    ensures i <= j <= |value| && AllSpace(value[..i]) && AllSpace(value[j..])
    ensures NormalizeEmail(value) == ToLower(value[i..j])
  {
    i, j := TrimSlice(value);
  }

  /** A normalised address is its own normalisation. */
  lemma NormalizeEmailIdempotent(value: string)
    ensures NormalizeEmail(NormalizeEmail(value)) == NormalizeEmail(value)
  {
    var r := NormalizeEmail(value);
    assert Trim(r) == r;
  }

  // ---------------------------------------------------------------- numbers

  function DigitChar(d: nat): char
    requires d < 10
  {
    "0123456789"[d]
  }

  predicate AllDigits(s: string) {
    forall i :: 0 <= i < |s| ==> '0' <= s[i] <= '9'
  }

  /** `String(n)` for a non-negative integer. */
  function NatToString(n: nat): (r: string)
    ensures r != [] && AllDigits(r)
    decreases n
  {
    if n < 10 then [DigitChar(n)] else NatToString(n / 10) + [DigitChar(n % 10)]
  }

  /** `String(n)` for any integer. */
  function IntToString(n: int): (r: string)
    ensures r != []
    ensures n >= 0 ==> r == NatToString(n)
    ensures n < 0 ==> r[0] == '-' && r[1..] == NatToString(-n)
  {
    if n < 0 then "-" + NatToString(-n) else NatToString(n)
  }


  /** The number a string of decimal digits denotes, most significant digit first. */
  function DecimalValue(s: string): (v: nat)
    requires AllDigits(s)
    decreases |s|
  {
    if s == [] then 0
    else
      DecimalValue(s[..|s| - 1]) * 10 + (s[|s| - 1] as int - '0' as int)
  }

  lemma DigitCharValue(d: nat)
    requires d < 10
    ensures DigitChar(d) as int - '0' as int == d
  {
  }

  /** `String(n)` is the shortest decimal numeral of `n`: it denotes `n` and has no leading zero. */
  lemma {:induction false} NatToStringDecimal(n: nat)
    ensures DecimalValue(NatToString(n)) == n
    ensures |NatToString(n)| > 1 ==> NatToString(n)[0] != '0'
    decreases n
  {
    var r := NatToString(n);
    if n < 10 {
      DigitCharValue(n);
    } else {
      var q := NatToString(n / 10);
      NatToStringDecimal(n / 10);
      DigitCharValue(n % 10);
      assert r[..|r| - 1] == q;
      assert r[0] == q[0];
      if |q| == 1 {
        DigitCharValue(n / 10);
      }
    }
  }

  /** `String(n)` of an integer: the numeral of `n`, after a minus sign when `n` is negative. */
  lemma IntToStringDecimal(n: int)
    ensures var r := IntToString(n);
      (n >= 0 ==> AllDigits(r) && DecimalValue(r) == n)
      && (n < 0 ==> r[0] == '-' && AllDigits(r[1..]) && DecimalValue(r[1..]) == -n)
  {
    if n >= 0 {
      NatToStringDecimal(n);
    } else {
      NatToStringDecimal(-n);
    }
  }
}

=== FILE: teams_import.dfy ===
/** The member import of apps/backend/src/routes/integrations-teams.ts: a teacher imports the
    members of a Microsoft Teams team into a workspace. Each member is skipped (an owner, or no
    usable e-mail) or imported: its learner account is found by normalised e-mail or created,
    and linked to the workspace unless already linked. Four counters report what happened. The
    member list, fetched page by page from Microsoft Graph in the source, is an input here. */
module TeamsImport {
  import opened Common
  import opened Strings
  import opened WorkspaceSchema
  import opened Guards

  const OWNER_ROLE := "owner"

  /** A team member as Microsoft Graph reports it; every field may be missing. */
  datatype TeamMember = TeamMember(id: Option<string>, displayName: Option<string>, email: Option<string>,
                                   userId: Option<string>, roles: Option<seq<string>>)

  /** `memberEmail(member)`: `email`, else `userId`; missing or empty gives null; otherwise the
      normalised value when it holds an `@`, else null. */
  function MemberEmail(member: TeamMember): (r: Option<string>)
    ensures r.Some? ==> '@' in r.value && Trimmed(r.value) && NoUpper(r.value)
    ensures member.email.Some? && member.email.value != [] ==>
      r == (if '@' in NormalizeEmail(member.email.value) then Some(NormalizeEmail(member.email.value)) else None)
    ensures member.email.None? && member.userId.Some? && member.userId.value != [] ==>
      r == (if '@' in NormalizeEmail(member.userId.value) then Some(NormalizeEmail(member.userId.value)) else None)
    ensures member.email.None? && (member.userId.None? || member.userId == Some([])) ==> r.None?
    ensures member.email == Some([]) ==> r.None?
  {
    var candidate := if member.email.Some? then member.email else member.userId;
    if candidate.None? || candidate.value == [] then None
    else
      var normalized := NormalizeEmail(candidate.value);
      if '@' in normalized then Some(normalized) else None
  }

  /** What the loop does with one member, decided before any table is read. */
  datatype MemberPlan = Skip | Import(normalizedEmail: string, displayName: string)

  /** `(member.roles ?? []).includes("owner")` */
  predicate IsOwner(member: TeamMember) {
    member.roles.Some? && OWNER_ROLE in member.roles.value
  }

  /** An owner or a member without a usable e-mail is skipped; any other member is imported
      under its normalised e-mail, named by its trimmed display name or else by the e-mail. */
  function PlanFor(member: TeamMember): (p: MemberPlan)
  {
    if IsOwner(member) then Skip
    else match MemberEmail(member)
      case None => Skip
      case Some(email) =>
        var name := TrimOrNull(member.displayName);
        Import(email, if name.Some? then name.value else email)
  }

  /** The plan's meaning: skip exactly the owners and the members without a usable e-mail;
      import the others under that e-mail and a non-empty name, the trimmed display name when
      there is one and the e-mail otherwise. */
  lemma PlanForMeaning(member: TeamMember)
    ensures var p := PlanFor(member);
      && (p.Skip? <==> IsOwner(member) || MemberEmail(member).None?)
      && (p.Import? ==> p.normalizedEmail == MemberEmail(member).value && p.displayName != [])
      && (p.Import? && member.displayName.Some? && !AllSpace(member.displayName.value) ==>
            p.displayName == Trim(member.displayName.value))
      && (p.Import? && (member.displayName.None? || AllSpace(member.displayName.value)) ==>
            p.displayName == p.normalizedEmail)
  {
  }

  /** The four counters of the reply. */
  datatype Counters = Counters(createdLearners: nat, linkedExistingLearners: nat, alreadyLinkedInWorkspace: nat,
                               skippedMembers: nat)

  const NoCounts := Counters(0, 0, 0, 0)

  /** One pass of the loop body, given the member's plan and the ids it may need. */
  function ImportOne(t: Tables, c: Counters, plan: MemberPlan, workspaceId: Id, actorType: ActorType,
                     learnerId: Id, linkId: Id): (Tables, Counters)
  {
    match plan
    case Skip => (t, c.(skippedMembers := c.skippedMembers + 1))
    case Import(email, name) =>
      var existing := FirstWhere(t.learners, EmailIs(email));
      var id := if existing.Some? then t.learners[existing.value].id else learnerId;
      var t1 := if existing.Some? then t else t.(learners := t.learners + [LearnerAccount(id, email, email, name)]);
      var c1 := if existing.Some? then c.(linkedExistingLearners := c.linkedExistingLearners + 1)
                else c.(createdLearners := c.createdLearners + 1);
      if FirstWhere(t1.links, LinkOf(workspaceId, id)).Some? then
        (t1, c1.(alreadyLinkedInWorkspace := c1.alreadyLinkedInWorkspace + 1))
      else
        (t1.(links := t1.links + [WorkspaceLearner(linkId, workspaceId, id, actorType)]), c1)
  }

  /** The loop after the first `n` planned members; member `i` may use `learnerIds(i)` and
      `linkIds(i)` for the rows it creates. */
  function ImportPrefix(t: Tables, plans: seq<MemberPlan>, n: nat, workspaceId: Id, actorType: ActorType,
                        learnerIds: nat -> Id, linkIds: nat -> Id): (Tables, Counters)
    requires n <= |plans|
  {
    if n == 0 then (t, NoCounts)
    else
      var (t', c) := ImportPrefix(t, plans, n - 1, workspaceId, actorType, learnerIds, linkIds);
      ImportOne(t', c, plans[n - 1], workspaceId, actorType, learnerIds(n - 1), linkIds(n - 1))
  }

  /** The reply of the import. */
  datatype ImportResult = ImportResult(importedMembers: nat, counts: Counters)

  function PlansFor(members: seq<TeamMember>): (plans: seq<MemberPlan>)
    ensures |plans| == |members|
  {
    seq(|members|, i requires 0 <= i < |members| => PlanFor(members[i]))
  }

  /** The role new links get: the requested one, `student` when the body names none. */
  function RequestedRole(actorType: Option<ActorType>): ActorType {
    if actorType.Some? then actorType.value else Student
  }

  /** `POST /api/integrations/teams/import` over the tables, for the members the team has. */
  function ImportSpec(t: Tables, actor: Option<Id>, workspaceId: Id, members: seq<TeamMember>, actorType: Option<ActorType>,
                      learnerIds: nat -> Id, linkIds: nat -> Id): (Reply<ImportResult>, Tables)
  {
    if actor.None? then (Fail(401, UNAUTHORIZED), t)
    else if !OwnsWorkspace(t.workspaces, workspaceId, actor.value) then (Fail(403, NOT_OWNER), t)
    else
      var (t', c) := ImportPrefix(t, PlansFor(members), |members|, workspaceId, RequestedRole(actorType), learnerIds, linkIds);
      (Ok(ImportResult(|members|, c)), t')
  }

  /** The loop body on the database. */
  method ImportMemberRows(db: Database, c: Counters, plan: MemberPlan, workspaceId: Id, actorType: ActorType,
                      learnerId: Id, linkId: Id) returns (c': Counters)
    modifies db
    ensures (db.Snapshot(), c') == ImportOne(old(db.Snapshot()), c, plan, workspaceId, actorType, learnerId, linkId)
  {
    if plan.Skip? {
      return c.(skippedMembers := c.skippedMembers + 1);
    }
    var existing := FirstWhere(db.learners, EmailIs(plan.normalizedEmail));
    var id: Id;
    if existing.Some? {
      id := db.learners[existing.value].id;
      c' := c.(linkedExistingLearners := c.linkedExistingLearners + 1);
    } else {
      id := learnerId;
      db.learners := db.learners + [LearnerAccount(id, plan.normalizedEmail, plan.normalizedEmail, plan.displayName)];
      c' := c.(createdLearners := c.createdLearners + 1);
    }
    var link := FirstWhere(db.links, LinkOf(workspaceId, id));
    if link.Some? {
      c' := c'.(alreadyLinkedInWorkspace := c'.alreadyLinkedInWorkspace + 1);
    } else {
      db.links := db.links + [WorkspaceLearner(linkId, workspaceId, id, actorType)];
    }
  }

  /** The loop over the team's members, in order. */
  method ImportAll(db: Database, plans: seq<MemberPlan>, workspaceId: Id, actorType: ActorType,
                   learnerIds: nat -> Id, linkIds: nat -> Id) returns (counts: Counters)
    modifies db
    ensures (db.Snapshot(), counts) == ImportPrefix(old(db.Snapshot()), plans, |plans|, workspaceId, actorType, learnerIds, linkIds)
  {
    counts := NoCounts;
    var i := 0;
    while i < |plans|
      invariant 0 <= i <= |plans|
      invariant (db.Snapshot(), counts) == ImportPrefix(old(db.Snapshot()), plans, i, workspaceId, actorType, learnerIds, linkIds)
    {
      counts := ImportMemberRows(db, counts, plans[i], workspaceId, actorType, learnerIds(i), linkIds(i));
      i := i + 1;
    }
  }

  method ImportMembers(db: Database, actor: Option<Id>, workspaceId: Id, members: seq<TeamMember>, actorType: Option<ActorType>,
                learnerIds: nat -> Id, linkIds: nat -> Id) returns (r: Reply<ImportResult>)
    modifies db
    ensures (r, db.Snapshot()) == ImportSpec(old(db.Snapshot()), actor, workspaceId, members, actorType, learnerIds, linkIds)
  {
    if actor.None? {
      return Fail(401, UNAUTHORIZED);
    }
    if !OwnsWorkspace(db.workspaces, workspaceId, actor.value) {
      return Fail(403, NOT_OWNER);
    }
    var counts := ImportAll(db, PlansFor(members), workspaceId, RequestedRole(actorType), learnerIds, linkIds);
    r := Ok(ImportResult(|members|, counts));
  }

  // ---------------------------------------------------------------- what the import promises

  /** Every member is counted exactly once: skipped, created or linked to an existing learner;
      and only an imported member can be found already linked. */
  lemma {:induction false} CountsAddUp(t: Tables, plans: seq<MemberPlan>, n: nat, workspaceId: Id, actorType: ActorType,
                                       learnerIds: nat -> Id, linkIds: nat -> Id)
    requires n <= |plans|
    ensures var c := ImportPrefix(t, plans, n, workspaceId, actorType, learnerIds, linkIds).1;
      c.skippedMembers + c.createdLearners + c.linkedExistingLearners == n
      && c.alreadyLinkedInWorkspace <= c.createdLearners + c.linkedExistingLearners
      && c.skippedMembers == |set i | 0 <= i < n && plans[i].Skip?|
  {
    if n > 0 {
      CountsAddUp(t, plans, n - 1, workspaceId, actorType, learnerIds, linkIds);
      var before := set i | 0 <= i < n - 1 && plans[i].Skip?;
      var now := set i | 0 <= i < n && plans[i].Skip?;
      if plans[n - 1].Skip? {
        assert now == before + {n - 1};
      } else {
        assert now == before;
      }
    }
  }

  /** A skipped member writes nothing; an imported one leaves its learner found by e-mail and
      linked to the workspace, adds a learner only when none had the e-mail, and adds a link
      (with the requested role) only when the learner had none. */
  lemma ImportOneEffect(t: Tables, c: Counters, plan: MemberPlan, workspaceId: Id, actorType: ActorType,
                        learnerId: Id, linkId: Id)
    ensures var (t', c') := ImportOne(t, c, plan, workspaceId, actorType, learnerId, linkId);
      t' == t.(learners := t'.learners, links := t'.links)
      && (plan.Skip? ==> t' == t && c' == c.(skippedMembers := c.skippedMembers + 1))
      && (plan.Import? ==>
            var known := exists i :: 0 <= i < |t.learners| && t.learners[i].normalizedEmail == plan.normalizedEmail;
            (known ==> t'.learners == t.learners && c'.linkedExistingLearners == c.linkedExistingLearners + 1)
            && (!known ==> t'.learners == t.learners + [LearnerAccount(learnerId, plan.normalizedEmail, plan.normalizedEmail, plan.displayName)]
                           && c'.createdLearners == c.createdLearners + 1)
            && Enrolled(t', workspaceId, plan.normalizedEmail)
            && (t'.links == t.links || exists id :: t'.links == t.links + [WorkspaceLearner(linkId, workspaceId, id, actorType)])
            && (t'.links == t.links <==> c'.alreadyLinkedInWorkspace == c.alreadyLinkedInWorkspace + 1))
  {
    if plan.Import? {
      var (t', c') := ImportOne(t, c, plan, workspaceId, actorType, learnerId, linkId);
      var q := EmailIs(plan.normalizedEmail);
      var existing := FirstWhere(t.learners, q);
      var id := if existing.Some? then t.learners[existing.value].id else learnerId;
      var k := if existing.Some? then existing.value else |t.learners|;
      assert t'.learners[k].id == id && t'.learners[k].normalizedEmail == plan.normalizedEmail;
      if existing.None? {
        forall i | 0 <= i < |t.learners| ensures t.learners[i].normalizedEmail != plan.normalizedEmail {
          assert !q(t.learners[i]);
        }
      }
      var t1 := if existing.Some? then t else t.(learners := t.learners + [LearnerAccount(id, plan.normalizedEmail, plan.normalizedEmail, plan.displayName)]);
      match FirstWhere(t1.links, LinkOf(workspaceId, id))
      case Some(j) =>
        assert LinkedAt(t', workspaceId, k, j);
      case None =>
        assert LinkedAt(t', workspaceId, k, |t.links|);
    }
  }

  /** One member appends at most one learner, with its learner id, and at most one link, with
      its link id, and touches no other table. */
  lemma ImportOneAppends(t: Tables, c: Counters, plan: MemberPlan, workspaceId: Id, actorType: ActorType,
                         learnerId: Id, linkId: Id)
    ensures var t' := ImportOne(t, c, plan, workspaceId, actorType, learnerId, linkId).0;
      t' == t.(learners := t'.learners, links := t'.links)
      && (t'.learners == t.learners || exists row: LearnerAccount :: row.id == learnerId && t'.learners == t.learners + [row])
      && (t'.links == t.links || exists row: WorkspaceLearner :: row.id == linkId && t'.links == t.links + [row])
  {
  }

  /** The learner at `k` has the link at `j` to the workspace. */
  predicate LinkedAt(t: Tables, workspaceId: Id, k: int, j: int) {
    0 <= k < |t.learners| && 0 <= j && j < |t.links| && t.links[j].workspaceId == workspaceId && t.links[j].learnerId == t.learners[k].id
  }

  /** Some learner with this e-mail is linked to the workspace. */
  ghost predicate Enrolled(t: Tables, workspaceId: Id, email: string) {
    exists k, j :: LinkedAt(t, workspaceId, k, j) && t.learners[k].normalizedEmail == email
  }

  /** The import only appends learners and links. */
  lemma {:induction false} ImportPrefixGrows(t: Tables, plans: seq<MemberPlan>, n: nat, m: nat, workspaceId: Id,
                                             actorType: ActorType, learnerIds: nat -> Id, linkIds: nat -> Id)
    requires m <= n <= |plans|
    ensures var a := ImportPrefix(t, plans, m, workspaceId, actorType, learnerIds, linkIds).0;
      var b := ImportPrefix(t, plans, n, workspaceId, actorType, learnerIds, linkIds).0;
      |a.learners| <= |b.learners| && b.learners[..|a.learners|] == a.learners
      && |a.links| <= |b.links| && b.links[..|a.links|] == a.links
    decreases n
  {
    if m < n {
      ImportPrefixGrows(t, plans, n - 1, m, workspaceId, actorType, learnerIds, linkIds);
      var (tp, c) := ImportPrefix(t, plans, n - 1, workspaceId, actorType, learnerIds, linkIds);
      ImportOneEffect(tp, c, plans[n - 1], workspaceId, actorType, learnerIds(n - 1), linkIds(n - 1));
    }
  }

  /** After the import every imported member's e-mail belongs to a learner linked to the
      workspace. */
  lemma EveryImportedMemberEnrolled(t: Tables, plans: seq<MemberPlan>, workspaceId: Id, actorType: ActorType,
                                    learnerIds: nat -> Id, linkIds: nat -> Id, i: nat)
    requires i < |plans| && plans[i].Import?
    ensures Enrolled(ImportPrefix(t, plans, |plans|, workspaceId, actorType, learnerIds, linkIds).0, workspaceId,
                     plans[i].normalizedEmail)
  {
    var (ti, c) := ImportPrefix(t, plans, i, workspaceId, actorType, learnerIds, linkIds);
    ImportOneEffect(ti, c, plans[i], workspaceId, actorType, learnerIds(i), linkIds(i));
    var a := ImportPrefix(t, plans, i + 1, workspaceId, actorType, learnerIds, linkIds).0;
    var b := ImportPrefix(t, plans, |plans|, workspaceId, actorType, learnerIds, linkIds).0;
    ImportPrefixGrows(t, plans, |plans|, i + 1, workspaceId, actorType, learnerIds, linkIds);
    var k, j :| LinkedAt(a, workspaceId, k, j) && a.learners[k].normalizedEmail == plans[i].normalizedEmail;
    assert b.learners[k] == a.learners[k] && b.links[j] == a.links[j];
    assert LinkedAt(b, workspaceId, k, j);
  }

  /** The ids the import may use are fresh: pairwise distinct, non-empty learner ids, and not
      yet present in the tables. */
  ghost predicate FreshIds(t: Tables, learnerIds: nat -> Id, linkIds: nat -> Id) {
    (forall i, j :: i != j ==> learnerIds(i) != learnerIds(j) && linkIds(i) != linkIds(j))
    && (forall i :: learnerIds(i) != [] && KeyFree(t.learners, LearnerIdOf, learnerIds(i))
                    && KeyFree(t.links, LinkIdOf, linkIds(i)))
  }

  /** `rows` extends `base`, and each row past `base` carries an id handed to one of the first
      `n` members. */
  ghost predicate Grown<T>(base: seq<T>, rows: seq<T>, id: T -> Id, ids: nat -> Id, n: nat) {
    |base| <= |rows| && rows[..|base|] == base
    && forall k :: |base| <= k < |rows| ==> Issued(id(rows[k]), ids, n)
  }

  /** `x` is one of the ids handed to the first `n` members. */
  ghost predicate Issued(x: Id, ids: nat -> Id, n: nat) {
    exists i: nat :: i < n && x == ids(i)
  }

  /** The rows the first `n` members added carry ids handed to those members. */
  ghost predicate AddedBy(t: Tables, t': Tables, n: nat, learnerIds: nat -> Id, linkIds: nat -> Id) {
    Grown(t.learners, t'.learners, LearnerIdOf, learnerIds, n)
    && Grown(t.links, t'.links, LinkIdOf, linkIds, n)
  }

  /** The import keeps every table invariant: an e-mail gets a learner only when none has it, a
      (workspace, learner) pair gets a link only when it has none, and the ids are fresh. */
  lemma {:induction false} ImportPrefixKeepsValid(t: Tables, plans: seq<MemberPlan>, n: nat, workspaceId: Id,
                                                  actorType: ActorType, learnerIds: nat -> Id, linkIds: nat -> Id)
    requires n <= |plans| && TablesValid(t) && FreshIds(t, learnerIds, linkIds)
    ensures var t' := ImportPrefix(t, plans, n, workspaceId, actorType, learnerIds, linkIds).0;
      TablesValid(t') && AddedBy(t, t', n, learnerIds, linkIds)
  {
    if n > 0 {
      ImportPrefixKeepsValid(t, plans, n - 1, workspaceId, actorType, learnerIds, linkIds);
      var (tp, c) := ImportPrefix(t, plans, n - 1, workspaceId, actorType, learnerIds, linkIds);
      StillFresh(t, tp, n - 1, learnerIds, linkIds);
      ImportOneKeepsValid(tp, c, plans[n - 1], workspaceId, actorType, learnerIds(n - 1), linkIds(n - 1));
      ImportOneAppends(tp, c, plans[n - 1], workspaceId, actorType, learnerIds(n - 1), linkIds(n - 1));
      AddedByStep(t, tp, ImportOne(tp, c, plans[n - 1], workspaceId, actorType, learnerIds(n - 1), linkIds(n - 1)).0,
                  n - 1, learnerIds, linkIds);
    }
  }

  /** The ids handed to member `n` are still free after the first `n` members. */
  lemma StillFresh(t: Tables, tp: Tables, n: nat, learnerIds: nat -> Id, linkIds: nat -> Id)
    requires FreshIds(t, learnerIds, linkIds) && AddedBy(t, tp, n, learnerIds, linkIds)
    ensures KeyFree(tp.learners, LearnerIdOf, learnerIds(n)) && KeyFree(tp.links, LinkIdOf, linkIds(n))
  {
    forall i | 0 <= i < n ensures learnerIds(i) != learnerIds(n) && linkIds(i) != linkIds(n) {
      assert i != n;
    }
    assert KeyFree(t.learners, LearnerIdOf, learnerIds(n)) && KeyFree(t.links, LinkIdOf, linkIds(n));
    GrownStillFree(t.learners, tp.learners, LearnerIdOf, learnerIds, n);
    GrownStillFree(t.links, tp.links, LinkIdOf, linkIds, n);
  }

  /** An id free in `base` and distinct from the ids of the first `n` members is free in rows
      grown from `base` by those members. */
  lemma GrownStillFree<T>(base: seq<T>, rows: seq<T>, id: T -> Id, ids: nat -> Id, n: nat)
    requires Grown(base, rows, id, ids, n) && KeyFree(base, id, ids(n))
    requires forall i :: 0 <= i < n ==> ids(i) != ids(n)
    ensures KeyFree(rows, id, ids(n))
  {
    forall k | 0 <= k < |rows| ensures id(rows[k]) != ids(n) {
      if k < |base| {
        assert rows[k] == rows[..|base|][k] == base[k];
      } else {
        assert Issued(id(rows[k]), ids, n);
        var i: nat :| i < n && id(rows[k]) == ids(i);
      }
    }
  }

  /** Appending at most one learner with member `n`'s learner id and at most one link with its
      link id extends what the first `n` members added. */
  lemma AddedByStep(t: Tables, tp: Tables, t': Tables, n: nat, learnerIds: nat -> Id, linkIds: nat -> Id)
    requires AddedBy(t, tp, n, learnerIds, linkIds)
    requires t'.learners == tp.learners || exists row: LearnerAccount :: row.id == learnerIds(n) && t'.learners == tp.learners + [row]
    requires t'.links == tp.links || exists row: WorkspaceLearner :: row.id == linkIds(n) && t'.links == tp.links + [row]
    ensures AddedBy(t, t', n + 1, learnerIds, linkIds)
  {
    if t'.learners != tp.learners {
      var row: LearnerAccount :| row.id == learnerIds(n) && t'.learners == tp.learners + [row];
      assert LearnerIdOf(t'.learners[|tp.learners|]) == learnerIds(n);
    }
    GrownStep(t.learners, tp.learners, t'.learners, LearnerIdOf, learnerIds, n);
    if t'.links != tp.links {
      var row: WorkspaceLearner :| row.id == linkIds(n) && t'.links == tp.links + [row];
      assert LinkIdOf(t'.links[|tp.links|]) == linkIds(n);
    }
    GrownStep(t.links, tp.links, t'.links, LinkIdOf, linkIds, n);
  }

  /** Appending at most one row carrying member `n`'s id grows the rows by the first `n + 1`
      members. */
  lemma GrownStep<T>(base: seq<T>, rows: seq<T>, next: seq<T>, id: T -> Id, ids: nat -> Id, n: nat)
    requires Grown(base, rows, id, ids, n)
    requires next == rows || (|next| == |rows| + 1 && next[..|rows|] == rows && id(next[|rows|]) == ids(n))
    ensures Grown(base, next, id, ids, n + 1)
  {
    assert next[..|rows|] == rows;
    assert next[..|base|] == rows[..|base|];
    forall k | |base| <= k < |next| ensures Issued(id(next[k]), ids, n + 1) {
      if k < |rows| {
        assert next[k] == rows[k];
        assert Issued(id(rows[k]), ids, n);
        var i: nat :| i < n && id(rows[k]) == ids(i);
        assert i < n + 1 && id(next[k]) == ids(i);
      } else {
        assert n < n + 1 && id(next[k]) == ids(n);
      }
    }
  }

  /** One member keeps every table invariant when its ids are fresh. */
  lemma ImportOneKeepsValid(t: Tables, c: Counters, plan: MemberPlan, workspaceId: Id, actorType: ActorType,
                            learnerId: Id, linkId: Id)
    requires TablesValid(t) && learnerId != []
    requires KeyFree(t.learners, LearnerIdOf, learnerId) && KeyFree(t.links, LinkIdOf, linkId)
    ensures TablesValid(ImportOne(t, c, plan, workspaceId, actorType, learnerId, linkId).0)
  {
    if plan.Import? {
      var q := EmailIs(plan.normalizedEmail);
      var existing := FirstWhere(t.learners, q);
      var id := if existing.Some? then t.learners[existing.value].id else learnerId;
      var t1 := if existing.Some? then t else t.(learners := t.learners + [LearnerAccount(id, plan.normalizedEmail, plan.normalizedEmail, plan.displayName)]);
      if existing.None? {
        var row := LearnerAccount(id, plan.normalizedEmail, plan.normalizedEmail, plan.displayName);
        forall i | 0 <= i < |t.learners| ensures LearnerEmailKey(t.learners[i]) != LearnerEmailKey(row) {
          assert !q(t.learners[i]);
        }
        AppendKeepsUnique(t.learners, LearnerIdOf, row);
        AppendKeepsUnique(t.learners, LearnerEmailKey, row);
      }
      var p := LinkOf(workspaceId, id);
      if FirstWhere(t1.links, p).None? {
        var row := WorkspaceLearner(linkId, workspaceId, id, actorType);
        forall j | 0 <= j < |t1.links| ensures LinkKey(t1.links[j]) != LinkKey(row) {
          assert !p(t1.links[j]);
        }
        AppendKeepsUnique(t1.links, LinkIdOf, row);
        AppendKeepsUnique(t1.links, LinkKey, row);
      }
    }
  }

  /** The route's outcome: 401 without a session, 403 for a non-owner (both writing nothing);
      otherwise `importedMembers` is the number of members and equals skipped + created +
      linked, and the tables stay valid when the ids are fresh. */
  lemma ImportOutcome(t: Tables, actor: Option<Id>, workspaceId: Id, members: seq<TeamMember>, actorType: Option<ActorType>,
                      learnerIds: nat -> Id, linkIds: nat -> Id)
    ensures var (r, t') := ImportSpec(t, actor, workspaceId, members, actorType, learnerIds, linkIds);
      (actor.None? ==> r == Fail(401, UNAUTHORIZED) && t' == t)
      && (actor.Some? && !OwnsWorkspace(t.workspaces, workspaceId, actor.value) ==> r == Fail(403, NOT_OWNER) && t' == t)
      && (r.Ok? <==> actor.Some? && OwnsWorkspace(t.workspaces, workspaceId, actor.value))
      && (r.Ok? ==>
            r.value.importedMembers == |members|
            && r.value.counts.skippedMembers + r.value.counts.createdLearners + r.value.counts.linkedExistingLearners
               == r.value.importedMembers
            && r.value.counts.skippedMembers == |set i | 0 <= i < |members| && (IsOwner(members[i]) || MemberEmail(members[i]).None?)|)
  {
    if actor.Some? && OwnsWorkspace(t.workspaces, workspaceId, actor.value) {
      var plans := PlansFor(members);
      CountsAddUp(t, plans, |members|, workspaceId, RequestedRole(actorType), learnerIds, linkIds);
      assert (set i | 0 <= i < |members| && plans[i].Skip?)
          == (set i | 0 <= i < |members| && (IsOwner(members[i]) || MemberEmail(members[i]).None?));
    }
  }

  /** The import keeps every table invariant when the ids it is handed are fresh; every member
      with a usable e-mail that is not an owner ends up as a learner linked to the workspace. */
  lemma ImportKeepsValid(t: Tables, actor: Option<Id>, workspaceId: Id, members: seq<TeamMember>, actorType: Option<ActorType>,
                         learnerIds: nat -> Id, linkIds: nat -> Id)
    requires TablesValid(t) && FreshIds(t, learnerIds, linkIds)
    ensures var (r, t') := ImportSpec(t, actor, workspaceId, members, actorType, learnerIds, linkIds);
      TablesValid(t')
      && (r.Ok? ==> forall i :: 0 <= i < |members| && !IsOwner(members[i]) && MemberEmail(members[i]).Some? ==>
                      Enrolled(t', workspaceId, MemberEmail(members[i]).value))
  {
    var plans := PlansFor(members);
    ImportPrefixKeepsValid(t, plans, |members|, workspaceId, RequestedRole(actorType), learnerIds, linkIds);
    if ImportSpec(t, actor, workspaceId, members, actorType, learnerIds, linkIds).0.Ok? {
      ImportEnrolsMembers(t, actor, workspaceId, members, actorType, learnerIds, linkIds);
    }
  }

  /** After a successful import, every member who is not the owner and has an e-mail is linked
      to the workspace. */
  lemma ImportEnrolsMembers(t: Tables, actor: Option<Id>, workspaceId: Id, members: seq<TeamMember>,
                            actorType: Option<ActorType>, learnerIds: nat -> Id, linkIds: nat -> Id)
    requires ImportSpec(t, actor, workspaceId, members, actorType, learnerIds, linkIds).0.Ok?
    ensures var t' := ImportSpec(t, actor, workspaceId, members, actorType, learnerIds, linkIds).1;
      forall i :: 0 <= i < |members| && !IsOwner(members[i]) && MemberEmail(members[i]).Some? ==>
        Enrolled(t', workspaceId, MemberEmail(members[i]).value)
  {
    var plans := PlansFor(members);
    var t' := ImportSpec(t, actor, workspaceId, members, actorType, learnerIds, linkIds).1;
    assert t' == ImportPrefix(t, plans, |members|, workspaceId, RequestedRole(actorType), learnerIds, linkIds).0;
    forall i | 0 <= i < |members| && !IsOwner(members[i]) && MemberEmail(members[i]).Some?
      ensures Enrolled(t', workspaceId, MemberEmail(members[i]).value)
    {
      PlanForMeaning(members[i]);
      assert plans[i] == PlanFor(members[i]);
      EveryImportedMemberEnrolled(t, plans, workspaceId, RequestedRole(actorType), learnerIds, linkIds, i);
    }
  }
}

=== FILE: tests_attempts.dfy ===
/** The attempt routes of apps/backend/src/routes/tests.ts: the signed-in learner's start and
    submit, the public start (by child name) and submit (by attempt id), and the learner's test
    listing with its `canStart` flag. Together they drive each (test, learner) assignment through
    `assigned -> started -> submitted`. */
module TestsAttempts {
  import opened Common
  import opened Strings
  import opened WorkspaceSchema
  import opened Guards
  import opened TestsValidation

  const ONLY_STUDENTS_START := "Only student accounts can start tests"
  const ONLY_STUDENTS_SUBMIT := "Only student accounts can submit tests"
  const NO_ACCESS := "Learner does not have access to this workspace"
  const NOT_ASSIGNED := "Test is not assigned to this learner"
  const TEST_NOT_FOUND := "Test not found"
  const NOT_PUBLISHED := "Test is not published yet"
  const OUTSIDE_WINDOW := "Test is outside active time window"
  const NO_ATTEMPT := "No active attempt found for this learner"
  const CHILD_NOT_FOUND := "Child name not found for this test"
  const NAME_AMBIGUOUS := "Multiple students share this name. Ask teacher for direct help."
  const ATTEMPT_NOT_FOUND := "Attempt not found"

  // ---------------------------------------------------------------- pure helpers

  /** `withinWindow(startsAt, endsAt)` at time `now`. */
  function WithinWindow(startsAt: Option<int>, endsAt: Option<int>, now: int): (ok: bool)
  {
    if startsAt.Some? && now < startsAt.value then false
    else if endsAt.Some? && now > endsAt.value then false
    else true
  }

  /** The window is closed at both ends and a missing bound does not limit it. */
  lemma WithinWindowIff(startsAt: Option<int>, endsAt: Option<int>, now: int)
    ensures WithinWindow(startsAt, endsAt, now) <==>
      (startsAt.None? || startsAt.value <= now) && (endsAt.None? || now <= endsAt.value)
    ensures startsAt.Some? ==> WithinWindow(startsAt, endsAt, startsAt.value) == (endsAt.None? || startsAt.value <= endsAt.value)
    ensures endsAt.Some? ==> WithinWindow(startsAt, endsAt, endsAt.value) == (startsAt.None? || startsAt.value <= endsAt.value)
    ensures WithinWindow(None, None, now)
  {
  }

  /** `normalizePersonName(value)`: trimmed, lower-cased, white-space runs collapsed. */
  function NormalizePersonName(value: string): (r: string)
    ensures Canonical(r)
    ensures r == Join(Words(ToLower(value), IsSpace), " ")
  {
    CanonicalNameWords(value);
    CanonicalName(value)
  }

  /** Normalising a name twice changes nothing more. */
  lemma NormalizePersonNameIdempotent(value: string)
    ensures NormalizePersonName(NormalizePersonName(value)) == NormalizePersonName(value)
  {
    CanonicalFixpoint(CanonicalName(value));
  }

  // ---------------------------------------------------------------- row updates

  function AssignmentIdIs(id: Id): TestAssignment -> bool {
    (a: TestAssignment) => a.id == id
  }

  /** `update(testAssignments).set({ status }).where(p)` */
  function SetAssignmentStatus(assignments: seq<TestAssignment>, p: TestAssignment -> bool,
                               status: AssignmentStatus): (r: seq<TestAssignment>)
    ensures |r| == |assignments|
    ensures forall i :: 0 <= i < |assignments| ==>
      r[i] == if p(assignments[i]) then assignments[i].(status := status) else assignments[i]
  {
    seq(|assignments|, i requires 0 <= i < |assignments| =>
      if p(assignments[i]) then assignments[i].(status := status) else assignments[i])
  }

  /** A submitted attempt: status, submission time and score (null when none is given). */
  function SubmittedRow(a: TestAttempt, now: int, score: Option<real>): TestAttempt {
    a.(status := AttemptSubmitted, submittedAt := Some(now), score := score)
  }

  /** `update(testAttempts).set({ status: "submitted", submittedAt, score }).where(id)` */
  function SubmitAttemptRows(attempts: seq<TestAttempt>, attemptId: Id, now: int, score: Option<real>)
    : (r: seq<TestAttempt>)
    ensures |r| == |attempts|
    ensures forall i :: 0 <= i < |attempts| ==>
      r[i] == if attempts[i].id == attemptId then SubmittedRow(attempts[i], now, score) else attempts[i]
  {
    seq(|attempts|, i requires 0 <= i < |attempts| =>
      if attempts[i].id == attemptId then SubmittedRow(attempts[i], now, score) else attempts[i])
  }

  /** When exactly one row matches, an update is a single-row replacement. */
  lemma SetAssignmentStatusSingle(assignments: seq<TestAssignment>, p: TestAssignment -> bool,
                                  status: AssignmentStatus, j: nat)
    requires j < |assignments| && p(assignments[j])
    requires forall i :: 0 <= i < |assignments| && p(assignments[i]) ==> i == j
    ensures SetAssignmentStatus(assignments, p, status) == assignments[j := assignments[j].(status := status)]
  {
  }

  lemma SubmitAttemptRowsSingle(attempts: seq<TestAttempt>, attemptId: Id, now: int, score: Option<real>, k: nat)
    requires k < |attempts| && attempts[k].id == attemptId && KeysUnique(attempts, AttemptIdOf)
    ensures SubmitAttemptRows(attempts, attemptId, now, score) == attempts[k := SubmittedRow(attempts[k], now, score)]
  {
    var r := SubmitAttemptRows(attempts, attemptId, now, score);
    forall i | 0 <= i < |attempts| ensures r[i] == attempts[k := SubmittedRow(attempts[k], now, score)][i] {
      if attempts[i].id == attemptId {
        assert AttemptIdOf(attempts[i]) == AttemptIdOf(attempts[k]);
      }
    }
  }

  // ---------------------------------------------------------------- the state machine

  /** Recording the first attempt of an assignment and moving the assignment to `started` keeps
      the state machine. */
  lemma BeginKeepsLifecycle(assignments: seq<TestAssignment>, attempts: seq<TestAttempt>, j: nat, a: TestAttempt)
    requires Lifecycle(assignments, attempts) && KeysUnique(assignments, AssignmentKey)
    requires j < |assignments| && AssignmentFor(a.testId, a.workspaceId, a.learnerId)(assignments[j])
    requires a.status == AttemptStarted
    requires FirstWhere(attempts, AttemptFor(a.testId, a.workspaceId, a.learnerId)).None?
    ensures Lifecycle(assignments[j := assignments[j].(status := Started)], attempts + [a])
  {
    var as' := assignments[j := assignments[j].(status := Started)];
    var ats' := attempts + [a];
    forall i | 0 <= i < |as'| ensures ShowsAttempt(as'[i], ats') {
      var b := assignments[i];
      var p := AttemptFor(b.testId, b.workspaceId, b.learnerId);
      if i == j {
        FirstWhereAppendHit(attempts, p, a);
      } else {
        FirstWhereAppendMiss(attempts, p, a);
        assert ShowsAttempt(b, attempts);
        match FirstWhere(attempts, p)
        case None =>
        case Some(k) => assert ats'[k] == attempts[k];
      }
    }
    forall k | 0 <= k < |ats'| ensures HasItsAssignment(ats'[k], as') {
      var t := ats'[k];
      var q := AssignmentFor(t.testId, t.workspaceId, t.learnerId);
      if k < |attempts| {
        assert t == attempts[k] && HasItsAssignment(attempts[k], assignments);
        var m := FirstWhere(assignments, q).value;
        assert q(as'[m]);
      } else {
        assert q(as'[j]);
      }
    }
  }

  /** After the attempt at `k` and the assignment at `j` of the same (test, workspace, learner)
      are submitted together, every assignment still shows its attempt's status. */
  lemma FinishShowsAttempts(assignments: seq<TestAssignment>, attempts: seq<TestAttempt>, j: nat, k: nat,
                            now: int, score: Option<real>, i: nat)
    requires Lifecycle(assignments, attempts)
    requires KeysUnique(assignments, AssignmentKey) && KeysUnique(attempts, AttemptKey)
    requires j < |assignments| && k < |attempts| && i < |assignments|
    requires AssignmentFor(attempts[k].testId, attempts[k].workspaceId, attempts[k].learnerId)(assignments[j])
    ensures ShowsAttempt(assignments[j := assignments[j].(status := Submitted)][i],
                         attempts[k := SubmittedRow(attempts[k], now, score)])
  {
    var ats' := attempts[k := SubmittedRow(attempts[k], now, score)];
    var b := assignments[i];
    var p := AttemptFor(b.testId, b.workspaceId, b.learnerId);
    SubmitKeepsMatches(attempts, k, now, score, b.testId, b.workspaceId, b.learnerId);
    assert ShowsAttempt(b, attempts);
    match FirstWhere(attempts, p)
    case None =>
    case Some(f) =>
      if i == j {
        UniqueKeyRow(attempts, AttemptKey, f, k);
      } else if f == k {
        UniqueKeyRow(assignments, AssignmentKey, i, j);
      }
  }

  /** Submitting an attempt and its assignment together keeps the state machine. */
  lemma FinishKeepsLifecycle(assignments: seq<TestAssignment>, attempts: seq<TestAttempt>, j: nat, k: nat,
                             now: int, score: Option<real>)
    requires Lifecycle(assignments, attempts)
    requires KeysUnique(assignments, AssignmentKey) && KeysUnique(attempts, AttemptKey)
    requires j < |assignments| && k < |attempts|
    requires AssignmentFor(attempts[k].testId, attempts[k].workspaceId, attempts[k].learnerId)(assignments[j])
    ensures Lifecycle(assignments[j := assignments[j].(status := Submitted)],
                      attempts[k := SubmittedRow(attempts[k], now, score)])
  {
    FinishShowsAllAttempts(assignments, attempts, j, k, now, score);
    FinishKeepsAssignments(assignments, attempts, j, k, now, score);
  }

  lemma FinishShowsAllAttempts(assignments: seq<TestAssignment>, attempts: seq<TestAttempt>, j: nat, k: nat,
                               now: int, score: Option<real>)
    requires Lifecycle(assignments, attempts)
    requires KeysUnique(assignments, AssignmentKey) && KeysUnique(attempts, AttemptKey)
    requires j < |assignments| && k < |attempts|
    requires AssignmentFor(attempts[k].testId, attempts[k].workspaceId, attempts[k].learnerId)(assignments[j])
    ensures var as' := assignments[j := assignments[j].(status := Submitted)];
      forall i :: 0 <= i < |as'| ==> ShowsAttempt(as'[i], attempts[k := SubmittedRow(attempts[k], now, score)])
  {
    var as' := assignments[j := assignments[j].(status := Submitted)];
    var ats' := attempts[k := SubmittedRow(attempts[k], now, score)];
    forall i | 0 <= i < |as'| ensures ShowsAttempt(as'[i], ats') {
      FinishShowsAttempts(assignments, attempts, j, k, now, score, i);
    }
  }

  lemma FinishKeepsAssignments(assignments: seq<TestAssignment>, attempts: seq<TestAttempt>, j: nat, k: nat,
                               now: int, score: Option<real>)
    requires Lifecycle(assignments, attempts)
    requires j < |assignments| && k < |attempts|
    requires AssignmentFor(attempts[k].testId, attempts[k].workspaceId, attempts[k].learnerId)(assignments[j])
    ensures var ats' := attempts[k := SubmittedRow(attempts[k], now, score)];
      forall m :: 0 <= m < |ats'| ==> HasItsAssignment(ats'[m], assignments[j := assignments[j].(status := Submitted)])
  {
    var as' := assignments[j := assignments[j].(status := Submitted)];
    var ats' := attempts[k := SubmittedRow(attempts[k], now, score)];
    forall m | 0 <= m < |ats'| ensures HasItsAssignment(ats'[m], as') {
      var t := attempts[m];
      assert HasItsAssignment(t, assignments);
      assert ats'[m].testId == t.testId && ats'[m].workspaceId == t.workspaceId && ats'[m].learnerId == t.learnerId;
      StatusKeepsMatches(assignments, j, Submitted, t.testId, t.workspaceId, t.learnerId);
    }
  }

  /** Submitting one attempt moves no (test, workspace, learner) match. */
  lemma SubmitKeepsMatches(attempts: seq<TestAttempt>, k: nat, now: int, score: Option<real>,
                           testId: Id, workspaceId: Id, learnerId: Id)
    requires k < |attempts|
    ensures var p := AttemptFor(testId, workspaceId, learnerId);
      FirstWhere(attempts[k := SubmittedRow(attempts[k], now, score)], p) == FirstWhere(attempts, p)
  {
    var ats' := attempts[k := SubmittedRow(attempts[k], now, score)];
    var p := AttemptFor(testId, workspaceId, learnerId);
    forall i | 0 <= i < |attempts| ensures p(attempts[i]) == p(ats'[i]) {
    }
    FirstWhereSameMatches(attempts, ats', p);
  }

  /** Changing one assignment's status moves no (test, workspace, learner) match. */
  lemma StatusKeepsMatches(assignments: seq<TestAssignment>, j: nat, status: AssignmentStatus,
                           testId: Id, workspaceId: Id, learnerId: Id)
    requires j < |assignments|
    ensures var q := AssignmentFor(testId, workspaceId, learnerId);
      FirstWhere(assignments[j := assignments[j].(status := status)], q) == FirstWhere(assignments, q)
  {
    var as' := assignments[j := assignments[j].(status := status)];
    var q := AssignmentFor(testId, workspaceId, learnerId);
    forall i | 0 <= i < |assignments| ensures q(assignments[i]) == q(as'[i]) {
    }
    FirstWhereSameMatches(assignments, as', q);
  }

  // ---------------------------------------------------------------- starting an attempt

  /** The signed-in learner's request body: workspace, learner and claimed role. */
  datatype LearnerRequest = LearnerRequest(workspaceId: Id, learnerId: Id, actorType: ActorType)

  function NewAttempt(id: Id, testId: Id, workspaceId: Id, learnerId: Id, actorType: ActorType, now: int): TestAttempt {
    TestAttempt(id, testId, workspaceId, learnerId, actorType, DEFAULT_ATTEMPT_STATUS, now, None, None)
  }

  /** The end both start routes share: an existing attempt is returned with nothing written;
      otherwise a `started` attempt is inserted and the assignment moves to `started`. */
  function BeginAttempt(t: Tables, testId: Id, workspaceId: Id, learnerId: Id, assignmentId: Id,
                        actorType: ActorType, newId: Id, now: int): (TestAttempt, Tables)
  {
    match FirstWhere(t.attempts, AttemptFor(testId, workspaceId, learnerId))
    case Some(k) => (t.attempts[k], t)
    case None =>
      var a := NewAttempt(newId, testId, workspaceId, learnerId, actorType, now);
      (a, t.(attempts := t.attempts + [a],
             assignments := SetAssignmentStatus(t.assignments, AssignmentIdIs(assignmentId), Started)))
  }

  method BeginAttemptRows(db: Database, testId: Id, workspaceId: Id, learnerId: Id, assignmentId: Id,
                          actorType: ActorType, newId: Id, now: int) returns (attempt: TestAttempt)
    modifies db
    ensures (attempt, db.Snapshot()) ==
      BeginAttempt(old(db.Snapshot()), testId, workspaceId, learnerId, assignmentId, actorType, newId, now)
  {
    var existing := FirstWhere(db.attempts, AttemptFor(testId, workspaceId, learnerId));
    if existing.Some? {
      return db.attempts[existing.value];
    }
    attempt := NewAttempt(newId, testId, workspaceId, learnerId, actorType, now);
    db.attempts := db.attempts + [attempt];
    db.assignments := SetAssignmentStatus(db.assignments, AssignmentIdIs(assignmentId), Started);
  }

  /** An existing attempt is returned as it is, and nothing is written; otherwise the new
      attempt is `started`, belongs to the learner, test and workspace, is appended, and only
      the assignment with the given id changes, to `started`. */
  lemma BeginAttemptEffect(t: Tables, testId: Id, workspaceId: Id, learnerId: Id, assignmentId: Id,
                           actorType: ActorType, newId: Id, now: int)
    ensures var (a, t') := BeginAttempt(t, testId, workspaceId, learnerId, assignmentId, actorType, newId, now);
      var found := FirstWhere(t.attempts, AttemptFor(testId, workspaceId, learnerId));
      a.testId == testId && a.workspaceId == workspaceId && a.learnerId == learnerId
      && (found.Some? ==> t' == t && a == t.attempts[found.value])
      && (found.None? ==>
            a.status == AttemptStarted && a.id == newId && a.startedAt == now && a.score.None?
            && t' == t.(attempts := t.attempts + [a], assignments := t'.assignments)
            && |t'.assignments| == |t.assignments|
            && forall i :: 0 <= i < |t.assignments| ==>
                 t'.assignments[i] == if t.assignments[i].id == assignmentId
                                      then t.assignments[i].(status := Started) else t.assignments[i])
  {
  }

  /** Starting with a fresh attempt id, for an assignment of that learner, test and workspace,
      keeps every table invariant. */
  lemma BeginAttemptKeepsValid(t: Tables, testId: Id, workspaceId: Id, learnerId: Id, j: nat,
                               actorType: ActorType, newId: Id, now: int)
    requires TablesValid(t) && KeyFree(t.attempts, AttemptIdOf, newId)
    requires j < |t.assignments| && AssignmentFor(testId, workspaceId, learnerId)(t.assignments[j])
    ensures TablesValid(BeginAttempt(t, testId, workspaceId, learnerId, t.assignments[j].id, actorType, newId, now).1)
  {
    var assignmentId := t.assignments[j].id;
    if FirstWhere(t.attempts, AttemptFor(testId, workspaceId, learnerId)).None? {
      var a := NewAttempt(newId, testId, workspaceId, learnerId, actorType, now);
      forall i | 0 <= i < |t.assignments| && AssignmentIdIs(assignmentId)(t.assignments[i]) ensures i == j {
        UniqueKeyRow(t.assignments, AssignmentIdOf, i, j);
      }
      SetAssignmentStatusSingle(t.assignments, AssignmentIdIs(assignmentId), Started, j);
      UpdateKeepsUnique(t.assignments, AssignmentIdOf, j, t.assignments[j].(status := Started));
      UpdateKeepsUnique(t.assignments, AssignmentKey, j, t.assignments[j].(status := Started));
      AppendKeepsUnique(t.attempts, AttemptIdOf, a);
      AppendKeepsUnique(t.attempts, AttemptKey, a);
      BeginKeepsLifecycle(t.assignments, t.attempts, j, a);
    }
  }

  /** `POST /api/tests/:testId/start` over the tables. */
  function StartSpec(t: Tables, testId: Id, req: LearnerRequest, newId: Id, now: int): (Reply<TestAttempt>, Tables) {
    if req.actorType != Student then (Fail(403, ONLY_STUDENTS_START), t)
    else if !LearnerAccess(t.links, req.workspaceId, req.learnerId, req.actorType) then (Fail(403, NO_ACCESS), t)
    else match FirstWhere(t.assignments, AssignmentFor(testId, req.workspaceId, req.learnerId))
      case None => (Fail(403, NOT_ASSIGNED), t)
      case Some(j) =>
        match FirstWhere(t.tests, TestIn(testId, req.workspaceId))
        case None => (Fail(404, TEST_NOT_FOUND), t)
        case Some(k) =>
          var test := t.tests[k];
          if test.status != Published then (Fail(409, NOT_PUBLISHED), t)
          else if !WithinWindow(test.startsAt, test.endsAt, now) then (Fail(409, OUTSIDE_WINDOW), t)
          else
            var (a, t') := BeginAttempt(t, test.id, req.workspaceId, req.learnerId, t.assignments[j].id,
                                        req.actorType, newId, now);
            (Ok(a), t')
  }

  method Start(db: Database, testId: Id, req: LearnerRequest, newId: Id, now: int) returns (r: Reply<TestAttempt>)
    modifies db
    ensures (r, db.Snapshot()) == StartSpec(old(db.Snapshot()), testId, req, newId, now)
  {
    if req.actorType != Student {
      return Fail(403, ONLY_STUDENTS_START);
    }
    if !LearnerAccess(db.links, req.workspaceId, req.learnerId, req.actorType) {
      return Fail(403, NO_ACCESS);
    }
    var assignment := FirstWhere(db.assignments, AssignmentFor(testId, req.workspaceId, req.learnerId));
    if assignment.None? {
      return Fail(403, NOT_ASSIGNED);
    }
    var found := FirstWhere(db.tests, TestIn(testId, req.workspaceId));
    if found.None? {
      return Fail(404, TEST_NOT_FOUND);
    }
    var test := db.tests[found.value];
    if test.status != Published {
      return Fail(409, NOT_PUBLISHED);
    }
    if !WithinWindow(test.startsAt, test.endsAt, now) {
      return Fail(409, OUTSIDE_WINDOW);
    }
    var attempt := BeginAttemptRows(db, test.id, req.workspaceId, req.learnerId, db.assignments[assignment.value].id,
                                    req.actorType, newId, now);
    r := Ok(attempt);
  }

  /** The start route refuses, in this order and writing nothing: a non-student (403), a learner
      whose workspace link is missing or of another role (403), a learner without an assignment
      (403), a test missing from the workspace (404), an unpublished test (409) and a test
      outside its window (409); otherwise it answers with the learner's attempt on the test. */
  lemma StartOutcome(t: Tables, testId: Id, req: LearnerRequest, newId: Id, now: int)
    ensures var (r, t') := StartSpec(t, testId, req, newId, now);
      var assignedRow := FirstWhere(t.assignments, AssignmentFor(testId, req.workspaceId, req.learnerId));
      var found := FirstWhere(t.tests, TestIn(testId, req.workspaceId));
      (!r.Ok? ==> t' == t)
      && (req.actorType != Student ==> r == Fail(403, ONLY_STUDENTS_START))
      && (req.actorType == Student && !LearnerAccess(t.links, req.workspaceId, req.learnerId, req.actorType) ==>
            r == Fail(403, NO_ACCESS))
      && (r.Ok? <==>
            req.actorType == Student && LearnerAccess(t.links, req.workspaceId, req.learnerId, req.actorType)
            && assignedRow.Some? && found.Some? && t.tests[found.value].status == Published
            && WithinWindow(t.tests[found.value].startsAt, t.tests[found.value].endsAt, now))
      && (r.Ok? ==> r.value.testId == testId && r.value.learnerId == req.learnerId
                    && r.value.workspaceId == req.workspaceId)
  {
    var found := FirstWhere(t.tests, TestIn(testId, req.workspaceId));
    var assignedRow := FirstWhere(t.assignments, AssignmentFor(testId, req.workspaceId, req.learnerId));
    if found.Some? && assignedRow.Some? {
      BeginAttemptEffect(t, t.tests[found.value].id, req.workspaceId, req.learnerId, t.assignments[assignedRow.value].id,
                         req.actorType, newId, now);
    }
  }

  /** A start that finds the learner's attempt already there returns it and writes nothing: a
      second start is a no-op. */
  lemma StartTwiceWritesNothing(t: Tables, testId: Id, req: LearnerRequest, id1: Id, id2: Id, now1: int, now2: int)
    requires StartSpec(t, testId, req, id1, now1).0.Ok?
    requires StartSpec(StartSpec(t, testId, req, id1, now1).1, testId, req, id2, now2).0.Ok?
    ensures var (r1, t1) := StartSpec(t, testId, req, id1, now1);
      StartSpec(t1, testId, req, id2, now2) == (r1, t1)
  {
    var (r1, t1) := StartSpec(t, testId, req, id1, now1);
    var p := AttemptFor(testId, req.workspaceId, req.learnerId);
    var found := FirstWhere(t.tests, TestIn(testId, req.workspaceId)).value;
    var j := FirstWhere(t.assignments, AssignmentFor(testId, req.workspaceId, req.learnerId)).value;
    BeginAttemptEffect(t, t.tests[found].id, req.workspaceId, req.learnerId, t.assignments[j].id, req.actorType, id1, now1);
    var found1 := FirstWhere(t1.tests, TestIn(testId, req.workspaceId)).value;
    var j1 := FirstWhere(t1.assignments, AssignmentFor(testId, req.workspaceId, req.learnerId)).value;
    assert t1.tests == t.tests;
    if FirstWhere(t.attempts, p).None? {
      FirstWhereAppendHit(t.attempts, p, r1.value);
    }
    BeginAttemptEffect(t1, t1.tests[found1].id, req.workspaceId, req.learnerId, t1.assignments[j1].id, req.actorType, id2, now2);
  }

  /** Starting keeps every table invariant. */
  lemma StartKeepsValid(t: Tables, testId: Id, req: LearnerRequest, newId: Id, now: int)
    requires TablesValid(t) && KeyFree(t.attempts, AttemptIdOf, newId)
    ensures TablesValid(StartSpec(t, testId, req, newId, now).1)
  {
    var assignedRow := FirstWhere(t.assignments, AssignmentFor(testId, req.workspaceId, req.learnerId));
    var found := FirstWhere(t.tests, TestIn(testId, req.workspaceId));
    var t' := StartSpec(t, testId, req, newId, now).1;
    if t' != t {
      var j := assignedRow.value;
      var test := t.tests[found.value];
      assert t' == BeginAttempt(t, test.id, req.workspaceId, req.learnerId, t.assignments[j].id,
                                req.actorType, newId, now).1;
      BeginAttemptKeepsValid(t, test.id, req.workspaceId, req.learnerId, j, req.actorType, newId, now);
    }
  }

  // ---------------------------------------------------------------- submitting

  /** `POST /api/tests/:testId/submit` over the tables. */
  function SubmitSpec(t: Tables, testId: Id, req: LearnerRequest, score: Option<real>, now: int)
    : (Reply<TestAttempt>, Tables)
  {
    if req.actorType != Student then (Fail(403, ONLY_STUDENTS_SUBMIT), t)
    else if !LearnerAccess(t.links, req.workspaceId, req.learnerId, req.actorType) then (Fail(403, NO_ACCESS), t)
    else match FirstWhere(t.assignments, AssignmentFor(testId, req.workspaceId, req.learnerId))
      case None => (Fail(403, NOT_ASSIGNED), t)
      case Some(j) =>
        match FirstWhere(t.attempts, AttemptFor(testId, req.workspaceId, req.learnerId))
        case None => (Fail(404, NO_ATTEMPT), t)
        case Some(k) =>
          var attemptId := t.attempts[k].id;
          (Ok(SubmittedRow(t.attempts[k], now, score)),
           t.(attempts := SubmitAttemptRows(t.attempts, attemptId, now, score),
              assignments := SetAssignmentStatus(t.assignments, AssignmentIdIs(t.assignments[j].id), Submitted)))
  }

  method Submit(db: Database, testId: Id, req: LearnerRequest, score: Option<real>, now: int)
    returns (r: Reply<TestAttempt>)
    modifies db
    ensures (r, db.Snapshot()) == SubmitSpec(old(db.Snapshot()), testId, req, score, now)
  {
    if req.actorType != Student {
      return Fail(403, ONLY_STUDENTS_SUBMIT);
    }
    if !LearnerAccess(db.links, req.workspaceId, req.learnerId, req.actorType) {
      return Fail(403, NO_ACCESS);
    }
    var assignment := FirstWhere(db.assignments, AssignmentFor(testId, req.workspaceId, req.learnerId));
    if assignment.None? {
      return Fail(403, NOT_ASSIGNED);
    }
    var attempt := FirstWhere(db.attempts, AttemptFor(testId, req.workspaceId, req.learnerId));
    if attempt.None? {
      return Fail(404, NO_ATTEMPT);
    }
    var row := db.attempts[attempt.value];
    var assignmentId := db.assignments[assignment.value].id;
    db.attempts := SubmitAttemptRows(db.attempts, row.id, now, score);
    db.assignments := SetAssignmentStatus(db.assignments, AssignmentIdIs(assignmentId), Submitted);
    r := Ok(SubmittedRow(row, now, score));
  }

  /** The submit route refuses a non-student (403), a learner without access (403), a learner
      without an assignment (403) and one without an attempt (404), writing nothing; otherwise
      the attempt becomes `submitted` at `now` with exactly the given score (null when none,
      even on a second submit). */
  lemma SubmitOutcome(t: Tables, testId: Id, req: LearnerRequest, score: Option<real>, now: int)
    ensures var (r, t') := SubmitSpec(t, testId, req, score, now);
      var assignedRow := FirstWhere(t.assignments, AssignmentFor(testId, req.workspaceId, req.learnerId));
      var attempt := FirstWhere(t.attempts, AttemptFor(testId, req.workspaceId, req.learnerId));
      (!r.Ok? ==> t' == t)
      && (req.actorType != Student ==> r == Fail(403, ONLY_STUDENTS_SUBMIT))
      && (req.actorType == Student && !LearnerAccess(t.links, req.workspaceId, req.learnerId, req.actorType) ==>
            r == Fail(403, NO_ACCESS))
      && (req.actorType == Student && LearnerAccess(t.links, req.workspaceId, req.learnerId, req.actorType) ==>
            (assignedRow.None? ==> r == Fail(403, NOT_ASSIGNED))
            && (assignedRow.Some? && attempt.None? ==> r == Fail(404, NO_ATTEMPT)))
      && (r.Ok? <==>
            req.actorType == Student && LearnerAccess(t.links, req.workspaceId, req.learnerId, req.actorType)
            && assignedRow.Some? && attempt.Some?)
      && (r.Ok? ==>
            r.value.status == AttemptSubmitted && r.value.score == score && r.value.submittedAt == Some(now)
            && r.value.id == t.attempts[attempt.value].id && r.value.testId == testId
            && r.value.learnerId == req.learnerId
            && t'.attempts[attempt.value] == r.value
            && t'.assignments[assignedRow.value].status == Submitted)
  {
  }

  /** Submitting keeps every table invariant: the attempt and its assignment move to
      `submitted` together. */
  lemma SubmitKeepsValid(t: Tables, testId: Id, req: LearnerRequest, score: Option<real>, now: int)
    requires TablesValid(t)
    ensures TablesValid(SubmitSpec(t, testId, req, score, now).1)
  {
    if SubmitSpec(t, testId, req, score, now).0.Ok? {
      var j := FirstWhere(t.assignments, AssignmentFor(testId, req.workspaceId, req.learnerId)).value;
      var k := FirstWhere(t.attempts, AttemptFor(testId, req.workspaceId, req.learnerId)).value;
      SubmitBothKeepsValid(t, j, k, now, score);
    }
  }

  /** Submitting the attempt at `k` and the assignment at `j` of the same (test, workspace,
      learner) keeps every table invariant. */
  lemma SubmitBothKeepsValid(t: Tables, j: nat, k: nat, now: int, score: Option<real>)
    requires TablesValid(t) && j < |t.assignments| && k < |t.attempts|
    requires AssignmentFor(t.attempts[k].testId, t.attempts[k].workspaceId, t.attempts[k].learnerId)(t.assignments[j])
    ensures TablesValid(t.(attempts := SubmitAttemptRows(t.attempts, t.attempts[k].id, now, score),
                           assignments := SetAssignmentStatus(t.assignments, AssignmentIdIs(t.assignments[j].id), Submitted)))
  {
    var assignmentId := t.assignments[j].id;
    forall i | 0 <= i < |t.assignments| && AssignmentIdIs(assignmentId)(t.assignments[i]) ensures i == j {
      UniqueKeyRow(t.assignments, AssignmentIdOf, i, j);
    }
    SetAssignmentStatusSingle(t.assignments, AssignmentIdIs(assignmentId), Submitted, j);
    SubmitAttemptRowsSingle(t.attempts, t.attempts[k].id, now, score, k);
    UpdateKeepsUnique(t.assignments, AssignmentIdOf, j, t.assignments[j].(status := Submitted));
    UpdateKeepsUnique(t.assignments, AssignmentKey, j, t.assignments[j].(status := Submitted));
    UpdateKeepsUnique(t.attempts, AttemptIdOf, k, SubmittedRow(t.attempts[k], now, score));
    UpdateKeepsUnique(t.attempts, AttemptKey, k, SubmittedRow(t.attempts[k], now, score));
    FinishKeepsLifecycle(t.assignments, t.attempts, j, k, now, score);
  }

  // ---------------------------------------------------------------- the public routes

  /** A row of the public start's assignment query: assignment, learner and child name. */
  datatype Candidate = Candidate(assignmentId: Id, learnerId: Id, childName: string)

  /** The learner rows an assignment joins with. */
  function JoinLearner(learners: seq<LearnerAccount>, a: TestAssignment): (r: seq<Candidate>)
    ensures forall c :: c in r ==> c.assignmentId == a.id && c.learnerId == a.learnerId
  {
    if learners == [] then []
    else
      var rest := JoinLearner(learners[1..], a);
      if learners[0].id == a.learnerId then [Candidate(a.id, a.learnerId, learners[0].displayName)] + rest else rest
  }

  /** The assignments of the test in its workspace, joined with their learner accounts. */
  function Candidates(assignments: seq<TestAssignment>, learners: seq<LearnerAccount>, testId: Id, workspaceId: Id)
    : (r: seq<Candidate>)
    ensures forall c :: c in r ==> exists j :: (0 <= j < |assignments| && assignments[j].id == c.assignmentId
      && AssignmentFor(testId, workspaceId, c.learnerId)(assignments[j]))
  {
    if assignments == [] then []
    else
      var a := assignments[0];
      var rest := Candidates(assignments[1..], learners, testId, workspaceId);
      var head := if a.testId == testId && a.workspaceId == workspaceId then JoinLearner(learners, a) else [];
      assert forall c :: c in rest ==> exists j :: (0 <= j < |assignments| && assignments[j].id == c.assignmentId
        && AssignmentFor(testId, workspaceId, c.learnerId)(assignments[j])) by {
        forall c | c in rest ensures exists j :: (0 <= j < |assignments| && assignments[j].id == c.assignmentId
          && AssignmentFor(testId, workspaceId, c.learnerId)(assignments[j])) {
          var j :| 0 <= j < |assignments[1..]| && assignments[1..][j].id == c.assignmentId
            && AssignmentFor(testId, workspaceId, c.learnerId)(assignments[1..][j]);
          assert assignments[j + 1] == assignments[1..][j];
        }
      }
      assert forall c :: c in head ==> AssignmentFor(testId, workspaceId, c.learnerId)(assignments[0]);
      head + rest
  }

  /** `assignments.filter((item) => normalizePersonName(item.childName) === targetName)` */
  function MatchingName(candidates: seq<Candidate>, targetName: string): (r: seq<Candidate>)
    ensures forall c :: c in r <==> c in candidates && NormalizePersonName(c.childName) == targetName
    ensures |r| <= |candidates|
  {
    if candidates == [] then []
    else
      var rest := MatchingName(candidates[1..], targetName);
      assert forall c :: c in candidates <==> c == candidates[0] || c in candidates[1..];
      if NormalizePersonName(candidates[0].childName) == targetName then [candidates[0]] + rest else rest
  }

  /** The reply of the public start: the attempt and the child's stored name. */
  datatype PublicAttempt = PublicAttempt(attempt: TestAttempt, childName: string)

  /** The public start once the name matches are known. */
  function StartMatched(t: Tables, test: Test, matching: seq<Candidate>, newId: Id, now: int)
    : (Reply<PublicAttempt>, Tables)
  {
    if |matching| == 0 then (Fail(404, CHILD_NOT_FOUND), t)
    else if |matching| > 1 then (Fail(409, NAME_AMBIGUOUS), t)
    else
      var selected := matching[0];
      var (a, t') := BeginAttempt(t, test.id, test.workspaceId, selected.learnerId, selected.assignmentId,
                                  Student, newId, now);
      (Ok(PublicAttempt(a, selected.childName)), t')
  }

  /** `POST /api/tests/public/:testId/start` over the tables. */
  function PublicStartSpec(t: Tables, testId: Id, childName: string, newId: Id, now: int)
    : (Reply<PublicAttempt>, Tables)
  {
    match FirstWhere(t.tests, TestIdIs(testId))
    case None => (Fail(404, TEST_NOT_FOUND), t)
    case Some(k) =>
      var test := t.tests[k];
      if test.status != Published then (Fail(404, TEST_NOT_FOUND), t)
      else if !WithinWindow(test.startsAt, test.endsAt, now) then (Fail(409, OUTSIDE_WINDOW), t)
      else
        var candidates := Candidates(t.assignments, t.learners, test.id, test.workspaceId);
        StartMatched(t, test, MatchingName(candidates, NormalizePersonName(childName)), newId, now)
  }

  method PublicStart(db: Database, testId: Id, childName: string, newId: Id, now: int)
    returns (r: Reply<PublicAttempt>)
    modifies db
    ensures (r, db.Snapshot()) == PublicStartSpec(old(db.Snapshot()), testId, childName, newId, now)
  {
    var found := FirstWhere(db.tests, TestIdIs(testId));
    if found.None? || db.tests[found.value].status != Published {
      return Fail(404, TEST_NOT_FOUND);
    }
    var test := db.tests[found.value];
    if !WithinWindow(test.startsAt, test.endsAt, now) {
      return Fail(409, OUTSIDE_WINDOW);
    }
    var targetName := NormalizePersonName(childName);
    var matching := MatchingName(Candidates(db.assignments, db.learners, test.id, test.workspaceId), targetName);
    if |matching| == 0 {
      return Fail(404, CHILD_NOT_FOUND);
    }
    if |matching| > 1 {
      return Fail(409, NAME_AMBIGUOUS);
    }
    var selected := matching[0];
    var attempt := BeginAttemptRows(db, test.id, test.workspaceId, selected.learnerId, selected.assignmentId,
                                    Student, newId, now);
    r := Ok(PublicAttempt(attempt, selected.childName));
  }

  /** With the name matches known: none gives 404 and several give 409, both writing nothing;
      exactly one starts (or returns) that learner's attempt as a student. */
  lemma StartMatchedOutcome(t: Tables, test: Test, matching: seq<Candidate>, newId: Id, now: int)
    ensures var (r, t') := StartMatched(t, test, matching, newId, now);
      (!r.Ok? ==> t' == t)
      && (matching == [] ==> r == Fail(404, CHILD_NOT_FOUND))
      && (|matching| > 1 ==> r == Fail(409, NAME_AMBIGUOUS))
      && (|matching| == 1 ==>
            r.Ok? && r.value.childName == matching[0].childName
            && (r.value.attempt, t') == BeginAttempt(t, test.id, test.workspaceId, matching[0].learnerId,
                                                     matching[0].assignmentId, Student, newId, now))
  {
  }

  /** The public start refuses a missing or unpublished test (404) and a test outside its window
      (409), writing nothing; past those the outcome depends only on the name matches, which
      are exactly the test's assigned learners whose normalised name equals the normalised
      child name. */
  lemma PublicStartOutcome(t: Tables, testId: Id, childName: string, newId: Id, now: int)
    ensures var (r, t') := PublicStartSpec(t, testId, childName, newId, now);
      var found := FirstWhere(t.tests, TestIdIs(testId));
      (found.None? || t.tests[found.value].status != Published ==> r == Fail(404, TEST_NOT_FOUND) && t' == t)
      && (found.Some? && t.tests[found.value].status == Published
          && !WithinWindow(t.tests[found.value].startsAt, t.tests[found.value].endsAt, now) ==>
            r == Fail(409, OUTSIDE_WINDOW) && t' == t)
      && (found.Some? && t.tests[found.value].status == Published
          && WithinWindow(t.tests[found.value].startsAt, t.tests[found.value].endsAt, now) ==>
            var test := t.tests[found.value];
            var candidates := Candidates(t.assignments, t.learners, test.id, test.workspaceId);
            var matching := MatchingName(candidates, NormalizePersonName(childName));
            (r, t') == StartMatched(t, test, matching, newId, now)
            && forall c :: c in matching <==>
                 c in candidates && NormalizePersonName(c.childName) == NormalizePersonName(childName))
  {
  }

  /** The public start keeps every table invariant. */
  lemma PublicStartKeepsValid(t: Tables, testId: Id, childName: string, newId: Id, now: int)
    requires TablesValid(t) && KeyFree(t.attempts, AttemptIdOf, newId)
    ensures TablesValid(PublicStartSpec(t, testId, childName, newId, now).1)
  {
    var found := FirstWhere(t.tests, TestIdIs(testId));
    if found.Some? {
      var test := t.tests[found.value];
      if test.status == Published && WithinWindow(test.startsAt, test.endsAt, now) {
        var candidates := Candidates(t.assignments, t.learners, test.id, test.workspaceId);
        var matching := MatchingName(candidates, NormalizePersonName(childName));
        assert PublicStartSpec(t, testId, childName, newId, now) == StartMatched(t, test, matching, newId, now);
        StartMatchedKeepsValid(t, test, candidates, matching, newId, now);
      }
    }
  }

  /** Starting the attempt of the one matching candidate keeps every table invariant. */
  lemma StartMatchedKeepsValid(t: Tables, test: Test, candidates: seq<Candidate>, matching: seq<Candidate>,
                               newId: Id, now: int)
    requires TablesValid(t) && KeyFree(t.attempts, AttemptIdOf, newId)
    requires candidates == Candidates(t.assignments, t.learners, test.id, test.workspaceId)
    requires forall c :: c in matching ==> c in candidates
    ensures TablesValid(StartMatched(t, test, matching, newId, now).1)
  {
    if |matching| == 1 {
      var c := matching[0];
      assert c in candidates;
      var j :| 0 <= j < |t.assignments| && t.assignments[j].id == c.assignmentId
        && AssignmentFor(test.id, test.workspaceId, c.learnerId)(t.assignments[j]);
      BeginAttemptKeepsValid(t, test.id, test.workspaceId, c.learnerId, j, Student, newId, now);
    }
  }

  /** The attempt of this id on this test. */
  function AttemptOfTest(attemptId: Id, testId: Id): TestAttempt -> bool {
    (a: TestAttempt) => a.id == attemptId && a.testId == testId
  }

  /** `POST /api/tests/public/:testId/submit` over the tables. */
  function PublicSubmitSpec(t: Tables, testId: Id, attemptId: Id, score: Option<real>, now: int)
    : (Reply<TestAttempt>, Tables)
  {
    match FirstWhere(t.attempts, AttemptOfTest(attemptId, testId))
    case None => (Fail(404, ATTEMPT_NOT_FOUND), t)
    case Some(k) =>
      var a := t.attempts[k];
      (Ok(SubmittedRow(a, now, score)),
       t.(attempts := SubmitAttemptRows(t.attempts, a.id, now, score),
          assignments := SetAssignmentStatus(t.assignments, AssignmentFor(a.testId, a.workspaceId, a.learnerId), Submitted)))
  }

  method PublicSubmit(db: Database, testId: Id, attemptId: Id, score: Option<real>, now: int)
    returns (r: Reply<TestAttempt>)
    modifies db
    ensures (r, db.Snapshot()) == PublicSubmitSpec(old(db.Snapshot()), testId, attemptId, score, now)
  {
    var found := FirstWhere(db.attempts, AttemptOfTest(attemptId, testId));
    if found.None? {
      return Fail(404, ATTEMPT_NOT_FOUND);
    }
    var a := db.attempts[found.value];
    db.attempts := SubmitAttemptRows(db.attempts, a.id, now, score);
    db.assignments := SetAssignmentStatus(db.assignments, AssignmentFor(a.testId, a.workspaceId, a.learnerId), Submitted);
    r := Ok(SubmittedRow(a, now, score));
  }

  /** The public submit answers 404, writing nothing, unless an attempt with that id belongs to
      that test; then that attempt is submitted with exactly the given score and every
      assignment of its (test, workspace, learner) becomes `submitted`. */
  lemma PublicSubmitOutcome(t: Tables, testId: Id, attemptId: Id, score: Option<real>, now: int)
    ensures var (r, t') := PublicSubmitSpec(t, testId, attemptId, score, now);
      (r.Ok? <==> exists k :: 0 <= k < |t.attempts| && t.attempts[k].id == attemptId && t.attempts[k].testId == testId)
      && (!r.Ok? ==> r == Fail(404, ATTEMPT_NOT_FOUND) && t' == t)
      && (r.Ok? ==>
            r.value.id == attemptId && r.value.testId == testId && r.value.status == AttemptSubmitted
            && r.value.score == score && r.value.submittedAt == Some(now)
            && (forall i :: 0 <= i < |t.assignments| ==>
                 (AssignmentFor(r.value.testId, r.value.workspaceId, r.value.learnerId)(t.assignments[i])
                  ==> t'.assignments[i].status == Submitted)))
  {
  }

  /** The public submit keeps every table invariant. */
  lemma PublicSubmitKeepsValid(t: Tables, testId: Id, attemptId: Id, score: Option<real>, now: int)
    requires TablesValid(t)
    ensures TablesValid(PublicSubmitSpec(t, testId, attemptId, score, now).1)
  {
    var found := FirstWhere(t.attempts, AttemptOfTest(attemptId, testId));
    if found.Some? {
      var k := found.value;
      var a := t.attempts[k];
      var p := AssignmentFor(a.testId, a.workspaceId, a.learnerId);
      assert HasItsAssignment(a, t.assignments);
      var j := FirstWhere(t.assignments, p).value;
      forall i | 0 <= i < |t.assignments| && p(t.assignments[i]) ensures i == j {
        UniqueKeyRow(t.assignments, AssignmentKey, i, j);
      }
      forall i | 0 <= i < |t.assignments| && AssignmentIdIs(t.assignments[j].id)(t.assignments[i]) ensures i == j {
        UniqueKeyRow(t.assignments, AssignmentIdOf, i, j);
      }
      SetAssignmentStatusSingle(t.assignments, p, Submitted, j);
      SetAssignmentStatusSingle(t.assignments, AssignmentIdIs(t.assignments[j].id), Submitted, j);
      SubmitBothKeepsValid(t, j, k, now, score);
    }
  }

  // ---------------------------------------------------------------- the learner's listing

  /** One entry of `GET /api/tests`. */
  datatype LearnerTestItem = LearnerTestItem(test: Test, canStart: bool, attempt: Option<TestAttempt>)

  /** Some assignment gives the test to the learner in the workspace. */
  predicate AssignedTo(assignments: seq<TestAssignment>, testId: Id, workspaceId: Id, learnerId: Id) {
    exists j :: 0 <= j < |assignments| && assignments[j].testId == testId
      && assignments[j].workspaceId == workspaceId && assignments[j].learnerId == learnerId
  }

  /** The `testRows` query: the published tests of the workspace that are assigned to the
      learner, in the order of the tests table (creation order). The join yields one row per
      matching assignment; the (test, learner) key of assignments is unique, so that is one row
      per test. */
  function LearnerTests(assignments: seq<TestAssignment>, tests: seq<Test>, workspaceId: Id, learnerId: Id)
    : (r: seq<Test>)
    ensures forall x :: x in r <==> (x in tests && x.workspaceId == workspaceId && x.status == Published && x.published
      && AssignedTo(assignments, x.id, workspaceId, learnerId))
    ensures |r| <= |tests|
  {
    if tests == [] then []
    else
      var x := tests[0];
      var rest := LearnerTests(assignments, tests[1..], workspaceId, learnerId);
      assert forall y :: y in tests <==> y == x || y in tests[1..];
      (if x.workspaceId == workspaceId && x.status == Published && x.published
          && AssignedTo(assignments, x.id, workspaceId, learnerId)
       then [x] else [])
      + rest
  }

  /** `new Map(attempts.map((attempt) => [attempt.testId, attempt]))` over the learner's attempts
      in the workspace: a later attempt for the same test replaces an earlier one. */
  function AttemptsByTest(attempts: seq<TestAttempt>, workspaceId: Id, learnerId: Id): (m: map<Id, TestAttempt>)
    ensures forall testId :: testId in m ==> (m[testId].testId == testId && m[testId] in attempts
      && m[testId].workspaceId == workspaceId && m[testId].learnerId == learnerId)
    ensures forall k :: 0 <= k < |attempts| ==>
      (attempts[k].workspaceId == workspaceId && attempts[k].learnerId == learnerId ==> attempts[k].testId in m)
    decreases |attempts|
  {
    if attempts == [] then map[]
    else
      var last := attempts[|attempts| - 1];
      var m := AttemptsByTest(attempts[..|attempts| - 1], workspaceId, learnerId);
      assert forall k :: 0 <= k < |attempts| - 1 ==> attempts[k] == attempts[..|attempts| - 1][k];
      if last.workspaceId == workspaceId && last.learnerId == learnerId then m[last.testId := last] else m
  }

  function ItemFor(test: Test, byTest: map<Id, TestAttempt>, actorType: ActorType, now: int): LearnerTestItem {
    LearnerTestItem(test, actorType == Student && WithinWindow(test.startsAt, test.endsAt, now),
                    if test.id in byTest then Some(byTest[test.id]) else None)
  }

  /** `GET /api/tests` over the tables. */
  function ListForLearner(t: Tables, req: LearnerRequest, now: int): Reply<seq<LearnerTestItem>> {
    if !LearnerAccess(t.links, req.workspaceId, req.learnerId, req.actorType) then Fail(403, NO_ACCESS)
    else
      var rows := LearnerTests(t.assignments, t.tests, req.workspaceId, req.learnerId);
      var byTest := AttemptsByTest(t.attempts, req.workspaceId, req.learnerId);
      Ok(seq(|rows|, i requires 0 <= i < |rows| => ItemFor(rows[i], byTest, req.actorType, now)))
  }

  /** Every listed test is a published test of the workspace assigned to the learner; an item
      can be started exactly when the caller is a student and the test is within its window;
      and it carries an attempt exactly when the learner has one on that test in the
      workspace, which with one attempt per (test, learner, workspace) is that attempt. */
  lemma ListForLearnerMeaning(t: Tables, req: LearnerRequest, now: int, i: nat)
    requires ListForLearner(t, req, now).Ok? && i < |ListForLearner(t, req, now).value|
    ensures var item := ListForLearner(t, req, now).value[i];
      item.test in t.tests && item.test.workspaceId == req.workspaceId && item.test.status == Published
      && (exists j :: 0 <= j < |t.assignments| && t.assignments[j].testId == item.test.id
                      && t.assignments[j].workspaceId == req.workspaceId && t.assignments[j].learnerId == req.learnerId)
      && (item.canStart <==> req.actorType == Student
                             && (item.test.startsAt.None? || item.test.startsAt.value <= now)
                             && (item.test.endsAt.None? || now <= item.test.endsAt.value))
      && (item.attempt.Some? <==>
            exists k :: 0 <= k < |t.attempts| && AttemptFor(item.test.id, req.workspaceId, req.learnerId)(t.attempts[k]))
      && (item.attempt.Some? && KeysUnique(t.attempts, AttemptKey) ==>
            FirstWhere(t.attempts, AttemptFor(item.test.id, req.workspaceId, req.learnerId)) ==
              Some(AttemptIndex(t.attempts, item.attempt.value)))
  {
    var rows := LearnerTests(t.assignments, t.tests, req.workspaceId, req.learnerId);
    var byTest := AttemptsByTest(t.attempts, req.workspaceId, req.learnerId);
    var item := ListForLearner(t, req, now).value[i];
    assert item == ItemFor(rows[i], byTest, req.actorType, now);
    assert rows[i] in rows;
    WithinWindowIff(rows[i].startsAt, rows[i].endsAt, now);
    if item.attempt.Some? && KeysUnique(t.attempts, AttemptKey) {
      var a := item.attempt.value;
      var p := AttemptFor(item.test.id, req.workspaceId, req.learnerId);
      var f := FirstWhere(t.attempts, p).value;
      var k := AttemptIndex(t.attempts, a);
      UniqueKeyRow(t.attempts, AttemptKey, f, k);
    }
  }

  /** The position of a row in the attempts table. */
  function AttemptIndex(attempts: seq<TestAttempt>, a: TestAttempt): (k: nat)
    requires a in attempts
    ensures k < |attempts| && attempts[k] == a
  {
    if attempts[0] == a then 0 else AttemptIndex(attempts[1..], a) + 1
  }
}

=== FILE: tests_authoring.dfy ===
/** The authoring routes of apps/backend/src/routes/tests.ts: creating a draft test, the question
    bank (create and filtered listing), adding a question to a draft test (`nextQuestionPosition`
    for the default position) and listing a test's questions. */
module TestsAuthoring {
  import opened Common
  import opened Strings
  import opened WorkspaceSchema
  import opened Guards
  import opened TestsContent
  import opened TestsValidation

  const CLASSROOM_NOT_FOUND := "Classroom not found in this workspace"
  const ENDS_BEFORE_STARTS := "endsAt cannot be earlier than startsAt"
  const TEST_NOT_FOUND := "Test not found"
  const TEST_PUBLISHED := "Cannot modify questions for a published test"
  const BANK_ID_REQUIRED := "questionBankItemId is required for bank source"
  const BANK_ITEM_NOT_FOUND := "Question bank item not found"
  const MANUAL_FIELDS_REQUIRED := "Manual question requires type, prompt, and correctAnswers."
  /** What the database reports when an insert breaks the (test, position) unique constraint. */
  const POSITION_TAKEN := "duplicate key value violates unique constraint"
  const BANK_LIST_LIMIT := 200

  function GetOr<T>(value: Option<T>, default: T): T {
    if value.Some? then value.value else default
  }

  /** Every failed reply leaves the tables as they were. */
  predicate FailsCleanly<T>(t: Tables, outcome: (Reply<T>, Tables)) {
    !outcome.0.Ok? ==> outcome.1 == t
  }

  // ---------------------------------------------------------------- POST /create

  /** The parsed body of `POST /api/tests/create`. */
  datatype CreateTestInput = CreateTestInput(
    workspaceId: Id, classroomId: Id, title: string, description: Option<string>,
    grade: Option<string>, subject: Option<string>, topic: Option<string>,
    objective: Option<string>, questionCountTarget: Option<int>, timeLimitMins: Option<int>,
    attemptLimit: Option<int>, feedbackMode: Option<FeedbackMode>,
    shuffleQuestions: Option<bool>, shuffleOptions: Option<bool>, maxScore: int,
    startsAt: Option<int>, endsAt: Option<int>)

  /** The row the handler inserts. */
  function NewTest(input: CreateTestInput, id: Id, userId: Id): Test {
    Test(id, input.workspaceId, Some(input.classroomId), None, Trim(input.title),
         TrimOrNull(input.description), TrimOrNull(input.grade), TrimOrNull(input.subject),
         TrimOrNull(input.topic), TrimOrNull(input.objective), DEFAULT_TEST_STATUS,
         GetOr(input.questionCountTarget, DEFAULT_QUESTION_COUNT_TARGET), input.timeLimitMins,
         GetOr(input.attemptLimit, DEFAULT_ATTEMPT_LIMIT),
         GetOr(input.feedbackMode, DEFAULT_FEEDBACK_MODE),
         input.shuffleQuestions != Some(false), input.shuffleOptions != Some(false),
         input.maxScore, input.startsAt, input.endsAt, false, userId)
  }

  predicate InvertedWindow(startsAt: Option<int>, endsAt: Option<int>) {
    startsAt.Some? && endsAt.Some? && endsAt.value < startsAt.value
  }

  /** `POST /api/tests/create` over the tables. */
  function CreateTestSpec(t: Tables, actor: Option<Id>, input: CreateTestInput, newId: Id): (Reply<Test>, Tables) {
    if actor.None? then (Fail(401, UNAUTHORIZED), t)
    else if !OwnsWorkspace(t.workspaces, input.workspaceId, actor.value) then (Fail(403, NOT_OWNER), t)
    else if !ClassroomInWorkspace(t.classrooms, input.classroomId, input.workspaceId) then
      (Fail(400, CLASSROOM_NOT_FOUND), t)
    else if InvertedWindow(input.startsAt, input.endsAt) then (Fail(400, ENDS_BEFORE_STARTS), t)
    else
      var row := NewTest(input, newId, actor.value);
      (Ok(row), t.(tests := t.tests + [row]))
  }

  method CreateTest(db: Database, actor: Option<Id>, input: CreateTestInput, newId: Id) returns (r: Reply<Test>)
    modifies db
    ensures (r, db.Snapshot()) == CreateTestSpec(old(db.Snapshot()), actor, input, newId)
  {
    if actor.None? {
      return Fail(401, UNAUTHORIZED);
    }
    if !OwnsWorkspace(db.workspaces, input.workspaceId, actor.value) {
      return Fail(403, NOT_OWNER);
    }
    if !ClassroomInWorkspace(db.classrooms, input.classroomId, input.workspaceId) {
      return Fail(400, CLASSROOM_NOT_FOUND);
    }
    if input.startsAt.Some? && input.endsAt.Some? && input.endsAt.value < input.startsAt.value {
      return Fail(400, ENDS_BEFORE_STARTS);
    }
    var row := NewTest(input, newId, actor.value);
    db.tests := db.tests + [row];
    r := Ok(row);
  }

  /** A test is created exactly when the caller is signed in, owns the workspace, the classroom
      is in that workspace and the window is not inverted; each failure has its own status, in
      that order, and writes nothing. */
  lemma CreateTestOutcome(t: Tables, actor: Option<Id>, input: CreateTestInput, newId: Id)
    ensures var (r, t') := CreateTestSpec(t, actor, input, newId);
      FailsCleanly(t, (r, t'))
      && (r.Ok? <==>
            actor.Some?
            && (exists i :: 0 <= i < |t.workspaces| && t.workspaces[i].id == input.workspaceId && t.workspaces[i].ownerUserId == actor.value)
            && (exists i :: 0 <= i < |t.classrooms| && t.classrooms[i].id == input.classroomId && t.classrooms[i].workspaceId == input.workspaceId)
            && !InvertedWindow(input.startsAt, input.endsAt))
      && (actor.None? ==> r == Fail(401, UNAUTHORIZED))
      && (actor.Some? && !OwnsWorkspace(t.workspaces, input.workspaceId, actor.value) ==> r == Fail(403, NOT_OWNER))
      && (actor.Some? && OwnsWorkspace(t.workspaces, input.workspaceId, actor.value) ==>
            (!ClassroomInWorkspace(t.classrooms, input.classroomId, input.workspaceId) ==>
               r == Fail(400, CLASSROOM_NOT_FOUND))
            && (ClassroomInWorkspace(t.classrooms, input.classroomId, input.workspaceId) ==>
                  (InvertedWindow(input.startsAt, input.endsAt) ==> r == Fail(400, ENDS_BEFORE_STARTS))))
      && (r.Fail? && r.status == 400 ==> actor.Some? && OwnsWorkspace(t.workspaces, input.workspaceId, actor.value))
  {
  }

  /** A created test is a new draft, unpublished, owned by the caller, with the schema's
      defaults for every setting the body leaves out, appended after the existing tests. */
  lemma CreateTestStoresDraft(t: Tables, actor: Option<Id>, input: CreateTestInput, newId: Id)
    requires CreateTestSpec(t, actor, input, newId).0.Ok?
    ensures var (r, t') := CreateTestSpec(t, actor, input, newId);
      var row := r.value;
      t' == t.(tests := t.tests + [row])
      && row.id == newId && row.workspaceId == input.workspaceId && row.createdByUserId == actor.value
      && row.status == Draft && !row.published && row.classroomId == Some(input.classroomId)
      && row.title == Trim(input.title)
      && (input.questionCountTarget.None? ==> row.questionCountTarget == 10)
      && (input.attemptLimit.None? ==> row.attemptLimit == 1)
      && (input.feedbackMode.None? ==> row.feedbackMode == AfterSubmission)
      && (row.shuffleQuestions <==> input.shuffleQuestions != Some(false))
      && (row.shuffleOptions <==> input.shuffleOptions != Some(false))
  {
  }

  /** Creating a test with a fresh id keeps every table invariant. */
  lemma CreateTestKeepsValid(t: Tables, actor: Option<Id>, input: CreateTestInput, newId: Id)
    requires TablesValid(t) && KeyFree(t.tests, TestIdOf, newId)
    ensures TablesValid(CreateTestSpec(t, actor, input, newId).1)
  {
    if CreateTestSpec(t, actor, input, newId).0.Ok? {
      var row := NewTest(input, newId, actor.value);
      AppendKeepsUnique(t.tests, TestIdOf, row);
    }
  }

  // ---------------------------------------------------------------- POST /bank

  /** The parsed body of `POST /api/tests/bank`. */
  datatype BankItemInput = BankItemInput(
    workspaceId: Id, grade: string, subject: string, topic: string, skill: string,
    difficulty: Difficulty, questionType: QuestionType, prompt: string,
    options: Option<seq<string>>, correctAnswers: seq<string>, explanation: Option<string>,
    tags: Option<seq<string>>, estimatedTimeSeconds: Option<int>, status: Option<string>)

  function NewBankItem(input: BankItemInput, id: Id, userId: Id): QuestionBankItem {
    QuestionBankItem(id, input.workspaceId, userId, Trim(input.grade), Trim(input.subject),
                     Trim(input.topic), Trim(input.skill), input.difficulty, input.questionType,
                     Trim(input.prompt), NormalizeOptions(input.options), TrimAll(input.correctAnswers),
                     TrimOrNull(input.explanation), GetOr(input.tags, []),
                     GetOr(input.estimatedTimeSeconds, DEFAULT_ESTIMATED_TIME_SECONDS),
                     GetOr(input.status, DEFAULT_BANK_STATUS))
  }

  /** The messages of a content-error list. */
  function Messages(errors: seq<ContentError>): (ms: seq<string>)
    ensures |ms| == |errors| && forall i :: 0 <= i < |errors| ==> ms[i] == Message(errors[i])
  {
    seq(|errors|, i requires 0 <= i < |errors| => Message(errors[i]))
  }

  /** `POST /api/tests/bank` over the tables. */
  function CreateBankItemSpec(t: Tables, actor: Option<Id>, input: BankItemInput, newId: Id)
    : (Reply<QuestionBankItem>, Tables)
  {
    if actor.None? then (Fail(401, UNAUTHORIZED), t)
    else if !OwnsWorkspace(t.workspaces, input.workspaceId, actor.value) then (Fail(403, NOT_OWNER), t)
    else CheckedBankItemSpec(t, actor.value, input, newId)
  }

  /** The rest of the handler once the caller owns the workspace: the content check, then the
      insert. */
  function CheckedBankItemSpec(t: Tables, userId: Id, input: BankItemInput, newId: Id)
    : (Reply<QuestionBankItem>, Tables)
  {
    var errors := ContentErrors(input.questionType, input.prompt, NormalizeOptions(input.options),
                                input.correctAnswers);
    if errors != [] then (Invalid(Messages(errors)), t)
    else
      var row := NewBankItem(input, newId, userId);
      (Ok(row), t.(bank := t.bank + [row]))
  }

  method CreateBankItem(db: Database, actor: Option<Id>, input: BankItemInput, newId: Id)
    returns (r: Reply<QuestionBankItem>)
    modifies db
    ensures (r, db.Snapshot()) == CreateBankItemSpec(old(db.Snapshot()), actor, input, newId)
  {
    if actor.None? {
      return Fail(401, UNAUTHORIZED);
    }
    if !OwnsWorkspace(db.workspaces, input.workspaceId, actor.value) {
      return Fail(403, NOT_OWNER);
    }
    r := CreateCheckedBankItem(db, actor.value, input, newId);
  }

  method CreateCheckedBankItem(db: Database, userId: Id, input: BankItemInput, newId: Id)
    returns (r: Reply<QuestionBankItem>)
    modifies db
    ensures (r, db.Snapshot()) == CheckedBankItemSpec(old(db.Snapshot()), userId, input, newId)
  {
    var options := NormalizeOptions(input.options);
    var contentErrors := ValidateQuestionContent(input.questionType, input.prompt, options, input.correctAnswers);
    if |contentErrors| > 0 {
      return Invalid(Messages(contentErrors));
    }
    var row := NewBankItem(input, newId, userId);
    db.bank := db.bank + [row];
    r := Ok(row);
  }

  /** Once the caller owns the workspace, a bank item is stored exactly when its content has no
      error; otherwise the reply lists every error message in check order and nothing is
      written. */
  lemma CreateBankItemOutcome(t: Tables, actor: Option<Id>, input: BankItemInput, newId: Id)
    requires actor.Some? && OwnsWorkspace(t.workspaces, input.workspaceId, actor.value)
    ensures var (r, t') := CreateBankItemSpec(t, actor, input, newId);
      var errors := ContentErrors(input.questionType, input.prompt, NormalizeOptions(input.options),
                                  input.correctAnswers);
      FailsCleanly(t, (r, t'))
      && (r.Ok? <==> errors == [])
      && (errors != [] ==> r == Invalid(Messages(errors)) && |r.errors| == |errors|)
      && (r.Ok? ==> t' == t.(bank := t.bank + [r.value]) && r.value.id == newId
                    && r.value.workspaceId == input.workspaceId && r.value.createdByUserId == actor.value)
  {
  }

  /** Adding a bank item with a fresh id keeps every table invariant. */
  lemma CreateBankItemKeepsValid(t: Tables, actor: Option<Id>, input: BankItemInput, newId: Id)
    requires TablesValid(t) && KeyFree(t.bank, BankItemIdOf, newId)
    ensures TablesValid(CreateBankItemSpec(t, actor, input, newId).1)
  {
    var (r, t') := CreateBankItemSpec(t, actor, input, newId);
    if r.Ok? {
      CreateBankItemOutcome(t, actor, input, newId);
      AppendKeepsUnique(t.bank, BankItemIdOf, r.value);
      BankChangeKeepsValid(t, t.bank + [r.value]);
    }
  }

  // ---------------------------------------------------------------- GET /bank

  /** The optional filters of `GET /api/tests/bank`. */
  datatype BankFilter = BankFilter(workspaceId: Id, grade: Option<string>, subject: Option<string>,
                                   topic: Option<string>, skill: Option<string>,
                                   questionType: Option<QuestionType>, difficulty: Option<Difficulty>,
                                   status: Option<string>)

  /** A given, non-empty text filter must equal the column. */
  predicate TextMatches(filter: Option<string>, value: string) {
    filter.None? || filter.value == [] || value == filter.value
  }

  /** The `rows.filter` callback. */
  predicate BankMatches(f: BankFilter, row: QuestionBankItem) {
    TextMatches(f.grade, row.grade) && TextMatches(f.subject, row.subject)
    && TextMatches(f.topic, row.topic) && TextMatches(f.skill, row.skill)
    && (f.questionType.None? || row.questionType == f.questionType.value)
    && (f.difficulty.None? || row.difficulty == f.difficulty.value)
    && TextMatches(f.status, row.status)
  }

  /** The workspace's bank items, newest first (rows are kept in insertion order). */
  function NewestFirst(bank: seq<QuestionBankItem>, workspaceId: Id): (r: seq<QuestionBankItem>)
    ensures |r| <= |bank|
    ensures forall x :: x in r <==> x in bank && x.workspaceId == workspaceId
  {
    if bank == [] then []
    else
      var last := bank[|bank| - 1];
      var rest := NewestFirst(bank[..|bank| - 1], workspaceId);
      assert forall x :: x in bank <==> x == last || x in bank[..|bank| - 1];
      if last.workspaceId == workspaceId then [last] + rest else rest
  }

  function FilterBank(rows: seq<QuestionBankItem>, f: BankFilter): (r: seq<QuestionBankItem>)
    ensures |r| <= |rows|
    ensures forall x :: x in r <==> x in rows && BankMatches(f, x)
  {
    if rows == [] then []
    else
      var rest := FilterBank(rows[1..], f);
      assert forall x :: x in rows <==> x == rows[0] || x in rows[1..];
      if BankMatches(f, rows[0]) then [rows[0]] + rest else rest
  }

  /** The 200 newest rows of the workspace. */
  function LatestBank(bank: seq<QuestionBankItem>, workspaceId: Id): seq<QuestionBankItem> {
    var newest := NewestFirst(bank, workspaceId);
    if |newest| <= BANK_LIST_LIMIT then newest else newest[..BANK_LIST_LIMIT]
  }

  /** `GET /api/tests/bank`: the newest 200 items of the workspace, then the filters. */
  function ListBank(t: Tables, actor: Option<Id>, f: BankFilter): Reply<seq<QuestionBankItem>> {
    if actor.None? then Fail(401, UNAUTHORIZED)
    else if !OwnsWorkspace(t.workspaces, f.workspaceId, actor.value) then Fail(403, NOT_OWNER)
    else Ok(FilterBank(LatestBank(t.bank, f.workspaceId), f))
  }

  /** The listing holds at most 200 items, all of the workspace and all matching every given
      filter; when the workspace has at most 200 items, every matching one is listed. */
  lemma ListBankMeaning(t: Tables, actor: Option<Id>, f: BankFilter)
    requires ListBank(t, actor, f).Ok?
    ensures var rows := ListBank(t, actor, f).value;
      |rows| <= BANK_LIST_LIMIT
      && (forall x :: x in rows ==> x in t.bank && x.workspaceId == f.workspaceId && BankMatches(f, x))
      && (|NewestFirst(t.bank, f.workspaceId)| <= BANK_LIST_LIMIT ==>
            forall x :: x in t.bank && x.workspaceId == f.workspaceId && BankMatches(f, x) ==> x in rows)
  {
    var newest := NewestFirst(t.bank, f.workspaceId);
    if |newest| > BANK_LIST_LIMIT {
      forall x | x in newest[..BANK_LIST_LIMIT] ensures x in newest {
        var i :| 0 <= i < BANK_LIST_LIMIT && newest[..BANK_LIST_LIMIT][i] == x;
        assert newest[i] == x;
      }
    }
  }

  // ---------------------------------------------------------------- nextQuestionPosition

  /** The largest position among the questions of a test, in any workspace. */
  function MaxPosition(questions: seq<TestQuestion>, testId: Id): (m: Option<int>)
    ensures m.None? <==> forall q :: q in questions ==> q.testId != testId
    ensures m.Some? ==> (exists q :: q in questions && q.testId == testId && q.position == m.value)
    ensures m.Some? ==> forall q :: q in questions && q.testId == testId ==> q.position <= m.value
  {
    if questions == [] then None
    else
      var rest := MaxPosition(questions[1..], testId);
      var q := questions[0];
      assert forall x :: x in questions <==> x == q || x in questions[1..];
      if q.testId != testId then rest
      else if rest.None? || rest.value < q.position then Some(q.position)
      else rest
  }

  /** `nextQuestionPosition(testId)` */
  function NextQuestionPosition(questions: seq<TestQuestion>, testId: Id): int {
    GetOr(MaxPosition(questions, testId), 0) + 1
  }

  /** The default position is one past the test's largest position (1 for a test with no
      question), so no question of the test holds it. */
  lemma NextQuestionPositionFree(questions: seq<TestQuestion>, testId: Id)
    ensures var p := NextQuestionPosition(questions, testId);
      (forall q :: q in questions && q.testId == testId ==> q.position < p)
      && ((forall q :: q in questions ==> q.testId != testId) ==> p == 1)
      && ((exists q :: q in questions && q.testId == testId) ==>
            exists q :: q in questions && q.testId == testId && q.position == p - 1)
      && KeyFree(questions, QuestionPositionKey, (testId, p))
  {
    var p := NextQuestionPosition(questions, testId);
    forall i | 0 <= i < |questions| ensures QuestionPositionKey(questions[i]) != (testId, p) {
      assert questions[i] in questions;
    }
  }

  // ---------------------------------------------------------------- POST /:testId/questions

  /** The parsed body of `POST /api/tests/:testId/questions`. */
  datatype AddQuestionInput = AddQuestionInput(
    workspaceId: Id, source: SourceType, questionBankItemId: Option<Id>,
    questionType: Option<QuestionType>, prompt: Option<string>, options: Option<seq<string>>,
    correctAnswers: Option<seq<string>>, explanation: Option<string>,
    difficulty: Option<Difficulty>, skill: Option<string>, points: Option<int>,
    position: Option<int>)

  /** The bank item with this id in this workspace. */
  function BankItemAt(itemId: Id, workspaceId: Id): QuestionBankItem -> bool {
    (b: QuestionBankItem) => b.id == itemId && b.workspaceId == workspaceId
  }

  /** The question copied from a bank item. */
  function CopyOfBankItem(item: QuestionBankItem, input: AddQuestionInput, testId: Id, position: int,
                          id: Id, userId: Id): TestQuestion {
    TestQuestion(id, testId, input.workspaceId, Some(item.id), Bank, item.questionType, item.prompt,
                 item.options, item.correctAnswers, item.explanation, item.difficulty,
                 Some(item.skill), GetOr(input.points, DEFAULT_POINTS), position, userId)
  }

  /** The question written by hand. */
  function ManualQuestion(input: AddQuestionInput, testId: Id, position: int, id: Id, userId: Id): TestQuestion
    requires input.questionType.Some? && input.prompt.Some? && input.correctAnswers.Some?
  {
    TestQuestion(id, testId, input.workspaceId, None, Manual, input.questionType.value,
                 Trim(input.prompt.value), NormalizeOptions(input.options),
                 TrimAll(input.correctAnswers.value), TrimOrNull(input.explanation),
                 GetOr(input.difficulty, DEFAULT_QUESTION_DIFFICULTY), TrimOrNull(input.skill),
                 GetOr(input.points, DEFAULT_POINTS), position, userId)
  }

  /** `!payload.type || !payload.prompt || !payload.correctAnswers` */
  predicate ManualFieldsMissing(input: AddQuestionInput) {
    input.questionType.None? || input.prompt.None? || input.prompt.value == [] || input.correctAnswers.None?
  }

  /** The content errors of a manual question's body. */
  function ManualErrors(input: AddQuestionInput): seq<ContentError>
    requires !ManualFieldsMissing(input)
  {
    ContentErrors(input.questionType.value, input.prompt.value, NormalizeOptions(input.options),
                  input.correctAnswers.value)
  }

  /** The question the handler is about to insert, or the reply that refuses it. */
  datatype Prepared = Rejected(reply: Reply<TestQuestion>) | Ready(row: TestQuestion)

  /** The source-specific checks, after the test checks, at a chosen position. */
  function PrepareQuestion(t: Tables, userId: Id, testId: Id, input: AddQuestionInput, position: int, newId: Id)
    : (p: Prepared)
    ensures p.Rejected? ==> !p.reply.Ok?
    ensures p.Ready? ==> p.row.id == newId && p.row.testId == testId && p.row.workspaceId == input.workspaceId
                         && p.row.position == position && p.row.points == GetOr(input.points, DEFAULT_POINTS)
  {
    if input.source == Bank then
      if input.questionBankItemId.None? || input.questionBankItemId.value == [] then
        Rejected(Fail(400, BANK_ID_REQUIRED))
      else match FirstWhere(t.bank, BankItemAt(input.questionBankItemId.value, input.workspaceId))
        case None => Rejected(Fail(404, BANK_ITEM_NOT_FOUND))
        case Some(k) => Ready(CopyOfBankItem(t.bank[k], input, testId, position, newId, userId))
    else if ManualFieldsMissing(input) then Rejected(Fail(400, MANUAL_FIELDS_REQUIRED))
    else if ManualErrors(input) != [] then Rejected(Invalid(Messages(ManualErrors(input))))
    else Ready(ManualQuestion(input, testId, position, newId, userId))
  }

  /** The insert: refused by the (test, position) constraint when the position is taken. */
  function InsertQuestion(t: Tables, p: Prepared): (Reply<TestQuestion>, Tables) {
    if p.Rejected? then (p.reply, t)
    else if KeyFree(t.questions, QuestionPositionKey, (p.row.testId, p.row.position)) then
      (Ok(p.row), t.(questions := t.questions + [p.row]))
    else (Fail(500, POSITION_TAKEN), t)
  }

  /** `POST /api/tests/:testId/questions` over the tables. */
  function AddQuestionSpec(t: Tables, actor: Option<Id>, testId: Id, input: AddQuestionInput, newId: Id)
    : (Reply<TestQuestion>, Tables)
  {
    if actor.None? then (Fail(401, UNAUTHORIZED), t)
    else if !OwnsWorkspace(t.workspaces, input.workspaceId, actor.value) then (Fail(403, NOT_OWNER), t)
    else match FirstWhere(t.tests, TestIn(testId, input.workspaceId))
      case None => (Fail(404, TEST_NOT_FOUND), t)
      case Some(k) =>
        if t.tests[k].status == Published then (Fail(409, TEST_PUBLISHED), t)
        else
          var position := GetOr(input.position, NextQuestionPosition(t.questions, testId));
          InsertQuestion(t, PrepareQuestion(t, actor.value, testId, input, position, newId))
  }

  /** The source-specific checks of the handler, reading the bank. */
  method CheckQuestionSource(db: Database, userId: Id, testId: Id, input: AddQuestionInput, position: int, newId: Id)
    returns (p: Prepared)
    ensures p == PrepareQuestion(db.Snapshot(), userId, testId, input, position, newId)
  {
    if input.source == Bank {
      if input.questionBankItemId.None? || input.questionBankItemId.value == [] {
        return Rejected(Fail(400, BANK_ID_REQUIRED));
      }
      var item := FirstWhere(db.bank, BankItemAt(input.questionBankItemId.value, input.workspaceId));
      if item.None? {
        return Rejected(Fail(404, BANK_ITEM_NOT_FOUND));
      }
      return Ready(CopyOfBankItem(db.bank[item.value], input, testId, position, newId, userId));
    }
    if input.questionType.None? || input.prompt.None? || input.prompt.value == [] || input.correctAnswers.None? {
      return Rejected(Fail(400, MANUAL_FIELDS_REQUIRED));
    }
    var options := NormalizeOptions(input.options);
    var errors := ValidateQuestionContent(input.questionType.value, input.prompt.value, options,
                                          input.correctAnswers.value);
    if |errors| > 0 {
      return Rejected(Invalid(Messages(errors)));
    }
    p := Ready(ManualQuestion(input, testId, position, newId, userId));
  }

  method AddQuestion(db: Database, actor: Option<Id>, testId: Id, input: AddQuestionInput, newId: Id)
    returns (r: Reply<TestQuestion>)
    modifies db
    ensures (r, db.Snapshot()) == AddQuestionSpec(old(db.Snapshot()), actor, testId, input, newId)
  {
    if actor.None? {
      return Fail(401, UNAUTHORIZED);
    }
    if !OwnsWorkspace(db.workspaces, input.workspaceId, actor.value) {
      return Fail(403, NOT_OWNER);
    }
    var found := FirstWhere(db.tests, TestIn(testId, input.workspaceId));
    if found.None? {
      return Fail(404, TEST_NOT_FOUND);
    }
    if db.tests[found.value].status == Published {
      return Fail(409, TEST_PUBLISHED);
    }
    var position := if input.position.Some? then input.position.value else NextQuestionPosition(db.questions, testId);
    var prepared := CheckQuestionSource(db, actor.value, testId, input, position, newId);
    if prepared.Rejected? {
      return prepared.reply;
    }
    if !KeyFree(db.questions, QuestionPositionKey, (prepared.row.testId, prepared.row.position)) {
      return Fail(500, POSITION_TAKEN);
    }
    db.questions := db.questions + [prepared.row];
    r := Ok(prepared.row);
  }

  /** Adding a question: a test missing from the workspace gives 404 and a published one 409;
      every failure leaves the tables unchanged; a success appends exactly the returned
      question, for this test and workspace, at the requested position or else at the next
      free one. */
  lemma AddQuestionOutcome(t: Tables, actor: Option<Id>, testId: Id, input: AddQuestionInput, newId: Id)
    requires actor.Some? && OwnsWorkspace(t.workspaces, input.workspaceId, actor.value)
    ensures var (r, t') := AddQuestionSpec(t, actor, testId, input, newId);
      var found := FirstWhere(t.tests, TestIn(testId, input.workspaceId));
      FailsCleanly(t, (r, t'))
      && (found.None? ==> r == Fail(404, TEST_NOT_FOUND))
      && (found.Some? && t.tests[found.value].status == Published ==> r == Fail(409, TEST_PUBLISHED))
      && (r.Ok? ==>
            t' == t.(questions := t.questions + [r.value])
            && r.value.id == newId && r.value.testId == testId && r.value.workspaceId == input.workspaceId
            && r.value.position == GetOr(input.position, NextQuestionPosition(t.questions, testId))
            && r.value.points == GetOr(input.points, 1))
      && (input.position.None? && r.Fail? ==> r.status != 500)
  {
    NextQuestionPositionFree(t.questions, testId);
  }

  /** Adding a question with a fresh id keeps every table invariant, including one question per
      (test, position). */
  lemma AddQuestionKeepsValid(t: Tables, actor: Option<Id>, testId: Id, input: AddQuestionInput, newId: Id)
    requires TablesValid(t) && KeyFree(t.questions, QuestionIdOf, newId)
    ensures TablesValid(AddQuestionSpec(t, actor, testId, input, newId).1)
  {
    var (r, t') := AddQuestionSpec(t, actor, testId, input, newId);
    if r.Ok? {
      AppendKeepsUnique(t.questions, QuestionIdOf, r.value);
      AppendKeepsUnique(t.questions, QuestionPositionKey, r.value);
    }
  }

  /** Storing trimmed text does not change the content check: the prompt is blank after
      trimming exactly when it was, and the answers survive filtering the same way. */
  lemma StoredContentErrors(qt: QuestionType, prompt: string, options: Option<seq<string>>, answers: seq<string>)
    ensures ContentErrors(qt, Trim(prompt), options, TrimAll(answers)) == ContentErrors(qt, prompt, options, answers)
  {
    TrimTwice(prompt);
    TrimAllNonBlank(answers);
  }

  /** A question written by hand passes its content check again once stored: what publish
      re-validates is what was accepted. */
  lemma PreparedManualRevalidates(t: Tables, userId: Id, testId: Id, input: AddQuestionInput, position: int, newId: Id)
    requires input.source == Manual
    requires PrepareQuestion(t, userId, testId, input, position, newId).Ready?
    ensures QuestionContentErrors(PrepareQuestion(t, userId, testId, input, position, newId).row) == []
  {
    var q := ManualQuestion(input, testId, position, newId, userId);
    assert PrepareQuestion(t, userId, testId, input, position, newId).row == q;
    StoredContentErrors(q.questionType, input.prompt.value, q.options, input.correctAnswers.value);
  }

  /** A question written by hand and added to a test passes the content check that publishing
      repeats. */
  lemma ManualQuestionRevalidates(t: Tables, actor: Option<Id>, testId: Id, input: AddQuestionInput, newId: Id)
    requires input.source == Manual
    requires AddQuestionSpec(t, actor, testId, input, newId).0.Ok?
    ensures QuestionContentErrors(AddQuestionSpec(t, actor, testId, input, newId).0.value) == []
  {
    var position := GetOr(input.position, NextQuestionPosition(t.questions, testId));
    var p := PrepareQuestion(t, actor.value, testId, input, position, newId);
    assert AddQuestionSpec(t, actor, testId, input, newId) == InsertQuestion(t, p);
    assert p.Ready?;
    PreparedManualRevalidates(t, actor.value, testId, input, position, newId);
  }

  /** The caller owns the workspace and the test is one of its drafts: the add-question checks
      that follow depend only on the question's source. */
  predicate DraftInWorkspace(t: Tables, actor: Option<Id>, testId: Id, workspaceId: Id) {
    actor.Some? && OwnsWorkspace(t.workspaces, workspaceId, actor.value)
    && var found := FirstWhere(t.tests, TestIn(testId, workspaceId));
       found.Some? && t.tests[found.value].status != Published
  }

  /** A bank question: without an item id the reply is 400; it is 404 exactly when no bank item
      of this workspace has the id; a stored question is a verbatim copy of such an item (type,
      prompt, options, answers, explanation, difficulty and skill), and it is stored whenever
      the item exists and the position is free. */
  lemma AddQuestionFromBank(t: Tables, actor: Option<Id>, testId: Id, input: AddQuestionInput, newId: Id)
    requires DraftInWorkspace(t, actor, testId, input.workspaceId) && input.source == Bank
    ensures var r := AddQuestionSpec(t, actor, testId, input, newId).0;
      var itemId := input.questionBankItemId;
      var position := GetOr(input.position, NextQuestionPosition(t.questions, testId));
      (itemId.None? || itemId.value == [] ==> r == Fail(400, BANK_ID_REQUIRED))
      && (r == Fail(404, BANK_ITEM_NOT_FOUND) <==>
            itemId.Some? && itemId.value != []
            && forall b :: b in t.bank ==> !(b.id == itemId.value && b.workspaceId == input.workspaceId))
      && !r.Invalid?
      && (r.Ok? ==>
            exists b :: b in t.bank && b.id == itemId.value && b.workspaceId == input.workspaceId
              && r.value.questionBankItemId == Some(b.id) && r.value.sourceType == Bank
              && r.value.questionType == b.questionType && r.value.prompt == b.prompt
              && r.value.options == b.options && r.value.correctAnswers == b.correctAnswers
              && r.value.explanation == b.explanation && r.value.difficulty == b.difficulty
              && r.value.skill == Some(b.skill))
      && ((itemId.Some? && itemId.value != []
           && (exists b :: b in t.bank && b.id == itemId.value && b.workspaceId == input.workspaceId)
           && KeyFree(t.questions, QuestionPositionKey, (testId, position))) ==> r.Ok?)
  {
    var position := GetOr(input.position, NextQuestionPosition(t.questions, testId));
    var p := PrepareQuestion(t, actor.value, testId, input, position, newId);
    assert AddQuestionSpec(t, actor, testId, input, newId) == InsertQuestion(t, p);
    var itemId := input.questionBankItemId;
    if itemId.Some? && itemId.value != [] {
      var found := FirstWhere(t.bank, BankItemAt(itemId.value, input.workspaceId));
      if found.Some? {
        var b := t.bank[found.value];
        assert b in t.bank;
        assert p.row == CopyOfBankItem(b, input, testId, position, newId, actor.value);
      } else {
        forall b | b in t.bank
          ensures !(b.id == itemId.value && b.workspaceId == input.workspaceId)
        {
          var i :| 0 <= i < |t.bank| && t.bank[i] == b;
          assert !BankItemAt(itemId.value, input.workspaceId)(t.bank[i]);
        }
      }
    }
  }

  /** A question written by hand: a missing type, prompt or answer list is 400; the reply lists
      the content errors exactly when the body has some; a stored question holds the trimmed
      prompt and answers and the normalised options, and it is stored whenever the body is
      complete and valid and the position is free. */
  lemma AddQuestionByHand(t: Tables, actor: Option<Id>, testId: Id, input: AddQuestionInput, newId: Id)
    requires DraftInWorkspace(t, actor, testId, input.workspaceId) && input.source == Manual
    ensures var r := AddQuestionSpec(t, actor, testId, input, newId).0;
      var position := GetOr(input.position, NextQuestionPosition(t.questions, testId));
      (ManualFieldsMissing(input) ==> r == Fail(400, MANUAL_FIELDS_REQUIRED))
      && (!ManualFieldsMissing(input) ==>
            var errors := ContentErrors(input.questionType.value, input.prompt.value,
                                        NormalizeOptions(input.options), input.correctAnswers.value);
            (r.Invalid? <==> errors != [])
            && (r.Invalid? ==> r.errors == Messages(errors))
            && (errors == [] && KeyFree(t.questions, QuestionPositionKey, (testId, position)) ==> r.Ok?))
      && (r.Ok? ==>
            !ManualFieldsMissing(input)
            && r.value.questionBankItemId == None && r.value.sourceType == Manual
            && r.value.questionType == input.questionType.value
            && r.value.prompt == Trim(input.prompt.value)
            && r.value.options == NormalizeOptions(input.options)
            && r.value.correctAnswers == TrimAll(input.correctAnswers.value)
            && r.value.explanation == TrimOrNull(input.explanation)
            && r.value.difficulty == GetOr(input.difficulty, DEFAULT_QUESTION_DIFFICULTY)
            && r.value.skill == TrimOrNull(input.skill))
  {
    var position := GetOr(input.position, NextQuestionPosition(t.questions, testId));
    var p := PrepareQuestion(t, actor.value, testId, input, position, newId);
    assert AddQuestionSpec(t, actor, testId, input, newId) == InsertQuestion(t, p);
  }


  /** Trimming is idempotent. */
  lemma TrimTwice(s: string)
    ensures Trim(Trim(s)) == Trim(s)
  {
  }

  /** Trimming every item first does not change which items survive trimming and filtering. */
  lemma {:induction false} TrimAllNonBlank(items: seq<string>)
    ensures TrimNonBlank(TrimAll(items)) == TrimNonBlank(items)
    decreases |items|
  {
    if items != [] {
      TrimAllNonBlank(items[1..]);
      assert TrimAll(items)[1..] == TrimAll(items[1..]);
      TrimTwice(items[0]);
    }
  }

  // ---------------------------------------------------------------- GET /:testId/questions

  /** `GET /api/tests/:testId/questions`: the test's questions in this workspace, by position. */
  function ListQuestions(t: Tables, actor: Option<Id>, testId: Id, workspaceId: Id): Reply<seq<TestQuestion>> {
    if actor.None? then Fail(401, UNAUTHORIZED)
    else if !OwnsWorkspace(t.workspaces, workspaceId, actor.value) then Fail(403, NOT_OWNER)
    else Ok(SortByPosition(QuestionsOf(t.questions, testId, workspaceId)))
  }

  /** The listing holds exactly the test's questions in the workspace, ordered by position. */
  lemma ListQuestionsMeaning(t: Tables, actor: Option<Id>, testId: Id, workspaceId: Id)
    requires ListQuestions(t, actor, testId, workspaceId).Ok?
    ensures var rows := ListQuestions(t, actor, testId, workspaceId).value;
      ByPosition(rows)
      && forall q :: q in rows <==> q in t.questions && q.testId == testId && q.workspaceId == workspaceId
  {
    SortByPositionSorted(QuestionsOf(t.questions, testId, workspaceId));
    SortedMembers(QuestionsOf(t.questions, testId, workspaceId));
  }

  // ---------------------------------------------------------------- POST /:testId/validate

  /** `POST /api/tests/:testId/validate`: the publish readiness report, for the workspace owner. */
  function ValidateRoute(t: Tables, actor: Option<Id>, testId: Id, workspaceId: Id): Reply<Readiness> {
    if actor.None? then Fail(401, UNAUTHORIZED)
    else if !OwnsWorkspace(t.workspaces, workspaceId, actor.value) then Fail(403, NOT_OWNER)
    else Ok(ReadinessOf(t, workspaceId, testId))
  }

  /** The report is given to the signed-in owner of the workspace and to no one else, and then
      says the test is valid exactly when it exists in the workspace and nothing blocks it. */
  lemma ValidateRouteMeaning(t: Tables, actor: Option<Id>, testId: Id, workspaceId: Id)
    ensures var r := ValidateRoute(t, actor, testId, workspaceId);
      (r.Ok? <==> actor.Some? && exists i :: 0 <= i < |t.workspaces| && t.workspaces[i].id == workspaceId
                                             && t.workspaces[i].ownerUserId == actor.value)
      && (actor.None? ==> r == Fail(401, UNAUTHORIZED))
      && (r.Ok? ==> (r.value.valid <==> r.value.errors == []))
  {
    ReadyIff(t, workspaceId, testId);
  }
}

=== FILE: tests_content.dfy ===
/** The question-content rules of apps/backend/src/routes/tests.ts: `normalizeOptions` and
    `validateQuestionContent`, shared by bank items, manual questions and the publish check. */
module TestsContent {
  import opened Common
  import opened Strings
  import opened WorkspaceSchema

  /** `normalizeOptions(options)`: the trimmed non-blank options in order, or null when there
      are none. */
  function NormalizeOptions(options: Option<seq<string>>): (r: Option<seq<string>>)
    ensures r.None? <==> options.None? || forall i :: 0 <= i < |options.value| ==> AllSpace(options.value[i])
    ensures r.Some? ==> r.value == TrimNonBlank(options.value) && r.value != []
  {
    if options.None? || options.value == [] then None
    else
      var normalized := TrimNonBlank(options.value);
      if normalized != [] then Some(normalized) else None
  }

  /** The normalised options are the options trimmed, with the blank ones dropped: they keep
      their order and lose only blank entries. */
  lemma NormalizeOptionsOrder(options: seq<string>)
    requires NormalizeOptions(Some(options)).Some?
    ensures NormalizeOptions(Some(options)).value == DropEmpty(TrimAll(options))
    ensures var r := NormalizeOptions(Some(options)).value;
      IsSubseq(r, TrimAll(options))
      && (forall i :: 0 <= i < |options| && Trim(options[i]) != [] ==> Trim(options[i]) in r)
      && (forall i :: 0 <= i < |r| ==> r[i] != [] && Trimmed(r[i]))
  {
    TrimNonBlankOrder(options);
  }

  /** Normalising normalised options changes nothing. */
  lemma NormalizeOptionsIdempotent(options: Option<seq<string>>)
    ensures NormalizeOptions(NormalizeOptions(options)) == NormalizeOptions(options)
  {
    if NormalizeOptions(options).Some? {
      TrimNonBlankIdempotent(options.value);
    }
  }

  // ---------------------------------------------------------------- content errors

  /** One entry of the error list, in the order the checks run. */
  datatype ContentError =
    | EmptyPrompt
    | NoCorrectAnswer
    | TooFewOptions(questionType: QuestionType)
    | AnswerNotInOptions(answer: string)
    | McqNeedsOneAnswer

  function TypeName(t: QuestionType): string {
    match t
    case Mcq => "mcq"
    case MultiSelect => "multi_select"
    case ShortText => "short_text"
    case TrueFalse => "true_false"
  }

  /** The message the API returns for an error. */
  function Message(e: ContentError): string {
    match e
    case EmptyPrompt => "Question prompt cannot be empty."
    case NoCorrectAnswer => "At least one correct answer is required."
    case TooFewOptions(t) => "Question type \"" + TypeName(t) + "\" requires at least two options."
    case AnswerNotInOptions(a) => "Correct answer \"" + a + "\" must exist in options."
    case McqNeedsOneAnswer => "MCQ questions must have exactly one correct answer."
  }

  /** The position of an error's check in the fixed order. */
  function Rank(e: ContentError): nat {
    match e
    case EmptyPrompt => 0
    case NoCorrectAnswer => 1
    case TooFewOptions(_) => 2
    case AnswerNotInOptions(_) => 3
    case McqNeedsOneAnswer => 4
  }

  /** The types whose answers must be among their options. */
  predicate HasOptions(t: QuestionType) {
    t == Mcq || t == MultiSelect || t == TrueFalse
  }

  /** The options the check reads: the trimmed non-blank entries of an array, or none. */
  function CheckedOptions(options: Option<seq<string>>): seq<string> {
    if options.Some? then TrimNonBlank(options.value) else []
  }

  /** One `AnswerNotInOptions` per answer missing from the options, in answer order. */
  function MissingAnswers(answers: seq<string>, opts: seq<string>): seq<ContentError>
    decreases |answers|
  {
    if answers == [] then []
    else
      var last := answers[|answers| - 1];
      MissingAnswers(answers[..|answers| - 1], opts)
      + (if last in opts then [] else [AnswerNotInOptions(last)])
  }

  /** Appending one answer appends at most its own report. */
  lemma MissingAnswersStep(answers: seq<string>, i: nat, opts: seq<string>)
    requires i < |answers|
    ensures MissingAnswers(answers[..i + 1], opts)
      == MissingAnswers(answers[..i], opts) + (if answers[i] in opts then [] else [AnswerNotInOptions(answers[i])])
  {
    assert answers[..i + 1][..i] == answers[..i];
  }

  /** The errors of the option checks, in order. */
  function OptionErrors(t: QuestionType, answers: seq<string>, opts: seq<string>): seq<ContentError> {
    (if |opts| < 2 then [TooFewOptions(t)] else [])
    + MissingAnswers(answers, opts)
    + (if t == Mcq && |answers| != 1 then [McqNeedsOneAnswer] else [])
  }

  /** The error list for an already normalised input: whether the trimmed prompt is blank, the
      trimmed non-blank answers and the trimmed non-blank options. */
  function ErrorsFor(t: QuestionType, promptBlank: bool, answers: seq<string>, opts: seq<string>): seq<ContentError>
  {
    (if promptBlank then [EmptyPrompt] else [])
    + (if answers == [] then [NoCorrectAnswer] else [])
    + (if HasOptions(t) then OptionErrors(t, answers, opts) else [])
  }

  /** The error list `validateQuestionContent` returns. */
  function ContentErrors(t: QuestionType, prompt: string, options: Option<seq<string>>,
                         correctAnswers: seq<string>): seq<ContentError>
  {
    ErrorsFor(t, Trim(prompt) == [], TrimNonBlank(correctAnswers), CheckedOptions(options))
  }

  /** The loop of `validateQuestionContent` that reports each answer missing from the option
      set. */
  method ReportMissingAnswers(answers: seq<string>, opts: seq<string>) returns (missing: seq<ContentError>)
    ensures missing == MissingAnswers(answers, opts)
  {
    var optionSet := set o | o in opts;
    missing := [];
    var i := 0;
    while i < |answers|
      invariant 0 <= i <= |answers|
      invariant missing == MissingAnswers(answers[..i], opts)
    {
      MissingAnswersStep(answers, i, opts);
      if answers[i] !in optionSet {
        missing := missing + [AnswerNotInOptions(answers[i])];
      }
      i := i + 1;
    }
    assert answers[..|answers|] == answers;
  }

  /** The checks of `validateQuestionContent`, in order, once prompt, answers and options are
      normalised. */
  method CollectErrors(t: QuestionType, promptBlank: bool, answers: seq<string>, opts: seq<string>)
    returns (errors: seq<ContentError>)
    ensures errors == ErrorsFor(t, promptBlank, answers, opts)
  {
    errors := if promptBlank then [EmptyPrompt] else [];
    if |answers| == 0 {
      errors := errors + [NoCorrectAnswer];
    }
    ghost var head := errors;
    if t == Mcq || t == MultiSelect || t == TrueFalse {
      var tail: seq<ContentError> := if |opts| < 2 then [TooFewOptions(t)] else [];
      var missing := ReportMissingAnswers(answers, opts);
      tail := tail + missing;
      if t == Mcq && |answers| != 1 {
        tail := tail + [McqNeedsOneAnswer];
      }
      errors := errors + tail;
    } else {
      assert errors == head + [];
    }
  }

  /** `validateQuestionContent(input)` */
  method ValidateQuestionContent(t: QuestionType, prompt: string, options: Option<seq<string>>,
                                 correctAnswers: seq<string>) returns (errors: seq<ContentError>)
    ensures errors == ContentErrors(t, prompt, options, correctAnswers)
  {
    var promptBlank := Trim(prompt) == [];
    var answers := TrimNonBlank(correctAnswers);
    var opts := CheckedOptions(options);
    errors := CollectErrors(t, promptBlank, answers, opts);
  }

  // ---------------------------------------------------------------- what the list means

  /** No answer is reported missing exactly when every answer is among the options, and every
      reported one is an answer that is not. */
  lemma {:induction false} MissingAnswersMeaning(answers: seq<string>, opts: seq<string>)
    ensures MissingAnswers(answers, opts) == [] <==> forall a :: a in answers ==> a in opts
    ensures forall x :: AnswerNotInOptions(x) in MissingAnswers(answers, opts) <==> x in answers && x !in opts
    ensures forall e :: e in MissingAnswers(answers, opts) ==> e.AnswerNotInOptions?
    decreases |answers|
  {
    if answers != [] {
      var front := answers[..|answers| - 1];
      MissingAnswersMeaning(front, opts);
      assert answers == front + [answers[|answers| - 1]];
    }
  }

  /** The answer-membership check, stated on the raw answers: every non-blank trimmed answer is
      one of the options. */
  lemma AnswersCoveredIff(correctAnswers: seq<string>, opts: seq<string>)
    ensures (forall a :: a in TrimNonBlank(correctAnswers) ==> a in opts) <==>
      (forall i :: 0 <= i < |correctAnswers| && Trim(correctAnswers[i]) != [] ==> Trim(correctAnswers[i]) in opts)
  {
    TrimNonBlankOrder(correctAnswers);
    forall a | a in TrimNonBlank(correctAnswers)
      ensures exists i :: 0 <= i < |correctAnswers| && Trim(correctAnswers[i]) == a
    {
      TrimNonBlankSource(correctAnswers, a);
    }
  }

  /** On normalised input, the list is empty exactly when every check passes. */
  lemma ErrorsForEmptyIff(t: QuestionType, promptBlank: bool, answers: seq<string>, opts: seq<string>)
    ensures ErrorsFor(t, promptBlank, answers, opts) == [] <==>
      !promptBlank && answers != []
      && (HasOptions(t) ==>
            |opts| >= 2 && (forall a :: a in answers ==> a in opts) && (t == Mcq ==> |answers| == 1))
  {
    MissingAnswersMeaning(answers, opts);
  }

  /** The list is empty exactly when the prompt is not blank, some answer is not blank and, for
      the option types, there are two non-blank options, every answer is one of them and an MCQ
      has exactly one answer. */
  lemma ContentValidIff(t: QuestionType, prompt: string, options: Option<seq<string>>,
                        correctAnswers: seq<string>)
    ensures ContentErrors(t, prompt, options, correctAnswers) == [] <==>
      Trim(prompt) != []
      && (exists i :: 0 <= i < |correctAnswers| && Trim(correctAnswers[i]) != [])
      && (HasOptions(t) ==>
            |CheckedOptions(options)| >= 2
            && (forall i :: 0 <= i < |correctAnswers| && Trim(correctAnswers[i]) != [] ==>
                  Trim(correctAnswers[i]) in CheckedOptions(options))
            && (t == Mcq ==> |TrimNonBlank(correctAnswers)| == 1))
  {
    var answers := TrimNonBlank(correctAnswers);
    var opts := CheckedOptions(options);
    ErrorsForEmptyIff(t, Trim(prompt) == [], answers, opts);
    AnswersCoveredIff(correctAnswers, opts);
    assert answers == [] <==> !exists i :: 0 <= i < |correctAnswers| && Trim(correctAnswers[i]) != [];
  }

  /** The errors of `es` appear in check order. */
  predicate InCheckOrder(es: seq<ContentError>) {
    forall i, j :: 0 <= i < j < |es| ==> Rank(es[i]) <= Rank(es[j])
  }

  /** Two lists in check order, the first ranked no later than the second, join in check order. */
  lemma ConcatInCheckOrder(a: seq<ContentError>, b: seq<ContentError>)
    requires InCheckOrder(a) && InCheckOrder(b)
    requires forall x, y :: x in a && y in b ==> Rank(x) <= Rank(y)
    ensures InCheckOrder(a + b)
  {
    forall i, j | 0 <= i < j < |a + b| ensures Rank((a + b)[i]) <= Rank((a + b)[j]) {
      if j < |a| {
      } else if i >= |a| {
        assert (a + b)[i] == b[i - |a|] && (a + b)[j] == b[j - |a|];
      } else {
        assert (a + b)[i] in a && (a + b)[j] == b[j - |a|] && b[j - |a|] in b;
      }
    }
  }

  /** The option checks report in order, after the prompt and answer checks. */
  lemma OptionErrorsOrdered(t: QuestionType, answers: seq<string>, opts: seq<string>)
    ensures InCheckOrder(OptionErrors(t, answers, opts))
    ensures forall e :: e in OptionErrors(t, answers, opts) ==> Rank(e) >= 2
  {
    var p2: seq<ContentError> := if |opts| < 2 then [TooFewOptions(t)] else [];
    var p3 := MissingAnswers(answers, opts);
    var p4: seq<ContentError> := if t == Mcq && |answers| != 1 then [McqNeedsOneAnswer] else [];
    MissingAnswersRanked(answers, opts);
    assert forall e :: e in p2 ==> Rank(e) == 2;
    assert forall e :: e in p4 ==> Rank(e) == 4;
    ConcatInCheckOrder(p2, p3);
    assert forall e :: e in p2 + p3 ==> 2 <= Rank(e) <= 3;
    ConcatInCheckOrder(p2 + p3, p4);
    assert OptionErrors(t, answers, opts) == p2 + p3 + p4;
  }

  /** Every report of a missing answer has the same rank, so their list is in check order. */
  lemma MissingAnswersRanked(answers: seq<string>, opts: seq<string>)
    ensures forall e :: e in MissingAnswers(answers, opts) ==> Rank(e) == 3
    ensures InCheckOrder(MissingAnswers(answers, opts))
  {
    var p3 := MissingAnswers(answers, opts);
    MissingAnswersMeaning(answers, opts);
    forall i, j | 0 <= i < j < |p3| ensures Rank(p3[i]) <= Rank(p3[j]) {
      assert p3[i] in p3 && p3[j] in p3;
    }
  }

  /** The list follows the fixed check order: prompt, answers, option count, missing answers,
      MCQ answer count. */
  lemma ContentErrorsOrdered(t: QuestionType, promptBlank: bool, answers: seq<string>, opts: seq<string>)
    ensures InCheckOrder(ErrorsFor(t, promptBlank, answers, opts))
  {
    var p0: seq<ContentError> := if promptBlank then [EmptyPrompt] else [];
    var p1: seq<ContentError> := if answers == [] then [NoCorrectAnswer] else [];
    ConcatInCheckOrder(p0, p1);
    if HasOptions(t) {
      OptionErrorsOrdered(t, answers, opts);
      ConcatInCheckOrder(p0 + p1, OptionErrors(t, answers, opts));
    } else {
      assert ErrorsFor(t, promptBlank, answers, opts) == p0 + p1 + [];
    }
  }

  /** An answer is reported missing exactly when the type has options and the normalised answer
      is not among the normalised options. */
  lemma AnswerReportedIff(t: QuestionType, promptBlank: bool, answers: seq<string>, opts: seq<string>, x: string)
    ensures AnswerNotInOptions(x) in ErrorsFor(t, promptBlank, answers, opts) <==>
      HasOptions(t) && x in answers && x !in opts
  {
    MissingAnswersMeaning(answers, opts);
  }

  /** A short-text question is checked only for its prompt and answers: its options play no
      part. */
  lemma ShortTextIgnoresOptions(prompt: string, options: Option<seq<string>>, correctAnswers: seq<string>)
    ensures ContentErrors(ShortText, prompt, options, correctAnswers)
      == ContentErrors(ShortText, prompt, None, correctAnswers)
    ensures forall e :: e in ContentErrors(ShortText, prompt, options, correctAnswers) ==>
      e == EmptyPrompt || e == NoCorrectAnswer
  {
  }
}

=== FILE: tests_publish.dfy ===
/** `POST /api/tests/:testId/publish` of apps/backend/src/routes/tests.ts: a test that passes
    validation becomes published and every active student of its classroom receives exactly one
    assignment, without touching assignments that already exist. */
module TestsPublish {
  import opened Common
  import opened WorkspaceSchema
  import opened Guards
  import opened TestsValidation

  const NOT_READY := "Cannot publish test until validation passes"
  const TEST_NOT_FOUND := "Test not found"
  const CLASSROOM_REQUIRED := "Test classroom is required before publish"
  const NO_ACTIVE_STUDENTS := "Cannot publish test because classroom has no active students"
  const ACTIVE := "active"

  /** The reply of a successful publish. */
  datatype PublishResult = PublishResult(test: Test, validation: Readiness, assignedStudents: nat)

  /** The test, classroom and workspace the new assignments are for, and the time they are
      made. */
  datatype Target = Target(testId: Id, workspaceId: Id, classroomId: Id, now: int)

  // ---------------------------------------------------------------- the roster

  /** An active membership of the classroom in the workspace. */
  predicate ActiveMember(m: ClassroomStudent, classroomId: Id, workspaceId: Id) {
    m.classroomId == classroomId && m.workspaceId == workspaceId && m.status == ACTIVE
  }

  predicate IsStudentLink(l: WorkspaceLearner, workspaceId: Id, learnerId: Id) {
    l.workspaceId == workspaceId && l.learnerId == learnerId && l.actorType == Student
  }

  /** The rows the inner join with `workspace_learners` yields for one membership: the learner,
      once per student link of theirs in the workspace. */
  function StudentLinks(links: seq<WorkspaceLearner>, workspaceId: Id, learnerId: Id): (r: seq<Id>)
    ensures |r| <= |links|
    ensures forall x :: x in r <==> x == learnerId && exists j :: 0 <= j < |links| && IsStudentLink(links[j], workspaceId, learnerId)
    ensures r != [] <==> exists j :: 0 <= j < |links| && IsStudentLink(links[j], workspaceId, learnerId)
  {
    if links == [] then []
    else
      var rest := StudentLinks(links[1..], workspaceId, learnerId);
      assert forall j :: 0 < j < |links| ==> links[j] == links[1..][j - 1];
      if IsStudentLink(links[0], workspaceId, learnerId) then [learnerId] + rest else rest
  }

  /** The `activeStudents` query: active memberships of the classroom joined with a student
      link in the same workspace, in membership order. */
  function Roster(memberships: seq<ClassroomStudent>, links: seq<WorkspaceLearner>, classroomId: Id,
                  workspaceId: Id): (r: seq<Id>)
    ensures forall x :: x in r <==>
      exists i :: 0 <= i < |memberships| && ActiveMember(memberships[i], classroomId, workspaceId)
                  && memberships[i].learnerId == x
                  && exists j :: 0 <= j < |links| && IsStudentLink(links[j], workspaceId, x)
  {
    if memberships == [] then []
    else
      var m := memberships[0];
      var rest := Roster(memberships[1..], links, classroomId, workspaceId);
      assert forall i :: 0 < i < |memberships| ==> memberships[i] == memberships[1..][i - 1];
      (if ActiveMember(m, classroomId, workspaceId) then StudentLinks(links, workspaceId, m.learnerId) else [])
      + rest
  }

  predicate NoDuplicates<T(==)>(s: seq<T>) {
    forall i, j :: 0 <= i < |s| && 0 <= j < |s| && s[i] == s[j] ==> i == j
  }

  /** With one link per (workspace, learner), a learner has at most one student link. */
  lemma {:induction false} StudentLinksAtMostOne(links: seq<WorkspaceLearner>, workspaceId: Id, learnerId: Id)
    requires KeysUnique(links, LinkKey)
    ensures |StudentLinks(links, workspaceId, learnerId)| <= 1
    decreases |links|
  {
    if links != [] {
      var rest := StudentLinks(links[1..], workspaceId, learnerId);
      assert KeysUnique(links[1..], LinkKey) by {
        forall i, j | 0 <= i < |links[1..]| && 0 <= j < |links[1..]| && LinkKey(links[1..][i]) == LinkKey(links[1..][j])
          ensures i == j
        {
          assert LinkKey(links[i + 1]) == LinkKey(links[j + 1]);
        }
      }
      StudentLinksAtMostOne(links[1..], workspaceId, learnerId);
      if IsStudentLink(links[0], workspaceId, learnerId) {
        forall j | 0 <= j < |links[1..]| ensures !IsStudentLink(links[1..][j], workspaceId, learnerId) {
          assert links[1..][j] == links[j + 1];
          assert LinkKey(links[0]) != LinkKey(links[j + 1]);
        }
      }
    }
  }

  /** With one membership per (classroom, learner) and one link per (workspace, learner), the
      roster names each student once, so `assignedStudents` counts students. */
  lemma {:induction false} RosterDistinct(memberships: seq<ClassroomStudent>, links: seq<WorkspaceLearner>,
                                          classroomId: Id, workspaceId: Id)
    requires KeysUnique(memberships, MembershipKey) && KeysUnique(links, LinkKey)
    ensures NoDuplicates(Roster(memberships, links, classroomId, workspaceId))
    decreases |memberships|
  {
    if memberships != [] {
      var m := memberships[0];
      var tail := memberships[1..];
      assert KeysUnique(tail, MembershipKey) by {
        forall i, j | 0 <= i < |tail| && 0 <= j < |tail| && MembershipKey(tail[i]) == MembershipKey(tail[j])
          ensures i == j
        {
          assert MembershipKey(memberships[i + 1]) == MembershipKey(memberships[j + 1]);
        }
      }
      RosterDistinct(tail, links, classroomId, workspaceId);
      var head := if ActiveMember(m, classroomId, workspaceId) then StudentLinks(links, workspaceId, m.learnerId) else [];
      var rest := Roster(tail, links, classroomId, workspaceId);
      var r := head + rest;
      StudentLinksAtMostOne(links, workspaceId, m.learnerId);
      if head != [] {
        forall k | 0 <= k < |rest| ensures rest[k] != m.learnerId {
          assert rest[k] in rest;
          var i :| 0 <= i < |tail| && ActiveMember(tail[i], classroomId, workspaceId) && tail[i].learnerId == rest[k];
          assert memberships[i + 1] == tail[i];
          assert MembershipKey(memberships[0]) != MembershipKey(memberships[i + 1]);
        }
        assert head[0] in head;
      }
      forall i, j | 0 <= i < |r| && 0 <= j < |r| && r[i] == r[j] ensures i == j {
        if i >= |head| && j >= |head| {
          assert rest[i - |head|] == rest[j - |head|];
        }
      }
    }
  }

  // ---------------------------------------------------------------- the assignment loop

  /** An assignment of the learner on the test, in any workspace: the loop's
      `existingAssignment` query. */
  function AssignmentOn(testId: Id, learnerId: Id): TestAssignment -> bool {
    (a: TestAssignment) => a.testId == testId && a.learnerId == learnerId
  }

  predicate HasAssignment(assignments: seq<TestAssignment>, testId: Id, learnerId: Id) {
    exists k :: 0 <= k < |assignments| && assignments[k].testId == testId && assignments[k].learnerId == learnerId
  }

  function NewAssignment(id: Id, target: Target, learnerId: Id): TestAssignment {
    TestAssignment(id, target.testId, target.workspaceId, target.classroomId, learnerId,
                   DEFAULT_ASSIGNMENT_STATUS, target.now)
  }

  /** One turn of the loop: skip a learner who has an assignment, otherwise insert one. */
  function AssignOne(assignments: seq<TestAssignment>, id: Id, target: Target, learnerId: Id): (r: seq<TestAssignment>)
    ensures HasAssignment(assignments, target.testId, learnerId) ==> r == assignments
    ensures !HasAssignment(assignments, target.testId, learnerId) ==>
      r == assignments + [NewAssignment(id, target, learnerId)]
  {
    if FirstWhere(assignments, AssignmentOn(target.testId, learnerId)).Some? then assignments
    else assignments + [NewAssignment(id, target, learnerId)]
  }

  /** The loop from roster index `i` on; the i-th student's new assignment takes id
      `newId(i)` (a fresh `crypto.randomUUID()`). */
  function FanOut(assignments: seq<TestAssignment>, roster: seq<Id>, i: nat, newId: nat -> Id,
                  target: Target): seq<TestAssignment>
    requires i <= |roster|
    decreases |roster| - i
  {
    if i == |roster| then assignments
    else FanOut(AssignOne(assignments, newId(i), target, roster[i]), roster, i + 1, newId, target)
  }

  /** The loop keeps the existing rows as they were and adds only new `assigned` rows for the
      test, its classroom and workspace, at the publish time, each for a roster student. */
  lemma {:induction false} FanOutExtends(assignments: seq<TestAssignment>, roster: seq<Id>, i: nat,
                                         newId: nat -> Id, target: Target)
    requires i <= |roster|
    ensures var r := FanOut(assignments, roster, i, newId, target);
      |assignments| <= |r| && r[..|assignments|] == assignments
      && (forall k :: |assignments| <= k < |r| ==>
            r[k].testId == target.testId && r[k].workspaceId == target.workspaceId
            && r[k].classroomId == target.classroomId && r[k].status == Assigned
            && r[k].assignedAt == target.now && r[k].learnerId in roster[i..])
    decreases |roster| - i
  {
    if i < |roster| {
      var next := AssignOne(assignments, newId(i), target, roster[i]);
      FanOutExtends(next, roster, i + 1, newId, target);
      var r := FanOut(next, roster, i + 1, newId, target);
      assert FanOut(assignments, roster, i, newId, target) == r;
      assert r[..|assignments|] == r[..|next|][..|assignments|];
      assert roster[i + 1..] == roster[i..][1..];
      AssignOneAdds(assignments, newId(i), target, roster[i]);
      forall k | |assignments| <= k < |r|
        ensures r[k].testId == target.testId && r[k].workspaceId == target.workspaceId
          && r[k].classroomId == target.classroomId && r[k].status == Assigned
          && r[k].assignedAt == target.now && r[k].learnerId in roster[i..]
      {
        if k < |next| {
          assert r[k] == next[k];
          assert roster[i..][0] == roster[i];
        }
      }
    }
  }

  /** One turn of the loop keeps the rows and adds at most the student's new `assigned` row. */
  lemma AssignOneAdds(assignments: seq<TestAssignment>, id: Id, target: Target, learnerId: Id)
    ensures var next := AssignOne(assignments, id, target, learnerId);
      |assignments| <= |next| <= |assignments| + 1 && next[..|assignments|] == assignments
      && (|next| > |assignments| ==> next[|assignments|] == NewAssignment(id, target, learnerId))
  {
    var next := AssignOne(assignments, id, target, learnerId);
    assert next == assignments || next == assignments + [NewAssignment(id, target, learnerId)];
  }

  /** After the loop every roster student from index `i` on has an assignment on the test, and
      every learner who had one still has one. */
  lemma {:induction false} FanOutCovers(assignments: seq<TestAssignment>, roster: seq<Id>, i: nat,
                                        newId: nat -> Id, target: Target)
    requires i <= |roster|
    ensures var r := FanOut(assignments, roster, i, newId, target);
      (forall j :: i <= j < |roster| ==> HasAssignment(r, target.testId, roster[j]))
      && (forall learner :: HasAssignment(assignments, target.testId, learner) ==> HasAssignment(r, target.testId, learner))
    decreases |roster| - i
  {
    if i < |roster| {
      var next := AssignOne(assignments, newId(i), target, roster[i]);
      FanOutCovers(next, roster, i + 1, newId, target);
      AssignOneCovers(assignments, newId(i), target, roster[i]);
      var r := FanOut(next, roster, i + 1, newId, target);
      assert FanOut(assignments, roster, i, newId, target) == r;
      forall j | i <= j < |roster| ensures HasAssignment(r, target.testId, roster[j]) {
        if j == i {
          assert HasAssignment(next, target.testId, roster[i]);
        }
      }
    }
  }

  /** One turn of the loop leaves its student with an assignment and takes none away. */
  lemma AssignOneCovers(assignments: seq<TestAssignment>, id: Id, target: Target, learnerId: Id)
    ensures var next := AssignOne(assignments, id, target, learnerId);
      HasAssignment(next, target.testId, learnerId)
      && forall learner :: HasAssignment(assignments, target.testId, learner) ==> HasAssignment(next, target.testId, learner)
  {
    var next := AssignOne(assignments, id, target, learnerId);
    forall learner | HasAssignment(assignments, target.testId, learner) ensures HasAssignment(next, target.testId, learner) {
      var k :| 0 <= k < |assignments| && assignments[k].testId == target.testId && assignments[k].learnerId == learner;
      assert next[k] == assignments[k];
    }
    if next != assignments {
      assert next[|assignments|].testId == target.testId && next[|assignments|].learnerId == learnerId;
    }
  }

  /** The loop adds an assignment only for a learner without one on the test, so the
      (test, learner) constraint keeps holding. */
  lemma {:induction false} FanOutKeepsKeys(assignments: seq<TestAssignment>, roster: seq<Id>, i: nat,
                                           newId: nat -> Id, target: Target)
    requires i <= |roster| && KeysUnique(assignments, AssignmentKey)
    ensures KeysUnique(FanOut(assignments, roster, i, newId, target), AssignmentKey)
    decreases |roster| - i
  {
    if i < |roster| {
      var next := AssignOne(assignments, newId(i), target, roster[i]);
      if !HasAssignment(assignments, target.testId, roster[i]) {
        AppendKeepsUnique(assignments, AssignmentKey, NewAssignment(newId(i), target, roster[i]));
      }
      FanOutKeepsKeys(next, roster, i + 1, newId, target);
    }
  }

  /** Ids drawn from `newId` are pairwise distinct and unused in `assignments`. */
  ghost predicate FreshIds(assignments: seq<TestAssignment>, newId: nat -> Id) {
    (forall n :: KeyFree(assignments, AssignmentIdOf, newId(n)))
    && (forall m, n :: newId(m) == newId(n) ==> m == n)
  }

  /** Every row the loop adds from index `i` on carries an id drawn at an index `>= i`, so fresh
      ids stay unique. */
  lemma {:induction false} FanOutKeepsIds(assignments: seq<TestAssignment>, roster: seq<Id>, i: nat,
                                          newId: nat -> Id, target: Target)
    requires i <= |roster| && KeysUnique(assignments, AssignmentIdOf)
    requires forall n :: n >= i ==> KeyFree(assignments, AssignmentIdOf, newId(n))
    requires forall m, n :: newId(m) == newId(n) ==> m == n
    ensures KeysUnique(FanOut(assignments, roster, i, newId, target), AssignmentIdOf)
    decreases |roster| - i
  {
    if i < |roster| {
      var next := AssignOne(assignments, newId(i), target, roster[i]);
      if next != assignments {
        AppendKeepsUnique(assignments, AssignmentIdOf, NewAssignment(newId(i), target, roster[i]));
        forall n | n >= i + 1 ensures KeyFree(next, AssignmentIdOf, newId(n)) {
          assert KeyFree(assignments, AssignmentIdOf, newId(n));
          assert newId(n) != newId(i);
        }
      }
      FanOutKeepsIds(next, roster, i + 1, newId, target);
    }
  }

  /** A new `assigned` row for a learner who has no attempt on the test keeps the
      assignment/attempt state machine. */
  lemma AppendAssignedKeepsLifecycle(assignments: seq<TestAssignment>, attempts: seq<TestAttempt>, row: TestAssignment)
    requires Lifecycle(assignments, attempts) && row.status == Assigned
    requires FirstWhere(attempts, AttemptFor(row.testId, row.workspaceId, row.learnerId)).None?
    ensures Lifecycle(assignments + [row], attempts)
  {
    var r := assignments + [row];
    forall k | 0 <= k < |attempts| ensures HasItsAssignment(attempts[k], r) {
      var a := attempts[k];
      var j := FirstWhere(assignments, AssignmentFor(a.testId, a.workspaceId, a.learnerId)).value;
      assert r[j] == assignments[j];
    }
    forall i | 0 <= i < |r| ensures ShowsAttempt(r[i], attempts) {
      if i < |assignments| {
        assert r[i] == assignments[i];
      }
    }
  }

  /** The loop keeps the state machine: a learner without an assignment on the test has no
      attempt on it either, so the new `assigned` rows match. */
  lemma {:induction false} FanOutKeepsLifecycle(assignments: seq<TestAssignment>, attempts: seq<TestAttempt>,
                                                roster: seq<Id>, i: nat, newId: nat -> Id, target: Target)
    requires i <= |roster| && Lifecycle(assignments, attempts)
    ensures Lifecycle(FanOut(assignments, roster, i, newId, target), attempts)
    decreases |roster| - i
  {
    if i < |roster| {
      var next := AssignOne(assignments, newId(i), target, roster[i]);
      if !HasAssignment(assignments, target.testId, roster[i]) {
        var row := NewAssignment(newId(i), target, roster[i]);
        AppendAssignedKeepsLifecycle(assignments, attempts, row);
      }
      FanOutKeepsLifecycle(next, attempts, roster, i + 1, newId, target);
    }
  }

  /** Once every roster student has an assignment on the test, the loop adds nothing. */
  lemma {:induction false} FanOutCoveredNoop(assignments: seq<TestAssignment>, roster: seq<Id>, i: nat,
                                             newId: nat -> Id, target: Target)
    requires i <= |roster|
    requires forall j :: i <= j < |roster| ==> HasAssignment(assignments, target.testId, roster[j])
    ensures FanOut(assignments, roster, i, newId, target) == assignments
    decreases |roster| - i
  {
    if i < |roster| {
      assert HasAssignment(assignments, target.testId, roster[i]);
      assert AssignOne(assignments, newId(i), target, roster[i]) == assignments;
      FanOutCoveredNoop(assignments, roster, i + 1, newId, target);
    }
  }

  /** The `for (const student of activeStudents)` loop. */
  method AssignRoster(db: Database, roster: seq<Id>, newId: nat -> Id, target: Target)
    modifies db
    ensures db.assignments == FanOut(old(db.assignments), roster, 0, newId, target)
    ensures db.Snapshot() == old(db.Snapshot()).(assignments := db.assignments)
  {
    var i := 0;
    while i < |roster|
      invariant 0 <= i <= |roster|
      invariant FanOut(db.assignments, roster, i, newId, target) == FanOut(old(db.assignments), roster, 0, newId, target)
      modifies db`assignments
    {
      var existing := FirstWhere(db.assignments, AssignmentOn(target.testId, roster[i]));
      if existing.None? {
        db.assignments := db.assignments + [NewAssignment(newId(i), target, roster[i])];
      }
      i := i + 1;
    }
  }

  // ---------------------------------------------------------------- the handler

  function PublishedRow(test: Test): (r: Test)
    ensures r.status == Published && r.published
  {
    test.(status := Published, published := true)
  }

  /** The `update(tests).set({ status: "published", published: "true" })` statement. */
  function MarkPublished(tests: seq<Test>, testId: Id, workspaceId: Id): (r: seq<Test>)
    ensures |r| == |tests|
    ensures forall i :: 0 <= i < |tests| ==>
      r[i] == if tests[i].id == testId && tests[i].workspaceId == workspaceId then PublishedRow(tests[i]) else tests[i]
  {
    seq(|tests|, i requires 0 <= i < |tests| =>
      if tests[i].id == testId && tests[i].workspaceId == workspaceId then PublishedRow(tests[i]) else tests[i])
  }

  /** `!testRow.classroomId`: null or the empty string. */
  predicate NoClassroom(classroomId: Option<Id>) {
    classroomId.None? || classroomId.value == []
  }

  /** The handler after a passing validation. */
  function PublishValidated(t: Tables, testId: Id, workspaceId: Id, validation: Readiness, newId: nat -> Id,
                            now: int): (Reply<PublishResult>, Tables)
  {
    match FirstWhere(t.tests, TestIn(testId, workspaceId))
    case None => (Fail(404, TEST_NOT_FOUND), t)
    case Some(k) =>
      var test := t.tests[k];
      if NoClassroom(test.classroomId) then (Fail(400, CLASSROOM_REQUIRED), t)
      else
        var roster := Roster(t.memberships, t.links, test.classroomId.value, workspaceId);
        if roster == [] then (Fail(400, NO_ACTIVE_STUDENTS), t)
        else
          var target := Target(testId, workspaceId, test.classroomId.value, now);
          (Ok(PublishResult(PublishedRow(test), validation, |roster|)),
           t.(tests := MarkPublished(t.tests, testId, workspaceId),
              assignments := FanOut(t.assignments, roster, 0, newId, target)))
  }

  /** `POST /api/tests/:testId/publish` over the tables. */
  function PublishSpec(t: Tables, actor: Option<Id>, testId: Id, workspaceId: Id, newId: nat -> Id, now: int)
    : (Reply<PublishResult>, Tables)
  {
    if actor.None? then (Fail(401, UNAUTHORIZED), t)
    else if !OwnsWorkspace(t.workspaces, workspaceId, actor.value) then (Fail(403, NOT_OWNER), t)
    else
      var validation := ReadinessOf(t, workspaceId, testId);
      if !validation.valid then (Fail(400, NOT_READY), t)
      else PublishValidated(t, testId, workspaceId, validation, newId, now)
  }

  method Publish(db: Database, actor: Option<Id>, testId: Id, workspaceId: Id, newId: nat -> Id, now: int)
    returns (r: Reply<PublishResult>)
    modifies db
    ensures (r, db.Snapshot()) == PublishSpec(old(db.Snapshot()), actor, testId, workspaceId, newId, now)
  {
    if actor.None? {
      return Fail(401, UNAUTHORIZED);
    }
    if !OwnsWorkspace(db.workspaces, workspaceId, actor.value) {
      return Fail(403, NOT_OWNER);
    }
    var validation := ValidateTestForPublish(db, workspaceId, testId);
    if !validation.valid {
      return Fail(400, NOT_READY);
    }
    r := PublishChecked(db, testId, workspaceId, validation, newId, now);
  }

  /** The handler's writes, after a passing validation. */
  method PublishChecked(db: Database, testId: Id, workspaceId: Id, validation: Readiness, newId: nat -> Id, now: int)
    returns (r: Reply<PublishResult>)
    modifies db
    ensures (r, db.Snapshot()) == PublishValidated(old(db.Snapshot()), testId, workspaceId, validation, newId, now)
  {
    var found := FirstWhere(db.tests, TestIn(testId, workspaceId));
    if found.None? {
      return Fail(404, TEST_NOT_FOUND);
    }
    var test := db.tests[found.value];
    if test.classroomId.None? || test.classroomId.value == [] {
      return Fail(400, CLASSROOM_REQUIRED);
    }
    var roster := Roster(db.memberships, db.links, test.classroomId.value, workspaceId);
    if |roster| == 0 {
      return Fail(400, NO_ACTIVE_STUDENTS);
    }
    db.tests := MarkPublished(db.tests, testId, workspaceId);
    AssignRoster(db, roster, newId, Target(testId, workspaceId, test.classroomId.value, now));
    r := Ok(PublishResult(PublishedRow(test), validation, |roster|));
  }

  // ---------------------------------------------------------------- properties

  /** After a passing validation the only refusal left for a test with a classroom is an empty
      roster, and a refusal writes nothing. */
  lemma PublishValidatedRefusals(t: Tables, testId: Id, workspaceId: Id, validation: Readiness, newId: nat -> Id, now: int)
    ensures var (r, t') := PublishValidated(t, testId, workspaceId, validation, newId, now);
      var found := FirstWhere(t.tests, TestIn(testId, workspaceId));
      (!r.Ok? ==> t' == t)
      && (found.Some? && !NoClassroom(t.tests[found.value].classroomId) ==>
            r.Ok? || r == Fail(400, NO_ACTIVE_STUDENTS))
      && (r.Ok? ==> r.value.validation == validation)
  {
  }

  /** Publishing is refused, with nothing written, to a caller who is not signed in (401), who
      does not own the workspace (403), or when validation does not pass (400); past those, a
      test is refused only for an empty roster, never as missing or classroom-less. */
  lemma PublishRejections(t: Tables, actor: Option<Id>, testId: Id, workspaceId: Id, newId: nat -> Id, now: int)
    ensures var (r, t') := PublishSpec(t, actor, testId, workspaceId, newId, now);
      (!r.Ok? ==> t' == t)
      && (actor.None? ==> r == Fail(401, UNAUTHORIZED))
      && (actor.Some? && !OwnsWorkspace(t.workspaces, workspaceId, actor.value) ==> r == Fail(403, NOT_OWNER))
      && (actor.Some? && OwnsWorkspace(t.workspaces, workspaceId, actor.value) ==>
            if ReadinessOf(t, workspaceId, testId).valid
            then (r.Ok? || r == Fail(400, NO_ACTIVE_STUDENTS)) && (r.Ok? ==> r.value.validation.valid)
            else r == Fail(400, NOT_READY))
  {
    if actor.Some? && OwnsWorkspace(t.workspaces, workspaceId, actor.value) {
      var validation := ReadinessOf(t, workspaceId, testId);
      if validation.valid {
        ValidatedFindsClassroom(t, testId, workspaceId);
        PublishValidatedRefusals(t, testId, workspaceId, validation, newId, now);
      }
    }
  }

  /** A passing validation means the test is in the workspace and has a classroom. */
  lemma ValidatedFindsClassroom(t: Tables, testId: Id, workspaceId: Id)
    requires ReadinessOf(t, workspaceId, testId).valid
    ensures var found := FirstWhere(t.tests, TestIn(testId, workspaceId));
      found.Some? && !NoClassroom(t.tests[found.value].classroomId)
  {
    ReadyIff(t, workspaceId, testId);
  }

  /** A successful publish marks the test published and changes no other test; it keeps every
      existing assignment, gives each roster student an assignment on the test, adds only new
      `assigned` rows for this test, classroom and workspace, and reports the roster size; no
      other table changes. */
  lemma PublishEffect(t: Tables, testId: Id, workspaceId: Id, validation: Readiness, newId: nat -> Id, now: int)
    requires PublishValidated(t, testId, workspaceId, validation, newId, now).0.Ok?
    ensures var (r, t') := PublishValidated(t, testId, workspaceId, validation, newId, now);
      var k := FirstWhere(t.tests, TestIn(testId, workspaceId)).value;
      var classroomId := t.tests[k].classroomId.value;
      var roster := Roster(t.memberships, t.links, classroomId, workspaceId);
      r.value.test == PublishedRow(t.tests[k]) && r.value.assignedStudents == |roster| > 0
      && |t'.tests| == |t.tests|
      && (forall i :: 0 <= i < |t.tests| ==>
            if t.tests[i].id == testId && t.tests[i].workspaceId == workspaceId
            then t'.tests[i].status == Published && t'.tests[i].published
                 && t'.tests[i] == t.tests[i].(status := Published, published := true)
            else t'.tests[i] == t.tests[i])
      && |t.assignments| <= |t'.assignments| && t'.assignments[..|t.assignments|] == t.assignments
      && (forall j :: 0 <= j < |t'.assignments| && j >= |t.assignments| ==>
            t'.assignments[j].testId == testId && t'.assignments[j].workspaceId == workspaceId
            && t'.assignments[j].classroomId == classroomId && t'.assignments[j].status == Assigned
            && t'.assignments[j].learnerId in roster)
      && (forall learner :: learner in roster ==> HasAssignment(t'.assignments, testId, learner))
      && t' == t.(tests := t'.tests, assignments := t'.assignments)
  {
    var k := FirstWhere(t.tests, TestIn(testId, workspaceId)).value;
    var classroomId := t.tests[k].classroomId.value;
    var roster := Roster(t.memberships, t.links, classroomId, workspaceId);
    FanOutExtends(t.assignments, roster, 0, newId, Target(testId, workspaceId, classroomId, now));
    FanOutCovers(t.assignments, roster, 0, newId, Target(testId, workspaceId, classroomId, now));
    assert roster[0..] == roster;
    forall learner | learner in roster ensures HasAssignment(PublishValidated(t, testId, workspaceId, validation, newId, now).1.assignments, testId, learner) {
      var j :| 0 <= j < |roster| && roster[j] == learner;
    }
  }

  /** Marking tests published keeps test ids unique. */
  lemma MarkPublishedKeepsKeys(tests: seq<Test>, testId: Id, workspaceId: Id)
    requires KeysUnique(tests, TestIdOf)
    ensures KeysUnique(MarkPublished(tests, testId, workspaceId), TestIdOf)
  {
    var r := MarkPublished(tests, testId, workspaceId);
    forall i, j | 0 <= i < |r| && 0 <= j < |r| && TestIdOf(r[i]) == TestIdOf(r[j]) ensures i == j {
      assert TestIdOf(tests[i]) == TestIdOf(tests[j]);
    }
  }

  /** Publishing with fresh assignment ids keeps every table invariant, including the
      assignment/attempt state machine. */
  lemma PublishValidatedKeepsValid(t: Tables, testId: Id, workspaceId: Id, validation: Readiness, newId: nat -> Id, now: int)
    requires TablesValid(t) && FreshIds(t.assignments, newId)
    ensures TablesValid(PublishValidated(t, testId, workspaceId, validation, newId, now).1)
  {
    var (r, t') := PublishValidated(t, testId, workspaceId, validation, newId, now);
    if r.Ok? {
      var k := FirstWhere(t.tests, TestIn(testId, workspaceId)).value;
      var classroomId := t.tests[k].classroomId.value;
      var roster := Roster(t.memberships, t.links, classroomId, workspaceId);
      var target := Target(testId, workspaceId, classroomId, now);
      MarkPublishedKeepsKeys(t.tests, testId, workspaceId);
      FanOutKeepsKeys(t.assignments, roster, 0, newId, target);
      FanOutKeepsIds(t.assignments, roster, 0, newId, target);
      FanOutKeepsLifecycle(t.assignments, t.attempts, roster, 0, newId, target);
      assert t' == t.(tests := MarkPublished(t.tests, testId, workspaceId),
                      assignments := FanOut(t.assignments, roster, 0, newId, target));
    }
  }

  /** Publishing keeps every table invariant. */
  lemma PublishKeepsValid(t: Tables, actor: Option<Id>, testId: Id, workspaceId: Id, newId: nat -> Id, now: int)
    requires TablesValid(t) && FreshIds(t.assignments, newId)
    ensures TablesValid(PublishSpec(t, actor, testId, workspaceId, newId, now).1)
  {
    if actor.Some? && OwnsWorkspace(t.workspaces, workspaceId, actor.value) && ReadinessOf(t, workspaceId, testId).valid {
      PublishValidatedKeepsValid(t, testId, workspaceId, ReadinessOf(t, workspaceId, testId), newId, now);
    }
  }

  /** Publishing again adds no assignment and does not reset any: every roster student already
      has one, and the roster has not changed. */
  lemma RepublishAddsNothing(t: Tables, testId: Id, workspaceId: Id, v1: Readiness, v2: Readiness,
                             ids1: nat -> Id, ids2: nat -> Id, now1: int, now2: int)
    requires PublishValidated(t, testId, workspaceId, v1, ids1, now1).0.Ok?
    ensures var t1 := PublishValidated(t, testId, workspaceId, v1, ids1, now1).1;
      PublishValidated(t1, testId, workspaceId, v2, ids2, now2).1 == t1
  {
    var k := FirstWhere(t.tests, TestIn(testId, workspaceId)).value;
    var classroomId := t.tests[k].classroomId.value;
    var roster := Roster(t.memberships, t.links, classroomId, workspaceId);
    var t1 := PublishValidated(t, testId, workspaceId, v1, ids1, now1).1;
    PublishEffect(t, testId, workspaceId, v1, ids1, now1);
    FirstWhereSameMatches(t.tests, t1.tests, TestIn(testId, workspaceId));
    var target := Target(testId, workspaceId, classroomId, now2);
    forall j | 0 <= j < |roster| ensures HasAssignment(t1.assignments, testId, roster[j]) {
      assert roster[j] in roster;
    }
    FanOutCoveredNoop(t1.assignments, roster, 0, ids2, target);
    assert MarkPublished(t1.tests, testId, workspaceId) == t1.tests;
  }
}

=== FILE: tests_reports.dfy ===
/** The read-only test routes of apps/backend/src/routes/tests.ts: the teacher's list of the
    workspace's tests, the per-test attempts report, and the public view of a published test. */
module TestsReports {
  import opened Common
  import opened WorkspaceSchema
  import opened Guards
  import opened TestsValidation

  const TEST_NOT_FOUND := "Test not found"

  /** The classroom a test or report row is left-joined with, by id alone. */
  function ClassroomIdIs(classroomId: Id): Classroom -> bool {
    (c: Classroom) => c.id == classroomId
  }

  /** `leftJoin(classrooms, eq(tests.classroomId, classrooms.id))`, keeping the classroom name. */
  function ClassroomName(classrooms: seq<Classroom>, classroomId: Option<Id>): (name: Option<string>)
    ensures name.Some? <==> classroomId.Some? && exists i :: 0 <= i < |classrooms| && classrooms[i].id == classroomId.value
  {
    if classroomId.None? then None
    else match FirstWhere(classrooms, ClassroomIdIs(classroomId.value))
      case None => None
      case Some(k) => Some(classrooms[k].name)
  }

  /** A row of `GET /api/tests/teacher`. */
  datatype TeacherTestRow = TeacherTestRow(test: Test, classroomName: Option<string>)

  /** The workspace's tests, newest first: table order stands for creation order. */
  function NewestTests(tests: seq<Test>, workspaceId: Id): (r: seq<Test>)
    ensures forall x :: x in r <==> x in tests && x.workspaceId == workspaceId
    ensures |r| <= |tests|
  {
    if tests == [] then []
    else
      var last := tests[|tests| - 1];
      var rest := NewestTests(tests[..|tests| - 1], workspaceId);
      assert forall x :: x in tests <==> x == last || x in tests[..|tests| - 1];
      if last.workspaceId == workspaceId then [last] + rest else rest
  }

  /** `GET /api/tests/teacher` over the tables. */
  function TeacherTests(t: Tables, actor: Option<Id>, workspaceId: Id): Reply<seq<TeacherTestRow>> {
    if actor.None? then Fail(401, UNAUTHORIZED)
    else if !OwnsWorkspace(t.workspaces, workspaceId, actor.value) then Fail(403, NOT_OWNER)
    else
      var rows := NewestTests(t.tests, workspaceId);
      Ok(seq(|rows|, i requires 0 <= i < |rows| => TeacherTestRow(rows[i], ClassroomName(t.classrooms, rows[i].classroomId))))
  }

  /** Only the owner gets the list; it holds exactly the workspace's tests, each with the name
      of its classroom when that classroom exists. */
  lemma TeacherTestsMeaning(t: Tables, actor: Option<Id>, workspaceId: Id)
    ensures actor.None? ==> TeacherTests(t, actor, workspaceId) == Fail(401, UNAUTHORIZED)
    ensures TeacherTests(t, actor, workspaceId).Ok? <==>
      actor.Some? && OwnsWorkspace(t.workspaces, workspaceId, actor.value)
    ensures TeacherTests(t, actor, workspaceId).Ok? ==>
      var rows := TeacherTests(t, actor, workspaceId).value;
      (forall x :: x in t.tests && x.workspaceId == workspaceId ==> exists i :: 0 <= i < |rows| && rows[i].test == x)
      && forall i :: 0 <= i < |rows| ==>
           rows[i].test in t.tests && rows[i].test.workspaceId == workspaceId
           && rows[i].classroomName == ClassroomName(t.classrooms, rows[i].test.classroomId)
  {
    if TeacherTests(t, actor, workspaceId).Ok? {
      var newest := NewestTests(t.tests, workspaceId);
      var rows := TeacherTests(t, actor, workspaceId).value;
      forall x | x in t.tests && x.workspaceId == workspaceId ensures exists i :: 0 <= i < |rows| && rows[i].test == x {
        var i :| 0 <= i < |newest| && newest[i] == x;
        assert rows[i].test == x;
      }
      forall i | 0 <= i < |rows| ensures rows[i].test in t.tests && rows[i].test.workspaceId == workspaceId {
        assert rows[i].test == newest[i] && newest[i] in newest;
      }
    }
  }

  // ---------------------------------------------------------------- attempts report

  /** A row of `GET /api/tests/:testId/attempts`: an assignment, its learner and the attempt
      left-joined on (test, workspace, learner). */
  datatype ReportRow = ReportRow(assignmentId: Id, learnerId: Id, childName: string, childEmail: string,
                                 assignmentStatus: AssignmentStatus, attempt: Option<TestAttempt>)

  /** The left join of one (assignment, learner) pair with the attempts: one row per matching
      attempt, or one row without an attempt. */
  function AttemptJoin(attempts: seq<TestAttempt>, a: TestAssignment, l: LearnerAccount): (r: seq<ReportRow>)
    ensures r != []
    ensures forall row :: row in r ==>
      (row.assignmentId == a.id && row.learnerId == l.id
       && row.childName == l.displayName && row.assignmentStatus == a.status)
    ensures forall row :: row in r ==> row.attempt.Some? ==>
      (row.attempt.value in attempts && AttemptFor(a.testId, a.workspaceId, a.learnerId)(row.attempt.value))
    ensures (exists row :: row in r && row.attempt.None?) <==>
      forall k :: 0 <= k < |attempts| ==> !AttemptFor(a.testId, a.workspaceId, a.learnerId)(attempts[k])
  {
    var matching := MatchingAttempts(attempts, AttemptFor(a.testId, a.workspaceId, a.learnerId));
    if matching == [] then [ReportRow(a.id, l.id, l.displayName, l.email, a.status, None)]
    else
      assert matching[0] in matching;
      seq(|matching|, i requires 0 <= i < |matching| => ReportRow(a.id, l.id, l.displayName, l.email, a.status, Some(matching[i])))
  }

  /** The attempts a predicate selects, in table order. */
  function MatchingAttempts(attempts: seq<TestAttempt>, p: TestAttempt -> bool): (r: seq<TestAttempt>)
    ensures forall x :: x in r <==> x in attempts && p(x)
    ensures r == [] <==> forall k :: 0 <= k < |attempts| ==> !p(attempts[k])
  {
    if attempts == [] then []
    else
      var rest := MatchingAttempts(attempts[1..], p);
      assert forall x :: x in attempts <==> x == attempts[0] || x in attempts[1..];
      assert forall k :: 1 <= k < |attempts| ==> attempts[k] == attempts[1..][k - 1];
      if p(attempts[0]) then [attempts[0]] + rest else rest
  }

  /** The report rows of one assignment: inner join with its learner account, then the
      attempts. */
  function AssignmentRows(t: Tables, a: TestAssignment, learners: seq<LearnerAccount>): (r: seq<ReportRow>)
    ensures forall row :: row in r ==>
      (row.assignmentId == a.id && row.learnerId == a.learnerId && row.assignmentStatus == a.status
       && (row.attempt.Some? ==>
             (row.attempt.value in t.attempts && AttemptFor(a.testId, a.workspaceId, a.learnerId)(row.attempt.value))))
    ensures (exists i :: 0 <= i < |learners| && learners[i].id == a.learnerId) ==> r != []
  {
    if learners == [] then []
    else
      var rest := AssignmentRows(t, a, learners[1..]);
      assert (exists i :: 0 <= i < |learners| && learners[i].id == a.learnerId) ==>
        learners[0].id == a.learnerId || exists i :: 0 <= i < |learners[1..]| && learners[1..][i].id == a.learnerId;
      if learners[0].id == a.learnerId then AttemptJoin(t.attempts, a, learners[0]) + rest else rest
  }

  /** All report rows of the test's assignments in the workspace, in assignment order. */
  function ReportRows(t: Tables, assignments: seq<TestAssignment>, testId: Id, workspaceId: Id): (r: seq<ReportRow>)
    ensures forall row :: row in r ==>
      (exists j :: 0 <= j < |assignments| && assignments[j].id == row.assignmentId
         && assignments[j].testId == testId && assignments[j].workspaceId == workspaceId
         && assignments[j].learnerId == row.learnerId && assignments[j].status == row.assignmentStatus)
      && (row.attempt.Some? ==>
            (row.attempt.value in t.attempts && AttemptFor(testId, workspaceId, row.learnerId)(row.attempt.value)))
  {
    if assignments == [] then []
    else
      var a := assignments[0];
      var rest := ReportRows(t, assignments[1..], testId, workspaceId);
      assert forall j :: 1 <= j < |assignments| ==> assignments[j] == assignments[1..][j - 1];
      (if a.testId == testId && a.workspaceId == workspaceId then AssignmentRows(t, a, t.learners) else []) + rest
  }

  /** The test row of the report: the test of that id in the workspace, with its classroom's name. */
  datatype ReportTest = ReportTest(test: Test, classroomName: Option<string>)
  datatype AttemptsReport = AttemptsReport(test: ReportTest, rows: seq<ReportRow>)

  /** `GET /api/tests/:testId/attempts` over the tables. */
  function TestAttemptsReport(t: Tables, actor: Option<Id>, testId: Id, workspaceId: Id): Reply<AttemptsReport> {
    if actor.None? then Fail(401, UNAUTHORIZED)
    else if !OwnsWorkspace(t.workspaces, workspaceId, actor.value) then Fail(403, NOT_OWNER)
    else match FirstWhere(t.tests, TestIn(testId, workspaceId))
      case None => Fail(404, TEST_NOT_FOUND)
      case Some(k) =>
        var test := t.tests[k];
        Ok(AttemptsReport(ReportTest(test, ClassroomName(t.classrooms, test.classroomId)),
                          ReportRows(t, t.assignments, testId, workspaceId)))
  }

  /** The report answers 401, 403 to a non-owner and 404 when the test is not in the workspace;
      otherwise every row is an assignment of that test in that workspace, with the attempt (if
      any) of the same learner, and every assignment whose learner has an account shows up. */
  lemma TestAttemptsReportMeaning(t: Tables, actor: Option<Id>, testId: Id, workspaceId: Id)
    ensures var r := TestAttemptsReport(t, actor, testId, workspaceId);
      (actor.None? ==> r == Fail(401, UNAUTHORIZED))
      && (actor.Some? && !OwnsWorkspace(t.workspaces, workspaceId, actor.value) ==> r == Fail(403, NOT_OWNER))
      && (r.Ok? <==> actor.Some? && OwnsWorkspace(t.workspaces, workspaceId, actor.value)
                     && exists k :: 0 <= k < |t.tests| && t.tests[k].id == testId && t.tests[k].workspaceId == workspaceId)
      && (r.Ok? ==>
            r.value.test.test.id == testId && r.value.test.test.workspaceId == workspaceId
            && (forall row :: row in r.value.rows ==>
                  (exists j :: 0 <= j < |t.assignments| && t.assignments[j].id == row.assignmentId
                     && AssignmentFor(testId, workspaceId, row.learnerId)(t.assignments[j]))
                  && (row.attempt.Some? ==>
                        (row.attempt.value in t.attempts && AttemptFor(testId, workspaceId, row.learnerId)(row.attempt.value)))))
  {
    var found := FirstWhere(t.tests, TestIn(testId, workspaceId));
    if found.None? {
      forall k | 0 <= k < |t.tests| ensures !(t.tests[k].id == testId && t.tests[k].workspaceId == workspaceId) {
        assert !TestIn(testId, workspaceId)(t.tests[k]);
      }
    }
  }

  /** Every assignment of the test whose learner has an account contributes a row. */
  lemma ReportCoversAssignments(t: Tables, assignments: seq<TestAssignment>, testId: Id, workspaceId: Id, j: nat)
    requires j < |assignments| && assignments[j].testId == testId && assignments[j].workspaceId == workspaceId
    requires exists i :: 0 <= i < |t.learners| && t.learners[i].id == assignments[j].learnerId
    ensures exists row :: row in ReportRows(t, assignments, testId, workspaceId) && row.assignmentId == assignments[j].id
    decreases j
  {
    var rows := ReportRows(t, assignments, testId, workspaceId);
    if j == 0 {
      var own := AssignmentRows(t, assignments[0], t.learners);
      assert own[0] in rows;
    } else {
      ReportCoversAssignments(t, assignments[1..], testId, workspaceId, j - 1);
      var row :| row in ReportRows(t, assignments[1..], testId, workspaceId) && row.assignmentId == assignments[j].id;
      assert row in rows;
    }
  }

  // ---------------------------------------------------------------- public view

  /** The columns the public view selects: nothing about the workspace, the author, the
      questions or the settings. */
  datatype PublicTestView = PublicTestView(id: Id, title: string, description: Option<string>,
                                           status: TestStatus, startsAt: Option<int>, endsAt: Option<int>,
                                           classroomName: Option<string>)

  /** `GET /api/tests/public/:testId` over the tables: the test of that id, in any workspace,
      when it is published. */
  function PublicTest(t: Tables, testId: Id): Reply<PublicTestView> {
    match FirstWhere(t.tests, TestIdIs(testId))
    case None => Fail(404, TEST_NOT_FOUND)
    case Some(k) =>
      var test := t.tests[k];
      if test.status != Published then Fail(404, TEST_NOT_FOUND)
      else Ok(PublicTestView(test.id, test.title, test.description, test.status, test.startsAt, test.endsAt,
                             ClassroomName(t.classrooms, test.classroomId)))
  }

  /** The public view shows a test only when it is published, and a draft is as invisible as a
      missing test; what it shows is that test's title, description, status, window and
      classroom name. */
  lemma PublicTestMeaning(t: Tables, testId: Id)
    requires KeysUnique(t.tests, TestIdOf)
    ensures PublicTest(t, testId).Ok? <==>
      exists k :: 0 <= k < |t.tests| && t.tests[k].id == testId && t.tests[k].status == Published
    ensures !PublicTest(t, testId).Ok? ==> PublicTest(t, testId) == Fail(404, TEST_NOT_FOUND)
    ensures PublicTest(t, testId).Ok? ==>
      var v := PublicTest(t, testId).value;
      v.id == testId && v.status == Published
      && exists k :: 0 <= k < |t.tests| && t.tests[k].id == testId
           && v.title == t.tests[k].title && v.description == t.tests[k].description
           && v.startsAt == t.tests[k].startsAt && v.endsAt == t.tests[k].endsAt
           && v.classroomName == ClassroomName(t.classrooms, t.tests[k].classroomId)
  {
    match FirstWhere(t.tests, TestIdIs(testId))
    case None =>
      forall k | 0 <= k < |t.tests| ensures t.tests[k].id != testId {
        assert !TestIdIs(testId)(t.tests[k]);
      }
    case Some(f) =>
      forall k | 0 <= k < |t.tests| && t.tests[k].id == testId ensures k == f {
        UniqueKeyRow(t.tests, TestIdOf, k, f);
      }
  }
}

=== FILE: tests_validation.dfy ===
/** The publish-readiness report of apps/backend/src/routes/tests.ts (`validateTestForPublish`):
    required test fields, at least one question, a consistent time window and valid content for
    every question in position order, with the question count and point total. */
module TestsValidation {
  import opened Common
  import opened Strings
  import opened WorkspaceSchema
  import opened TestsContent

  /** `!value?.trim()`: a missing or blank optional column. */
  predicate Blank(value: Option<string>) {
    value.None? || Trim(value.value) == []
  }

  /** One entry of the report's `errors`. A question's error carries the question's position,
      which the message leaves out, so that the order of the list can be stated. */
  datatype PublishError =
    | TestNotFound
    | GradeMissing
    | ClassroomMissing
    | SubjectMissing
    | TopicMissing
    | ObjectiveMissing
    | QuestionsMissing
    | EndBeforeStart
    | InQuestion(questionId: Id, position: int, error: ContentError)

  function PublishMessage(e: PublishError): string {
    match e
    case TestNotFound => "Test not found in this workspace."
    case GradeMissing => "Grade is required before publish."
    case ClassroomMissing => "Classroom is required before publish."
    case SubjectMissing => "Subject is required before publish."
    case TopicMissing => "Topic is required before publish."
    case ObjectiveMissing => "Learning objective is required before publish."
    case QuestionsMissing => "At least one question is required before publish."
    case EndBeforeStart => "End time cannot be earlier than start time."
    case InQuestion(id, _, err) => "Question " + id + ": " + Message(err)
  }

  datatype Warning = BelowTarget(count: nat, target: int)

  function WarningMessage(w: Warning): string {
    "Question count is " + NatToString(w.count) + ", below target " + IntToString(w.target) + "."
  }

  datatype Summary = Summary(questionCount: nat, targetQuestionCount: int, totalPoints: int)

  /** The value `validateTestForPublish` returns. */
  datatype Readiness = Readiness(valid: bool, errors: seq<PublishError>, warnings: seq<Warning>,
                                 summary: Summary)

  const NotFoundReport := Readiness(false, [TestNotFound], [], Summary(0, 0, 0))

  // ---------------------------------------------------------------- the two queries

  /** The test row of a workspace with a given id. */
  function TestIn(testId: Id, workspaceId: Id): Test -> bool {
    (t: Test) => t.id == testId && t.workspaceId == workspaceId
  }

  /** The questions of a test in a workspace, in table order. */
  function QuestionsOf(questions: seq<TestQuestion>, testId: Id, workspaceId: Id): (r: seq<TestQuestion>)
    ensures |r| <= |questions|
    ensures forall q :: q in r <==> q in questions && q.testId == testId && q.workspaceId == workspaceId
  {
    if questions == [] then []
    else
      var rest := QuestionsOf(questions[1..], testId, workspaceId);
      var q := questions[0];
      assert forall x :: x in questions <==> x == q || x in questions[1..];
      if q.testId == testId && q.workspaceId == workspaceId then [q] + rest else rest
  }

  /** `s` is ordered by ascending position. */
  predicate ByPosition(s: seq<TestQuestion>) {
    forall i, j :: 0 <= i < j < |s| ==> s[i].position <= s[j].position
  }

  function InsertByPosition(q: TestQuestion, s: seq<TestQuestion>): (r: seq<TestQuestion>)
    ensures multiset(r) == multiset{q} + multiset(s)
  {
    if s == [] || q.position <= s[0].position then [q] + s
    else
      assert s == [s[0]] + s[1..];
      [s[0]] + InsertByPosition(q, s[1..])
  }

  /** `orderBy(asc(position))`. */
  function SortByPosition(qs: seq<TestQuestion>): (r: seq<TestQuestion>)
    ensures multiset(r) == multiset(qs)
  {
    if qs == [] then []
    else
      assert qs == [qs[0]] + qs[1..];
      InsertByPosition(qs[0], SortByPosition(qs[1..]))
  }

  lemma {:induction false} InsertKeepsOrder(q: TestQuestion, s: seq<TestQuestion>)
    requires ByPosition(s)
    ensures ByPosition(InsertByPosition(q, s))
    ensures InsertByPosition(q, s) != [] && InsertByPosition(q, s)[0] == (if s == [] || q.position <= s[0].position then q else s[0])
    decreases |s|
  {
    if s != [] && q.position > s[0].position {
      InsertKeepsOrder(q, s[1..]);
      var tail := InsertByPosition(q, s[1..]);
      InsertAboveHead(q, s);
      var r := [s[0]] + tail;
      forall i, j | 0 <= i < j < |r| ensures r[i].position <= r[j].position {
        assert r[j] == tail[j - 1];
        if i > 0 {
          assert r[i] == tail[i - 1];
        } else {
          assert tail[j - 1] in tail;
        }
      }
    }
  }

  /** When `q` goes after the head, everything it is inserted among sits at or above the head. */
  lemma InsertAboveHead(q: TestQuestion, s: seq<TestQuestion>)
    requires ByPosition(s) && s != [] && q.position > s[0].position
    ensures forall x :: x in InsertByPosition(q, s[1..]) ==> s[0].position <= x.position
  {
    var tail := InsertByPosition(q, s[1..]);
    forall x | x in tail ensures s[0].position <= x.position {
      assert x in multiset(tail);
      if x != q {
        assert x in multiset(s[1..]);
        var k :| 0 <= k < |s[1..]| && s[1..][k] == x;
        assert s[k + 1] == x;
      }
    }
  }

  /** Sorting orders the questions by position (and keeps them all, by its own contract). */
  lemma {:induction false} SortByPositionSorted(qs: seq<TestQuestion>)
    ensures ByPosition(SortByPosition(qs))
    decreases |qs|
  {
    if qs != [] {
      SortByPositionSorted(qs[1..]);
      InsertKeepsOrder(qs[0], SortByPosition(qs[1..]));
    }
  }

  /** `totalPoints`: the sum of the questions' points. */
  function TotalPoints(qs: seq<TestQuestion>): int {
    if qs == [] then 0 else qs[0].points + TotalPoints(qs[1..])
  }

  lemma {:induction false} TotalPointsInsert(q: TestQuestion, s: seq<TestQuestion>)
    ensures TotalPoints(InsertByPosition(q, s)) == q.points + TotalPoints(s)
    decreases |s|
  {
    if s != [] && q.position > s[0].position {
      TotalPointsInsert(q, s[1..]);
      assert ([s[0]] + InsertByPosition(q, s[1..]))[1..] == InsertByPosition(q, s[1..]);
    } else {
      assert ([q] + s)[1..] == s;
    }
  }

  /** The order in which the questions are read does not change their point total. */
  lemma {:induction false} TotalPointsSorted(qs: seq<TestQuestion>)
    ensures TotalPoints(SortByPosition(qs)) == TotalPoints(qs)
    decreases |qs|
  {
    if qs != [] {
      TotalPointsSorted(qs[1..]);
      TotalPointsInsert(qs[0], SortByPosition(qs[1..]));
    }
  }

  // ---------------------------------------------------------------- the report

  /** `if (failed) errors.push(e)`. */
  function Push<T>(es: seq<T>, failed: bool, e: T): seq<T> {
    if failed then es + [e] else es
  }

  /** The content errors of a stored question. */
  function QuestionContentErrors(q: TestQuestion): seq<ContentError> {
    ContentErrors(q.questionType, q.prompt, q.options, q.correctAnswers)
  }

  /** A question's content errors, each prefixed with the question. */
  function Tagged(q: TestQuestion, es: seq<ContentError>): (r: seq<PublishError>)
    ensures |r| == |es| && forall i :: 0 <= i < |es| ==> r[i] == InQuestion(q.id, q.position, es[i])
  {
    seq(|es|, i requires 0 <= i < |es| => InQuestion(q.id, q.position, es[i]))
  }

  /** The errors of the question loop, question by question in the given order, where `check`
      gives a question's content errors. */
  function QuestionErrors(qs: seq<TestQuestion>, check: TestQuestion -> seq<ContentError>): seq<PublishError> {
    if qs == [] then [] else Tagged(qs[0], check(qs[0])) + QuestionErrors(qs[1..], check)
  }

  /** `endsAt < startsAt`, both set. */
  predicate WindowInverted(test: Test) {
    test.startsAt.Some? && test.endsAt.Some? && test.endsAt.value < test.startsAt.value
  }

  /** The outcome of each check made before the question loop. */
  datatype TestChecks = TestChecks(gradeBlank: bool, classroomBlank: bool, subjectBlank: bool,
                                   topicBlank: bool, objectiveBlank: bool, noQuestions: bool,
                                   windowInverted: bool)

  function ChecksOf(test: Test, questionCount: nat): TestChecks {
    TestChecks(Blank(test.grade), Blank(test.classroomId), Blank(test.subject), Blank(test.topic),
               Blank(test.objective), questionCount == 0, WindowInverted(test))
  }

  /** The errors checked before the question loop, in the order they are checked. */
  function HeadErrors(c: TestChecks): seq<PublishError> {
    var es := Push([], c.gradeBlank, GradeMissing);
    var es := Push(es, c.classroomBlank, ClassroomMissing);
    var es := Push(es, c.subjectBlank, SubjectMissing);
    var es := Push(es, c.topicBlank, TopicMissing);
    var es := Push(es, c.objectiveBlank, ObjectiveMissing);
    var es := Push(es, c.noQuestions, QuestionsMissing);
    Push(es, c.windowInverted, EndBeforeStart)
  }

  /** The report for a found test and its questions in position order. */
  function ReportFor(test: Test, qs: seq<TestQuestion>): Readiness {
    var errors := HeadErrors(ChecksOf(test, |qs|)) + QuestionErrors(qs, QuestionContentErrors);
    Readiness(errors == [], errors,
              Push([], |qs| < test.questionCountTarget, BelowTarget(|qs|, test.questionCountTarget)),
              Summary(|qs|, test.questionCountTarget, TotalPoints(qs)))
  }

  /** `validateTestForPublish({ workspaceId, testId })` over the tables. */
  function ReadinessOf(t: Tables, workspaceId: Id, testId: Id): Readiness {
    match FirstWhere(t.tests, TestIn(testId, workspaceId))
    case None => NotFoundReport
    case Some(k) =>
      ReportFor(t.tests[k], SortByPosition(QuestionsOf(t.questions, testId, workspaceId)))
  }

  // ---------------------------------------------------------------- the loops

  /** The inner `for (const questionError of questionErrors)` loop. */
  method PushTagged(errors: seq<PublishError>, q: TestQuestion, questionErrors: seq<ContentError>)
    returns (r: seq<PublishError>)
    ensures r == errors + Tagged(q, questionErrors)
  {
    r := errors;
    var j := 0;
    while j < |questionErrors|
      invariant 0 <= j <= |questionErrors|
      invariant r == errors + Tagged(q, questionErrors[..j])
    {
      assert Tagged(q, questionErrors[..j + 1]) == Tagged(q, questionErrors[..j])
        + [InQuestion(q.id, q.position, questionErrors[j])];
      r := r + [InQuestion(q.id, q.position, questionErrors[j])];
      j := j + 1;
    }
    assert questionErrors[..j] == questionErrors;
  }

  /** One step of the question loop: appending a question's tagged errors moves it from the
      questions still to check to the errors already reported. */
  lemma QuestionErrorsStep(before: seq<PublishError>, qs: seq<TestQuestion>, i: nat,
                           check: TestQuestion -> seq<ContentError>)
    requires i < |qs|
    ensures before + Tagged(qs[i], check(qs[i])) + QuestionErrors(qs[i + 1..], check)
      == before + QuestionErrors(qs[i..], check)
  {
    assert qs[i..][1..] == qs[i + 1..];
  }

  /** The `for (const question of questions)` loop: accumulates the point total and the
      prefixed content errors. */
  method CheckQuestions(qs: seq<TestQuestion>) returns (errors: seq<PublishError>, totalPoints: int)
    ensures errors == QuestionErrors(qs, QuestionContentErrors) && totalPoints == TotalPoints(qs)
  {
    errors := [];
    totalPoints := 0;
    var i := 0;
    while i < |qs|
      invariant 0 <= i <= |qs|
      invariant errors + QuestionErrors(qs[i..], QuestionContentErrors) == QuestionErrors(qs, QuestionContentErrors)
      invariant totalPoints + TotalPoints(qs[i..]) == TotalPoints(qs)
    {
      var question := qs[i];
      assert qs[i..][1..] == qs[i + 1..];
      totalPoints := totalPoints + question.points;
      var questionErrors := ValidateQuestionContent(question.questionType, question.prompt,
                                                    question.options, question.correctAnswers);
      assert questionErrors == QuestionContentErrors(question);
      QuestionErrorsStep(errors, qs, i, QuestionContentErrors);
      errors := PushTagged(errors, question, questionErrors);
      i := i + 1;
    }
    assert qs[|qs|..] == [];
  }

  /** The checks on the test row, in order, given the outcome of each. */
  method CheckFields(c: TestChecks) returns (errors: seq<PublishError>)
    ensures errors == HeadErrors(c)
  {
    errors := [];
    if c.gradeBlank {
      errors := errors + [GradeMissing];
    }
    if c.classroomBlank {
      errors := errors + [ClassroomMissing];
    }
    if c.subjectBlank {
      errors := errors + [SubjectMissing];
    }
    if c.topicBlank {
      errors := errors + [TopicMissing];
    }
    if c.objectiveBlank {
      errors := errors + [ObjectiveMissing];
    }
    if c.noQuestions {
      errors := errors + [QuestionsMissing];
    }
    if c.windowInverted {
      errors := errors + [EndBeforeStart];
    }
  }

  /** `validateTestForPublish(input)` */
  method ValidateTestForPublish(db: Database, workspaceId: Id, testId: Id) returns (report: Readiness)
    ensures report == ReadinessOf(db.Snapshot(), workspaceId, testId)
  {
    var found := FirstWhere(db.tests, TestIn(testId, workspaceId));
    if found.None? {
      return NotFoundReport;
    }
    var test := db.tests[found.value];
    var questions := SortByPosition(QuestionsOf(db.questions, testId, workspaceId));
    var errors := CheckFields(ChecksOf(test, |questions|));
    var questionErrors, totalPoints := CheckQuestions(questions);
    errors := errors + questionErrors;
    var warnings := [];
    if |questions| < test.questionCountTarget {
      warnings := warnings + [BelowTarget(|questions|, test.questionCountTarget)];
    }
    report := Readiness(|errors| == 0, errors, warnings,
                        Summary(|questions|, test.questionCountTarget, totalPoints));
  }

  // ---------------------------------------------------------------- what the report means

  /** The question loop reports nothing exactly when every question passes `check`, and it
      reports an error exactly for a question that has it. */
  lemma {:induction false} QuestionErrorsMeaning(qs: seq<TestQuestion>, check: TestQuestion -> seq<ContentError>)
    ensures QuestionErrors(qs, check) == [] <==> forall q :: q in qs ==> check(q) == []
    ensures forall id, pos, e :: InQuestion(id, pos, e) in QuestionErrors(qs, check) <==>
      exists q :: q in qs && q.id == id && q.position == pos && e in check(q)
    ensures forall e :: e in QuestionErrors(qs, check) ==> e.InQuestion?
    decreases |qs|
  {
    if qs != [] {
      QuestionErrorsMeaning(qs[1..], check);
      var head := Tagged(qs[0], check(qs[0]));
      assert forall q :: q in qs <==> q == qs[0] || q in qs[1..];
      forall id, pos, e | InQuestion(id, pos, e) in head
        ensures id == qs[0].id && pos == qs[0].position && e in check(qs[0])
      {
        var i :| 0 <= i < |head| && head[i] == InQuestion(id, pos, e);
      }
      forall e | e in check(qs[0])
        ensures InQuestion(qs[0].id, qs[0].position, e) in head
      {
        var i :| 0 <= i < |check(qs[0])| && check(qs[0])[i] == e;
        assert head[i] == InQuestion(qs[0].id, qs[0].position, e);
      }
    }
  }

  /** Read in position order, the question errors come question by question: an error of an
      earlier entry never belongs to a question placed later. */
  lemma {:induction false} QuestionErrorsInPositionOrder(qs: seq<TestQuestion>, check: TestQuestion -> seq<ContentError>)
    requires ByPosition(qs)
    ensures InPositionOrder(QuestionErrors(qs, check))
    decreases |qs|
  {
    if qs != [] {
      ByPositionTail(qs);
      QuestionErrorsInPositionOrder(qs[1..], check);
      RestAfterHead(qs, check);
      TaggedBeforeRest(qs[0], check(qs[0]), QuestionErrors(qs[1..], check));
    }
  }

  /** The questions after the first are still in position order. */
  lemma ByPositionTail(qs: seq<TestQuestion>)
    requires qs != [] && ByPosition(qs)
    ensures ByPosition(qs[1..])
  {
    forall i, j | 0 <= i < j < |qs[1..]| ensures qs[1..][i].position <= qs[1..][j].position {
      assert qs[1..][i] == qs[i + 1] && qs[1..][j] == qs[j + 1];
    }
  }

  /** The errors of one question, put before errors in position order that sit no earlier than
      it, keep the whole list in position order. */
  lemma TaggedBeforeRest(q: TestQuestion, errs: seq<ContentError>, rest: seq<PublishError>)
    requires InPositionOrder(rest)
    requires forall e :: e in rest && e.InQuestion? ==> q.position <= e.position
    ensures InPositionOrder(Tagged(q, errs) + rest)
  {
    var head := Tagged(q, errs);
    var es := head + rest;
    forall i, j | 0 <= i < j < |es| && es[i].InQuestion? && es[j].InQuestion?
      ensures es[i].position <= es[j].position
    {
      if i >= |head| {
        assert es[i] == rest[i - |head|] && es[j] == rest[j - |head|];
      } else if j >= |head| {
        assert es[i] == head[i] && es[j] == rest[j - |head|];
      } else {
        assert es[i] == head[i] && es[j] == head[j];
      }
    }
  }

  /** Every error of a later question sits at a position no earlier than the first question's. */
  lemma RestAfterHead(qs: seq<TestQuestion>, check: TestQuestion -> seq<ContentError>)
    requires qs != [] && ByPosition(qs)
    ensures forall r :: r in QuestionErrors(qs[1..], check) && r.InQuestion? ==> qs[0].position <= r.position
  {
    QuestionErrorsMeaning(qs[1..], check);
    forall r | r in QuestionErrors(qs[1..], check) && r.InQuestion? ensures qs[0].position <= r.position {
      var q :| q in qs[1..] && q.id == r.questionId && q.position == r.position && r.error in check(q);
      var k :| 0 <= k < |qs[1..]| && qs[1..][k] == q;
      assert qs[k + 1] == q;
    }
  }

  /** The checks before the loop report nothing exactly when every one of them passes, and they
      never report a question error. */
  lemma HeadErrorsMeaning(c: TestChecks)
    ensures HeadErrors(c) == [] <==>
      !c.gradeBlank && !c.classroomBlank && !c.subjectBlank && !c.topicBlank && !c.objectiveBlank
      && !c.noQuestions && !c.windowInverted
    ensures forall e :: e in HeadErrors(c) ==> !e.InQuestion?
  {
  }

  /** Sorting keeps exactly the same questions. */
  lemma SortedMembers(qs: seq<TestQuestion>)
    ensures |SortByPosition(qs)| == |qs|
    ensures forall q :: q in SortByPosition(qs) <==> q in qs
  {
    var sorted := SortByPosition(qs);
    assert |multiset(sorted)| == |multiset(qs)|;
    forall q ensures q in sorted <==> q in qs {
      assert q in sorted <==> q in multiset(sorted);
      assert q in qs <==> q in multiset(qs);
    }
  }

  /** The report is valid exactly when the test exists in the workspace, its grade, classroom,
      subject, topic and objective are filled in, it has a question, its window is not inverted
      and every one of its questions has valid content; and it is valid exactly when it lists no
      error. */
  lemma ReadyIff(t: Tables, workspaceId: Id, testId: Id)
    ensures var report := ReadinessOf(t, workspaceId, testId);
      var found := FirstWhere(t.tests, TestIn(testId, workspaceId));
      var qs := QuestionsOf(t.questions, testId, workspaceId);
      report.valid <==>
        found.Some?
        && var test := t.tests[found.value];
        !Blank(test.grade) && !Blank(test.classroomId) && !Blank(test.subject)
        && !Blank(test.topic) && !Blank(test.objective)
        && qs != [] && !WindowInverted(test)
        && forall q :: q in qs ==> QuestionContentErrors(q) == []
    ensures ReadinessOf(t, workspaceId, testId).valid <==> ReadinessOf(t, workspaceId, testId).errors == []
  {
    var found := FirstWhere(t.tests, TestIn(testId, workspaceId));
    if found.Some? {
      var qs := QuestionsOf(t.questions, testId, workspaceId);
      var sorted := SortByPosition(qs);
      SortedMembers(qs);
      QuestionErrorsMeaning(sorted, QuestionContentErrors);
      HeadErrorsMeaning(ChecksOf(t.tests[found.value], |sorted|));
    }
  }

  /** A test that is not in the workspace gives exactly one error and an all-zero summary. */
  lemma MissingTestReport(t: Tables, workspaceId: Id, testId: Id)
    requires forall i :: 0 <= i < |t.tests| ==> t.tests[i].id != testId || t.tests[i].workspaceId != workspaceId
    ensures var report := ReadinessOf(t, workspaceId, testId);
      !report.valid && report.errors == [TestNotFound] && report.warnings == []
      && report.summary == Summary(0, 0, 0)
  {
  }

  /** For a found test the summary counts the test's questions in this workspace, totals their
      points and repeats the test's target; one warning is given exactly when the count is
      below the target. */
  lemma SummaryMeaning(t: Tables, workspaceId: Id, testId: Id)
    requires FirstWhere(t.tests, TestIn(testId, workspaceId)).Some?
    ensures var report := ReadinessOf(t, workspaceId, testId);
      var test := t.tests[FirstWhere(t.tests, TestIn(testId, workspaceId)).value];
      var qs := QuestionsOf(t.questions, testId, workspaceId);
      report.summary == Summary(|qs|, test.questionCountTarget, TotalPoints(qs))
      && |report.warnings| <= 1
      && (report.warnings != [] <==> |qs| < test.questionCountTarget)
  {
    var qs := QuestionsOf(t.questions, testId, workspaceId);
    TotalPointsSorted(qs);
    SortedMembers(qs);
  }

  /** The question errors of a list come in position order. */
  predicate InPositionOrder(es: seq<PublishError>) {
    forall i, j :: 0 <= i < j < |es| && es[i].InQuestion? && es[j].InQuestion? ==> es[i].position <= es[j].position
  }

  /** Errors that are not about questions, put before a list in position order, keep it so. */
  lemma PrefixKeepsPositionOrder(head: seq<PublishError>, rest: seq<PublishError>)
    requires forall e :: e in head ==> !e.InQuestion?
    requires InPositionOrder(rest)
    ensures InPositionOrder(head + rest)
  {
    var es := head + rest;
    forall i, j | 0 <= i < j < |es| && es[i].InQuestion? && es[j].InQuestion?
      ensures es[i].position <= es[j].position
    {
      assert es[i] == rest[i - |head|] && es[j] == rest[j - |head|];
    }
  }

  /** Each question error names a question of the test in this workspace and one of its content
      errors, and every such pair is reported. */
  lemma QuestionErrorsReported(t: Tables, workspaceId: Id, testId: Id)
    ensures var report := ReadinessOf(t, workspaceId, testId);
      var qs := QuestionsOf(t.questions, testId, workspaceId);
      forall id, pos, e :: InQuestion(id, pos, e) in report.errors <==>
        FirstWhere(t.tests, TestIn(testId, workspaceId)).Some?
        && exists q :: q in qs && q.id == id && q.position == pos && e in QuestionContentErrors(q)
  {
    var found := FirstWhere(t.tests, TestIn(testId, workspaceId));
    if found.Some? {
      var qs := QuestionsOf(t.questions, testId, workspaceId);
      var sorted := SortByPosition(qs);
      SortedMembers(qs);
      QuestionErrorsMeaning(sorted, QuestionContentErrors);
      HeadErrorsMeaning(ChecksOf(t.tests[found.value], |sorted|));
    }
  }

  /** The question errors of the report come in position order. */
  lemma QuestionErrorsOrdered(t: Tables, workspaceId: Id, testId: Id)
    ensures InPositionOrder(ReadinessOf(t, workspaceId, testId).errors)
  {
    var found := FirstWhere(t.tests, TestIn(testId, workspaceId));
    if found.Some? {
      var qs := QuestionsOf(t.questions, testId, workspaceId);
      var sorted := SortByPosition(qs);
      SortByPositionSorted(qs);
      QuestionErrorsInPositionOrder(sorted, QuestionContentErrors);
      HeadErrorsMeaning(ChecksOf(t.tests[found.value], |sorted|));
      PrefixKeepsPositionOrder(HeadErrors(ChecksOf(t.tests[found.value], |sorted|)),
                               QuestionErrors(sorted, QuestionContentErrors));
    }
  }
}
